=== FILE: README.md ===
# niosax in Dafny

niosax is a non-blocking, incremental XML reader for Java. Bytes reach it in whatever
pieces the network delivers, and it reports a SAX stream (`startDocument`, `startElement`,
`characters`, `comment`, `processingInstruction`, ...) as soon as each piece of markup is
complete. It keeps no thread and never blocks. All the state it carries between two pieces
of input lives in a stack of *delegates*, one per open piece of markup, and in each
delegate's character accumulator.

This project models that core as pure functions and proves what the code promises:

- **Charsets** (`Charset`, `Codecs`, `SingleByte`, `Utf8`, `Utf16`, `AbstractCharset`,
  `CharsetFactory`, `NioSaxSource`, `Buffers`).
  - Each charset decodes one character from a `ByteBuffer` (bytes, position, limit) or
    returns one of two sentinels: `NOT_ENOUGH_DATA` (0xFFFF) or `INVALID_CHAR` (0xFFFE).
  - The encode, size, skip, peek, read and write operations are built on that.
  - Charsets are found by an alias registry in which the first registration wins.
  - Every decode is proved *prefix-consistent*: a shorter limit either rolls back with
    `NOT_ENOUGH_DATA` or returns the same character as the longer limit. This is what lets
    a document arrive in pieces.
- **Character classes and accumulators** (`XmlSpec`, `Appendables`, `AppendableDelegate`,
  `AttributeLists`, `Namespaces`, `Sax`).
  - The predicates of section 2.3 of XML 1.1, as the code writes them, compared with the
    productions.
  - The growable `CharAppendable`, refined against a `seq<char>`.
  - The delegate's accumulator swap.
  - The attribute list with its `xmlns` processing.
  - An explicit stand-in for SAX's `NamespaceSupport`.
  - Handler callbacks, recorded as a list of events.
- **Delegates** (`Frames`, `Prolog`, `Elements`, `CommentEngine`, `CDataEngine`, `Markup`,
  `ProcessingInstructions`, `XmlDeclarations`).
  - Every delegate's `StateEngine` enum is a datatype.
  - Each delegate has a total step function taking one character to a `Result` of the
    delegate's new state, the namespace stack, the events, and what it asks of the parser
    (construct a child delegate, or `finish()`).
  - Lemmas read whole strings of input through these steps: a start tag, an attribute, a
    reference, a comment, a CDATA section, a processing instruction, an XML declaration.
- **The parser** (`Parsers`, `Driver`).
  - The delegate stack, `finish()`, `startDocument` and `endDocument`.
  - The invariant `Parsers.Open`: the prolog is at the bottom, every delegate below the
    top is waiting for its child, and the namespace stack holds exactly the contexts the
    open elements own. Every step preserves it.
  - The `parse(source)` loop: it feeds exactly the characters decoded before the first
    sentinel, and reading a buffer in two pieces yields the same characters as reading it
    whole.

The model follows the code as written, including its departures from the XML and Unicode
standards. Those departures are proved as lemmas and listed in the table below, for example:

- US-ASCII and ISO-8859-1 sign-extend bytes at or above 0x80.
- A 3-byte UTF-8 character needs one more byte than it has.
- UTF-8 `encode` reports failure for 3-byte characters.
- UTF-16 `decode` ignores the byte-order mark.
- `isChar` never holds.
- Processing-instruction targets may not contain digits.
- `]]]>` does not close a CDATA section.
- An end tag is compared with its start tag only when white space precedes the `>`.
- An ordinary processing instruction completes with `Halt` and its delegate stays current in
  the completed state: the code never calls `finish()` for it, so the next character that
  reaches it is refused with UnsupportedOperationException.

The Java `char` is `JavaLang.JChar` (0 to 0xFFFF). A byte is stored as 0 to 0xFF, and
`JavaLang.Signed` gives the value `ByteBuffer.get()` returns. Java exceptions are `Failure`
results of `JavaLang.Error`, and handler calls are appended `Sax.Event`s.

## Model

| member | source | states |
|---|---|---|
| JavaLang.Signed | src/main/java/uk/org/retep/niosax/charset/US_ASCII.java:74 | the byte `get()` returns is a signed value in [-128, 128) that is congruent to the stored byte modulo 256 |
| JavaLang.IndexOf | src/main/java/uk/org/retep/niosax/internal/helper/AttributeList.java:107-108 | `indexOf(':')` is -1 exactly when the character is absent; otherwise it is the first index that holds the character |
| Buffers.Compact | src/main/java/uk/org/retep/niosax/NioSaxSource.java:135-140 | `compact()` moves the unread bytes to the front and leaves the position just after them |
| Buffers.CompactKeepsUnread | src/main/java/uk/org/retep/niosax/NioSaxSource.java:135-140 | compacting and then flipping presents exactly the bytes that were still unread |
| Codecs.GetInstance | src/main/java/uk/org/retep/niosax/charset/UTF_16.java:91-94 | UTF-16 hands out a fresh instance (undecided endianness); every other charset hands out itself |
| Codecs.Decode | src/main/java/uk/org/retep/niosax/charset/Charset.java:117-124 | every registered charset's decode reads forward within the limit and never alters bytes; a valid character advances the position; a decode that does not move returns NOT_ENOUGH_DATA; an empty buffer is left as it is |
| Codecs.Encode | src/main/java/uk/org/retep/niosax/charset/Charset.java:126-139 | every registered charset's encode writes forward from the position and leaves earlier bytes alone; only UTF-16 changes its instance state |
| Codecs.EncodeAdvancesBySize | src/main/java/uk/org/retep/niosax/charset/Charset.java:141-147 | a successful encode advances the position by exactly `size(c)`, once UTF-16's byte-order mark is out of the way |
| Codecs.Size | src/main/java/uk/org/retep/niosax/charset/US_ASCII.java:102-104 | size(c) is 1 for US-ASCII and (ISO_8859_1.java:96-98) ISO-8859-1, 2 for UTF-16, and for UTF-8 is 1 exactly below U+0080 and 3 exactly from U+0800 up; `Codecs.EncodeAdvancesBySize` ties it to what encode writes |
| Codecs.RefusedEncodeWritesNothing | src/main/java/uk/org/retep/niosax/charset/Charset.java:126-139 | an encode that returns false leaves the buffer unchanged, except for UTF-8 from U+0800 up and for the first encode of an undecided UTF-16 instance that must write its byte-order mark |
| Codecs.RefusedEncodeKeepsMark | src/main/java/uk/org/retep/niosax/charset/UTF_16.java:119-139 | that UTF-16 exception: with room for the mark but not the character, the mark FE FF is written, the answer is false, and the instance is left big-endian, so a retry writes no mark |
| Codecs.DecodePrefixConsistent | src/main/java/uk/org/retep/niosax/charset/Charset.java:117-124 | decoding through a shorter limit either rolls back with NOT_ENOUGH_DATA or returns the same character and end position as the full limit |
| Codecs.DecodeReadsWindow | src/main/java/uk/org/retep/niosax/charset/Charset.java:117-124 | a decode depends only on the unread bytes: two buffers with the same window decode the same character and consume the same number of bytes |
| SingleByte.WidenSigned | src/main/java/uk/org/retep/niosax/charset/ISO_8859_1.java:73 | `(char) buffer.get()` maps a byte below 0x80 to itself and a byte b at or above 0x80 to 0xFF00 + b |
| SingleByte.AsciiDecode | src/main/java/uk/org/retep/niosax/charset/US_ASCII.java:72-83 | with a byte remaining, exactly one byte is consumed and returned sign-extended; with none, NOT_ENOUGH_DATA is returned and the buffer is unchanged |
| SingleByte.Latin1Decode | src/main/java/uk/org/retep/niosax/charset/ISO_8859_1.java:71-77 | consumes exactly one byte when one remains; otherwise returns NOT_ENOUGH_DATA |
| SingleByte.AsciiEncode | src/main/java/uk/org/retep/niosax/charset/US_ASCII.java:89-96 | succeeds exactly when room remains, writing c for c < 0x80 and a space otherwise; on failure the buffer is unchanged |
| SingleByte.Latin1Encode | src/main/java/uk/org/retep/niosax/charset/ISO_8859_1.java:83-90 | succeeds exactly when room remains, writing c for c < 0xFF and a space otherwise (0xFF itself becomes a space) |
| SingleByte.SameDecoding | src/main/java/uk/org/retep/niosax/charset/US_ASCII.java:72-83 | because the INVALID_CHAR branch is unreachable, US-ASCII and ISO-8859-1 decode every buffer identically |
| SingleByte.AsciiRoundTrip | src/main/java/uk/org/retep/niosax/charset/US_ASCII.java:89-104 | decoding what encode wrote gives c back for c < 0x80 and a space otherwise |
| SingleByte.Latin1HighRoundTripFails | src/main/java/uk/org/retep/niosax/charset/ISO_8859_1.java:71-90 | a character in [0x80, 0xFF) is written as one byte but reads back as 0xFF00 + c |
| SingleByte.HighBytesReadAsSentinels | src/main/java/uk/org/retep/niosax/charset/ISO_8859_1.java:71-77 | bytes 0xFF and 0xFE are consumed but read as NOT_ENOUGH_DATA and INVALID_CHAR |
| SingleByte.DecodePrefixConsistent | src/main/java/uk/org/retep/niosax/charset/ISO_8859_1.java:71-77 | a one-byte decode is prefix-consistent in both single-byte charsets |
| Utf8.Decode | src/main/java/uk/org/retep/niosax/charset/UTF_8.java:80-129 | an empty buffer is NOT_ENOUGH_DATA; a byte below 0x80 is itself; a stray continuation byte or a lead from 0xF0 up is consumed as INVALID_CHAR; a two-byte lead with a continuation byte gives the 11-bit value, otherwise the buffer rolls back with NOT_ENOUGH_DATA; a three-byte lead gives the 16-bit value only when four bytes remain, otherwise it rolls back |
| Utf8.Encode | src/main/java/uk/org/retep/niosax/charset/UTF_8.java:135-162 | below 0x800 the result is true exactly when `size(c)` bytes remain, and then the position advances by `size(c)`, while a false result leaves the buffer unchanged; from 0x800 up the result is always false, and with fewer than three bytes remaining nothing is written |
| Utf8.Size | src/main/java/uk/org/retep/niosax/charset/UTF_8.java:168-183 | size is 1 exactly for c < 0x80, 3 exactly for c >= 0x800, and 2 otherwise |
| Utf8.EncodeDecode | src/main/java/uk/org/retep/niosax/charset/UTF_8.java:89-107 | whatever a successful encode wrote decodes back to c, ending where the encode ended |
| Utf8.ThreeByteEncodeReportsFailure | src/main/java/uk/org/retep/niosax/charset/UTF_8.java:150-161 | for c >= 0x800 with three bytes of room, the three UTF-8 bytes are written and the position advances by 3, yet encode returns false |
| Utf8.ThreeByteNeedsOneMoreByte | src/main/java/uk/org/retep/niosax/charset/UTF_8.java:111-120 | a 3-byte character that ends exactly at the limit decodes to NOT_ENOUGH_DATA with the buffer unchanged; with one more byte after it, it decodes correctly |
| Utf8.MalformedTwoByteNeverAdvances | src/main/java/uk/org/retep/niosax/charset/UTF_8.java:100-109 | a 2-byte lead byte followed by a non-continuation byte gives NOT_ENOUGH_DATA with the position restored, whatever the limit |
| Utf8.DecodePrefixConsistent | src/main/java/uk/org/retep/niosax/charset/UTF_8.java:80-129 | UTF-8 decoding is prefix-consistent |
| Utf16.Combine | src/main/java/uk/org/retep/niosax/charset/AbstractUTF_16.java:69-82 | the two bytes combine as hi * 256 + lo when the low byte is below 0x80, and as 0xFF00 + lo otherwise, because the low byte is sign-extended |
| Utf16.SetRequiresBOM | src/main/java/uk/org/retep/niosax/charset/UTF_16.java:63-70 | succeeds exactly while the endianness is NONE, then sets only the flag; otherwise it fails with IllegalState |
| Utf16.Decode | src/main/java/uk/org/retep/niosax/charset/UTF_16.java:100-108 | fewer than two bytes is NOT_ENOUGH_DATA with the buffer unchanged; otherwise two bytes are consumed and combined high-first when the instance is big-endian and low-first when it is little-endian or still undecided |
| Utf16.EncodeBig | src/main/java/uk/org/retep/niosax/charset/AbstractUTF_16.java:97-104 | writes high then low byte exactly when two bytes fit; otherwise writes nothing |
| Utf16.EncodeLittle | src/main/java/uk/org/retep/niosax/charset/AbstractUTF_16.java:120-127 | writes low then high byte exactly when two bytes fit; otherwise writes nothing |
| Utf16.Size | src/main/java/uk/org/retep/niosax/charset/AbstractUTF_16.java:131-133 | size(c) is two for every character, the two bytes encodeBig and encodeLittle write |
| Utf16.Encode | src/main/java/uk/org/retep/niosax/charset/UTF_16.java:114-140 | a decided endianness never changes; from NONE the instance either becomes BIG or the call fails leaving buffer and state unchanged |
| Utf16.EncodeSettlesBigEndian | src/main/java/uk/org/retep/niosax/charset/UTF_16.java:120-139 | every first encode that passes the byte-order-mark check leaves the instance BIG, including after a REVERSED_MARK set LITTLE |
| Utf16.RoundTrip | src/main/java/uk/org/retep/niosax/charset/UTF_16.java:100-108 | reading back an encodeBig (or encodeLittle) through the matching endianness gives c when its low byte is below 0x80, and 0xFF00 + the low byte otherwise |
| Utf16.UndecidedReadsLittleEndian | src/main/java/uk/org/retep/niosax/charset/UTF_16.java:100-108 | an instance that has never encoded, which is the one a parser reads with, decodes exactly as a little-endian instance |
| Utf16.MarkReadBackAsInvalid | src/main/java/uk/org/retep/niosax/charset/AbstractUTF_16.java:50-54 | a big-endian byte-order mark read by a fresh instance (little-endian) is 0xFFFE, which is INVALID_CHAR |
| Utf16.DecodePrefixConsistent | src/main/java/uk/org/retep/niosax/charset/UTF_16.java:100-108 | two-byte decoding is prefix-consistent |
| AbstractCharset.SuccessivePrefix | src/main/java/uk/org/retep/niosax/charset/AbstractCharset.java:87-104 | decoding more characters only extends the list already decoded |
| AbstractCharset.Peek | src/main/java/uk/org/retep/niosax/charset/AbstractCharset.java:109-117 | peek returns the character decode would return and leaves the buffer unchanged |
| AbstractCharset.HasCharacter | src/main/java/uk/org/retep/niosax/charset/AbstractCharset.java:78-81 | holds exactly when the next decode gives a valid character |
| AbstractCharset.HasCharacters | src/main/java/uk/org/retep/niosax/charset/AbstractCharset.java:87-104 | restores the buffer and is true exactly when count <= 0 or each of the first count successive decodes is valid |
| AbstractCharset.SumSizes | src/main/java/uk/org/retep/niosax/charset/AbstractCharset.java:139-145 | the encoded size of a string lies between 1 and 3 bytes per character |
| AbstractCharset.SizeRange | src/main/java/uk/org/retep/niosax/charset/AbstractCharset.java:139-145 | `size(c, off, len)` is the sum of the character sizes over the range, 0 for len <= 0, and IndexOutOfBounds when the range leaves the array |
| AbstractCharset.SizeAll | src/main/java/uk/org/retep/niosax/charset/AbstractCharset.java:119-127 | `size(char[])` is the sum over the whole array |
| AbstractCharset.SkipBytes | src/main/java/uk/org/retep/niosax/charset/AbstractCharset.java:147-155 | a true result advances by exactly `length`, keeping data and limit; a false result leaves the buffer unchanged and means fewer than `length` bytes remain; a non-negative `length` never throws |
| AbstractCharset.Skip | src/main/java/uk/org/retep/niosax/charset/AbstractCharset.java:161-184 | fails exactly when a positive length leaves the array; a length of zero or less returns true and stays put; otherwise the result is true exactly when the remaining bytes cover the characters' encoded size, and then it advances by that size, while false leaves the buffer unchanged |
| AbstractCharset.SkipLandsWhereWriteDoes | src/main/java/uk/org/retep/niosax/charset/AbstractCharset.java:147-184 | for ISO-8859-1, US-ASCII and a decided UTF-16 instance, skipping characters that a write accepted in full succeeds and lands on the position the write reached |
| AbstractCharset.PeekArray | src/main/java/uk/org/retep/niosax/charset/AbstractCharset.java:208-230 | length <= 0 returns true at once; otherwise the loop never ends normally: it stores successive decodes from the offset to the end of the array and throws, leaving the buffer after one decode more than it stored, the one whose store threw; an offset outside the array throws after one decode with the array untouched |
| AbstractCharset.ReadArray | src/main/java/uk/org/retep/niosax/charset/AbstractCharset.java:254-273 | the same outcome as PeekArray in every case: its branch that restores the position is never reached |
| AbstractCharset.FillLoopContents | src/main/java/uk/org/retep/niosax/charset/AbstractCharset.java:216-224 | the failed loop has stored successive decodes from the offset to the end of the array, and the buffer stands one decode further on, since the decode whose store throws is not undone |
| AbstractCharset.EncodeRun | src/main/java/uk/org/retep/niosax/charset/AbstractCharset.java:295-308 | counts the characters written before the first refused encode, which is at most the number offered |
| AbstractCharset.Reached | src/main/java/uk/org/retep/niosax/charset/AbstractCharset.java:300-305 | the characters the write loop reaches before indexing fails: the whole range when it lies in the array |
| AbstractCharset.Write | src/main/java/uk/org/retep/niosax/charset/AbstractCharset.java:295-308 | write returns the number of characters encoded before the first false, or fails with IndexOutOfBounds when it indexes past the array before any encode is refused |
| AbstractCharset.EncodeRunWritesForward | src/main/java/uk/org/retep/niosax/charset/AbstractCharset.java:295-308 | a run of encodes never alters a byte before the starting position |
| AbstractCharset.EncodeWholeOrNothing | src/main/java/uk/org/retep/niosax/charset/Charset.java:126-147 | for ISO-8859-1, US-ASCII and a UTF-16 instance whose byte order is decided, each encode writes `size(c)` bytes or nothing, and the byte order stays; UTF-8 is excluded because its 3-byte encode reports failure after writing |
| AbstractCharset.RunAdvancesBySize | src/main/java/uk/org/retep/niosax/charset/AbstractCharset.java:295-308 | after write, the position has advanced by the encoded size of exactly the characters counted |
| AbstractCharset.SizesAgree | src/main/java/uk/org/retep/niosax/charset/AbstractCharset.java:139-145 | sizes do not depend on UTF-16's instance state |
| CharsetFactory.FirstDeclaring | src/main/java/uk/org/retep/niosax/charset/CharsetFactory.java:65-81 | finds the first registered charset declaring the name, or none when no charset declares it |
| CharsetFactory.AddNamesFirstWins | src/main/java/uk/org/retep/niosax/charset/CharsetFactory.java:74-79 | adding one charset's aliases never replaces an existing entry and adds exactly the names it declares |
| CharsetFactory.BuildMapFirstWins | src/main/java/uk/org/retep/niosax/charset/CharsetFactory.java:65-81 | the alias map sends each name to the first charset in registration order that declares it |
| CharsetFactory.GetCharsetIsMapLookup | src/main/java/uk/org/retep/niosax/charset/CharsetFactory.java:93-96 | `getCharset` is an exact map lookup that returns `getInstance()` of the entry, or null |
| CharsetFactory.FirstListing | src/main/java/uk/org/retep/niosax/charset/CharsetFactory.java:52-63 | lookup order is ISO-8859-1, US-ASCII, UTF-16, UTF-8 |
| CharsetFactory.Utf8Name | src/main/java/uk/org/retep/niosax/charset/UTF_8.java:56-62 | "UTF-8" resolves to the UTF-8 charset |
| CharsetFactory.Utf16Name | src/main/java/uk/org/retep/niosax/charset/UTF_16.java:91-94 | "UTF-16" resolves to a fresh UTF-16 instance |
| CharsetFactory.NamesAreCaseSensitive | src/main/java/uk/org/retep/niosax/charset/CharsetFactory.java:93-96 | "utf-8" resolves to nothing: lookup is case-sensitive |
| NioSaxSource.New | src/main/java/uk/org/retep/niosax/NioSaxSource.java:120-124 | a null charset defaults to what `getCharset("UTF-8")` returns, which is UTF-8; the buffer is kept |
| NioSaxSource.SetCharset | src/main/java/uk/org/retep/niosax/NioSaxSource.java:155-158 | only the charset changes; the buffer and its position do not |
| NioSaxSource.SetByteBuffer | src/main/java/uk/org/retep/niosax/NioSaxSource.java:185-188 | only the buffer changes |
| NioSaxSource.CompactSource | src/main/java/uk/org/retep/niosax/NioSaxSource.java:135-140 | compacts the buffer and keeps the charset; a missing buffer is a NullPointer |
| NioSaxSource.IsValidChar | src/main/java/uk/org/retep/niosax/NioSaxSource.java:199-202 | true exactly for a character that is neither sentinel; a missing charset is a NullPointer |
| NioSaxSource.HasCharacter | src/main/java/uk/org/retep/niosax/NioSaxSource.java:210-213 | true exactly when the next decode is valid; a missing charset or buffer is a NullPointer |
| NioSaxSource.Decode | src/main/java/uk/org/retep/niosax/NioSaxSource.java:226-229 | delegates to the charset, keeping the charset and meeting the shared decode contract |
| NioSaxSource.HasCharacterForetellsDecode | src/main/java/uk/org/retep/niosax/NioSaxSource.java:199-229 | `hasCharacter` is true exactly when the following `decode` returns a valid character, which then advances the position |
| NioSaxSource.SwitchReadsOnFromPosition | src/main/java/uk/org/retep/niosax/NioSaxSource.java:149-158 | after `setCharset` the new charset decodes from the current position: nothing is read twice or skipped |
| NioSaxSource.CompactKeepsNextCharacter | src/main/java/uk/org/retep/niosax/NioSaxSource.java:58-62 | compacting and flipping leaves the next decoded character unchanged |
| XmlSpec.WhitespaceIsS | src/main/java/uk/org/retep/niosax/internal/helper/XmlSpec.java:272-275 | `isWhitespace` holds exactly for 0x20, 0x09, 0x0D and 0x0A, the S production |
| XmlSpec.NameStartCharIsProduction | src/main/java/uk/org/retep/niosax/internal/helper/XmlSpec.java:283-299 | `isNameStartChar` is exactly the NameStartChar range table, for every char |
| XmlSpec.NameCharIsProduction | src/main/java/uk/org/retep/niosax/internal/helper/XmlSpec.java:307-314 | `isNameChar` is exactly NameStartChar plus the NameChar extras |
| XmlSpec.NameStartIsNameChar | src/main/java/uk/org/retep/niosax/internal/helper/XmlSpec.java:283-314 | every name-start character is a name character, and the name characters that cannot start a name are exactly digits, '-', '.', 0xB7 and the two combining ranges |
| XmlSpec.NCNameClasses | src/main/java/uk/org/retep/niosax/internal/helper/XmlSpec.java:321-334 | `isNCNameChar` is `isNameChar` without ':', and `isNCNameStartChar` accepts exactly ASCII letters and '_' |
| XmlSpec.NCNameStartNarrowerThanProduction | src/main/java/uk/org/retep/niosax/internal/helper/XmlSpec.java:321-324 | U+00C0 starts a name but not a colon-free name |
| XmlSpec.DelimitersAreNotNameChars | src/main/java/uk/org/retep/niosax/internal/helper/XmlSpec.java:272-314 | white space and the markup delimiters are never name characters |
| XmlSpec.NameCharIsNoDelimiter | src/main/java/uk/org/retep/niosax/internal/helper/XmlSpec.java:272-314 | a name character is none of the markup delimiters |
| XmlSpec.NameTail | src/main/java/uk/org/retep/niosax/internal/helper/XmlSpec.java:283-314 | everything after the first character of a name is name characters |
| XmlSpec.IsCharNeverHolds | src/main/java/uk/org/retep/niosax/internal/helper/XmlSpec.java:239-246 | `isChar` is false for every char, while the Char production holds for most of them |
| XmlSpec.IsRestrictedCharNeverHolds | src/main/java/uk/org/retep/niosax/internal/helper/XmlSpec.java:256-263 | `isRestrictedChar` is false for every char, while the RestrictedChar production is non-empty |
| Appendables.New | src/main/java/uk/org/retep/niosax/internal/helper/CharAppendable.java:103-110 | a negative initial size fails with IllegalArgument; otherwise the buffer is empty with that capacity and the parent given |
| Appendables.Empty | src/main/java/uk/org/retep/niosax/internal/helper/CharAppendable.java:68-71 | the no-argument constructor: empty, default capacity, no parent |
| Appendables.WithParent | src/main/java/uk/org/retep/niosax/internal/helper/CharAppendable.java:78-81 | the one-argument constructor discards its parent argument |
| Appendables.SetParent | src/main/java/uk/org/retep/niosax/internal/helper/CharAppendable.java:126-130 | stores the parent and returns the parent, not the buffer |
| Appendables.EnsureCapacity | src/main/java/uk/org/retep/niosax/internal/helper/CharAppendable.java:139-142 | the array is kept when it is big enough; otherwise it grows to max(2 x capacity, needed) and keeps its prefix |
| Appendables.Append | src/main/java/uk/org/retep/niosax/internal/helper/CharAppendable.java:136-148 | contents become old ++ [c], size grows by one, and the array grows only when full |
| Appendables.RangeChecksAgree | src/main/java/uk/org/retep/niosax/internal/helper/CharAppendable.java:157-161 | the range check on 32-bit ints (with wrap-around in off + len) rejects exactly the ranges outside the array |
| Appendables.AppendRange | src/main/java/uk/org/retep/niosax/internal/helper/CharAppendable.java:154-175 | appends exactly c[off..off+len], throws IndexOutOfBounds for any range outside the array, and changes nothing for len == 0 |
| Appendables.AppendRangeIsAppendEach | src/main/java/uk/org/retep/niosax/internal/helper/CharAppendable.java:154-175 | appending a range gives the same contents as appending its characters one at a time |
| Appendables.AppendEachContents | src/main/java/uk/org/retep/niosax/internal/helper/CharAppendable.java:136-148 | appending a string one character at a time adds exactly that string |
| Appendables.Reset | src/main/java/uk/org/retep/niosax/internal/helper/CharAppendable.java:199-203 | empties the contents and keeps the array and the parent |
| Appendables.Size | src/main/java/uk/org/retep/niosax/internal/helper/CharAppendable.java:209-212 | size is the length of the contents |
| Appendables.ToCharArray | src/main/java/uk/org/retep/niosax/internal/helper/CharAppendable.java:181-184 | returns exactly the first `size` characters of the array |
| Appendables.GetCharBuffer | src/main/java/uk/org/retep/niosax/internal/helper/CharAppendable.java:190-193 | the raw array starts with the contents and may be longer |
| Appendables.ResetThenAppend | src/main/java/uk/org/retep/niosax/internal/helper/CharAppendable.java:136-148 | after a reset the next append starts a fresh content in the same array |
| AppendableDelegate.Initial | src/main/java/uk/org/retep/niosax/internal/core/AppendableParserDelegate.java:58-62 | every delegate starts with its own empty buffer without a parent |
| AppendableDelegate.SetAppendable | src/main/java/uk/org/retep/niosax/internal/core/AppendableParserDelegate.java:82-86 | the current buffer stays the old one; only the new buffer's parent is set to it |
| AppendableDelegate.RestoreParentAppendable | src/main/java/uk/org/retep/niosax/internal/core/AppendableParserDelegate.java:93-100 | replaces a present buffer by its parent and leaves a null one null |
| AppendableDelegate.TakeContents | src/main/java/uk/org/retep/niosax/internal/core/AppendableParserDelegate.java:112-134 | returns exactly the contents and leaves the buffer empty with the same parent; a null buffer is a NullPointer |
| AppendableDelegate.AppendTo | src/main/java/uk/org/retep/niosax/internal/core/AppendableParserDelegate.java:146-149 | appends to the current buffer only |
| AppendableDelegate.SwapHasNoEffect | src/main/java/uk/org/retep/niosax/internal/core/AppendableParserDelegate.java:82-86 | after `setAppendable(x)` appends still go to the old buffer, and x keeps its contents |
| AppendableDelegate.RestoreAfterSwapOvershoots | src/main/java/uk/org/retep/niosax/internal/core/AppendableParserDelegate.java:82-100 | restoring after a swap on a new delegate leaves no buffer at all |
| AppendableDelegate.AppendAllContents | src/main/java/uk/org/retep/niosax/internal/core/AppendableParserDelegate.java:146-149 | appending a string adds exactly that string |
| AppendableDelegate.AppendThenTake | src/main/java/uk/org/retep/niosax/internal/core/AppendableParserDelegate.java:112-149 | taking after appending a string to an empty buffer yields exactly that string |
| AttributeLists.New | src/main/java/uk/org/retep/niosax/internal/helper/AttributeList.java:58-63 | room for ten attributes and none stored |
| AttributeLists.AddAttribute | src/main/java/uk/org/retep/niosax/internal/helper/AttributeList.java:65-79 | appends (qName, value) at the end, size grows by one, and capacity grows only when full |
| AttributeLists.Size | src/main/java/uk/org/retep/niosax/internal/helper/AttributeList.java:81-84 | size is the number of stored pairs |
| AttributeLists.IsEmpty | src/main/java/uk/org/retep/niosax/internal/helper/AttributeList.java:86-89 | isEmpty holds exactly when no pair is stored; it is the test startElement uses (Element.java:160) through `Elements.HasAttributes` |
| AttributeLists.SizeCountsAdditions | src/main/java/uk/org/retep/niosax/internal/helper/AttributeList.java:58-89 | a new list has size 0 and is empty; each addAttribute adds one to size, puts the pair at index size, and leaves the list non-empty |
| AttributeLists.DeclaredPrefix | src/main/java/uk/org/retep/niosax/internal/helper/AttributeList.java:107-116 | the prefix declared is the text after the first ':', or empty when there is none |
| AttributeLists.Declarations | src/main/java/uk/org/retep/niosax/internal/helper/AttributeList.java:91-121 | the declarations are empty exactly when no stored name starts with "xmlns" |
| AttributeLists.MappingEvents | src/main/java/uk/org/retep/niosax/internal/core/AbstractNioSaxParser.java:255-267 | each declaration reports startPrefixMapping and then endPrefixMapping, in order |
| AttributeLists.DeclareAll | src/main/java/uk/org/retep/niosax/internal/helper/AttributeList.java:107-116 | binding the declarations changes only the current context |
| AttributeLists.ProcessNames | src/main/java/uk/org/retep/niosax/internal/helper/AttributeList.java:91-121 | pushes exactly when some name starts with "xmlns"; succeeds exactly when there is none, or every declaration is legal and there is a content handler; on success it reports the mapping events and binds them in one new context; on failure the pushed context stays |
| AttributeLists.ProcessFromPushed | src/main/java/uk/org/retep/niosax/internal/helper/AttributeList.java:96-105 | the loop has pushed exactly when it pushed already or a declaration remains |
| AttributeLists.ProcessFromFails | src/main/java/uk/org/retep/niosax/internal/helper/AttributeList.java:96-118 | the loop fails exactly when some remaining declaration is refused |
| AttributeLists.ProcessFromSucceeds | src/main/java/uk/org/retep/niosax/internal/helper/AttributeList.java:91-121 | a successful loop reports and binds every remaining declaration, in order |
| AttributeLists.ProcessFromLeaks | src/main/java/uk/org/retep/niosax/internal/helper/AttributeList.java:91-121 | a failing loop leaves one context pushed, over the stack it started from |
| AttributeLists.GetAttributes | src/main/java/uk/org/retep/niosax/internal/helper/AttributeList.java:123-142 | one entry per stored pair, in order, with the processed name, type "CDATA" and the unchanged value; otherwise UndeclaredNamespace for the first pair whose prefix is undeclared |
| Namespaces.Reset | src/main/java/uk/org/retep/niosax/internal/core/AbstractNioSaxParser.java:192-195 | a reset stack has one context with no default namespace, binding exactly the reserved prefixes xml and xmlns |
| Namespaces.Push | src/main/java/uk/org/retep/niosax/internal/core/AbstractNioSaxParser.java:298-301 | a new context inherits every binding of the current one |
| Namespaces.Pop | src/main/java/uk/org/retep/niosax/internal/core/AbstractNioSaxParser.java:306-309 | drops the current context; the base context cannot be popped |
| Namespaces.Declare | src/main/java/uk/org/retep/niosax/internal/core/AbstractNioSaxParser.java:260 | refuses exactly xml and xmlns; otherwise it binds the prefix in the current context only |
| Namespaces.ProcessName | src/main/java/uk/org/retep/niosax/internal/core/AbstractNioSaxParser.java:281-293 | an unprefixed element name takes the default namespace and an unprefixed attribute none (xmlns takes the declaration namespace); a prefixed name succeeds exactly when its prefix is bound (xmlns only for attributes) |
| Namespaces.DeclaredPrefixInScope | src/main/java/uk/org/retep/niosax/internal/helper/AttributeList.java:91-121 | a prefix declared in a pushed context resolves names inside it, and popping restores the outer stack |
| Namespaces.DefaultNamespaceSkipsAttributes | src/main/java/uk/org/retep/niosax/internal/core/AbstractNioSaxParser.java:281-293 | a default namespace applies to element names but not to attribute names |
| Namespaces.DeclarePrefix | src/main/java/uk/org/retep/niosax/internal/core/AbstractNioSaxParser.java:255-267 | succeeds exactly when there is a content handler and the prefix is not reserved, reporting startPrefixMapping and then endPrefixMapping; a refused prefix is a SAXException |
| Namespaces.ResolveName | src/main/java/uk/org/retep/niosax/internal/core/AbstractNioSaxParser.java:281-293 | returns the split name, or UndeclaredNamespaceException for the name |
| Sax.SetHandler | src/main/java/uk/org/retep/niosax/internal/core/AbstractNioSaxParser.java:81-99 | a null handler is a NullPointer; otherwise the content slot is filled and the lexical and NioSax slots are filled by type |
| Sax.Emit | src/main/java/uk/org/retep/niosax/internal/core/ParserDelegate.java:116-151 | a callback on a present handler is appended; one on a missing optional handler is skipped; one on a missing content handler is a NullPointer |
| Frames.Unwrap | src/main/java/uk/org/retep/niosax/internal/helper/XmlSpec.java:113-128 | `stateCompleted()` refuses every character with UnsupportedOperation; any other engine parses as the state it wraps |
| Frames.ContinueLoop | src/main/java/uk/org/retep/niosax/internal/helper/XmlSpec.java:196-199 | continueLoop is false exactly for the delegated wrapper and for COMPLETED (XmlSpec.java:124-127), true for every enum state; each delegate step's Stay effect agrees with it (StateEngineDelegate.java:181) |
| Frames.NewElement | src/main/java/uk/org/retep/niosax/internal/core/delegate/Element.java:220-251 | a new element starts in StartState.NAME with nothing read and no namespace context |
| Frames.NewMarkup | src/main/java/uk/org/retep/niosax/internal/core/engine/CommentCDataStateEngine.java:179-185 | a `<!` delegate starts in START with an empty accumulator |
| Frames.NewPI | src/main/java/uk/org/retep/niosax/internal/core/delegate/ProcessingInstruction.java:224-247 | a processing instruction starts in PITARGET with an empty accumulator |
| Frames.NewDecl | src/main/java/uk/org/retep/niosax/internal/core/delegate/XMLDeclaration.java:67-69 | a declaration starts with no version, no encoding and not standalone |
| Frames.RunAppend | src/main/java/uk/org/retep/niosax/internal/core/AbstractParserDelegate.java:99-107 | feeding a + b is feeding a and then, if the delegate is still reading, b from where a left it |
| Frames.RunReads | src/main/java/uk/org/retep/niosax/internal/core/AbstractParserDelegate.java:99-107 | a string every step of which reads one character into the delegate is read whole, with no event |
| Frames.RunKeeps | src/main/java/uk/org/retep/niosax/internal/core/AbstractParserDelegate.java:99-107 | an invariant that every reading step keeps holds after any string of reading steps |
| Frames.RunIdle | src/main/java/uk/org/retep/niosax/internal/core/AbstractParserDelegate.java:99-107 | characters each of which leaves the delegate as it was leave it as it was |
| Prolog.Step | src/main/java/uk/org/retep/niosax/internal/core/delegate/DefaultProlog.java:99-156 | outside markup only white space and '<' are accepted; after '<', "!" and "?" make comment/CDATA and prolog-PI delegates and a name-start character makes an element that has read it; the prolog always returns outside markup |
| Prolog.StepOnlyPushes | src/main/java/uk/org/retep/niosax/internal/core/delegate/DefaultProlog.java:99-156 | the prolog never finishes, reports nothing and never touches the namespace stack |
| Prolog.SameChildAsContent | src/main/java/uk/org/retep/niosax/internal/core/delegate/DefaultProlog.java:127-156 | a '<' in the prolog opens an element exactly as '<' in an element's content does |
| Prolog.WhitespaceIgnored | src/main/java/uk/org/retep/niosax/internal/core/delegate/DefaultProlog.java:99-122 | any amount of white space outside markup is read and dropped |
| Prolog.TextRefused | src/main/java/uk/org/retep/niosax/internal/core/delegate/DefaultProlog.java:115-120 | text outside markup is an IllegalCharacterException |
| Prolog.ElementOpens | src/main/java/uk/org/retep/niosax/internal/core/delegate/DefaultProlog.java:127-156 | after white space, '<' and a name-start character start an element and the prolog returns to its first state, so nothing prevents a second root |
| Prolog.OpenThenNameStart | src/main/java/uk/org/retep/niosax/internal/core/delegate/DefaultProlog.java:127-156 | '<' followed by a name-start character pushes a new element that has read that character, and leaves the prolog in its first state |
| CommentEngine.Step | src/main/java/uk/org/retep/niosax/internal/core/engine/CommentStateEngine.java:60-148 | body text keeps everything but a held "-" or "--"; "-->" reports the body to a lexical handler and finishes; "--" followed by anything but '>' is an IllegalCharacterException |
| CDataEngine.NormalStep | src/main/java/uk/org/retep/niosax/internal/core/engine/CDataStateEngine.java:81-100 | what is kept plus what is held back is the body so far plus c |
| CDataEngine.Step | src/main/java/uk/org/retep/niosax/internal/core/engine/CDataStateEngine.java:59-181 | startCDATA is reported on the first body character; "]]>" reports the whole body as characters and then endCDATA and finishes, and without a content handler that '>' is a NullPointer; any other character after "]]" joins the body with the brackets |
| Markup.OpeningStep | src/main/java/uk/org/retep/niosax/internal/core/engine/CommentCDataStateEngine.java:58-164 | after "<!" only '-' or '[' are accepted; then only '-', or the letters "CDATA[" in order; anything else is an IllegalCharacterException |
| Markup.Step | src/main/java/uk/org/retep/niosax/internal/core/engine/CommentCDataStateEngine.java:147-164 | a completed delegate refuses every character; otherwise one delegate runs the discriminator, then the comment or CDATA engine in the same frame, and only a finished engine stops the loop |
| Markup.OpeningsAccepted | src/main/java/uk/org/retep/niosax/internal/core/engine/CommentCDataStateEngine.java:58-106 | "--" reaches the comment body and "[CDATA[" reaches the CDATA body, with nothing read and nothing reported |
| Markup.CDataWordExactly | src/main/java/uk/org/retep/niosax/internal/core/engine/CommentCDataStateEngine.java:101-106 | from any CDATAn state, six characters reach the CDATA body exactly when they are the rest of "CDATA[", case-sensitively |
| Markup.OpeningRefuses | src/main/java/uk/org/retep/niosax/internal/core/engine/CommentCDataStateEngine.java:58-95 | "<!" followed by anything but '-' or '[', or "<!-" followed by anything but '-', is refused |
| Markup.CommentKeepsEverything | src/main/java/uk/org/retep/niosax/internal/core/engine/CommentStateEngine.java:60-113 | in a comment body every character that keeps the delegate reading is kept, in order |
| Markup.CommentBodyRead | src/main/java/uk/org/retep/niosax/internal/core/engine/CommentStateEngine.java:60-113 | a body without "--" that does not end in '-' is accumulated exactly |
| Markup.CommentEnd2Leaves | src/main/java/uk/org/retep/niosax/internal/core/engine/CommentStateEngine.java:114-148 | after "--" the next character either closes the comment or fails |
| Markup.CommentCloses | src/main/java/uk/org/retep/niosax/internal/core/engine/CommentStateEngine.java:114-138 | "-->" closes the comment and reports the accumulated body without the delimiter |
| Markup.CommentClosed | src/main/java/uk/org/retep/niosax/internal/core/engine/CommentStateEngine.java:60-138 | a body without "--" followed by "-->" is reported exactly to a lexical handler, and the delegate finishes |
| Markup.SingleDashIsText | src/main/java/uk/org/retep/niosax/internal/core/engine/CommentStateEngine.java:85-109 | a single '-' followed by another character is body text |
| Markup.DoubleDashMustClose | src/main/java/uk/org/retep/niosax/internal/core/engine/CommentStateEngine.java:139-143 | "--" followed by anything but '>' is an IllegalCharacterException |
| Markup.StartEvents | src/main/java/uk/org/retep/niosax/internal/core/engine/CDataStateEngine.java:59-77 | startCDATA is reported exactly once, on the first body character, when there is a lexical handler |
| Markup.CDataKeepsEverything | src/main/java/uk/org/retep/niosax/internal/core/engine/CDataStateEngine.java:81-143 | in a CDATA body every character that keeps the delegate reading is kept, in order |
| Markup.CDataBodyRead | src/main/java/uk/org/retep/niosax/internal/core/engine/CDataStateEngine.java:81-143 | a body without "]]" that does not end in ']' is accumulated exactly |
| Markup.CDataCloses | src/main/java/uk/org/retep/niosax/internal/core/engine/CDataStateEngine.java:144-168 | with a content handler, "]]>" reports the accumulated body as characters and then endCDATA, and finishes |
| Markup.CDataClosed | src/main/java/uk/org/retep/niosax/internal/core/engine/CDataStateEngine.java:59-168 | with a content handler, a section without "]]" is reported as startCDATA, the exact body as characters, then endCDATA |
| Markup.TripleBracketDoesNotClose | src/main/java/uk/org/retep/niosax/internal/core/engine/CDataStateEngine.java:170-175 | "]]]>" does not close the section: "]]]>" becomes body text and the delegate keeps reading |
| ProcessingInstructions.Delegation | src/main/java/uk/org/retep/niosax/internal/core/delegate/ProcessingInstruction.java:94-153 | targets other than exactly xml/XML/DOCTYPE are ordinary; in the prolog, xml finishes and pushes an XML declaration and DOCTYPE is UnsupportedOperation; elsewhere both are SAXExceptions |
| ProcessingInstructions.EndTarget | src/main/java/uk/org/retep/niosax/internal/core/delegate/ProcessingInstruction.java:408-425 | the end of the target stores it and empties the accumulator, or hands on to the special target's delegate |
| ProcessingInstructions.Report | src/main/java/uk/org/retep/niosax/internal/core/delegate/ProcessingInstruction.java:367-393 | "?>" reports processingInstruction(target, data) and completes; a missing handler is a NullPointer |
| ProcessingInstructions.Step | src/main/java/uk/org/retep/niosax/internal/core/delegate/ProcessingInstruction.java:224-393 | target characters must all be name-start characters; white space and data are read without events; only the final '>' reports, and only prolog PIs can hand over to a declaration |
| ProcessingInstructions.TargetRead | src/main/java/uk/org/retep/niosax/internal/core/delegate/ProcessingInstruction.java:224-285 | a target of name-start characters is accumulated exactly |
| ProcessingInstructions.TargetRefusesNameChars | src/main/java/uk/org/retep/niosax/internal/core/delegate/ProcessingInstruction.java:248-280 | a target character that is a name character but not a name-start character, such as a digit, '-' or '.', is refused |
| ProcessingInstructions.TargetEnds | src/main/java/uk/org/retep/niosax/internal/core/delegate/ProcessingInstruction.java:248-285 | white space after an ordinary target stores the target and starts skipping white space |
| ProcessingInstructions.WhitespaceSkipped | src/main/java/uk/org/retep/niosax/internal/core/delegate/ProcessingInstruction.java:314-342 | white space between the target and the data is skipped |
| ProcessingInstructions.DataReadOn | src/main/java/uk/org/retep/niosax/internal/core/delegate/ProcessingInstruction.java:343-366 | data without '?' is accumulated exactly |
| ProcessingInstructions.DataCloses | src/main/java/uk/org/retep/niosax/internal/core/delegate/ProcessingInstruction.java:343-393 | "?>" reports the target and the data so far |
| ProcessingInstructions.InstructionReported | src/main/java/uk/org/retep/niosax/internal/core/delegate/ProcessingInstruction.java:224-393 | `t w data?>` reports exactly processingInstruction(t, data), the leading white space skipped |
| ProcessingInstructions.EmptyInstructionReported | src/main/java/uk/org/retep/niosax/internal/core/delegate/ProcessingInstruction.java:286-313 | `t?>` reports processingInstruction(t, "") |
| ProcessingInstructions.SpecialTargets | src/main/java/uk/org/retep/niosax/internal/core/delegate/ProcessingInstruction.java:94-153 | after "xml" or "XML", white space in a prolog PI finishes it in favour of an XML declaration and outside the prolog is a SAXException; after "DOCTYPE" it is UnsupportedOperation in the prolog and a SAXException elsewhere |
| ProcessingInstructions.MixedCaseXmlIsOrdinary | src/main/java/uk/org/retep/niosax/internal/core/delegate/ProcessingInstruction.java:408-425 | "xml" and "XML" are special and "Xml" is not |
| ProcessingInstructions.DoubleQueryDoesNotClose | src/main/java/uk/org/retep/niosax/internal/core/delegate/ProcessingInstruction.java:376-389 | "??>" does not end the instruction and all of it becomes data |
| XmlDeclarations.ParseStandalone | src/main/java/uk/org/retep/niosax/internal/core/delegate/XMLDeclaration.java:151-164 | exactly "yes" (true) and "no" (false) are accepted; anything else is a SAXException |
| XmlDeclarations.SetAttribute | src/main/java/uk/org/retep/niosax/internal/core/delegate/XMLDeclaration.java:110-125 | only version, encoding and standalone are accepted, each storing its value (standalone parsed); anything else is a SAXException |
| XmlDeclarations.Finishing | src/main/java/uk/org/retep/niosax/internal/core/delegate/XMLDeclaration.java:132-141 | a non-empty encoding must name a registered charset, which then replaces the source's; otherwise the delegate just finishes |
| XmlDeclarations.Invoke | src/main/java/uk/org/retep/niosax/internal/core/delegate/XMLDeclaration.java:132-149 | reports xmlDeclaration(version, encoding, standalone) to a NioSax handler once, then finishes |
| XmlDeclarations.ValueClosed | src/main/java/uk/org/retep/niosax/internal/core/delegate/XMLDeclaration.java:248-277 | the closing quote hands the value to setAttribute and returns to START |
| XmlDeclarations.Step | src/main/java/uk/org/retep/niosax/internal/core/delegate/XMLDeclaration.java:166-285 | a completed declaration refuses everything; only the '>' after '?' ends it, reporting xmlDeclaration to a NioSax handler and finishing, possibly with a new charset; every other step reports nothing; a quoted value takes every character but its closing quote; white space next to '=' is refused |
| XmlDeclarations.LastValue | src/main/java/uk/org/retep/niosax/internal/core/delegate/XMLDeclaration.java:114-119 | the value of the last pseudo-attribute with the name |
| XmlDeclarations.LastValueWins | src/main/java/uk/org/retep/niosax/internal/core/delegate/XMLDeclaration.java:110-125 | applying pseudo-attributes in turn succeeds exactly when each is accepted, and each field ends with the last value given for it (or its default) |
| XmlDeclarations.SpaceSkipped | src/main/java/uk/org/retep/niosax/internal/core/delegate/XMLDeclaration.java:172-190 | white space before a pseudo-attribute or "?>" is skipped |
| XmlDeclarations.NameRead | src/main/java/uk/org/retep/niosax/internal/core/delegate/XMLDeclaration.java:183-229 | a name is read into the accumulator |
| XmlDeclarations.NameClosed | src/main/java/uk/org/retep/niosax/internal/core/delegate/XMLDeclaration.java:212-229 | '=' stores the name and expects a quote |
| XmlDeclarations.QuotedValueRead | src/main/java/uk/org/retep/niosax/internal/core/delegate/XMLDeclaration.java:233-277 | an opening quote and the value after it are read |
| XmlDeclarations.QuoteCloses | src/main/java/uk/org/retep/niosax/internal/core/delegate/XMLDeclaration.java:248-277 | the matching closing quote runs setAttribute |
| XmlDeclarations.AttributeRead | src/main/java/uk/org/retep/niosax/internal/core/delegate/XMLDeclaration.java:172-277 | `name="value"` or `name='value'` amounts to setAttribute(name, value) |
| XmlDeclarations.AttributesRead | src/main/java/uk/org/retep/niosax/internal/core/delegate/XMLDeclaration.java:172-277 | pseudo-attributes in any order, with or without white space between them, amount to setAttribute on each in turn |
| XmlDeclarations.DeclarationCloses | src/main/java/uk/org/retep/niosax/internal/core/delegate/XMLDeclaration.java:195-208 | white space and "?>" invoke the declaration |
| XmlDeclarations.DeclarationRead | src/main/java/uk/org/retep/niosax/internal/core/delegate/XMLDeclaration.java:166-285 | a whole declaration body is its pseudo-attributes applied, then invoke |
| XmlDeclarations.DeclarationReported | src/main/java/uk/org/retep/niosax/internal/core/delegate/XMLDeclaration.java:132-149 | a well-formed declaration reports the last version, encoding and standalone given, and asks for the named charset when there is an encoding |
| XmlDeclarations.UnknownEncodingRefused | src/main/java/uk/org/retep/niosax/internal/core/delegate/XMLDeclaration.java:135-138 | an encoding no charset is registered under is "Unsupported encoding" |
| XmlDeclarations.SpaceAroundEqualsRefused | src/main/java/uk/org/retep/niosax/internal/core/delegate/XMLDeclaration.java:212-247 | white space before or after '=' is an IllegalCharacterException |
| Elements.Announce | src/main/java/uk/org/retep/niosax/internal/core/delegate/Element.java:174-182 | startElement succeeds exactly when the name resolves and there is a content handler, reporting the processed name and the attributes |
| Elements.ProcessNamesInScope | src/main/java/uk/org/retep/niosax/internal/core/delegate/Element.java:165-172 | `processNames` succeeds exactly when the declarations are legal, and then binds them in a pushed context |
| Elements.StartWithAttributes | src/main/java/uk/org/retep/niosax/internal/core/delegate/Element.java:155-182 | with attributes, the declarations are processed first; the element and attribute names are resolved in the new context; mapping events come before startElement; a failed declaration leaves the pushed context without recording it |
| Elements.StartTag | src/main/java/uk/org/retep/niosax/internal/core/delegate/Element.java:155-182 | without attributes, startElement reports an empty attribute list and never pushes |
| Elements.Cleanup | src/main/java/uk/org/retep/niosax/internal/core/delegate/Element.java:113-123 | pops a context exactly when startElement recorded one |
| Elements.ValidateQName | src/main/java/uk/org/retep/niosax/internal/core/delegate/Element.java:138-150 | succeeds exactly when the end tag's name resolves to the start tag's processed name |
| Elements.Ended | src/main/java/uk/org/retep/niosax/internal/core/delegate/Element.java:187-194 | endElement reports the name parsed at the start tag and finishes the delegate |
| Elements.Opened | src/main/java/uk/org/retep/niosax/internal/core/delegate/Element.java:277-282 | the '>' of a start tag runs startElement and enters the content |
| Elements.NameStart | src/main/java/uk/org/retep/niosax/internal/core/delegate/Element.java:227-247 | the first character of a name must be a name-start character |
| Elements.StartStep | src/main/java/uk/org/retep/niosax/internal/core/delegate/Element.java:220-296 | name characters are read; white space starts the attributes; '/' expects '>'; '>' starts the element; anything else is refused |
| Elements.StoreAttribute | src/main/java/uk/org/retep/niosax/internal/core/delegate/Element.java:207-215 | a complete value appends (attribute name, value) to the list, creating it on first use |
| Elements.AttributeStep | src/main/java/uk/org/retep/niosax/internal/core/delegate/Element.java:302-524 | no white space around '='; the value must be quoted; '<' in a value is refused; '&' in a value is always refused on the next character; a closing quote stores the attribute |
| Elements.ValueStep | src/main/java/uk/org/retep/niosax/internal/core/delegate/Element.java:407-492 | in a value, '<' (unless it is the quote) is the only refused character |
| Elements.Flush | src/main/java/uk/org/retep/niosax/internal/core/delegate/Element.java:648-658 | pending text is reported as one characters event, and only when non-empty |
| Elements.ChildFrame | src/main/java/uk/org/retep/niosax/internal/core/delegate/Element.java:603-635 | after '<' in content, '/' starts the end tag, '!' and '?' make comment/CDATA and generic-PI delegates, and a name-start character makes a child element that has read it |
| Elements.ContentStep | src/main/java/uk/org/retep/niosax/internal/core/delegate/Element.java:537-637 | text is accumulated; '<' flushes it; '&' starts a reference that ';' expands into the text; a child delegate leaves the element waiting in DELEGATED |
| Elements.CloseStep | src/main/java/uk/org/retep/niosax/internal/core/delegate/Element.java:665-784 | '>' right after the end-tag name ends the element without comparison; after white space the name is validated first; "/>" runs startElement and then endElement |
| Elements.Step | src/main/java/uk/org/retep/niosax/internal/core/delegate/Element.java:220-784 | an element only finishes on a completed end, only pushes from CHILD with the element waiting, and changes the namespace stack only at a '>' of a start tag |
| Elements.AppendStep | src/main/java/uk/org/retep/niosax/internal/core/delegate/Element.java:255-263 | in the reading states, an ordinary character is appended and nothing else changes |
| Elements.TextRead | src/main/java/uk/org/retep/niosax/internal/core/delegate/Element.java:537-563 | a string of ordinary characters is appended whole |
| Elements.StartTagRead | src/main/java/uk/org/retep/niosax/internal/core/delegate/Element.java:251-282 | a name followed by '>' reports startElement with the processed name and no attributes, and enters the content |
| Elements.EmptyTagAfterName | src/main/java/uk/org/retep/niosax/internal/core/delegate/Element.java:757-771 | "/>" right after a name reports startElement and then endElement |
| Elements.EmptyElementRead | src/main/java/uk/org/retep/niosax/internal/core/delegate/Element.java:251-290 | `name/>` reports startElement(q, []) and then endElement(q) with the same processed name |
| Elements.AttributeNameRead | src/main/java/uk/org/retep/niosax/internal/core/delegate/Element.java:309-374 | an attribute name is read into the accumulator |
| Elements.AttributeValueRead | src/main/java/uk/org/retep/niosax/internal/core/delegate/Element.java:378-492 | a quoted value is read exactly and stored |
| Elements.AttributeRead | src/main/java/uk/org/retep/niosax/internal/core/delegate/Element.java:309-492 | `name='value'` stores exactly (name, value), ready for the next attribute without white space |
| Elements.SpaceBeforeEqualsRefused | src/main/java/uk/org/retep/niosax/internal/core/delegate/Element.java:348-374 | white space between an attribute name and '=' is refused |
| Elements.UnquotedValueRefused | src/main/java/uk/org/retep/niosax/internal/core/delegate/Element.java:378-403 | a value that does not start with a quote is refused |
| Elements.LessThanInValueRefused | src/main/java/uk/org/retep/niosax/internal/core/delegate/Element.java:407-437 | '<' in an attribute value is refused |
| Elements.ReferenceInValueRefused | src/main/java/uk/org/retep/niosax/internal/core/delegate/Element.java:438-458 | whatever follows '&' in an attribute value is refused |
| Elements.MarkupStep | src/main/java/uk/org/retep/niosax/internal/core/delegate/Element.java:546-550 | '<' in content reports pending text and then waits for the markup |
| Elements.TextThenMarkup | src/main/java/uk/org/retep/niosax/internal/core/delegate/Element.java:537-565 | text followed by '<' is reported as one characters event, and only if non-empty |
| Elements.ReferenceRead | src/main/java/uk/org/retep/niosax/internal/core/delegate/Element.java:552-598 | `&name;` in content adds its expansion to the text |
| Elements.ExpandIsPredefined | src/main/java/uk/org/retep/niosax/internal/core/delegate/Element.java:577-593 | exactly the five predefined entities expand, to one character each; every other reference expands to nothing |
| Elements.CharacterReferenceDropped | src/main/java/uk/org/retep/niosax/internal/core/delegate/Element.java:577-593 | numeric character references are silently dropped |
| Elements.ChildElementStarts | src/main/java/uk/org/retep/niosax/internal/core/delegate/Element.java:628-632 | a name-start character after '<' pushes a child element that has read it and leaves the parent waiting |
| Elements.DelegatedResumesContent | src/main/java/uk/org/retep/niosax/internal/core/delegate/Element.java:636-637 | a waiting element reactivated by its child's finish reads on as in CONTENT |
| Elements.EndTagNameRead | src/main/java/uk/org/retep/niosax/internal/core/delegate/Element.java:672-724 | an end tag's name is read into the accumulator |
| Elements.EndTagNotCompared | src/main/java/uk/org/retep/niosax/internal/core/delegate/Element.java:695-727 | `</n>` ends the element with the start tag's name whatever n is |
| Elements.EndTagSpaceRead | src/main/java/uk/org/retep/niosax/internal/core/delegate/Element.java:728-740 | white space after an end tag's name is skipped |
| Elements.EndTagCompared | src/main/java/uk/org/retep/niosax/internal/core/delegate/Element.java:728-753 | `</n >` ends the element exactly when n resolves to the start tag's name |
| Elements.StartThenCleanup | src/main/java/uk/org/retep/niosax/internal/core/delegate/Element.java:113-182 | a successful start tag followed by cleanup leaves the namespace stack as it was |
| Elements.FailedDeclarationLeaks | src/main/java/uk/org/retep/niosax/internal/core/delegate/Element.java:113-172 | when a declaration is refused, the context processNames pushed is left on the stack and cleanup does not pop it |
| Elements.StartTagOwns | src/main/java/uk/org/retep/niosax/internal/core/delegate/Element.java:155-182 | a successful start tag pushes exactly the context it records |
| Elements.StepOwns | src/main/java/uk/org/retep/niosax/internal/core/delegate/Element.java:113-784 | every step changes the namespace stack by exactly the change in the contexts the element owns |
| Parsers.New | src/main/java/uk/org/retep/niosax/internal/core/AbstractNioSaxParser.java:63-66 | a new parser has no delegate, no handler and no callbacks |
| Parsers.StepFrame | src/main/java/uk/org/retep/niosax/internal/core/StateEngineDelegate.java:177-182 | a step keeps the delegate's kind; pushes only from a waiting delegate; the prolog never finishes; only a prolog PI finishes and pushes a new declaration; the namespace stack changes by exactly the contexts the delegate comes to own |
| Parsers.Cleanup | src/main/java/uk/org/retep/niosax/internal/core/ParserDelegate.java:68-70 | only an element that owns a context pops it; every other delegate does nothing |
| Parsers.Finish | src/main/java/uk/org/retep/niosax/internal/core/AbstractNioSaxParser.java:165-170 | cleans up the current delegate and makes its parent current; with no delegate it is a NullPointer |
| Parsers.Settle | src/main/java/uk/org/retep/niosax/internal/core/ParserDelegate.java:57-61 | records the step and then runs what it asks: a constructed delegate becomes current; finish pops; a declaration replaces the source's charset before it finishes |
| Parsers.Feed | src/main/java/uk/org/retep/niosax/internal/core/StateEngineDelegate.java:177-182 | one character to the current delegate: its failure is the parser's; when the loop may continue, the delegates below are untouched and the source is unchanged |
| Parsers.ScopesPush | src/main/java/uk/org/retep/niosax/internal/core/AbstractNioSaxParser.java:298-309 | the contexts of a stack with one more delegate are those below plus its own |
| Parsers.ReplacedTopOpen | src/main/java/uk/org/retep/niosax/internal/core/StateEngineDelegate.java:177-182 | replacing the current delegate by its stepped state keeps the stack open |
| Parsers.PushedOpen | src/main/java/uk/org/retep/niosax/internal/core/ParserDelegate.java:57-61 | constructing a delegate over a waiting parent keeps the stack open |
| Parsers.FinishOpen | src/main/java/uk/org/retep/niosax/internal/core/AbstractNioSaxParser.java:165-170 | finishing any delegate but the prolog succeeds and keeps the stack open |
| Parsers.SettleOpen | src/main/java/uk/org/retep/niosax/internal/core/ParserDelegate.java:100-104 | settling a fitting step always succeeds and keeps the stack open |
| Parsers.FeedOpen | src/main/java/uk/org/retep/niosax/internal/core/StateEngineDelegate.java:177-182 | feeding an open parser succeeds exactly when its current delegate accepts the character, and leaves it open |
| Parsers.DocumentStart | src/main/java/uk/org/retep/niosax/internal/core/AbstractNioSaxParser.java:184-208 | a second start is "Document already started"; otherwise the namespace support is reset and pushed and the prolog is made; without a content handler startDocument is a NullPointer that leaves the prolog current; a handler that throws finishes the prolog again |
| Parsers.DocumentStartOpens | src/main/java/uk/org/retep/niosax/internal/core/AbstractNioSaxParser.java:184-208 | a successful start leaves exactly the prolog, open |
| Parsers.RetryAfterFailedStart | src/main/java/uk/org/retep/niosax/internal/core/AbstractNioSaxParser.java:197-207 | a start that failed for lack of a handler leaves the prolog, so a retry is "Document already started" |
| Parsers.Unwind | src/main/java/uk/org/retep/niosax/internal/core/AbstractNioSaxParser.java:221-227 | finish until no delegate is current, or until a pop of the base context fails |
| Parsers.UnwindBalanced | src/main/java/uk/org/retep/niosax/internal/core/AbstractNioSaxParser.java:221-227 | on a balanced stack, unwinding removes every delegate and exactly their contexts |
| Parsers.DocumentEnd | src/main/java/uk/org/retep/niosax/internal/core/AbstractNioSaxParser.java:214-229 | endDocument is reported when there is a handler and the stack is unwound whether or not it throws |
| Parsers.DocumentEndUnwinds | src/main/java/uk/org/retep/niosax/internal/core/AbstractNioSaxParser.java:213-229 | after endDocument on an open parser no delegate is current, and the namespace stack is back to the document's context: the reset base plus the context startDocument pushed, which is never popped |
| Driver.ReadOut | src/main/java/uk/org/retep/niosax/internal/core/AbstractParserDelegate.java:99-107 | the characters the loop can decode: all valid, ending at the first sentinel, reading forward in the same buffer |
| Driver.Loop | src/main/java/uk/org/retep/niosax/internal/core/AbstractParserDelegate.java:99-107 | decodes and feeds while the character is valid and the delegate continues; a missing charset or buffer is a NullPointer; it only reads forward |
| Driver.ParseCurrent | src/main/java/uk/org/retep/niosax/internal/core/delegate/DefaultProlog.java:77-86 | the prolog reads one character per call and other delegates run the loop; a valid first character is always consumed |
| Driver.Drive | src/main/java/uk/org/retep/niosax/internal/core/AbstractParserDelegate.java:99-107 | the stand-in driver stops only when no delegate is current or no whole character is left |
| Driver.SettleKeep | src/main/java/uk/org/retep/niosax/internal/core/StateEngineDelegate.java:177-182 | settling a step that continues the loop only records the delegate's new state |
| Driver.LoopFeedsReadOut | src/main/java/uk/org/retep/niosax/internal/core/AbstractParserDelegate.java:99-107 | the loop is exactly the delegate's steps over the decoded characters up to the first sentinel, settled once: no decoded character is dropped or read twice |
| Driver.ReadOutSplit | src/main/java/uk/org/retep/niosax/internal/core/AbstractParserDelegate.java:99-107 | reading a buffer through an earlier limit and then on to the full limit yields the same characters as reading it whole |
| Driver.LoopOpen | src/main/java/uk/org/retep/niosax/internal/core/AbstractParserDelegate.java:99-107 | the loop keeps an open parser open |
| Driver.DriveOpen | src/main/java/uk/org/retep/niosax/internal/core/AbstractParserDelegate.java:99-107 | driving an open parser keeps it open and leaves no whole character unread |
| Driver.PrologReadsOne | src/main/java/uk/org/retep/niosax/internal/core/delegate/DefaultProlog.java:77-86 | with only the prolog current, one call reads one valid character and no more |

## Left out

- The code that calls `parse(source)` on the current delegate as bytes arrive is not part of this model, and neither is the `Prolog` interface. `Driver.Drive` stands in for that driver, and `delegateProlog` is taken to make a `DefaultProlog`.
- `UTF_16BE`, `UTF_16LE`, `DefaultNioSaxParser` and `NioSaxParserFactory` are not part of this model. The alias registry holds the other four charsets in the code's order; it assumes the two fixed-endian charsets register none of their names.
- DOM helpers: thin wrappers over the W3C DOM library.
- SAX's `NamespaceSupport` is a JDK class. `Namespaces` is an explicit stand-in with the documented push, pop, declare and processName behaviour, not a re-implementation.
- Parsers.New: the constructor's `new NamespaceSupport()` is modelled as the stack a reset gives, because the model cannot see the JDK's initial state.
- Handler callbacks are recorded as events. A handler that throws is modelled only where the code catches it (`startDocument`, `endDocument`) by a `refuses` flag. Elsewhere an exception from a handler is not modelled.
- After an exception the model mostly returns only the error, not the parser's state: once a delegate or handler throws, the code does not recover, and the exception ends the document. The two exceptions are `startDocument` and `endDocument`, where `Parsers.DocumentStart` and `Parsers.DocumentEnd` return a `Completion` holding the parser state together with the error. There the state after the exception is observable: the prolog stays current after a startDocument whose handler is missing, which is why a second startDocument then fails with "Document already started" (`Parsers.RetryAfterFailedStart`), and endDocument unwinds the stack in a `finally` whether or not the handler throws.
- Java `int` overflow is modelled only in `CharAppendable`'s range check (`Appendables.RangeChecksAgree`). Elsewhere sizes and counts stay far below 2^31.
- Fields that Java leaves `null` until first set (an element's names, a PI's target, a declaration's scratch name) start as empty strings. Every path sets them before reading them.
- Elements.AttributeStep: `QUOTED_DELEGATE` (Element.java:515) is never used by any state, so it is not modelled.
- `StateEngineDelegate.getState`, `getParent`, `getParser` and the `getHandler` accessors are plain field reads, folded into the data model.
- Frames.RunIdle, Frames.RunReads, Frames.RunKeeps: these describe the loop over characters that are already decoded. `Driver.LoopFeedsReadOut` connects them to the bytes.
- Driver.Drive: it does not state how feeding character by character relates to feeding across an invalid byte. The code stops at the first sentinel and leaves the invalid byte consumed, and the driver's response to that is not visible.
- Utf8.Encode: states no buffer contents for the 3-byte case beyond `Utf8.ThreeByteEncodeReportsFailure`. It does not model the surrogate check the code leaves as a comment.
- Codecs.RefusedEncodeWritesNothing: excludes UTF-8 from U+0800 up and an undecided UTF-16 instance that must write a mark, because both write bytes and still answer false; `Utf8.ThreeByteEncodeReportsFailure` and `Codecs.RefusedEncodeKeepsMark` state what they write.
- Codecs.EncodeAdvancesBySize: excludes the first encode of a fresh UTF-16 instance that must write a byte-order mark, because that call writes four bytes, not `size(c)`.

=== FILE: abstract_charset.dfy ===
/** The operations every charset inherits from uk.org.retep.niosax.charset.AbstractCharset:
    looking ahead without consuming (`peek`, `hasCharacter`, `hasCharacters`), measuring and
    skipping encoded text (`size`, `skip`), and the bulk forms of `peek`, `read` and
    `write`. */
module AbstractCharset {
  import opened JavaLang
  import opened Buffers
  import opened Charset
  import opened Codecs

  /** The abstract `decode(buffer)` a concrete charset supplies. */
  type Decoder = Buffer -> (JChar, Buffer)

  /** The abstract `encode(buffer, c)` a concrete charset supplies, with the instance as it is
      afterwards. */
  type Encoder<!S> = (S, Buffer, JChar) -> (bool, Buffer, S)

  /** A registered charset's `decode`. */
  function DecoderOf(cs: Codec): Decoder {
    b => Decode(cs, b)
  }

  /** The characters `n` successive decodes return, and the buffer they leave behind. */
  function Successive(dec: Decoder, b: Buffer, n: nat): (r: (seq<JChar>, Buffer))
    ensures |r.0| == n
  {
    if n == 0 then ([], b)
    else
      var before := Successive(dec, b, n - 1);
      var next := dec(before.1);
      (before.0 + [next.0], next.1)
  }

  /** Decoding more characters only extends the list of characters decoded. */
  lemma {:induction false} SuccessivePrefix(dec: Decoder, b: Buffer, n: nat, m: nat)
    requires n <= m
    ensures Successive(dec, b, m).0[..n] == Successive(dec, b, n).0
    decreases m
  {
    if n < m {
      SuccessivePrefix(dec, b, n, m - 1);
      assert Successive(dec, b, m).0[..m - 1] == Successive(dec, b, m - 1).0;
    }
  }

  /** `peek`: the character at the position; the position is put back. */
  function Peek(dec: Decoder, b: Buffer): (r: (JChar, Buffer))
    ensures r.1 == b
    ensures r.0 == Successive(dec, b, 1).0[0]
  {
    (dec(b).0, b)
  }

  /** `hasCharacter`: whether the next decode would give a real character. */
  function HasCharacter(dec: Decoder, b: Buffer): (r: bool)
    ensures r <==> IsValid(Successive(dec, b, 1).0[0])
  {
    IsValid(Peek(dec, b).0)
  }

  /** One more decode after `i` of them. */
  lemma SuccessiveStep(dec: Decoder, b: Buffer, i: nat)
    ensures var dn := dec(Successive(dec, b, i).1);
            Successive(dec, b, i + 1) == (Successive(dec, b, i).0 + [dn.0], dn.1)
  {
  }

  /** `hasCharacters`: whether the next `count` decodes would all give real characters. It
      stops at the first that does not and always puts the position back. */
  method HasCharacters(dec: Decoder, b: Buffer, count: int) returns (r: bool, after: Buffer)
    ensures after == b
    ensures r <==> count <= 0 ||
                   forall i :: 0 <= i < count ==> IsValid(Successive(dec, b, count).0[i])
  {
    var cur := b;
    var i := 0;
    ghost var seen: seq<JChar> := [];
    while i < count
      invariant 0 <= i && (count >= 0 ==> i <= count)
      invariant Successive(dec, b, i) == (seen, cur)
      invariant forall j :: 0 <= j < i ==> IsValid(seen[j])
    {
      var dn := dec(cur);
      SuccessiveStep(dec, b, i);
      if !IsValid(dn.0) {
        SuccessivePrefix(dec, b, i + 1, count);
        assert Successive(dec, b, count).0[i] == (seen + [dn.0])[i];
        return false, b;
      }
      seen := seen + [dn.0];
      cur := dn.1;
      i := i + 1;
    }
    if count > 0 {
      assert i == count;
    }
    return true, b;
  }

  /** The number of bytes a sequence of characters takes in a charset. */
  function SumSizes(cs: Codec, s: seq<JChar>): (r: nat)
    ensures |s| <= r <= 3 * |s|
  {
    if s == [] then 0 else SumSizes(cs, s[..|s| - 1]) + Size(cs, s[|s| - 1])
  }

  /** `size(char[], offset, length)`: the encoded size of `length` characters from `offset`.
      A range that leaves the array throws `ArrayIndexOutOfBoundsException`; a length of zero
      or less reads nothing. */
  method SizeRange(cs: Codec, c: seq<JChar>, offset: int, length: int) returns (r: Result<int>)
    ensures r.Success? <==> length <= 0 || (0 <= offset && offset + length <= |c|)
    ensures r.Success? && length > 0 ==> r.value == SumSizes(cs, c[offset..offset + length])
    ensures r.Success? && length <= 0 ==> r.value == 0
    ensures r.Failure? ==> r.error == IndexOutOfBounds
  {
    var size := 0;
    var i := offset;
    var j := 0;
    while j < length
      invariant 0 <= j && (length >= 0 ==> j <= length) && (length <= 0 ==> j == 0)
      invariant i == offset + j
      invariant j > 0 ==> 0 <= offset && i <= |c| && size == SumSizes(cs, c[offset..i])
      invariant j == 0 ==> size == 0
    {
      if i < 0 || i >= |c| {
        return Failure(IndexOutOfBounds);
      }
      assert c[offset..i + 1][..i - offset] == c[offset..i];
      size := size + Size(cs, c[i]);
      i := i + 1;
      j := j + 1;
    }
    return Success(size);
  }

  /** `size(char[])`: the encoded size of a whole array. */
  method SizeAll(cs: Codec, c: seq<JChar>) returns (r: int)
    ensures r == SumSizes(cs, c)
  {
    var s := SizeRange(cs, c, 0, |c|);
    assert c[0..|c|] == c;
    r := s.value;
  }

  /** The private `skip(buffer, length)`: moves past `length` bytes when that many remain. */
  function SkipBytes(b: Buffer, length: int): (r: Result<(bool, Buffer)>)
    ensures length >= 0 ==> r.Success?
    ensures r.Success? && r.value.0 ==>
              r.value.1.position == b.position + length &&
              r.value.1.data == b.data && r.value.1.limit == b.limit
    ensures r.Success? && !r.value.0 ==> r.value.1 == b && Remaining(b) < length
  {
    if Remaining(b) >= length then
      var moved :- SetPosition(b, b.position + length);
      Success((true, moved))
    else
      Success((false, b))
  }

  /** `skip(buffer, char[], offset, length)`: moves past the bytes the characters would take,
      if the buffer holds that many. */
  method Skip(cs: Codec, b: Buffer, c: seq<JChar>, offset: int, length: int)
    returns (r: Result<(bool, Buffer)>)
    ensures r.Success? <==> length <= 0 || (0 <= offset && offset + length <= |c|)
    ensures r.Success? && r.value.0 && length > 0 ==>
              r.value.1 == b.(position := b.position + SumSizes(cs, c[offset..offset + length]))
    ensures r.Success? && length > 0 ==>
              (r.value.0 <==> Remaining(b) >= SumSizes(cs, c[offset..offset + length]))
    ensures r.Success? && length <= 0 ==> r.value == (true, b)
    ensures r.Success? && !r.value.0 ==> r.value.1 == b
  {
    var size :- SizeRange(cs, c, offset, length);
    r := SkipBytes(b, size);
  }

  /** What a bulk read leaves behind: either it returned, or it threw after changing the
      array and the buffer. */
  datatype Filled =
    | Returned(valid: bool, chars: seq<JChar>, buffer: Buffer)
    | Thrown(error: Error, chars: seq<JChar>, buffer: Buffer)

  /** The loop shared by the array forms of `peek` and `read`, as written: the body's `l--`
      cancels the header's `l++`, so the counter never reaches `length`, and the exit for a
      negative `char` can never be taken. The loop stores one decode after another, the
      sentinels included, until the array index runs off the array. Each pass decodes before
      it stores, so the pass whose store throws has already consumed its character. */
  function FillLoop(dec: Decoder, b: Buffer, arr: seq<JChar>, p: int): (r: Filled)
    ensures r.Thrown? && r.error == IndexOutOfBounds
    ensures |r.chars| == |arr|
    decreases |arr| - p
  {
    var next := dec(b);
    if p < 0 || p >= |arr| then Thrown(IndexOutOfBounds, arr, next.1)
    else FillLoop(dec, next.1, arr[p := next.0], p + 1)
  }

  /** What the loop leaves behind: the array keeps its cells before the start index and
      holds successive decodes from there to its end; the position is where one decode more
      than the array holds left it, because the decode whose store throws is not undone. */
  lemma {:induction false} FillLoopContents(dec: Decoder, b: Buffer, arr: seq<JChar>, p: nat)
    requires p <= |arr|
    ensures FillLoop(dec, b, arr, p).chars == arr[..p] + Successive(dec, b, |arr| - p).0
    ensures FillLoop(dec, b, arr, p).buffer == Successive(dec, b, |arr| - p + 1).1
    decreases |arr| - p
  {
    SuccessiveFromFront(dec, b, |arr| - p + 1);
    if p < |arr| {
      var next := dec(b);
      FillLoopContents(dec, next.1, arr[p := next.0], p + 1);
      var rest := Successive(dec, next.1, |arr| - p - 1);
      SuccessiveFromFront(dec, b, |arr| - p);
      StoreThenAppend(arr, p, next.0, rest.0);
    }
  }

  /** Storing `d` at `p` and keeping the first `p + 1` cells is appending `d` to the first
      `p`. */
  lemma StoreThenAppend(arr: seq<JChar>, p: nat, d: JChar, rest: seq<JChar>)
    requires p < |arr|
    ensures arr[p := d][..p + 1] + rest == arr[..p] + ([d] + rest)
  {
    assert arr[p := d][..p + 1] == arr[..p] + [d];
  }

  /** `Successive` read from the front: the first decode, then the rest. */
  lemma {:induction false} SuccessiveFromFront(dec: Decoder, b: Buffer, n: nat)
    requires n > 0
    ensures var next := dec(b);
            Successive(dec, b, n).0 == [next.0] + Successive(dec, next.1, n - 1).0 &&
            Successive(dec, b, n).1 == Successive(dec, next.1, n - 1).1
  {
    if n > 1 {
      SuccessiveFromFront(dec, b, n - 1);
    }
  }

  /** `peek(buffer, char[], offset, length)`. With nothing to read it returns `true` and puts
      the position back; otherwise the loop never ends normally: it fills the array from
      `offset` to its end and throws `ArrayIndexOutOfBoundsException`, leaving the position
      where the decode that could not be stored left it. An offset outside the array throws
      after one decode, with the array untouched. */
  function PeekArray(dec: Decoder, b: Buffer, arr: seq<JChar>, offset: int, length: int)
    : (r: Filled)
    ensures length <= 0 ==> r == Returned(true, arr, b)
    ensures length > 0 ==> r.Thrown? && r.error == IndexOutOfBounds
    ensures length > 0 && 0 <= offset <= |arr| ==>
              r.chars == arr[..offset] + Successive(dec, b, |arr| - offset).0 &&
              r.buffer == Successive(dec, b, |arr| - offset + 1).1
    ensures length > 0 && (offset < 0 || offset >= |arr|) ==>
              r.chars == arr && r.buffer == dec(b).1
  {
    if length <= 0 then Returned(true, arr, b)
    else
      var r := FillLoop(dec, b, arr, offset);
      if 0 <= offset <= |arr| then FillLoopContents(dec, b, arr, offset); r else r
  }

  /** `read(buffer, char[], offset, length)`: the same loop as `peek`, with the same
      outcome; its branch that restores the position is never reached. */
  function ReadArray(dec: Decoder, b: Buffer, arr: seq<JChar>, offset: int, length: int)
    : (r: Filled)
    ensures length <= 0 ==> r == Returned(true, arr, b)
    ensures length > 0 ==> r == FillLoop(dec, b, arr, offset) && r.Thrown?
    ensures r == PeekArray(dec, b, arr, offset, length)
  {
    if length <= 0 then Returned(true, arr, b) else FillLoop(dec, b, arr, offset)
  }

  /** Encoding characters one after another until the first that `encode` refuses: how many
      were accepted, and the buffer and instance afterwards. A refused character may still
      have changed the buffer. */
  function EncodeRun<S>(enc: Encoder<S>, st: S, b: Buffer, s: seq<JChar>): (r: (nat, Buffer, S))
    ensures r.0 <= |s|
    decreases |s|
  {
    if s == [] then (0, b, st)
    else
      var e := enc(st, b, s[0]);
      if !e.0 then (0, e.1, e.2)
      else
        var rest := EncodeRun(enc, e.2, e.1, s[1..]);
        (rest.0 + 1, rest.1, rest.2)
  }

  /** Whether every `encode` only writes forward from the position, as `Encoded` says. */
  ghost predicate WritesForward<S(!new)>(enc: Encoder<S>) {
    forall st: S, b: Buffer, c: JChar :: Encoded(b, enc(st, b, c).1)
  }

  /** A run of encodes leaves every byte before the starting position as it was. */
  lemma {:induction false} EncodeRunWritesForward<S(!new)>(enc: Encoder<S>, st: S, b: Buffer,
                                                     s: seq<JChar>)
    requires WritesForward(enc)
    ensures SameBefore(b, EncodeRun(enc, st, b, s).1, b.position)
    ensures b.position <= EncodeRun(enc, st, b, s).1.position
    decreases |s|
  {
    if s != [] {
      var e := enc(st, b, s[0]);
      assert Encoded(b, e.1);
      if e.0 {
        EncodeRunWritesForward(enc, e.2, e.1, s[1..]);
        SameBeforeTrans(b, e.1, EncodeRun(enc, e.2, e.1, s[1..]).1, b.position, e.1.position);
      }
    }
  }

  /** The characters of `c` from `offset` that a loop over `length` indexes reaches before
      it runs off the array. */
  function Reached(c: seq<JChar>, offset: nat, length: nat): (r: seq<JChar>)
    ensures |r| <= length
    ensures forall k :: 0 <= k < |r| ==> offset + k < |c| && r[k] == c[offset + k]
    ensures offset + length <= |c| ==> r == c[offset..offset + length]
    ensures offset + length > |c| && length > 0 ==> |r| < length
  {
    if offset >= |c| then [] else if offset + length <= |c| then c[offset..offset + length]
    else c[offset..]
  }

  /** One step of `EncodeRun` part way along. */
  lemma EncodeRunAt<S>(enc: Encoder<S>, st: S, b: Buffer, s: seq<JChar>, k: nat)
    requires k < |s|
    ensures var e := enc(st, b, s[k]);
            EncodeRun(enc, st, b, s[k..]) ==
              if !e.0 then (0, e.1, e.2)
              else var rest := EncodeRun(enc, e.2, e.1, s[k + 1..]); (rest.0 + 1, rest.1, rest.2)
  {
    assert s[k..][0] == s[k] && s[k..][1..] == s[k + 1..];
  }

  /** `write(buffer, char[], offset, length)`: encodes characters from `offset` until
      `length` are written or one is refused, and returns how many were accepted. An index
      off the array throws `ArrayIndexOutOfBoundsException` once it is reached. */
  method Write<S>(enc: Encoder<S>, st: S, b: Buffer, c: seq<JChar>, offset: int, length: int)
    returns (r: Result<(int, Buffer, S)>)
    ensures length <= 0 ==> r == Success((0, b, st))
    ensures length > 0 && offset < 0 ==> r == Failure(IndexOutOfBounds)
    ensures length > 0 && 0 <= offset ==>
              var s := Reached(c, offset, length);
              var run := EncodeRun(enc, st, b, s);
              r == if run.0 == |s| && |s| < length then Failure(IndexOutOfBounds)
                   else Success((run.0 as int, run.1, run.2))
  {
    if length <= 0 {
      return Success((0, b, st));
    }
    if offset < 0 {
      return Failure(IndexOutOfBounds);
    }
    ghost var s := Reached(c, offset, length);
    ghost var run := EncodeRun(enc, st, b, s);
    var count := 0;
    var cur, cst := b, st;
    while count < length
      invariant 0 <= count <= |s|
      invariant run.0 == count + EncodeRun(enc, cst, cur, s[count..]).0
      invariant run.1 == EncodeRun(enc, cst, cur, s[count..]).1
      invariant run.2 == EncodeRun(enc, cst, cur, s[count..]).2
    {
      if offset + count >= |c| {
        assert count == |s|;
        return Failure(IndexOutOfBounds);
      }
      assert count < |s| && s[count] == c[offset + count];
      EncodeRunAt(enc, cst, cur, s, count);
      var e := enc(cst, cur, c[offset + count]);
      if !e.0 {
        return Success((count, e.1, e.2));
      }
      count, cur, cst := count + 1, e.1, e.2;
    }
    assert s[count..] == [];
    return Success((count, cur, cst));
  }

  /** The charsets whose `encode` either writes a whole character or nothing. */
  predicate WholeOrNothing(cs: Codec) {
    cs.Latin1? || cs.Ascii? || (cs.Utf16? && cs.state.endian != Utf16.NONE)
  }

  /** One `encode` in such a charset: an accepted character adds its size, a refused one
      writes nothing, and the instance stays such a charset. */
  lemma EncodeWholeOrNothing(cs: Codec, b: Buffer, c: JChar)
    requires WholeOrNothing(cs)
    ensures var e := Encode(cs, b, c);
            (e.0 ==> e.1.position == b.position + Size(cs, c)) && (!e.0 ==> e.1 == b) &&
            WholeOrNothing(e.2) && (e.2.Utf16? ==> e.2.state.endian == cs.state.endian)
  {
    var e := Encode(cs, b, c);
    if e.0 {
      EncodeAdvancesBySize(cs, b, c);
    } else {
      RefusedEncodeWritesNothing(cs, b, c);
    }
  }

  /** For the charsets whose `encode` either writes a whole character or nothing, the bytes
      `write` adds are the bytes `size` predicts for the characters it accepted. */
  lemma {:induction false} RunAdvancesBySize(cs: Codec, b: Buffer, s: seq<JChar>)
    requires WholeOrNothing(cs)
    ensures var run := EncodeRun(Encode, cs, b, s);
            run.1.position == b.position + SumSizes(cs, s[..run.0])
    decreases |s|
  {
    if s != [] {
      var e := Encode(cs, b, s[0]);
      EncodeWholeOrNothing(cs, b, s[0]);
      if !e.0 {
        assert EncodeRun(Encode, cs, b, s) == (0, b, e.2);
      } else {
        var rest := EncodeRun(Encode, e.2, e.1, s[1..]);
        RunAdvancesBySize(e.2, e.1, s[1..]);
        assert EncodeRun(Encode, cs, b, s) == (rest.0 + 1, rest.1, rest.2);
        SumSizesFront(cs, s[..rest.0 + 1]);
        assert s[..rest.0 + 1][1..] == s[1..][..rest.0];
        SizesAgree(cs, e.2, s[..rest.0 + 1][1..]);
      }
    }
  }

  /** `skip` is the cheap form of `write`: for the charsets whose `encode` writes a whole
      character or nothing, skipping the characters a write accepted in full succeeds and
      lands on the position the write reached. */
  lemma SkipLandsWhereWriteDoes(cs: Codec, b: Buffer, s: seq<JChar>)
    requires WholeOrNothing(cs)
    requires EncodeRun(Encode, cs, b, s).0 == |s|
    ensures var run := EncodeRun(Encode, cs, b, s);
            SkipBytes(b, SumSizes(cs, s)) == Success((true, b.(position := run.1.position)))
  {
    var run := EncodeRun(Encode, cs, b, s);
    var n := SumSizes(cs, s);
    SkipLandsAt(cs, b, s, run.1);
    SkipBytesRoom(b, n, run.1.position);
  }

  /** The position a full run reaches is the start plus the size of the run, within the
      limit. */
  lemma SkipLandsAt(cs: Codec, b: Buffer, s: seq<JChar>, after: Buffer)
    requires WholeOrNothing(cs)
    requires EncodeRun(Encode, cs, b, s).0 == |s| && EncodeRun(Encode, cs, b, s).1 == after
    ensures b.position + SumSizes(cs, s) == after.position && after.limit == b.limit
  {
    RunAdvancesBySize(cs, b, s);
    assert s[..|s|] == s;
    EncodeRunKeepsLimit(cs, b, s);
  }

  /** Skipping `n` bytes when the position plus `n` is within the limit. */
  lemma SkipBytesRoom(b: Buffer, n: int, p: int)
    requires 0 <= n && b.position + n == p <= b.limit
    ensures SkipBytes(b, n) == Success((true, b.(position := p)))
  {
  }

  /** A run of encodes never changes the limit. */
  lemma {:induction false} EncodeRunKeepsLimit(cs: Codec, b: Buffer, s: seq<JChar>)
    ensures EncodeRun(Encode, cs, b, s).1.limit == b.limit
    decreases |s|
  {
    if s != [] {
      var e := Encode(cs, b, s[0]);
      assert Encoded(b, e.1);
      if e.0 {
        EncodeRunKeepsLimit(e.2, e.1, s[1..]);
      }
    }
  }

  /** Two instances of one charset measure text alike: the size of a character does not
      depend on the byte order a UTF-16 instance has chosen. */
  lemma {:induction false} SizesAgree(cs: Codec, other: Codec, s: seq<JChar>)
    requires other == cs || (cs.Utf16? && other.Utf16?)
    ensures SumSizes(other, s) == SumSizes(cs, s)
    decreases |s|
  {
    if s != [] {
      SizesAgree(cs, other, s[..|s| - 1]);
    }
  }

  /** `SumSizes` counted from the front. */
  lemma {:induction false} SumSizesFront(cs: Codec, s: seq<JChar>)
    requires s != []
    ensures SumSizes(cs, s) == Size(cs, s[0]) + SumSizes(cs, s[1..])
    decreases |s|
  {
    if |s| > 1 {
      SumSizesFront(cs, s[..|s| - 1]);
      assert s[..|s| - 1][1..] == s[1..][..|s| - 2];
    }
  }
}

=== FILE: appendable_delegate.dfy ===
/** The accumulator of uk.org.retep.niosax.internal.core.AppendableParserDelegate: each
    delegate collects the characters of the name, value or text it is reading in an
    `Appendable`, which may be swapped for another one and later restored from its parent
    link. The accumulator is a reference and may become `null`. */
module AppendableDelegate {
  import opened JavaLang
  import opened Appendables

  /** The accumulator field. */
  type Accumulator = Option<CharAppendable>

  /** A buffer and every buffer up its parent chain keep their count inside their array. */
  predicate ValidChain(a: CharAppendable)
    decreases a
  {
    Valid(a) && (a.parent.Some? ==> ValidChain(a.parent.value))
  }

  predicate ValidAccumulator(acc: Accumulator) {
    acc.Some? ==> ValidChain(acc.value)
  }

  /** The constructor: every delegate starts with a new, empty buffer of its own. */
  function Initial(): (r: Accumulator)
    ensures r.Some? && ValidChain(r.value) && Contents(r.value) == [] && r.value.parent.None?
  {
    Some(Empty())
  }

  /** `setAppendable(x)`: the field is assigned what `x.setParent(field)` returns, which is
      the old field itself. So the current buffer does not change; only `x` gains the
      current buffer as its parent. The second component is the `x` handed back. */
  function SetAppendable(acc: Accumulator, x: CharAppendable): (r: (Accumulator, CharAppendable))
    ensures r.0 == acc
    ensures r.1.parent == acc && r.1.buf == x.buf && r.1.count == x.count
  {
    var (x', returned) := SetParent(x, acc);
    (returned, x')
  }

  /** `restoreParentAppendable`: the current buffer is replaced by its parent, unless it is
      `null`. */
  function RestoreParentAppendable(acc: Accumulator): (r: Accumulator)
    requires ValidAccumulator(acc)
    ensures ValidAccumulator(r)
    ensures acc.None? ==> r.None?
    ensures acc.Some? ==> r == acc.value.parent
  {
    if acc.Some? then acc.value.parent else acc
  }

  /** `getAppendableString` and `getAppendableChars`: the contents, after which the buffer is
      empty. */
  function TakeContents(acc: Accumulator): (r: Result<(JString, Accumulator)>)
    requires ValidAccumulator(acc)
    ensures r.Failure? <==> acc.None?
    ensures r.Failure? ==> r.error == NullPointer
    ensures r.Success? ==> r.value.0 == Contents(acc.value) && r.value.1.Some? &&
                           ValidAccumulator(r.value.1) &&
                           Contents(r.value.1.value) == [] &&
                           r.value.1.value.parent == acc.value.parent
  {
    if acc.None? then Failure(NullPointer)
    else Success((ToCharArray(acc.value), Some(Reset(acc.value))))
  }

  /** `append(c)`: to the current buffer only. */
  function AppendTo(acc: Accumulator, c: JChar): (r: Result<Accumulator>)
    requires ValidAccumulator(acc)
    ensures r.Failure? <==> acc.None?
    ensures r.Failure? ==> r.error == NullPointer
    ensures r.Success? ==> r.value.Some? && ValidAccumulator(r.value) &&
                           Contents(r.value.value) == Contents(acc.value) + [c] &&
                           r.value.value.parent == acc.value.parent
  {
    if acc.None? then Failure(NullPointer) else Success(Some(Append(acc.value, c)))
  }

  /** Because `setAppendable` leaves the current buffer in place, characters appended after it
      still go to the old buffer, and the buffer passed in never sees them. */
  lemma SwapHasNoEffect(acc: Accumulator, x: CharAppendable, c: JChar)
    requires ValidAccumulator(acc) && acc.Some? && Valid(x)
    ensures var (cur, x') := SetAppendable(acc, x);
            Contents(AppendTo(cur, c).value.value) == Contents(acc.value) + [c] &&
            x'.buf[..x'.count] == Contents(x)
  {
  }

  /** Restoring after a swap therefore does not come back to the buffer that was current
      before the swap: it moves one step further up, to that buffer's own parent, which for a
      fresh delegate is `null`. */
  lemma RestoreAfterSwapOvershoots(x: CharAppendable)
    ensures var (cur, _) := SetAppendable(Initial(), x);
            RestoreParentAppendable(cur).None?
  {
  }

  /** Taking the contents after appending a string to an empty buffer gives back the
      string. */
  lemma {:induction false} AppendThenTake(acc: Accumulator, s: JString)
    requires ValidAccumulator(acc) && acc.Some? && Contents(acc.value) == []
    ensures TakeContents(AppendAll(acc, s)).Success?
    ensures TakeContents(AppendAll(acc, s)).value.0 == s
    decreases |s|
  {
    AppendAllContents(acc, s);
  }

  /** Appending every character of a string, in order. */
  function AppendAll(acc: Accumulator, s: JString): (r: Accumulator)
    requires ValidAccumulator(acc) && acc.Some?
    ensures ValidAccumulator(r) && r.Some?
    decreases |s|
  {
    if s == [] then acc else AppendAll(AppendTo(acc, s[0]).value, s[1..])
  }

  /** Appending a string adds exactly that string. */
  lemma {:induction false} AppendAllContents(acc: Accumulator, s: JString)
    requires ValidAccumulator(acc) && acc.Some?
    ensures Contents(AppendAll(acc, s).value) == Contents(acc.value) + s
    decreases |s|
  {
    if s != [] {
      AppendAllContents(AppendTo(acc, s[0]).value, s[1..]);
      assert [s[0]] + s[1..] == s;
    }
  }
}

=== FILE: attribute_list.dfy ===
/** uk.org.retep.niosax.internal.helper.AttributeList: the attributes of a start tag in the
    order they were written, as (qualified name, value) pairs; the namespace declarations
    among them; and the SAX `Attributes` handed to `startElement`. */
module AttributeLists {
  import opened JavaLang
  import opened Sax
  import opened Namespaces

  datatype AttributeList = AttributeList(entries: seq<(JString, JString)>, capacity: nat)

  /** The array never holds fewer slots than there are attributes. */
  predicate Valid(l: AttributeList) {
    |l.entries| <= l.capacity
  }

  /** The lists the class's own methods can produce. */
  type ValidList = l: AttributeList | Valid(l) witness AttributeList([], 10)

  /** The constructor: room for ten attributes, none stored. */
  function New(): (r: AttributeList)
    ensures Valid(r) && r.entries == [] && r.capacity == 10
  {
    AttributeList([], 10)
  }

  /** `addAttribute`: the pair goes at the end; the array doubles, or grows to fit, when
      full. */
  function AddAttribute(l: AttributeList, qName: JString, value: JString): (r: AttributeList)
    requires Valid(l)
    ensures Valid(r) && r.entries == l.entries + [(qName, value)]
    ensures Size(r) == Size(l) + 1
    ensures |l.entries| < l.capacity ==> r.capacity == l.capacity
    ensures |l.entries| == l.capacity ==>
              r.capacity == if 2 * l.capacity >= |l.entries| + 1 then 2 * l.capacity
                            else |l.entries| + 1
  {
    var n := |l.entries| + 1;
    var cap := if n > l.capacity then (if 2 * l.capacity >= n then 2 * l.capacity else n)
               else l.capacity;
    AttributeList(l.entries + [(qName, value)], cap)
  }

  /** `size`. */
  function Size(l: AttributeList): (r: nat)
    ensures r == |l.entries|
  {
    |l.entries|
  }

  /** `isEmpty`: holds exactly when no pair is stored. */
  function IsEmpty(l: AttributeList): (r: bool)
    ensures r <==> l.entries == []
  {
    Size(l) == 0
  }

  /** `size` counts the pairs added since construction: a new list holds none, and every
      `addAttribute` adds one and leaves the list non-empty. */
  lemma SizeCountsAdditions(l: AttributeList, qName: JString, value: JString)
    requires Valid(l)
    ensures Size(New()) == 0 && IsEmpty(New())
    ensures Size(AddAttribute(l, qName, value)) == Size(l) + 1
    ensures !IsEmpty(AddAttribute(l, qName, value))
    ensures AddAttribute(l, qName, value).entries[Size(l)] == (qName, value)
  {
  }

  /** `XMLNS`. */
  function Xmlns(): JString {
    Lit("xmlns")
  }

  /** An attribute counts as a namespace declaration when its name starts with "xmlns", so
      "xmlnsfoo" counts too. */
  predicate IsDeclaration(qName: JString) {
    StartsWith(qName, Xmlns())
  }

  /** The prefix a declaration declares: what follows the first ':', or the empty prefix of
      the default namespace when there is no ':'. */
  function DeclaredPrefix(qName: JString): (r: JString)
    ensures ':' as int !in qName ==> r == []
    ensures ':' as int in qName ==> r == qName[IndexOf(qName, ':' as int) + 1..]
  {
    var idx := IndexOf(qName, ':' as int) + 1;
    if idx == 0 then [] else qName[idx..]
  }

  /** The declarations among the attributes, in order, as (prefix, URI). */
  function Declarations(entries: seq<(JString, JString)>): (r: seq<(JString, JString)>)
    ensures |r| == 0 <==> forall i :: 0 <= i < |entries| ==> !IsDeclaration(entries[i].0)
    ensures |r| <= |entries|
  {
    if entries == [] then []
    else
      var rest := Declarations(entries[1..]);
      assert forall i :: 1 <= i < |entries| ==> entries[i] == entries[1..][i - 1];
      if IsDeclaration(entries[0].0) then [(DeclaredPrefix(entries[0].0), entries[0].1)] + rest
      else rest
  }

  /** The callbacks `declarePrefix` makes for a list of declarations: for each, a start and at
      once an end of its mapping. */
  function MappingEvents(ds: seq<(JString, JString)>): (r: seq<Event>)
    ensures |r| == 2 * |ds|
    ensures forall k :: 0 <= k < |ds| ==>
              r[2 * k] == StartPrefixMapping(ds[k].0, ds[k].1) && r[2 * k + 1] == EndPrefixMapping(ds[k].0)
  {
    if ds == [] then []
    else
      var rest := MappingEvents(ds[1..]);
      assert forall k :: 1 <= k < |ds| ==> ds[k] == ds[1..][k - 1];
      [StartPrefixMapping(ds[0].0, ds[0].1), EndPrefixMapping(ds[0].0)] + rest
  }

  /** A context with the declarations bound one after the other. */
  function BindAll(ctx: Context, ds: seq<(JString, JString)>): Context
    decreases |ds|
  {
    if ds == [] then ctx else BindAll(Bind(ctx, ds[0].0, ds[0].1), ds[1..])
  }

  /** The stack with the declarations bound, one after the other, in its current context. */
  function DeclareAll(ns: Support, ds: seq<(JString, JString)>): (r: Support)
    ensures |r| == |ns| && r[..|ns| - 1] == ns[..|ns| - 1]
    ensures Current(r) == BindAll(Current(ns), ds)
  {
    ns[..|ns| - 1] + [BindAll(Current(ns), ds)]
  }

  /** Whether every declaration may be made. */
  predicate AllDeclarable(ds: seq<(JString, JString)>) {
    forall k :: 0 <= k < |ds| ==> !Reserved(ds[k].0)
  }

  /** What `processNames` leaves behind: the namespace stack, the callbacks made, whether it
      pushed a context, and the exception it threw, if any. After an exception the stack is
      as it was at the throw and the callbacks are those of the declarations completed
      before it. */
  datatype Processed = Processed(ns: Support, events: seq<Event>, pushed: bool,
                                 error: Option<Error>)

  /** The loop of `processNames` from attribute `i` on. */
  function ProcessFrom(h: Handlers, ns: Support, events: seq<Event>,
                       entries: seq<(JString, JString)>, i: nat, pushed: bool): (r: Processed)
    requires i <= |entries|
    decreases |entries| - i
  {
    if i == |entries| then Processed(ns, events, pushed, None)
    else if IsDeclaration(entries[i].0) then
      var ns1 := if pushed then ns else Push(ns);
      var d := DeclarePrefix(h, ns1, events, DeclaredPrefix(entries[i].0), entries[i].1);
      if d.Failure? then Processed(ns1, events, true, Some(d.error))
      else ProcessFrom(h, d.value.0, d.value.1, entries, i + 1, true)
    else ProcessFrom(h, ns, events, entries, i + 1, pushed)
  }

  /** `processNames`. It pushes one context, before the first declaration, exactly when there
      is a declaration, and reports whether it did. It then declares each prefix in that
      context. A refused declaration, or a missing content handler, throws; the context it
      pushed stays pushed. */
  function ProcessNames(h: Handlers, ns: Support, l: AttributeList): (r: Processed)
    ensures var ds := Declarations(l.entries);
            (r.pushed <==> |ds| > 0) &&
            (r.error.None? <==> |ds| == 0 || (h.content && AllDeclarable(ds))) &&
            (r.error.None? ==> r.events == MappingEvents(ds) &&
                               r.ns == if |ds| == 0 then ns else DeclareAll(Push(ns), ds)) &&
            (r.error.Some? ==> |r.ns| == |ns| + 1 && r.ns[..|ns|] == ns)
  {
    assert l.entries[0..] == l.entries;
    ProcessFromPushed(h, ns, [], l.entries, 0, false);
    ProcessFromFails(h, ns, [], l.entries, 0, false);
    ProcessFromSucceeds(h, ns, [], l.entries, 0, false);
    ProcessFromLeaks(h, ns, [], l.entries, 0, false);
    ProcessFrom(h, ns, [], l.entries, 0, false)
  }

  /** The declarations from attribute `i` on: those of attribute `i`, then the rest. */
  lemma DeclarationsStep(entries: seq<(JString, JString)>, i: nat)
    requires i < |entries|
    ensures Declarations(entries[i..]) ==
              (if IsDeclaration(entries[i].0) then [(DeclaredPrefix(entries[i].0), entries[i].1)]
               else []) + Declarations(entries[i + 1..])
  {
    assert entries[i..][1..] == entries[i + 1..];
  }

  lemma AllDeclarableCons(d: (JString, JString), ds: seq<(JString, JString)>)
    ensures AllDeclarable([d] + ds) <==> !Reserved(d.0) && AllDeclarable(ds)
  {
    var all := [d] + ds;
    assert all[0] == d;
    if !Reserved(d.0) && AllDeclarable(ds) {
      forall k | 0 <= k < |all| ensures !Reserved(all[k].0) {
        if k > 0 { assert all[k] == ds[k - 1]; }
      }
    }
    if AllDeclarable(all) {
      forall k | 0 <= k < |ds| ensures !Reserved(ds[k].0) {
        assert ds[k] == all[k + 1];
      }
    }
  }

  /** Declaring a list of prefixes one after the other. */
  lemma DeclareStep(ns: Support, d: (JString, JString), ds: seq<(JString, JString)>)
    requires !Reserved(d.0)
    ensures DeclareAll(Declare(ns, d.0, d.1).1, ds) == DeclareAll(ns, [d] + ds)
  {
    assert ([d] + ds)[1..] == ds;
  }

  lemma DeclareNone(ns: Support)
    ensures DeclareAll(ns, []) == ns
  {
  }

  /** The loop pushes when a context was pushed already or a declaration is still to come. */
  lemma {:induction false} ProcessFromPushed(h: Handlers, ns: Support, events: seq<Event>,
                                             entries: seq<(JString, JString)>, i: nat,
                                             pushed: bool)
    requires i <= |entries|
    ensures ProcessFrom(h, ns, events, entries, i, pushed).pushed <==>
              pushed || |Declarations(entries[i..])| > 0
    decreases |entries| - i
  {
    if i < |entries| {
      DeclarationsStep(entries, i);
      if IsDeclaration(entries[i].0) {
        var ns1 := if pushed then ns else Push(ns);
        var dp := DeclarePrefix(h, ns1, events, DeclaredPrefix(entries[i].0), entries[i].1);
        if dp.Success? {
          ProcessFromPushed(h, dp.value.0, dp.value.1, entries, i + 1, true);
        }
      } else {
        ProcessFromPushed(h, ns, events, entries, i + 1, pushed);
      }
    }
  }

  /** The loop throws exactly when a declaration is still to come and either there is no
      content handler or some prefix to come is reserved. */
  lemma {:induction false} ProcessFromFails(h: Handlers, ns: Support, events: seq<Event>,
                                            entries: seq<(JString, JString)>, i: nat,
                                            pushed: bool)
    requires i <= |entries|
    ensures var ds := Declarations(entries[i..]);
            ProcessFrom(h, ns, events, entries, i, pushed).error.None? <==>
              |ds| == 0 || (h.content && AllDeclarable(ds))
    decreases |entries| - i
  {
    if i < |entries| {
      DeclarationsStep(entries, i);
      if IsDeclaration(entries[i].0) {
        var d := (DeclaredPrefix(entries[i].0), entries[i].1);
        AllDeclarableCons(d, Declarations(entries[i + 1..]));
        var ns1 := if pushed then ns else Push(ns);
        var dp := DeclarePrefix(h, ns1, events, d.0, d.1);
        if dp.Success? {
          ProcessFromFails(h, dp.value.0, dp.value.1, entries, i + 1, true);
        }
      } else {
        ProcessFromFails(h, ns, events, entries, i + 1, pushed);
      }
    }
  }

  /** Without an exception the loop makes the start and end callbacks of each declaration to
      come and binds each of them in the (pushed) current context. */
  lemma {:induction false} ProcessFromSucceeds(h: Handlers, ns: Support, events: seq<Event>,
                                               entries: seq<(JString, JString)>, i: nat,
                                               pushed: bool)
    requires i <= |entries|
    ensures var r := ProcessFrom(h, ns, events, entries, i, pushed);
            var ds := Declarations(entries[i..]);
            r.error.None? ==>
              r.events == events + MappingEvents(ds) &&
              r.ns == if |ds| == 0 then ns else DeclareAll(if pushed then ns else Push(ns), ds)
    decreases |entries| - i
  {
    if i < |entries| {
      DeclarationsStep(entries, i);
      var rest := Declarations(entries[i + 1..]);
      if IsDeclaration(entries[i].0) {
        var d := (DeclaredPrefix(entries[i].0), entries[i].1);
        var ns1 := if pushed then ns else Push(ns);
        var dp := DeclarePrefix(h, ns1, events, d.0, d.1);
        if dp.Success? {
          ProcessFromSucceeds(h, dp.value.0, dp.value.1, entries, i + 1, true);
          DeclareStep(ns1, d, rest);
          DeclareNone(dp.value.0);
          assert MappingEvents([d] + rest) ==
                 [StartPrefixMapping(d.0, d.1), EndPrefixMapping(d.0)] + MappingEvents(rest) by {
            assert ([d] + rest)[1..] == rest;
          }
        }
      } else {
        ProcessFromSucceeds(h, ns, events, entries, i + 1, pushed);
      }
    }
  }

  /** After an exception the contexts below the one the loop works in are untouched, and a
      context pushed by the loop is still there. */
  lemma {:induction false} ProcessFromLeaks(h: Handlers, ns: Support, events: seq<Event>,
                                            entries: seq<(JString, JString)>, i: nat,
                                            pushed: bool)
    requires i <= |entries|
    ensures var r := ProcessFrom(h, ns, events, entries, i, pushed);
            var kept := if pushed then |ns| - 1 else |ns|;
            r.error.Some? ==>
              |r.ns| == |ns| + (if pushed then 0 else 1) && r.ns[..kept] == ns[..kept]
    decreases |entries| - i
  {
    if i < |entries| {
      if IsDeclaration(entries[i].0) {
        var ns1 := if pushed then ns else Push(ns);
        var dp := DeclarePrefix(h, ns1, events, DeclaredPrefix(entries[i].0), entries[i].1);
        if dp.Success? {
          ProcessFromLeaks(h, dp.value.0, dp.value.1, entries, i + 1, true);
          var r := ProcessFrom(h, dp.value.0, dp.value.1, entries, i + 1, true);
          var kept := if pushed then |ns| - 1 else |ns|;
          if r.error.Some? {
            assert r.ns[..kept] == dp.value.0[..kept] by {
              assert r.ns[..|ns1| - 1] == dp.value.0[..|ns1| - 1];
            }
            assert dp.value.0[..kept] == ns1[..kept] by {
              assert dp.value.0[..|ns1| - 1] == ns1[..|ns1| - 1];
            }
          }
        }
      } else {
        ProcessFromLeaks(h, ns, events, entries, i + 1, pushed);
      }
    }
  }

  /** The type every attribute is reported with (section 3.3.3 of the XML 1.0
      Recommendation). */
  function Cdata(): JString {
    Lit("CDATA")
  }

  /** Whether an attribute name's prefix, if any, is declared. */
  predicate Declared(ns: Support, name: JString) {
    ProcessName(ns, name, true).Some?
  }

  /** `j` is the first stored pair whose name has an undeclared prefix. */
  predicate FirstUndeclared(ns: Support, entries: seq<(JString, JString)>, j: int) {
    0 <= j < |entries| && !Declared(ns, entries[j].0) &&
    forall i :: 0 <= i < j ==> Declared(ns, entries[i].0)
  }

  /** The first undeclared name after the first pair is the first overall when the first
      pair's name is declared. */
  lemma FirstUndeclaredShift(ns: Support, entries: seq<(JString, JString)>, j: int)
    requires entries != [] && Declared(ns, entries[0].0)
    requires FirstUndeclared(ns, entries[1..], j)
    ensures FirstUndeclared(ns, entries, j + 1) && entries[j + 1] == entries[1..][j]
  {
    forall i | 1 <= i < j + 1 ensures Declared(ns, entries[i].0) {
      assert entries[i] == entries[1..][i - 1];
    }
  }

  /** `getAttributes`: one SAX attribute per stored pair, in order, declarations included,
      each with its name resolved, type CDATA and its value as written. The first name with an
      undeclared prefix throws. */
  function GetAttributes(ns: Support, entries: seq<(JString, JString)>)
    : (r: Result<seq<Attribute>>)
    ensures r.Success? <==> forall i :: 0 <= i < |entries| ==> Declared(ns, entries[i].0)
    ensures r.Success? ==>
              |r.value| == |entries| &&
              forall i :: 0 <= i < |entries| ==>
                r.value[i] == Attribute(ProcessName(ns, entries[i].0, true).value, Cdata(),
                                        entries[i].1)
    ensures r.Failure? ==>
              exists j :: FirstUndeclared(ns, entries, j) &&
                          r.error == UndeclaredNamespace(entries[j].0)
  {
    if entries == [] then Success([])
    else
      var name :- ResolveName(ns, entries[0].0, true);
      var rest := GetAttributes(ns, entries[1..]);
      assert forall i :: 1 <= i < |entries| ==> entries[i] == entries[1..][i - 1];
      if rest.Failure? then
        var j :| FirstUndeclared(ns, entries[1..], j) &&
                 rest.error == UndeclaredNamespace(entries[1..][j].0);
        FirstUndeclaredShift(ns, entries, j);
        Failure(rest.error)
      else
        Success([Attribute(name, Cdata(), entries[0].1)] + rest.value)
  }
}

=== FILE: byte_buffer.dfy ===
/** The part of `java.nio.ByteBuffer` the codecs use: a block of bytes with a read/write
    position and a limit. Reads and writes happen at the position and move it forward; the
    bytes between the position and the limit are the buffer's "remaining" bytes. */
module Buffers {
  import opened JavaLang

  datatype ByteBuffer = ByteBuffer(data: seq<Byte>, position: nat, limit: nat)

  /** The buffer invariant `0 <= position <= limit <= capacity`. */
  type Buffer = b: ByteBuffer | b.position <= b.limit <= |b.data| witness ByteBuffer([], 0, 0)

  /** `ByteBuffer.wrap(bytes)`: the whole array, read from the start. */
  function Wrap(bytes: seq<Byte>): (r: Buffer)
    ensures r.data == bytes && r.position == 0 && Remaining(r) == |bytes|
  {
    ByteBuffer(bytes, 0, |bytes|)
  }

  /** `remaining()`. */
  function Remaining(b: Buffer): nat {
    b.limit - b.position
  }

  /** `get()`: the byte at the position; the position moves past it. */
  function Get(b: Buffer): (r: (Byte, Buffer))
    requires Remaining(b) > 0
    ensures r.0 == b.data[b.position]
    ensures r.1 == b.(position := b.position + 1)
  {
    (b.data[b.position], b.(position := b.position + 1))
  }

  /** `put(x)`: stores a byte at the position; the position moves past it. */
  function Put(b: Buffer, x: Byte): (r: Buffer)
    requires Remaining(b) > 0
    ensures r.position == b.position + 1 && r.limit == b.limit
    ensures r.data == b.data[b.position := x]
  {
    ByteBuffer(b.data[b.position := x], b.position + 1, b.limit)
  }

  /** `position(p)`: moves the position; a position outside `[0, limit]` is refused. */
  function SetPosition(b: Buffer, p: int): (r: Result<Buffer>)
    ensures r.Success? <==> 0 <= p <= b.limit
    ensures r.Success? ==> r.value == b.(position := p)
    ensures r.Failure? ==> r.error == IllegalArgument
  {
    if 0 <= p <= b.limit then Success(b.(position := p)) else Failure(IllegalArgument)
  }

  /** The same bytes and position seen through a different limit: how the model describes a
      buffer that has received more data since it was last read. */
  function WithLimit(b: Buffer, limit: nat): (r: Buffer)
    requires b.position <= limit <= |b.data|
    ensures r.data == b.data && r.position == b.position && r.limit == limit
  {
    b.(limit := limit)
  }

  /** Two buffers that differ at most in what has been written from `from` onwards. */
  predicate SameBefore(a: Buffer, b: Buffer, from: nat) {
    |a.data| == |b.data| && a.limit == b.limit &&
    from <= |a.data| && a.data[..from] == b.data[..from]
  }
  /** Writing from `p` and then from some `q >= p` on leaves everything before `p` as it was. */
  lemma SameBeforeTrans(a: Buffer, b: Buffer, c: Buffer, p: nat, q: nat)
    requires SameBefore(a, b, p) && SameBefore(b, c, q) && p <= q
    ensures SameBefore(a, c, p)
  {
    assert c.data[..q][..p] == b.data[..q][..p];
  }

  /** `compact()`: the remaining bytes move to the front, the position follows them and the
      limit opens up to the capacity, ready for more bytes to be written. The bytes past the
      moved ones are left as they were. */
  function Compact(b: Buffer): (r: Buffer)
    ensures |r.data| == |b.data| && r.limit == |b.data| && r.position == Remaining(b)
    ensures r.data[..r.position] == b.data[b.position..b.limit]
    ensures r.data[r.position..] == b.data[r.position..]
  {
    var n := Remaining(b);
    ByteBuffer(b.data[b.position..b.limit] + b.data[n..], n, |b.data|)
  }

  /** `flip()`: what was written becomes what is to be read. */
  function Flip(b: Buffer): (r: Buffer)
    ensures r.data == b.data && r.position == 0 && r.limit == b.position
  {
    ByteBuffer(b.data, 0, b.position)
  }

  /** A compact followed by a flip, with nothing written in between, leaves exactly the bytes
      that were still to be read, now at the front. */
  lemma CompactKeepsUnread(b: Buffer)
    ensures var r := Flip(Compact(b));
            r.position == 0 && r.data[r.position..r.limit] == b.data[b.position..b.limit]
  {
  }
}

=== FILE: cdata_engine.dfy ===
/** uk.org.retep.niosax.internal.core.engine.CDataStateEngine: the body of a CDATA section,
    after "<![CDATA[", up to and including "]]>". */
module CDataEngine {
  import opened JavaLang
  import opened Sax
  import opened Namespaces
  import opened Frames

  /** The brackets a state has seen but not yet put in the accumulator. */
  function Pending(k: CDataState): (r: JString)
    ensures |r| <= 2 && forall i :: 0 <= i < |r| ==> r[i] == ']' as int
  {
    match k
    case CDataStart => []
    case CDataNormal => []
    case CDataEnd1 => [']' as int]
    case CDataEnd2 => [']' as int, ']' as int]
  }

  /** `NORMAL`: a ']' may begin the closing "]]>" and is held back; anything else is text. */
  function NormalStep(d: MarkupData, ns: Support, events: seq<Event>, c: JChar)
    : (r: Outcome<MarkupData>)
    ensures r.ns == ns && r.events == events && r.effect == Stay
    ensures r.frame.state == State(InCData(if c == ']' as int then CDataEnd1 else CDataNormal))
    ensures r.frame.text + Pending(r.frame.state.s.d) == d.text + [c]
  {
    if c == ']' as int then Keep(MarkupData(State(InCData(CDataEnd1)), d.text), ns, events)
    else Keep(MarkupData(State(InCData(CDataNormal)), d.text + [c]), ns, events)
  }

  /** One character of a CDATA body. The first one is preceded by `startCDATA` to the
      lexical handler, if there is one. Every character read goes either into the
      accumulator or into the pending brackets, except the '>' of "]]>": then the whole body
      goes to the content handler as one `characters` call (which fails without a content
      handler), `endCDATA` follows, and the delegate finishes. */
  function Step(d: MarkupData, k: CDataState, h: Handlers, ns: Support, events: seq<Event>,
                c: JChar): (r: Result<Outcome<MarkupData>>)
    ensures r.Failure? <==> k == CDataEnd2 && c == '>' as int && !h.content
    ensures r.Failure? ==> r.error == NullPointer
    ensures r.Success? ==> r.value.ns == ns
    ensures r.Success? && k == CDataEnd2 && c == '>' as int ==>
              r.value.effect == Finish && r.value.frame.state == Completed &&
              r.value.events == events + [Characters(d.text)] +
                                (if h.lexical then [EndCData] else [])
    ensures r.Success? && !(k == CDataEnd2 && c == '>' as int) ==>
              r.value.effect == Stay &&
              r.value.events == events + (if k == CDataStart && h.lexical then [StartCData] else []) &&
              r.value.frame.state.State? && r.value.frame.state.s.InCData? &&
              r.value.frame.state.s.d == (if k == CDataEnd2 || c != ']' as int then CDataNormal
                                          else if k == CDataEnd1 then CDataEnd2
                                          else CDataEnd1) &&
              r.value.frame.text + Pending(r.value.frame.state.s.d) ==
                d.text + Pending(k) + [c]
  {
    match k
    case CDataStart =>
      var evs := Emit(h, events, StartCData).value;
      Success(NormalStep(d, ns, evs, c))
    case CDataNormal => Success(NormalStep(d, ns, events, c))
    case CDataEnd1 =>
      if c == ']' as int then Success(Keep(d.(state := State(InCData(CDataEnd2))), ns, events))
      else
        Success(Keep(MarkupData(State(InCData(CDataNormal)), d.text + [']' as int, c]),
                     ns, events))
    case CDataEnd2 =>
      if c == '>' as int then
        var evs :- Emit(h, events, Characters(d.text));
        var evs' := Emit(h, evs, EndCData).value;
        Success(Outcome(d.(state := Completed), ns, evs', Finish))
      else
        var t := d.text + [']' as int, ']' as int, c];
        Success(Keep(MarkupData(State(InCData(CDataNormal)), t), ns, events))
  }
}

=== FILE: char_appendable.dfy ===
/** uk.org.retep.niosax.internal.helper.CharAppendable: a growable `char` buffer with a link
    to a parent buffer. Its meaning is the sequence of the first `count` characters of its
    array, `Contents`; the array itself may be longer and keeps whatever was written past the
    count. */
module Appendables {
  import opened JavaLang

  datatype CharAppendable = CharAppendable(parent: Option<CharAppendable>, buf: seq<JChar>,
                                           count: nat)

  /** The count never passes the array. */
  predicate Valid(a: CharAppendable) {
    a.count <= |a.buf|
  }

  /** The characters appended since the last reset. */
  function Contents(a: CharAppendable): (r: seq<JChar>)
    requires Valid(a)
    ensures |r| == a.count
  {
    a.buf[..a.count]
  }

  /** A new `char[n]`: every element is U+0000. */
  function Zeros(n: nat): (r: seq<JChar>)
    ensures |r| == n && forall i :: 0 <= i < n ==> r[i] == 0
  {
    seq(n, _ => 0)
  }

  /** The capacity used when none is given. */
  const DEFAULT_SIZE: nat := 32

  /** The two-argument constructor: a negative size is refused. */
  function New(parent: Option<CharAppendable>, initialSize: int): (r: Result<CharAppendable>)
    ensures r.Failure? <==> initialSize < 0
    ensures r.Failure? ==> r.error == IllegalArgument
    ensures r.Success? ==> Valid(r.value) && Contents(r.value) == [] &&
                           |r.value.buf| == initialSize && r.value.parent == parent
  {
    if initialSize < 0 then Failure(IllegalArgument)
    else Success(CharAppendable(parent, Zeros(initialSize), 0))
  }

  /** The no-argument constructor. */
  function Empty(): (r: CharAppendable)
    ensures Valid(r) && Contents(r) == [] && r.parent.None? && |r.buf| == DEFAULT_SIZE
  {
    New(None, DEFAULT_SIZE).value
  }

  /** The constructor taking a parent, which it passes on as `null`: the parent given is
      dropped. */
  function WithParent(parent: Option<CharAppendable>): (r: CharAppendable)
    ensures Valid(r) && Contents(r) == [] && r.parent.None?
  {
    New(None, DEFAULT_SIZE).value
  }

  /** `setParent`: stores the parent and hands back the parent, not the buffer itself. */
  function SetParent(a: CharAppendable, parent: Option<CharAppendable>)
    : (r: (CharAppendable, Option<CharAppendable>))
    ensures r.0.parent == parent && r.0.buf == a.buf && r.0.count == a.count
    ensures r.1 == parent
  {
    (a.(parent := parent), parent)
  }

  /** The capacity `Arrays.copyOf` grows the array to when `needed` characters must fit:
      double the old length or exactly what is needed, whichever is larger. */
  function Grown(length: nat, needed: nat): (r: nat)
    ensures r >= needed && r >= 2 * length
    ensures r == needed || r == 2 * length
  {
    if 2 * length >= needed then 2 * length else needed
  }

  /** The array once room for `needed` characters has been made: kept when it is large
      enough, otherwise copied into a larger one padded with U+0000. */
  function EnsureCapacity(buf: seq<JChar>, needed: nat): (r: seq<JChar>)
    ensures needed <= |buf| ==> r == buf
    ensures needed > |buf| ==> |r| == Grown(|buf|, needed)
    ensures |r| >= needed && |r| >= |buf| && r[..|buf|] == buf
  {
    if needed <= |buf| then buf else buf + Zeros(Grown(|buf|, needed) - |buf|)
  }

  /** `append(char)`: one more character at the end; what was there stays. */
  function Append(a: CharAppendable, c: JChar): (r: CharAppendable)
    requires Valid(a)
    ensures Valid(r) && Contents(r) == Contents(a) + [c]
    ensures r.count == a.count + 1 && r.parent == a.parent
    ensures a.count < |a.buf| ==> |r.buf| == |a.buf|
    ensures a.count == |a.buf| ==> |r.buf| == Grown(|a.buf|, a.count + 1)
  {
    var buf := EnsureCapacity(a.buf, a.count + 1);
    var r := CharAppendable(a.parent, buf[a.count := c], a.count + 1);
    assert Contents(r) == Contents(a) + [c] by {
      assert buf[..a.count] == a.buf[..a.count];
    }
    r
  }

  /** The offset and length checks of `append(char[], int, int)`, as Java evaluates them on
      32-bit `int`s: the sum is taken modulo 2^32, which its last test exists to catch. */
  predicate RangeRefused32(length: nat, off: int, len: int)
    requires length < 0x8000_0000 && -0x8000_0000 <= off < 0x8000_0000
    requires -0x8000_0000 <= len < 0x8000_0000
  {
    var sum := Wrap32(off + len);
    off < 0 || off > length || len < 0 || sum > length || sum < 0
  }

  /** Java's `int` addition result. */
  function Wrap32(x: int): (r: int)
    ensures -0x8000_0000 <= r < 0x8000_0000
    ensures (r - x) % 0x1_0000_0000 == 0
  {
    var m := x % 0x1_0000_0000;
    if m < 0x8000_0000 then m else m - 0x1_0000_0000
  }

  /** The same checks on unbounded integers: the range must lie inside the array. */
  predicate RangeRefused(length: nat, off: int, len: int) {
    off < 0 || off > length || len < 0 || off + len > length
  }

  /** For every pair of Java `int`s the wrapped checks refuse exactly the ranges that do not
      lie inside the array, so the model may use the unbounded form. */
  lemma RangeChecksAgree(length: nat, off: int, len: int)
    requires length < 0x8000_0000 && -0x8000_0000 <= off < 0x8000_0000
    requires -0x8000_0000 <= len < 0x8000_0000
    ensures RangeRefused32(length, off, len) <==> RangeRefused(length, off, len)
  {
    if 0 <= off <= length && 0 <= len {
      if off + len < 0x8000_0000 {
        assert Wrap32(off + len) == off + len;
      } else {
        assert Wrap32(off + len) == off + len - 0x1_0000_0000;
      }
    }
  }

  /** `append(char[], int, int)`: the characters `c[off..off+len]` at the end, or
      `IndexOutOfBoundsException` when that range is not inside the array. A zero length
      changes nothing. */
  function AppendRange(a: CharAppendable, c: seq<JChar>, off: int, len: int)
    : (r: Result<CharAppendable>)
    requires Valid(a)
    ensures r.Failure? <==> RangeRefused(|c|, off, len)
    ensures r.Failure? ==> r.error == IndexOutOfBounds
    ensures r.Success? ==> Valid(r.value) && r.value.parent == a.parent &&
                           Contents(r.value) == Contents(a) + c[off..off + len]
    ensures r.Success? && len == 0 ==> r.value == a
  {
    if RangeRefused(|c|, off, len) then Failure(IndexOutOfBounds)
    else if len > 0 then
      var n := a.count + len;
      var buf := EnsureCapacity(a.buf, n);
      var buf2 := buf[..a.count] + c[off..off + len] + buf[n..];
      var r := CharAppendable(a.parent, buf2, n);
      assert Contents(r) == Contents(a) + c[off..off + len] by {
        assert buf2[..n] == buf[..a.count] + c[off..off + len];
        assert buf[..a.count] == a.buf[..a.count];
      }
      Success(r)
    else
      Success(a)
  }

  /** Appending a sequence one character at a time. */
  function AppendEach(a: CharAppendable, s: seq<JChar>): (r: CharAppendable)
    requires Valid(a)
    ensures Valid(r) && r.parent == a.parent
    decreases |s|
  {
    if s == [] then a else AppendEach(Append(a, s[0]), s[1..])
  }

  /** Appending a range gives the same characters as appending its characters one by one. */
  lemma {:induction false} AppendRangeIsAppendEach(a: CharAppendable, c: seq<JChar>, off: nat,
                                                   len: nat)
    requires Valid(a) && off + len <= |c|
    ensures Contents(AppendRange(a, c, off, len).value) == Contents(AppendEach(a, c[off..off + len]))
  {
    AppendEachContents(a, c[off..off + len]);
  }

  /** Appending one by one adds exactly the sequence. */
  lemma {:induction false} AppendEachContents(a: CharAppendable, s: seq<JChar>)
    requires Valid(a)
    ensures Contents(AppendEach(a, s)) == Contents(a) + s
    decreases |s|
  {
    if s != [] {
      AppendEachContents(Append(a, s[0]), s[1..]);
      assert [s[0]] + s[1..] == s;
    }
  }

  /** `reset`: empties the contents and keeps the array and the parent. */
  function Reset(a: CharAppendable): (r: CharAppendable)
    ensures Valid(r) && Contents(r) == [] && r.buf == a.buf && r.parent == a.parent
  {
    a.(count := 0)
  }

  /** `size`. */
  function Size(a: CharAppendable): (r: nat)
    requires Valid(a)
    ensures r == |Contents(a)|
  {
    a.count
  }

  /** `toCharArray` and `toString`: a copy of exactly the contents. */
  function ToCharArray(a: CharAppendable): (r: seq<JChar>)
    requires Valid(a)
    ensures |r| == Size(a) && forall i :: 0 <= i < |r| ==> r[i] == a.buf[i]
  {
    a.buf[..a.count]
  }

  /** `getCharBuffer`: the array itself, which holds the contents and may be longer. */
  function GetCharBuffer(a: CharAppendable): (r: seq<JChar>)
    requires Valid(a)
    ensures |r| >= Size(a) && r[..Size(a)] == Contents(a)
  {
    a.buf
  }

  /** After a reset, appending starts again from nothing, in the array already there while
      it is large enough. */
  lemma ResetThenAppend(a: CharAppendable, c: JChar)
    requires Valid(a) && |a.buf| > 0
    ensures Contents(Append(Reset(a), c)) == [c]
    ensures |Append(Reset(a), c).buf| == |a.buf|
  {
  }
}

=== FILE: charset.dfy ===
/** The contract every niosax charset's `decode` and `encode` keeps
    (uk.org.retep.niosax.charset.Charset): the two sentinel characters, the validity test,
    and what a single decode or encode may do to the buffer. */
module Charset {
  import opened JavaLang
  import opened Buffers

  /** `(char) -1`: the buffer does not yet hold a whole character. */
  const NOT_ENOUGH_DATA: JChar := 0xFFFF

  /** `(char) -2`: the bytes at the position cannot start a character. */
  const INVALID_CHAR: JChar := 0xFFFE

  /** `isValid`: every character except the two sentinels. */
  predicate IsValid(c: JChar) {
    c != NOT_ENOUGH_DATA && c != INVALID_CHAR
  }

  /** What one decode may do: read forward from the position without passing the limit or
      touching the bytes, move past every valid character it returns, and report every
      decode that did not move with `NOT_ENOUGH_DATA`. */
  predicate Decoded(b: Buffer, c: JChar, after: Buffer) {
    after.data == b.data && after.limit == b.limit &&
    b.position <= after.position &&
    (IsValid(c) ==> b.position < after.position) &&
    (after.position == b.position ==> c == NOT_ENOUGH_DATA) &&
    (Remaining(b) == 0 ==> after == b)
  }

  /** What one encode may do: write forward from the position without passing the limit,
      leaving every byte before the position untouched. */
  predicate Encoded(b: Buffer, after: Buffer) {
    SameBefore(b, after, b.position) && b.position <= after.position &&
    after.data[after.position..] == b.data[after.position..]
  }

  /** A decode of the same bytes through a shorter limit either rolls back with
      `NOT_ENOUGH_DATA` or agrees with the decode through the longer limit. This is what lets
      a document arrive in pieces. */
  predicate PrefixConsistent(short: (JChar, Buffer), long: (JChar, Buffer), b: Buffer) {
    (short.0 == NOT_ENOUGH_DATA && short.1 == b) ||
    (short.0 == long.0 && short.1.position == long.1.position)
  }
}

=== FILE: charset_factory.dfy ===
/** uk.org.retep.niosax.charset.CharsetFactory: the registered charsets and the lookup of a
    charset by one of the names it declares. Names are compared exactly, case included. */
module CharsetFactory {
  import opened JavaLang
  import opened Codecs
  import Utf8
  import SingleByte
  import Utf16

  /** The registered charsets in registration order, each with the names it declares. */
  const REGISTRY: seq<(Codec, seq<string>)> :=
    [(Latin1, SingleByte.LATIN1_ALIASES),
     (Ascii, SingleByte.ASCII_ALIASES),
     (Utf16(Utf16.Fresh), Utf16.ALIASES),
     (Utf8, Utf8.ALIASES)]

  /** Whether a list of declared names holds `name`. */
  predicate Declares(names: seq<string>, name: JString) {
    exists i :: 0 <= i < |names| && Lit(names[i]) == name
  }

  /** The first registered charset that declares `name`. */
  function FirstDeclaring(entries: seq<(Codec, seq<string>)>, name: JString): (r: Option<Codec>)
    ensures r.None? <==> forall i :: 0 <= i < |entries| ==> !Declares(entries[i].1, name)
    ensures r.Some? ==> exists i :: 0 <= i < |entries| && entries[i].0 == r.value &&
                                   Declares(entries[i].1, name) &&
                                   forall j :: 0 <= j < i ==> !Declares(entries[j].1, name)
  {
    if entries == [] then None
    else if Declares(entries[0].1, name) then Some(entries[0].0)
    else
      var r := FirstDeclaring(entries[1..], name);
      assert forall i :: 1 <= i < |entries| ==> entries[i] == entries[1..][i - 1];
      r
  }

  /** The inner loop of the static initialiser: each name not yet in the map is mapped to the
      charset declaring it. */
  function AddNames(m: map<JString, Codec>, cs: Codec, names: seq<string>)
    : (r: map<JString, Codec>)
    decreases |names|
  {
    if names == [] then m
    else
      var name := Lit(names[0]);
      AddNames(if name in m then m else m[name := cs], cs, names[1..])
  }

  /** The static initialiser: every charset's names, charset by charset, in registration
      order. */
  function BuildMap(m: map<JString, Codec>, entries: seq<(Codec, seq<string>)>)
    : (r: map<JString, Codec>)
    decreases |entries|
  {
    if entries == [] then m else BuildMap(AddNames(m, entries[0].0, entries[0].1), entries[1..])
  }

  /** A name already in the map keeps its charset; a new name declared by the charset is
      added for it; no other name is added. */
  lemma {:induction false} AddNamesFirstWins(m: map<JString, Codec>, cs: Codec,
                                             names: seq<string>, name: JString)
    ensures var r := AddNames(m, cs, names);
            (name in m ==> name in r && r[name] == m[name]) &&
            (name !in m ==> (name in r <==> Declares(names, name))) &&
            (name !in m && name in r ==> r[name] == cs)
    decreases |names|
  {
    if names != [] {
      var n0 := Lit(names[0]);
      var m' := if n0 in m then m else m[n0 := cs];
      AddNamesFirstWins(m', cs, names[1..], name);
      assert Declares(names, name) <==> n0 == name || Declares(names[1..], name) by {
        if Declares(names, name) && n0 != name {
          var i :| 0 <= i < |names| && Lit(names[i]) == name;
          assert names[1..][i - 1] == names[i];
        }
        if Declares(names[1..], name) {
          var i :| 0 <= i < |names[1..]| && Lit(names[1..][i]) == name;
          assert names[i + 1] == names[1..][i];
        }
      }
    }
  }

  /** The map the initialiser builds sends every name to the first registered charset that
      declares it, and holds no other name. */
  lemma {:induction false} BuildMapFirstWins(m: map<JString, Codec>,
                                             entries: seq<(Codec, seq<string>)>, name: JString)
    ensures var r := BuildMap(m, entries);
            (name in m ==> name in r && r[name] == m[name]) &&
            (name !in m ==> (name in r <==> FirstDeclaring(entries, name).Some?)) &&
            (name !in m && name in r ==> r[name] == FirstDeclaring(entries, name).value)
    decreases |entries|
  {
    if entries != [] {
      AddNamesFirstWins(m, entries[0].0, entries[0].1, name);
      BuildMapFirstWins(AddNames(m, entries[0].0, entries[0].1), entries[1..], name);
    }
  }

  /** `CHARSET_MAP`. */
  function CharsetMap(): (r: map<JString, Codec>)
  {
    BuildMap(map[], REGISTRY)
  }

  /** `getCharset`: the charset registered under the name, as `getInstance` hands it out, or
      `null`. */
  function GetCharset(name: JString): (r: Option<Codec>)
  {
    var first := FirstDeclaring(REGISTRY, name);
    if first.None? then None else Some(GetInstance(first.value))
  }

  /** Looking a name up in `CHARSET_MAP`, as built by the static initialiser, finds the first
      registered charset declaring it. */
  lemma GetCharsetIsMapLookup(name: JString)
    ensures var m := CharsetMap();
            GetCharset(name) == if name in m then Some(GetInstance(m[name])) else None
  {
    BuildMapFirstWins(map[], REGISTRY, name);
  }

  /** A Dafny string whose characters are all Java `char`s. */
  predicate InBmp(s: string) {
    forall i :: 0 <= i < |s| ==> s[i] as int < 0x1_0000
  }

  /** Distinct strings of the Basic Multilingual Plane are distinct Java strings. */
  lemma LitInjective(a: string, b: string)
    requires InBmp(a) && InBmp(b) && Lit(a) == Lit(b)
    ensures a == b
  {
    assert |a| == |b|;
    forall i | 0 <= i < |a| ensures a[i] == b[i] {
      assert Lit(a)[i] == Lit(b)[i];
    }
  }

  /** For names of the Basic Multilingual Plane, declaring a Java string is listing the
      string. */
  lemma DeclaresListed(names: seq<string>, s: string)
    requires InBmp(s) && forall i :: 0 <= i < |names| ==> InBmp(names[i])
    ensures Declares(names, Lit(s)) <==> s in names
  {
    if Declares(names, Lit(s)) {
      var i :| 0 <= i < |names| && Lit(names[i]) == Lit(s);
      LitInjective(names[i], s);
    }
  }

  predicate AllInBmp(names: seq<string>) {
    forall j :: 0 <= j < |names| ==> InBmp(names[j])
  }

  lemma Latin1NamesInBmp()
    ensures AllInBmp(SingleByte.LATIN1_ALIASES)
  {
    forall j | 0 <= j < |SingleByte.LATIN1_ALIASES| ensures InBmp(SingleByte.LATIN1_ALIASES[j]) { }
  }

  lemma AsciiNamesInBmp()
    ensures AllInBmp(SingleByte.ASCII_ALIASES)
  {
    forall j | 0 <= j < |SingleByte.ASCII_ALIASES| ensures InBmp(SingleByte.ASCII_ALIASES[j]) { }
  }

  lemma Utf16NamesInBmp()
    ensures AllInBmp(Utf16.ALIASES)
  {
    forall j | 0 <= j < |Utf16.ALIASES| ensures InBmp(Utf16.ALIASES[j]) { }
  }

  lemma Utf8NamesInBmp()
    ensures AllInBmp(Utf8.ALIASES)
  {
    forall j | 0 <= j < |Utf8.ALIASES| ensures InBmp(Utf8.ALIASES[j]) { }
  }

  /** Every registered name is a string of the Basic Multilingual Plane. */
  lemma RegisteredNamesInBmp()
    ensures forall i :: 0 <= i < |REGISTRY| ==> AllInBmp(REGISTRY[i].1)
  {
    Latin1NamesInBmp();
    AsciiNamesInBmp();
    Utf16NamesInBmp();
    Utf8NamesInBmp();
  }

  /** `FirstDeclaring` over four charsets, unrolled. */
  lemma FirstOfFour(entries: seq<(Codec, seq<string>)>, name: JString)
    requires |entries| == 4
    ensures FirstDeclaring(entries, name) ==
              if Declares(entries[0].1, name) then Some(entries[0].0)
              else if Declares(entries[1].1, name) then Some(entries[1].0)
              else if Declares(entries[2].1, name) then Some(entries[2].0)
              else if Declares(entries[3].1, name) then Some(entries[3].0)
              else None
  {
    assert entries[1..][0] == entries[1];
    assert entries[1..][1..][0] == entries[2];
    assert entries[1..][1..][1..][0] == entries[3];
    assert entries[1..][1..][1..][1..] == [];
  }

  /** Looking up a name of the Basic Multilingual Plane is looking for it in the lists of
      registered names. */
  lemma FirstListing(s: string)
    requires InBmp(s)
    ensures FirstDeclaring(REGISTRY, Lit(s)) ==
              if s in SingleByte.LATIN1_ALIASES then Some(Latin1)
              else if s in SingleByte.ASCII_ALIASES then Some(Ascii)
              else if s in Utf16.ALIASES then Some(Utf16(Utf16.Fresh))
              else if s in Utf8.ALIASES then Some(Utf8)
              else None
  {
    RegisteredNamesInBmp();
    var r := REGISTRY;
    FirstOfFour(r, Lit(s));
    DeclaresListed(r[0].1, s);
    DeclaresListed(r[1].1, s);
    DeclaresListed(r[2].1, s);
    DeclaresListed(r[3].1, s);
  }

  /** "UTF-8" is listed only by UTF-8. */
  lemma Utf8Listing()
    ensures InBmp("UTF-8")
    ensures "UTF-8" !in SingleByte.LATIN1_ALIASES && "UTF-8" !in SingleByte.ASCII_ALIASES
    ensures "UTF-8" !in Utf16.ALIASES && "UTF-8" in Utf8.ALIASES
  {
  }

  /** "UTF-16" is listed only by UTF-16. */
  lemma Utf16Listing()
    ensures InBmp("UTF-16")
    ensures "UTF-16" !in SingleByte.LATIN1_ALIASES && "UTF-16" !in SingleByte.ASCII_ALIASES
    ensures "UTF-16" in Utf16.ALIASES
  {
  }

  /** "utf-8" is listed by no charset. */
  lemma LowerCaseUtf8Listing()
    ensures InBmp("utf-8")
    ensures "utf-8" !in SingleByte.LATIN1_ALIASES && "utf-8" !in SingleByte.ASCII_ALIASES
    ensures "utf-8" !in Utf16.ALIASES && "utf-8" !in Utf8.ALIASES
  {
  }

  /** "UTF-8", the name a source falls back to, gives the UTF-8 charset. */
  lemma Utf8Name()
    ensures GetCharset(Lit("UTF-8")) == Some(Utf8)
  {
    Utf8Listing();
    FirstListing("UTF-8");
  }

  /** "UTF-16" gives a fresh UTF-16 instance, not the registered one. */
  lemma Utf16Name()
    ensures GetCharset(Lit("UTF-16")) == Some(Utf16(Utf16.Fresh))
  {
    Utf16Listing();
    FirstListing("UTF-16");
  }

  /** Lookup is case-sensitive: "utf-8" names no charset. */
  lemma NamesAreCaseSensitive()
    ensures GetCharset(Lit("utf-8")) == None
  {
    LowerCaseUtf8Listing();
    FirstListing("utf-8");
  }
}

=== FILE: codecs.dfy ===
/** The registered charsets as one type, and the calls every niosax `Charset` answers:
    `getInstance`, `decode`, `encode` and `size`. */
module Codecs {
  import opened JavaLang
  import opened Buffers
  import opened Charset
  import Utf8
  import SingleByte
  import Utf16

  /** A charset instance. Only UTF-16 instances carry state of their own. */
  datatype Codec = Latin1 | Ascii | Utf16(state: Utf16.State) | Utf8

  /** `getInstance`: UTF-16 hands out a fresh instance, every other charset itself. */
  function GetInstance(cs: Codec): (r: Codec)
    ensures cs.Utf16? ==> r == Utf16(Utf16.Fresh)
    ensures !cs.Utf16? ==> r == cs
  {
    if cs.Utf16? then Utf16(Utf16.Fresh) else cs
  }

  function Decode(cs: Codec, b: Buffer): (r: (JChar, Buffer))
    ensures Decoded(b, r.0, r.1)
  {
    match cs
    case Latin1 => SingleByte.Latin1Decode(b)
    case Ascii => SingleByte.AsciiDecode(b)
    case Utf16(st) => Utf16.Decode(st, b)
    case Utf8 => Utf8.Decode(b)
  }

  /** `encode`, with the instance as it is afterwards. */
  function Encode(cs: Codec, b: Buffer, c: JChar): (r: (bool, Buffer, Codec))
    ensures Encoded(b, r.1)
    ensures !cs.Utf16? ==> r.2 == cs
    ensures cs.Utf16? ==> r.2.Utf16?
  {
    match cs
    case Latin1 => var (ok, w) := SingleByte.Latin1Encode(b, c); (ok, w, cs)
    case Ascii => var (ok, w) := SingleByte.AsciiEncode(b, c); (ok, w, cs)
    case Utf16(st) => var (ok, w, st2) := Utf16.Encode(st, b, c); (ok, w, Utf16(st2))
    case Utf8 => var (ok, w) := Utf8.Encode(b, c); (ok, w, cs)
  }

  /** `size(char)`: how many bytes `encode` writes for the character. */
  function Size(cs: Codec, c: JChar): (r: nat)
    ensures 1 <= r <= 3
    ensures cs.Latin1? || cs.Ascii? ==> r == 1
    ensures cs.Utf16? ==> r == 2
    ensures cs.Utf8? ==> (r == 1 <==> c < 0x80) && (r == 3 <==> c >= 0x800)
  {
    match cs
    case Latin1 => 1
    case Ascii => 1
    case Utf16(_) => Utf16.Size(c)
    case Utf8 => Utf8.Size(c)
  }

  /** A successful encode moves the position by exactly `size`, for every charset except a
      UTF-16 instance that still has to write its byte order mark. */
  lemma EncodeAdvancesBySize(cs: Codec, b: Buffer, c: JChar)
    requires Encode(cs, b, c).0
    requires cs.Utf16? ==> cs.state.endian != Utf16.NONE || !cs.state.requiresBOM
    ensures Encode(cs, b, c).1.position == b.position + Size(cs, c)
  {
  }

  /** A refused character leaves the buffer alone, except in UTF-8 from U+0800 up and in a
      UTF-16 instance that has still to choose its byte order and must write a mark first. */
  lemma RefusedEncodeWritesNothing(cs: Codec, b: Buffer, c: JChar)
    requires !Encode(cs, b, c).0
    requires cs.Utf8? ==> c < 0x800
    requires cs.Utf16? ==> cs.state.endian != Utf16.NONE || !cs.state.requiresBOM
    ensures Encode(cs, b, c).1 == b
  {
  }

  /** The exception: an undecided UTF-16 instance that must write a mark writes it even when
      the character after it does not fit, and still answers `false`. The instance is now
      big-endian, so a retry into a larger buffer writes the character without a mark. */
  lemma RefusedEncodeKeepsMark(b: Buffer, c: JChar)
    requires 2 <= Remaining(b) < 4
    requires c != Utf16.BYTE_ORDER_MARK && c != Utf16.REVERSED_MARK
    ensures var e := Encode(Utf16(Utf16.State(Utf16.NONE, true)), b, c);
            !e.0 && e.1.position == b.position + 2 &&
            e.1.data[b.position] == 0xFE && e.1.data[b.position + 1] == 0xFF &&
            e.2 == Utf16(Utf16.State(Utf16.BIG, true))
  {
  }

  /** Every charset decodes prefix-consistently: through a shorter limit it either rolls back
      with `NOT_ENOUGH_DATA` or returns what it returns through the longer one. */
  lemma DecodePrefixConsistent(cs: Codec, b: Buffer, k: nat)
    requires b.position <= k <= b.limit
    ensures PrefixConsistent(Decode(cs, WithLimit(b, k)), Decode(cs, b), WithLimit(b, k))
  {
    match cs
    case Latin1 => SingleByte.DecodePrefixConsistent(b, k);
    case Ascii => SingleByte.DecodePrefixConsistent(b, k);
    case Utf16(st) => Utf16.DecodePrefixConsistent(st, b, k);
    case Utf8 => Utf8.DecodePrefixConsistent(b, k);
  }

  /** Decoding reads only the bytes between the position and the limit: the same bytes give
      the same character and the same advance wherever they sit in the buffer. */
  lemma DecodeReadsWindow(cs: Codec, a: Buffer, b: Buffer)
    requires a.data[a.position..a.limit] == b.data[b.position..b.limit]
    ensures Decode(cs, a).0 == Decode(cs, b).0
    ensures Decode(cs, a).1.position - a.position == Decode(cs, b).1.position - b.position
  {
    if a.limit > a.position {
      assert a.data[a.position] == a.data[a.position..a.limit][0];
      assert b.data[b.position] == b.data[b.position..b.limit][0];
    }
    if a.limit > a.position + 1 {
      assert a.data[a.position + 1] == a.data[a.position..a.limit][1];
      assert b.data[b.position + 1] == b.data[b.position..b.limit][1];
    }
    if a.limit > a.position + 2 {
      assert a.data[a.position + 2] == a.data[a.position..a.limit][2];
      assert b.data[b.position + 2] == b.data[b.position..b.limit][2];
    }
  }
}

=== FILE: comment_cdata_engine.dfy ===
/** uk.org.retep.niosax.internal.core.engine.CommentCDataStateEngine: the delegate made after
    "<!", which tells a comment from a CDATA section by the characters that follow and then
    carries on, as the same delegate, in `CommentStateEngine` or `CDataStateEngine`. */
module Markup {
  import opened JavaLang
  import opened Sax
  import opened Namespaces
  import opened Frames
  import CommentEngine
  import CDataEngine

  /** The characters the `CDATAn` states expect, in order. */
  function CDataWord(): (r: JString)
    ensures |r| == 6
  {
    ['C' as int, 'D' as int, 'A' as int, 'T' as int, 'A' as int, '[' as int]
  }

  /** One character in the discriminating states. `START` takes '-' or '['; the second '-' of
      "<!--" enters the comment body; the six characters of "CDATA[" enter the CDATA body.
      Any other character is refused, naming it. Nothing is accumulated or reported. */
  function OpeningStep(d: MarkupData, o: OpeningState, ns: Support, events: seq<Event>,
                       c: JChar): (r: Result<Outcome<MarkupData>>)
    ensures r.Failure? <==>
              match o
              case OpenStart => c != '-' as int && c != '[' as int
              case ExpectDash => c != '-' as int
              case ExpectCData(i) => c != CDataWord()[i]
    ensures r.Failure? ==> r.error == IllegalCharacter(c)
    ensures r.Success? ==> r.value == Keep(d.(state := r.value.frame.state), ns, events)
    ensures r.Success? ==>
              r.value.frame.state == State(
                match o
                case OpenStart => if c == '-' as int then Opening(ExpectDash) else Opening(ExpectCData(0))
                case ExpectDash => InComment(CommentNormal)
                case ExpectCData(i) => if i < 5 then Opening(ExpectCData(i + 1)) else InCData(CDataStart))
  {
    match o
    case OpenStart =>
      if c == '-' as int then Success(Keep(d.(state := State(Opening(ExpectDash))), ns, events))
      else if c == '[' as int then Success(Keep(d.(state := State(Opening(ExpectCData(0)))), ns, events))
      else Failure(IllegalCharacter(c))
    case ExpectDash =>
      if c == '-' as int then Success(Keep(d.(state := State(InComment(CommentNormal))), ns, events))
      else Failure(IllegalCharacter(c))
    case ExpectCData(i) =>
      if c != CDataWord()[i] then Failure(IllegalCharacter(c))
      else if i < 5 then Success(Keep(d.(state := State(Opening(ExpectCData(i + 1)))), ns, events))
      else Success(Keep(d.(state := State(InCData(CDataStart))), ns, events))
  }

  /** `StateEngineDelegate.parse` on a `<!` delegate: the character goes to whichever of the
      three engines the delegate is in; a completed delegate refuses it. */
  function Step(d: MarkupData, h: Handlers, ns: Support, events: seq<Event>, c: JChar)
    : (r: Result<Outcome<MarkupData>>)
    ensures d.state.Completed? ==> r == Failure(UnsupportedOperation)
    ensures !d.state.Completed? && d.state.s.Opening? ==>
              r == OpeningStep(d, d.state.s.o, ns, events, c)
    ensures !d.state.Completed? && d.state.s.InComment? ==>
              r == CommentEngine.Step(d, d.state.s.m, h, ns, events, c)
    ensures !d.state.Completed? && d.state.s.InCData? ==>
              r == CDataEngine.Step(d, d.state.s.d, h, ns, events, c)
    ensures r.Success? ==> r.value.ns == ns && (r.value.effect.Stay? || r.value.effect.Finish?)
    ensures r.Success? ==> (r.value.effect.Stay? <==> ContinueLoop(r.value.frame.state))
  {
    var s :- Unwrap(d.state);
    match s
    case Opening(o) => OpeningStep(d, o, ns, events, c)
    case InComment(m) => CommentEngine.Step(d, m, h, ns, events, c)
    case InCData(k) => CDataEngine.Step(d, k, h, ns, events, c)
  }

  /** No two `x` in a row. */
  predicate NoDouble(x: JChar, s: JString) {
    |s| < 2 || (!(s[0] == x && s[1] == x) && NoDouble(x, s[1..]))
  }

  /** Dropping up to two characters keeps `NoDouble`. */
  lemma NoDoubleDrop(x: JChar, s: JString, k: nat)
    requires k <= 2 && k <= |s| && NoDouble(x, s)
    ensures NoDouble(x, s[k..])
  {
    if k == 2 {
      assert s[2..] == s[1..][1..];
    }
  }

  /** A fresh `<!` delegate given "--" is in the comment body, and given "[CDATA[" in the
      CDATA body, in both cases with nothing read into its accumulator and nothing reported. */
  lemma OpeningsAccepted(h: Handlers, ns: Support, events: seq<Event>)
    ensures var r := Run(Step, NewMarkup(), h, ns, events, Lit("--"));
            r.Success? && r.value.effect == Stay && r.value.events == events &&
            r.value.frame.state == State(InComment(CommentNormal)) &&
            r.value.frame.text == []
    ensures var r := Run(Step, NewMarkup(), h, ns, events, Lit("[CDATA["));
            r.Success? && r.value.effect == Stay && r.value.events == events &&
            r.value.frame.state == State(InCData(CDataStart)) &&
            r.value.frame.text == []
  {
    var dash := Lit("--");
    assert dash[1..][1..] == [];
    var cdata := Lit("[CDATA[");
    assert cdata[1..] == CDataWord();
    CDataWordAccepted(NewMarkup().text, 0, h, ns, events);
  }

  /** From the state expecting index `i` of "CDATA[", exactly the rest of the word reaches the
      CDATA body: every other string of the same length is refused or stops short. */
  lemma {:induction false} CDataWordExactly(t: Text, i: CDataIndex, h: Handlers, ns: Support,
                                            events: seq<Event>, s: JString)
    requires |s| == 6 - i
    ensures var r := Run(Step, MarkupData(State(Opening(ExpectCData(i))), t), h, ns, events, s);
            (r.Success? && r.value.frame.state == State(InCData(CDataStart))) <==>
              s == CDataWord()[i..]
    decreases 6 - i
  {
    var d := MarkupData(State(Opening(ExpectCData(i))), t);
    var o := Step(d, h, ns, events, s[0]);
    if s[0] == CDataWord()[i] && i < 5 {
      CDataWordExactly(t, i + 1, h, ns, events, s[1..]);
      assert s == CDataWord()[i..] <==> s[1..] == CDataWord()[i + 1..] by {
        assert CDataWord()[i..] == [CDataWord()[i]] + CDataWord()[i + 1..];
        assert s == [s[0]] + s[1..];
      }
    } else if s[0] == CDataWord()[i] {
      assert s[1..] == [];
      assert s == CDataWord()[i..] by { assert s == [s[0]]; }
    } else {
      assert s[0] != CDataWord()[i..][0];
    }
  }

  /** The rest of "CDATA[" from index `i` reaches the CDATA body with nothing read. */
  lemma CDataWordAccepted(t: Text, i: CDataIndex, h: Handlers, ns: Support, events: seq<Event>)
    ensures var r := Run(Step, MarkupData(State(Opening(ExpectCData(i))), t), h, ns, events,
                         CDataWord()[i..]);
            r.Success? && r.value == Keep(MarkupData(State(InCData(CDataStart)), t), ns, events)
    decreases 6 - i
  {
    var s := CDataWord()[i..];
    if i < 5 {
      assert s[1..] == CDataWord()[i + 1..];
      CDataWordAccepted(t, i + 1, h, ns, events);
    } else {
      assert s[1..] == [];
    }
  }

  /** After "<!" only '-' and '[' are accepted, and after "<!-" only '-': the comment and
      CDATA openings are the only ones. */
  lemma OpeningRefuses(h: Handlers, ns: Support, events: seq<Event>, c: JChar, c2: JChar)
    ensures c != '-' as int && c != '[' as int ==>
              Step(NewMarkup(), h, ns, events, c) == Failure(IllegalCharacter(c))
    ensures c2 != '-' as int ==>
              Run(Step, NewMarkup(), h, ns, events, [('-' as int) as JChar, c2]) ==
                Failure(IllegalCharacter(c2))
  {
    var s: JString := ['-' as int, c2];
    assert s[1..][1..] == [];
  }

  /** The accumulated body of a comment, as far as it can be told from the state: the
      accumulator and the dashes pending. */
  function CommentSeen(d: MarkupData): (r: JString)
    ensures d.state.State? && d.state.s.InComment? ==>
              r == d.text + CommentEngine.Pending(d.state.s.m)
    ensures !(d.state.State? && d.state.s.InComment?) ==> r == d.text
  {
    if d.state.State? && d.state.s.InComment? then d.text + CommentEngine.Pending(d.state.s.m)
    else d.text
  }

  /** The delegate is in the comment body. */
  predicate InCommentBody(d: MarkupData) {
    d.state.State? && d.state.s.InComment?
  }

  /** One character in the comment body that leaves the delegate where it is: nothing is
      reported, and the character is kept. */
  lemma CommentStepKeeps(g: MarkupData, h: Handlers, ns: Support, events: seq<Event>, c: JChar)
    requires InCommentBody(g)
    ensures var r := Step(g, h, ns, events, c);
            r.Success? && r.value.effect.Stay? ==>
              r.value.ns == ns && r.value.events == events && InCommentBody(r.value.frame) &&
              CommentSeen(r.value.frame) == CommentSeen(g) + [c]
  {
    var r := Step(g, h, ns, events, c);
    if r.Success? && r.value.effect.Stay? {
      assert g.state.s.m != CommentEnd2;
    }
  }

  /** Inside a comment, as long as no step ends the delegate, every character read is kept:
      in the accumulator or among the dashes not yet committed. */
  lemma CommentKeepsEverything(d: MarkupData, h: Handlers, ns: Support, events: seq<Event>,
                               s: JString)
    requires InCommentBody(d)
    ensures var r := Run(Step, d, h, ns, events, s);
            r.Success? && r.value.effect.Stay? ==>
              r.value.events == events && r.value.ns == ns && InCommentBody(r.value.frame) &&
              CommentSeen(r.value.frame) == CommentSeen(d) + s
  {
    forall g: MarkupData, c: JChar | InCommentBody(g)
      ensures var r := Step(g, h, ns, events, c);
              r.Success? && r.value.effect.Stay? ==>
                r.value.ns == ns && r.value.events == events && InCommentBody(r.value.frame) &&
                CommentSeen(r.value.frame) == CommentSeen(g) + [c]
    {
      CommentStepKeeps(g, h, ns, events, c);
    }
    RunKeeps(Step, InCommentBody, CommentSeen, d, h, ns, events, s);
  }

  /** The delegate is in the comment body before `s`, and `s` together with the dashes
      pending has no "--" and does not end in '-': it is text XML allows in a comment. */
  predicate CommentOk(d: MarkupData, s: JString) {
    d.state.State? && d.state.s.InComment? && d.state.s.m != CommentEnd2 &&
    var p := CommentEngine.Pending(d.state.s.m) + s;
    NoDouble('-' as int, p) && (p == [] || p[|p| - 1] != '-' as int)
  }

  /** One character of text XML allows in a comment: the delegate stays, reports nothing,
      and keeps the character; the rest is still allowed. */
  lemma CommentReadStep(g: MarkupData, h: Handlers, ns: Support, events: seq<Event>,
                        t: JString)
    requires t != [] && CommentOk(g, t)
    ensures var r := Step(g, h, ns, events, t[0]);
            r.Success? && r.value.effect.Stay? && r.value.ns == ns &&
            r.value.events == events && CommentSeen(r.value.frame) == CommentSeen(g) + [t[0]] &&
            CommentOk(r.value.frame, t[1..])
  {
    var m, c := g.state.s.m, t[0];
    var p := CommentEngine.Pending(m) + t;
    if m == CommentEnd1 {
      assert p[0] == '-' as int && p[1] == c;
    }
    var m' := if c == '-' as int then CommentEnd1 else CommentNormal;
    var drop := if c == '-' as int then |CommentEngine.Pending(m)| else |CommentEngine.Pending(m)| + 1;
    assert p[drop..] == CommentEngine.Pending(m') + t[1..];
    NoDoubleDrop('-' as int, p, drop);
  }

  /** Text XML allows in a comment leaves the delegate in plain comment text with all of it
      in the accumulator. */
  lemma CommentBodyRead(d: MarkupData, h: Handlers, ns: Support, events: seq<Event>,
                        body: JString)
    requires CommentOk(d, body)
    ensures Run(Step, d, h, ns, events, body) ==
            Success(Keep(MarkupData(State(InComment(CommentNormal)), CommentSeen(d) + body), ns,
                         events))
  {
    forall g: MarkupData, t: JString | t != [] && CommentOk(g, t)
      ensures var r := Step(g, h, ns, events, t[0]);
              r.Success? && r.value.effect.Stay? && r.value.ns == ns &&
              r.value.events == events && CommentSeen(r.value.frame) == CommentSeen(g) + [t[0]] &&
              CommentOk(r.value.frame, t[1..])
    {
      CommentReadStep(g, h, ns, events, t);
    }
    RunReads(Step, CommentOk, CommentSeen, d, h, ns, events, body);
    var r := Run(Step, d, h, ns, events, body);
    assert r.value.frame.state == State(InComment(CommentNormal)) by {
      var g := r.value.frame;
      assert CommentOk(g, []);
      assert g.state.s.m != CommentEnd1 by {
        assert CommentEngine.Pending(CommentEnd1) + [] == ['-' as int];
      }
    }
    assert r.value.frame.text == CommentSeen(d) + body by {
      assert CommentSeen(r.value.frame) == r.value.frame.text + [];
    }
  }

  /** After "--" the next character either closes the comment or is refused: the
      delegate does not stay in the comment. */
  lemma CommentEnd2Leaves(d: MarkupData, h: Handlers, ns: Support, events: seq<Event>,
                          c: JChar, rest: JString)
    requires d.state == State(InComment(CommentEnd2))
    ensures var r := Run(Step, d, h, ns, events, [c] + rest);
            r.Failure? || !r.value.effect.Stay?
  {
    RunCons(Step, d, h, ns, events, c, rest);
  }

  /** "-->" read in plain comment text closes the comment and reports the accumulated body. */
  lemma CommentCloses(t: Text, h: Handlers, ns: Support, events: seq<Event>)
    ensures var r := Run(Step, MarkupData(State(InComment(CommentNormal)), t), h, ns, events,
                         Lit("-->"));
            r.Success? && r.value.effect == Finish && r.value.frame.state == Completed &&
            r.value.ns == ns &&
            r.value.events == events + (if h.lexical then [Comment(t)] else [])
  {
    var dash, gt := '-' as int, '>' as int;
    var d0 := MarkupData(State(InComment(CommentNormal)), t);
    var f1 := Step(d0, h, ns, events, dash).value.frame;
    assert f1.text + [dash] == t + [dash];
    var f2 := Step(f1, h, ns, events, dash).value.frame;
    assert f2.text + [dash, dash] == t + [dash] + [dash];
    RunCons(Step, d0, h, ns, events, dash, [dash, gt]);
    RunCons(Step, f1, h, ns, events, dash, [gt]);
    RunCons(Step, f2, h, ns, events, gt, []);
    assert Lit("-->") == [dash] + [dash, gt] && [dash, gt] == [dash] + [gt];
  }

  /** Reading text XML allows in a comment and then more is reading the more from plain
      comment text with that text accumulated. */
  lemma CommentBodyThen(t: Text, h: Handlers, ns: Support, events: seq<Event>, body: JString,
                        rest: JString)
    requires NoDouble('-' as int, body) && (body == [] || body[|body| - 1] != '-' as int)
    ensures Run(Step, MarkupData(State(InComment(CommentNormal)), t), h, ns, events, body + rest) ==
            Run(Step, MarkupData(State(InComment(CommentNormal)), t + body), h, ns, events, rest)
  {
    var d := MarkupData(State(InComment(CommentNormal)), t);
    assert CommentEngine.Pending(CommentNormal) + body == body;
    CommentBodyRead(d, h, ns, events, body);
    assert CommentSeen(d) == t;
    RunThen(Step, d, h, ns, events, body, rest,
            MarkupData(State(InComment(CommentNormal)), t + body));
  }

  /** The comment closes at "-->" and reports exactly the body read before it, when the body
      is one XML allows. */
  lemma CommentClosed(t: Text, h: Handlers, ns: Support, events: seq<Event>, body: JString)
    requires NoDouble('-' as int, body) && (body == [] || body[|body| - 1] != '-' as int)
    ensures var r := Run(Step, MarkupData(State(InComment(CommentNormal)), t), h, ns, events,
                         body + Lit("-->"));
            r.Success? && r.value.effect == Finish && r.value.frame.state == Completed &&
            r.value.ns == ns &&
            r.value.events == events + (if h.lexical then [Comment(t + body)] else [])
  {
    CommentBodyThen(t, h, ns, events, body, Lit("-->"));
    CommentCloses(t + body, h, ns, events);
  }

  /** A dash not followed by a second one is body text: "<!-- a-b -->" keeps "a-b". */
  lemma SingleDashIsText(t: Text, h: Handlers, ns: Support, events: seq<Event>, c: JChar)
    requires c != '-' as int
    ensures var r := Run(Step, MarkupData(State(InComment(CommentNormal)), t), h, ns, events,
                         [('-' as int) as JChar, c]);
            r.Success? && r.value.frame.state == State(InComment(CommentNormal)) &&
            r.value.frame.text == t + ['-' as int, c]
  {
    var d0 := MarkupData(State(InComment(CommentNormal)), t);
    var o1 := Step(d0, h, ns, events, '-' as int).value;
    assert o1.frame.text + ['-' as int] == t + ['-' as int];
    var o2 := Step(o1.frame, h, ns, events, c).value;
    RunCons(Step, d0, h, ns, events, '-' as int, [c]);
    RunCons(Step, o1.frame, h, ns, events, c, []);
    assert [('-' as int) as JChar, c] == [('-' as int) as JChar] + [c];
  }

  /** "--" inside a comment must be followed by '>': "<!-- a--b -->" and "<!-- a --->" are
      refused. */
  lemma DoubleDashMustClose(t: Text, h: Handlers, ns: Support, events: seq<Event>, c: JChar)
    requires c != '>' as int
    ensures Run(Step, MarkupData(State(InComment(CommentNormal)), t), h, ns, events,
                [('-' as int) as JChar, '-' as int, c]) == Failure(IllegalCharacterUnnamed)
  {
    var d0 := MarkupData(State(InComment(CommentNormal)), t);
    var o1 := Step(d0, h, ns, events, '-' as int).value;
    var o2 := Step(o1.frame, h, ns, events, '-' as int).value;
    RunCons(Step, d0, h, ns, events, '-' as int, ['-' as int, c]);
    RunCons(Step, o1.frame, h, ns, events, '-' as int, [c]);
    RunCons(Step, o2.frame, h, ns, events, c, []);
    assert [('-' as int) as JChar, '-' as int, c] == [('-' as int) as JChar] + [('-' as int) as JChar, c];
    assert [('-' as int) as JChar, c] == [('-' as int) as JChar] + [c];
  }

  /** The accumulated body of a CDATA section, as far as it can be told from the state: the
      accumulator and the brackets pending. */
  function CDataSeen(d: MarkupData): (r: JString)
    ensures d.state.State? && d.state.s.InCData? ==>
              r == d.text + CDataEngine.Pending(d.state.s.d)
    ensures !(d.state.State? && d.state.s.InCData?) ==> r == d.text
  {
    if d.state.State? && d.state.s.InCData? then d.text + CDataEngine.Pending(d.state.s.d)
    else d.text
  }

  /** The events a CDATA delegate reports before its first body character. */
  function StartEvents(k: CDataState, h: Handlers): (r: seq<Event>)
    ensures r == [] || r == [StartCData]
    ensures r == [StartCData] <==> k == CDataStart && h.lexical
  {
    if k == CDataStart && h.lexical then [StartCData] else []
  }

  /** One character of a CDATA section other than the '>' of "]]>". */
  lemma CDataBodyStep(d: MarkupData, h: Handlers, ns: Support, events: seq<Event>,
                      c: JChar, rest: JString) returns (f: MarkupData)
    requires d.state.State? && d.state.s.InCData?
    requires !(d.state.s.d == CDataEnd2 && c == '>' as int)
    ensures f.state.State? && f.state.s.InCData?
    ensures f.state.s.d == (if d.state.s.d == CDataEnd2 || c != ']' as int then CDataNormal
                            else if d.state.s.d == CDataEnd1 then CDataEnd2
                            else CDataEnd1)
    ensures CDataSeen(f) == CDataSeen(d) + [c]
    ensures Run(Step, d, h, ns, events, [c] + rest) ==
              Run(Step, f, h, ns, events + StartEvents(d.state.s.d, h), rest)
  {
    f := Step(d, h, ns, events, c).value.frame;
    RunCons(Step, d, h, ns, events, c, rest);
  }

  /** The delegate is in the CDATA body, past its first character. */
  predicate InCDataBody(d: MarkupData) {
    d.state.State? && d.state.s.InCData? && d.state.s.d != CDataStart
  }

  /** One character in the CDATA body, past the first, that leaves the delegate where it
      is: nothing is reported, and the character is kept. */
  lemma CDataStepKeeps(g: MarkupData, h: Handlers, ns: Support, events: seq<Event>, c: JChar)
    requires InCDataBody(g)
    ensures var r := Step(g, h, ns, events, c);
            r.Success? && r.value.effect.Stay? ==>
              r.value.ns == ns && r.value.events == events && InCDataBody(r.value.frame) &&
              CDataSeen(r.value.frame) == CDataSeen(g) + [c]
  {
    var r := Step(g, h, ns, events, c);
    if r.Success? && r.value.effect.Stay? {
      assert !(g.state.s.d == CDataEnd2 && c == '>' as int);
    }
  }

  /** Inside a CDATA section, as long as no step ends the delegate, every character read is
      kept, in the accumulator or among the brackets not yet committed. */
  lemma CDataKeepsEverything(d: MarkupData, h: Handlers, ns: Support, events: seq<Event>,
                             s: JString)
    requires InCDataBody(d)
    ensures var r := Run(Step, d, h, ns, events, s);
            r.Success? && r.value.effect.Stay? ==>
              r.value.events == events && r.value.ns == ns && InCDataBody(r.value.frame) &&
              CDataSeen(r.value.frame) == CDataSeen(d) + s
  {
    forall g: MarkupData, c: JChar | InCDataBody(g)
      ensures var r := Step(g, h, ns, events, c);
              r.Success? && r.value.effect.Stay? ==>
                r.value.ns == ns && r.value.events == events && InCDataBody(r.value.frame) &&
                CDataSeen(r.value.frame) == CDataSeen(g) + [c]
    {
      CDataStepKeeps(g, h, ns, events, c);
    }
    RunKeeps(Step, InCDataBody, CDataSeen, d, h, ns, events, s);
  }

  /** The delegate is in plain CDATA text or just after one ']' before `s`, and `s`
      together with the bracket pending has no "]]" and does not end in ']'. */
  predicate CDataOk(d: MarkupData, s: JString) {
    (d.state == State(InCData(CDataNormal)) || d.state == State(InCData(CDataEnd1))) &&
    var p := CDataEngine.Pending(d.state.s.d) + s;
    NoDouble(']' as int, p) && (p == [] || p[|p| - 1] != ']' as int)
  }

  /** What a character does to the brackets pending: in such text a ']' can only follow
      plain text, and the state after it with the rest is such text again. */
  lemma CDataPendingNext(k: CDataState, t: JString)
    requires k == CDataNormal || k == CDataEnd1
    requires t != [] && var p := CDataEngine.Pending(k) + t;
             NoDouble(']' as int, p) && p[|p| - 1] != ']' as int
    ensures t[0] == ']' as int ==> k == CDataNormal
    ensures var p := CDataEngine.Pending(if t[0] == ']' as int then CDataEnd1 else CDataNormal) + t[1..];
            NoDouble(']' as int, p) && (p == [] || p[|p| - 1] != ']' as int)
  {
    var p := CDataEngine.Pending(k) + t;
    if k == CDataEnd1 {
      assert p[0] == ']' as int && p[1] == t[0];
    }
    var k' := if t[0] == ']' as int then CDataEnd1 else CDataNormal;
    var drop := if t[0] == ']' as int then |CDataEngine.Pending(k)| else |CDataEngine.Pending(k)| + 1;
    assert p[drop..] == CDataEngine.Pending(k') + t[1..];
    NoDoubleDrop(']' as int, p, drop);
  }

  /** One character of such text: the delegate stays, reports nothing and keeps the
      character; the rest is still such text. */
  lemma CDataReadStep(g: MarkupData, h: Handlers, ns: Support, events: seq<Event>,
                      t: JString)
    requires t != [] && CDataOk(g, t)
    ensures var r := Step(g, h, ns, events, t[0]);
            r.Success? && r.value.effect.Stay? && r.value.ns == ns &&
            r.value.events == events && CDataSeen(r.value.frame) == CDataSeen(g) + [t[0]] &&
            CDataOk(r.value.frame, t[1..])
  {
    CDataPendingNext(g.state.s.d, t);
  }

  /** Text with no "]]" that does not end in ']' leaves the delegate reading plain CDATA
      text with all of it in the accumulator. */
  lemma CDataBodyRead(d: MarkupData, h: Handlers, ns: Support, events: seq<Event>,
                      body: JString)
    requires CDataOk(d, body)
    ensures var r := Run(Step, d, h, ns, events, body);
            r.Success? && r.value.effect == Stay && r.value.events == events &&
            r.value.ns == ns && r.value.frame.state == State(InCData(CDataNormal)) &&
            r.value.frame.text == CDataSeen(d) + body
  {
    forall g: MarkupData, t: JString | t != [] && CDataOk(g, t)
      ensures var r := Step(g, h, ns, events, t[0]);
              r.Success? && r.value.effect.Stay? && r.value.ns == ns &&
              r.value.events == events && CDataSeen(r.value.frame) == CDataSeen(g) + [t[0]] &&
              CDataOk(r.value.frame, t[1..])
    {
      CDataReadStep(g, h, ns, events, t);
    }
    RunReads(Step, CDataOk, CDataSeen, d, h, ns, events, body);
  }

  /** "]]>" read in plain CDATA text closes the section and reports the accumulated body. */
  lemma CDataCloses(d: MarkupData, h: Handlers, ns: Support, events: seq<Event>)
    requires h.content
    requires d.state == State(InCData(CDataStart)) || d.state == State(InCData(CDataNormal))
    ensures var r := Run(Step, d, h, ns, events, Lit("]]>"));
            r.Success? && r.value.effect == Finish && r.value.frame.state == Completed &&
            r.value.ns == ns &&
            r.value.events == events + StartEvents(d.state.s.d, h) + [Characters(d.text)] +
                              (if h.lexical then [EndCData] else [])
  {
    var br, gt := ']' as int, '>' as int;
    var f1 := CDataBodyStep(d, h, ns, events, br, [br, gt]);
    var evs := events + StartEvents(d.state.s.d, h);
    var f2 := CDataBodyStep(f1, h, ns, evs, br, [gt]);
    assert f2.text + [br, br] == d.text + [br] + [br];
    RunCons(Step, f2, h, ns, evs, gt, []);
    assert Lit("]]>") == [br] + [br, gt] && [br, gt] == [br] + [gt];
  }

  /** From plain CDATA text or just after one ']', text with no "]]" that does not end in
      ']' followed by "]]>" closes the section and reports everything read in the body. */
  lemma CDataClosedFrom(d: MarkupData, h: Handlers, ns: Support, events: seq<Event>,
                        body: JString)
    requires h.content && CDataOk(d, body)
    ensures var r := Run(Step, d, h, ns, events, body + Lit("]]>"));
            r.Success? && r.value.effect == Finish && r.value.frame.state == Completed &&
            r.value.ns == ns &&
            r.value.events == events + [Characters(CDataSeen(d) + body)] +
                              (if h.lexical then [EndCData] else [])
  {
    CDataBodyRead(d, h, ns, events, body);
    var g := MarkupData(State(InCData(CDataNormal)), CDataSeen(d) + body);
    RunThen(Step, d, h, ns, events, body, Lit("]]>"), g);
    CDataCloses(g, h, ns, events);
  }

  /** A CDATA section closes at "]]>" and reports the body, as one `characters` call between
      `startCDATA` and `endCDATA`, when the body has no "]]" and does not end in ']'. */
  lemma CDataClosed(t: Text, h: Handlers, ns: Support, events: seq<Event>, body: JString)
    requires h.content
    requires NoDouble(']' as int, body) && (body == [] || body[|body| - 1] != ']' as int)
    ensures var r := Run(Step, MarkupData(State(InCData(CDataStart)), t), h, ns, events,
                         body + Lit("]]>"));
            r.Success? && r.value.effect == Finish && r.value.frame.state == Completed &&
            r.value.ns == ns &&
            r.value.events == events + (if h.lexical then [StartCData] else []) +
                              [Characters(t + body)] +
                              (if h.lexical then [EndCData] else [])
  {
    var d := MarkupData(State(InCData(CDataStart)), t);
    if body == [] {
      assert body + Lit("]]>") == Lit("]]>") && t + body == t;
      CDataCloses(d, h, ns, events);
    } else {
      var f := CDataFirst(t, h, ns, events, body);
      CDataClosedFrom(f, h, ns, events + StartEvents(CDataStart, h), body[1..]);
    }
  }

  /** The first character of a CDATA body with no "]]" that does not end in ']'. */
  lemma CDataFirst(t: Text, h: Handlers, ns: Support, events: seq<Event>, body: JString)
    returns (f: MarkupData)
    requires body != [] && NoDouble(']' as int, body) && body[|body| - 1] != ']' as int
    ensures CDataOk(f, body[1..]) && CDataSeen(f) + body[1..] == t + body
    ensures Run(Step, MarkupData(State(InCData(CDataStart)), t), h, ns, events, body + Lit("]]>")) ==
              Run(Step, f, h, ns, events + StartEvents(CDataStart, h), body[1..] + Lit("]]>"))
  {
    var d := MarkupData(State(InCData(CDataStart)), t);
    var c, rest := body[0], body[1..];
    assert body + Lit("]]>") == [c] + (rest + Lit("]]>"));
    f := CDataBodyStep(d, h, ns, events, c, rest + Lit("]]>"));
    CDataFirstOk(f, body);
    assert CDataSeen(d) == t;
  }

  /** After the first character of a body with no "]]" that does not end in ']', the rest
      is such text again. */
  lemma CDataFirstOk(f: MarkupData, body: JString)
    requires body != [] && NoDouble(']' as int, body) && body[|body| - 1] != ']' as int
    requires f.state == State(InCData(if body[0] != ']' as int then CDataNormal else CDataEnd1))
    ensures CDataOk(f, body[1..])
  {
    var drop := if body[0] == ']' as int then 0 else 1;
    assert CDataEngine.Pending(f.state.s.d) + body[1..] == body[drop..];
    NoDoubleDrop(']' as int, body, drop);
  }

  /** The source's closing rule differs from XML's: once "]]" is pending, a further ']'
      turns all three into text, so in "]]]>" the last three characters do not end the
      section and the '>' is read as text as well. */
  lemma TripleBracketDoesNotClose(d: MarkupData, h: Handlers, ns: Support, events: seq<Event>)
    requires d.state == State(InCData(CDataEnd2))
    ensures var r := Run(Step, d, h, ns, events, [(']' as int) as JChar, '>' as int]);
            r.Success? && r.value.effect == Stay && r.value.events == events &&
            r.value.frame.state == State(InCData(CDataNormal)) &&
            r.value.frame.text == d.text + Lit("]]]>")
  {
    var br, gt := ']' as int, '>' as int;
    var f1 := CDataBodyStep(d, h, ns, events, br, [gt]);
    var f2 := CDataBodyStep(f1, h, ns, events, gt, []);
    assert [br, gt] == [br] + [gt] && [gt] == [gt] + [];
    calc {
      f2.text;
      CDataSeen(f2);
      d.text + [br, br] + [br] + [gt];
      { assert Lit("]]]>") == [br, br, br, gt]; }
      d.text + Lit("]]]>");
    }
  }
}

=== FILE: comment_engine.dfy ===
/** uk.org.retep.niosax.internal.core.engine.CommentStateEngine: the body of a comment, after
    "<!--", up to and including "-->". */
module CommentEngine {
  import opened JavaLang
  import opened Sax
  import opened Namespaces
  import opened Frames

  /** The dashes a state has seen but not yet put in the accumulator. */
  function Pending(m: CommentState): (r: JString)
    ensures |r| <= 2 && forall i :: 0 <= i < |r| ==> r[i] == '-' as int
  {
    match m
    case CommentNormal => []
    case CommentEnd1 => ['-' as int]
    case CommentEnd2 => ['-' as int, '-' as int]
  }

  /** One character of a comment body. Every character read goes either into the
      accumulator or into the pending dashes, except the '>' of "-->": then the body read so
      far goes to the lexical handler, if there is one, and the delegate finishes. After
      "--" any other character is refused. */
  function Step(d: MarkupData, m: CommentState, h: Handlers, ns: Support, events: seq<Event>,
                c: JChar): (r: Result<Outcome<MarkupData>>)
    ensures r.Failure? <==> m == CommentEnd2 && c != '>' as int
    ensures r.Failure? ==> r.error == IllegalCharacterUnnamed
    ensures r.Success? ==> r.value.ns == ns
    ensures r.Success? && m == CommentEnd2 ==>
              r.value.effect == Finish && r.value.frame.state == Completed &&
              r.value.events == events + (if h.lexical then [Comment(d.text)] else [])
    ensures r.Success? && m != CommentEnd2 ==>
              r.value.effect == Stay && r.value.events == events &&
              r.value.frame.state.State? && r.value.frame.state.s.InComment? &&
              r.value.frame.state.s.m == (if c != '-' as int then CommentNormal
                                          else if m == CommentNormal then CommentEnd1
                                          else CommentEnd2) &&
              r.value.frame.text + Pending(r.value.frame.state.s.m) ==
                d.text + Pending(m) + [c]
  {
    match m
    case CommentNormal =>
      if c == '-' as int then Success(Keep(d.(state := State(InComment(CommentEnd1))), ns, events))
      else Success(Keep(MarkupData(State(InComment(CommentNormal)), d.text + [c]), ns, events))
    case CommentEnd1 =>
      if c == '-' as int then Success(Keep(d.(state := State(InComment(CommentEnd2))), ns, events))
      else
        Success(Keep(MarkupData(State(InComment(CommentNormal)), d.text + ['-' as int, c]),
                     ns, events))
    case CommentEnd2 =>
      if c == '>' as int then
        var evs := Emit(h, events, Comment(d.text)).value;
        Success(Outcome(d.(state := Completed), ns, evs, Finish))
      else Failure(IllegalCharacterUnnamed)
  }
}

=== FILE: driver.dfy ===
/** How characters reach the delegates. `AbstractParserDelegate.parse(source)` decodes
    characters and hands each to the current delegate's `parse(source, c)` until the charset
    has nothing whole to give or the delegate asks the parser for something;
    `DefaultProlog.parse(source)` decodes one character a call. The code that calls
    `parse(source)` on the parser's current delegate as bytes arrive is not part of this
    model: `Drive` stands in for it. */
module Driver {
  import opened JavaLang
  import opened Buffers
  import opened Charset
  import Codecs
  import opened Frames
  import opened NioSaxSource
  import opened Parsers

  /** The bytes the source has yet to read: none when it has no buffer. */
  function Unread(src: Source): nat {
    if src.buffer.Some? then src.buffer.value.limit - src.buffer.value.position else 0
  }

  /** The characters a charset reads from a buffer up to its first sentinel, and the buffer
      as that sentinel leaves it. */
  function ReadOut(cs: Codecs.Codec, b: Buffer): (r: (JString, Buffer))
    ensures forall i :: 0 <= i < |r.0| ==> IsValid(r.0[i])
    ensures var last := Codecs.Decode(cs, r.1);
            !IsValid(last.0) || r.1.position < last.1.position
    ensures r.1.data == b.data && r.1.limit == b.limit && b.position <= r.1.position
    ensures r.0 == [] <==> !IsValid(Codecs.Decode(cs, b).0)
    decreases b.limit - b.position
  {
    var (c, b1) := Codecs.Decode(cs, b);
    if !IsValid(c) then ([], b)
    else
      var (t, b2) := ReadOut(cs, b1);
      ([c] + t, b2)
  }

  /** `AbstractParserDelegate.parse(source)`: decode a character; while it is a real one and
      the current delegate's `parse(source, c)` reads on, decode the next. */
  function Loop(p: Parser, src: Source): (r: Result<(Parser, Source)>)
    requires p.frames != []
    ensures src.charset.None? || src.buffer.None? ==> r == Failure(NullPointer)
    ensures r.Success? ==> r.value.0.handlers == p.handlers &&
                           r.value.1.buffer.Some? && src.buffer.Some? &&
                           r.value.1.buffer.value.data == src.buffer.value.data &&
                           r.value.1.buffer.value.limit == src.buffer.value.limit &&
                           r.value.1.buffer.value.position >= src.buffer.value.position
    decreases Unread(src)
  {
    var (c, s1) :- Decode(src);
    if !IsValid(c) then Success((p, s1))
    else
      var f :- Feed(p, s1, c);
      if f.2 then Loop(f.0, f.1) else Success((f.0, f.1))
  }

  /** `parse(source)` on the current delegate: the prolog's own, which reads one character,
      or the loop of every other delegate. With no delegate there is nothing to call. */
  function ParseCurrent(p: Parser, src: Source): (r: Result<(Parser, Source)>)
    ensures p.frames == [] ==> r == Failure(NullPointer)
    ensures r.Success? ==> r.value.0.handlers == p.handlers &&
                           r.value.1.buffer.Some? && src.buffer.Some? &&
                           r.value.1.buffer.value.data == src.buffer.value.data &&
                           r.value.1.buffer.value.limit == src.buffer.value.limit &&
                           r.value.1.buffer.value.position >= src.buffer.value.position
    ensures r.Success? && src.charset.Some? && src.buffer.Some? &&
            IsValid(Codecs.Decode(src.charset.value, src.buffer.value).0) ==>
              r.value.1.buffer.value.position > src.buffer.value.position
  {
    if p.frames == [] then Failure(NullPointer)
    else if Top(p.frames).PrologFrame? then
      var (c, s1) :- Decode(src);
      if !IsValid(c) then Success((p, s1))
      else
        var f :- Feed(p, s1, c);
        Success((f.0, f.1))
    else Loop(p, src)
  }

  /** The driver: while a document is open and the source has a whole character, call
      `parse(source)` on the current delegate. */
  function Drive(p: Parser, src: Source): (r: Result<(Parser, Source)>)
    ensures r.Success? ==> r.value.0.frames == [] || HasCharacter(r.value.1) == Success(false)
    ensures r.Success? ==> r.value.0.handlers == p.handlers
    decreases Unread(src)
  {
    if p.frames == [] then Success((p, src))
    else
      var has :- HasCharacter(src);
      if !has then Success((p, src))
      else
        var q :- ParseCurrent(p, src);
        Drive(q.0, q.1)
  }

  /** Settling an outcome overwrites the current delegate, the namespace stack and the
      callbacks, so it does not matter what they were before. */
  lemma SettleForgetsTop(p: Parser, p1: Parser, o: Outcome<Frame>, src: Source, src1: Source)
    requires p.frames != [] && |p1.frames| == |p.frames| && p1.handlers == p.handlers
    requires p1.frames[..|p.frames| - 1] == p.frames[..|p.frames| - 1]
    ensures Settle(p1, o, src1).Success? == Settle(p, o, src).Success?
    ensures Settle(p, o, src).Success? ==> Settle(p1, o, src1).value.0 == Settle(p, o, src).value.0
  {
    var n := |p.frames|;
    assert p1.(frames := p1.frames[..n - 1] + [o.frame], ns := o.ns, events := o.events) ==
           p.(frames := p.frames[..n - 1] + [o.frame], ns := o.ns, events := o.events);
  }

  /** Settling a `Keep` of the current delegate just records its new state. */
  lemma SettleKeep(p: Parser, o: Outcome<Frame>, src: Source)
    requires p.frames != [] && o.effect.Stay?
    ensures Settle(p, o, src) == Success((p.(frames := p.frames[..|p.frames| - 1] + [o.frame],
                                            ns := o.ns, events := o.events), src))
  {
  }

  /** The loop of a delegate reads exactly the characters the charset gives up to its first
      sentinel, in order, and hands them to the current delegate one by one until it asks
      something of the parser: what the parser becomes is what settling the delegate's run
      over those characters makes of it. No character is skipped or read twice. */
  lemma {:induction false} LoopFeedsReadOut(p: Parser, src: Source)
    requires p.frames != [] && src.charset.Some? && src.buffer.Some?
    ensures var t := ReadOut(src.charset.value, src.buffer.value).0;
            var r := Run(StepFrame, Top(p.frames), p.handlers, p.ns, p.events, t);
            var l := Loop(p, src);
            (r.Failure? ==> l == Failure(r.error)) &&
            (r.Success? ==> (l.Success? <==> Settle(p, r.value, src).Success?) &&
                            (l.Success? ==> l.value.0 == Settle(p, r.value, src).value.0))
    decreases Unread(src)
  {
    var cs, b := src.charset.value, src.buffer.value;
    var (c, b1) := Codecs.Decode(cs, b);
    var s1 := src.(buffer := Some(b1));
    var f := Top(p.frames);
    if !IsValid(c) {
      assert ReadOut(cs, b).0 == [];
      assert p.frames[..|p.frames| - 1] + [f] == p.frames;
      SettleKeep(p, Keep(f, p.ns, p.events), src);
    } else {
      var t1 := ReadOut(cs, b1).0;
      assert ReadOut(cs, b).0 == [c] + t1;
      RunCons(StepFrame, f, p.handlers, p.ns, p.events, c, t1);
      var o := StepFrame(f, p.handlers, p.ns, p.events, c);
      if o.Success? {
        SettleForgetsTop(p, p, o.value, src, s1);
        if o.value.effect.Stay? {
          SettleKeep(p, o.value, s1);
          var p1 := Settle(p, o.value, s1).value.0;
          assert Top(p1.frames) == o.value.frame;
          LoopFeedsReadOut(p1, s1);
          var r := Run(StepFrame, o.value.frame, p.handlers, o.value.ns, o.value.events, t1);
          if r.Success? {
            SettleForgetsTop(p, p1, r.value, src, s1);
          }
        }
      }
    }
  }

  /** A buffer that grows: reading up to an earlier limit `k`, then reading on from where
      that stopped once the bytes up to the full limit are there, gives the characters one
      read of the whole would, so a document may arrive in pieces cut anywhere, even inside
      a character. */
  lemma {:induction false} ReadOutSplit(cs: Codecs.Codec, b: Buffer, k: nat)
    requires b.position <= k <= b.limit
    ensures var first := ReadOut(cs, WithLimit(b, k));
            ReadOut(cs, b).0 == first.0 + ReadOut(cs, WithLimit(first.1, b.limit)).0
    decreases b.limit - b.position
  {
    var bk := WithLimit(b, k);
    Codecs.DecodePrefixConsistent(cs, b, k);
    var short, long := Codecs.Decode(cs, bk), Codecs.Decode(cs, b);
    if !IsValid(short.0) {
      SplitAtSentinel(cs, b, k);
    } else {
      assert short.1 == WithLimit(long.1, k);
      ReadOutSplit(cs, long.1, k);
      ReadOutReads(cs, bk);
      ReadOutReads(cs, b);
    }
  }

  /** The base case of the split: the shorter read stops at once, and either gave up for
      want of bytes, leaving the buffer where it was, or met what the longer read meets. */
  lemma SplitAtSentinel(cs: Codecs.Codec, b: Buffer, k: nat)
    requires b.position <= k <= b.limit
    requires !IsValid(Codecs.Decode(cs, WithLimit(b, k)).0)
    requires PrefixConsistent(Codecs.Decode(cs, WithLimit(b, k)), Codecs.Decode(cs, b), WithLimit(b, k))
    ensures var first := ReadOut(cs, WithLimit(b, k));
            ReadOut(cs, b).0 == first.0 + ReadOut(cs, WithLimit(first.1, b.limit)).0
  {
    var bk := WithLimit(b, k);
    ReadOutStops(cs, bk);
    assert WithLimit(bk, b.limit) == b;
    if Codecs.Decode(cs, bk).0 != NOT_ENOUGH_DATA || Codecs.Decode(cs, bk).1 != bk {
      ReadOutStops(cs, b);
    }
  }

  /** A first decode that gives no character ends the reading there. */
  lemma ReadOutStops(cs: Codecs.Codec, b: Buffer)
    requires !IsValid(Codecs.Decode(cs, b).0)
    ensures ReadOut(cs, b) == ([], b)
  {
  }

  /** A first decode that gives a character puts it in front of what follows. */
  lemma ReadOutReads(cs: Codecs.Codec, b: Buffer)
    requires IsValid(Codecs.Decode(cs, b).0)
    ensures var d := Codecs.Decode(cs, b);
            ReadOut(cs, b) == ([d.0] + ReadOut(cs, d.1).0, ReadOut(cs, d.1).1)
  {
  }

  /** While a document is open, every call of the current delegate's `parse(source)` leaves
      it open, and so does the driver: the prolog stays at the bottom and `finish()` never
      runs out of namespace contexts. */
  lemma {:induction false} LoopOpen(p: Parser, src: Source)
    requires Open(p)
    ensures Loop(p, src).Success? ==> Open(Loop(p, src).value.0)
    decreases Unread(src)
  {
    if src.charset.Some? && src.buffer.Some? {
      var (c, s1) := Decode(src).value;
      if IsValid(c) {
        FeedOpen(p, s1, c);
        var f := Feed(p, s1, c);
        if f.Success? && f.value.2 {
          LoopOpen(f.value.0, f.value.1);
        }
      }
    }
  }

  /** The driver, started on an open document, leaves it open, with every whole character
      of the source read. */
  lemma {:induction false} DriveOpen(p: Parser, src: Source)
    requires Open(p)
    ensures var r := Drive(p, src);
            r.Success? ==> Open(r.value.0) && HasCharacter(r.value.1) == Success(false)
    decreases Unread(src)
  {
    var has := HasCharacter(src);
    if has.Success? && has.value {
      var q := ParseCurrent(p, src);
      if Top(p.frames).PrologFrame? {
        var (c, s1) := Decode(src).value;
        if IsValid(c) {
          FeedOpen(p, s1, c);
        }
      } else {
        LoopOpen(p, src);
      }
      if q.Success? {
        DriveOpen(q.value.0, q.value.1);
      }
    }
  }

  /** The prolog's `parse(source)` reads a single character, even when more are there. */
  lemma PrologReadsOne(p: Parser, src: Source)
    requires Open(p) && |p.frames| == 1 && src.charset.Some? && src.buffer.Some?
    ensures var d := Codecs.Decode(src.charset.value, src.buffer.value);
            var r := ParseCurrent(p, src);
            IsValid(d.0) ==>
              (r.Success? <==> StepFrame(p.frames[0], p.handlers, p.ns, p.events, d.0).Success?) &&
              (r.Success? ==> r.value.1.buffer == Some(d.1))
  {
    var (c, s1) := Decode(src).value;
    FeedOpen(p, s1, c);
  }
}

=== FILE: element.dfy ===
/** uk.org.retep.niosax.internal.core.delegate.Element: the delegate made for a '<' that
    opens an element. It reads the start tag (`StartState`), its attributes
    (`AttributeState`), the content with its references and child markup (`ContentState`),
    and the end tag or the "/>" of an empty element (`CloseState`). */
module Elements {
  import opened JavaLang
  import opened Sax
  import opened Namespaces
  import opened Frames
  import opened XmlSpec
  import AttributeLists

  // The element's own calls.

  /** What `startElement` leaves behind, whether it returns or throws: the namespace stack,
      the element's `namespaceScope` flag, and, when it returns, the parsed element name and
      the callbacks made so far. */
  datatype Started = Started(ns: Support, namespaceScope: bool,
                             result: Result<(QName, seq<Event>)>)

  /** Whether the element has stored at least one attribute. */
  predicate HasAttributes(d: ElementData) {
    d.attributes.Some? && !AttributeLists.IsEmpty(d.attributes.value)
  }

  /** The namespace stack once `processNames` has declared `ds`: one context pushed for
      them, when there are any. */
  function InScope(ns: Support, ds: seq<(JString, JString)>): (r: Support)
    ensures ds == [] ==> r == ns
    ensures ds != [] ==> |r| == |ns| + 1 && r[..|ns|] == ns
  {
    if ds == [] then ns
    else
      var r := AttributeLists.DeclareAll(Namespaces.Push(ns), ds);
      assert r[..|ns|] == Namespaces.Push(ns)[..|ns|];
      r
  }

  /** The end of `startElement`: the element name resolved in the context the attributes
      left, and the content handler's `startElement`. */
  function Announce(qName: JString, h: Handlers, ns: Support, events: seq<Event>, scope: bool,
                    attrs: seq<Attribute>): (r: Started)
    ensures r.ns == ns && r.namespaceScope == scope
    ensures r.result.Success? <==> ProcessName(ns, qName, false).Some? && h.content
    ensures r.result.Success? ==>
              r.result.value.0 == ProcessName(ns, qName, false).value &&
              r.result.value.1 == events + [StartElement(r.result.value.0, attrs)]
    ensures r.result.Failure? ==>
              r.result.error == if ProcessName(ns, qName, false).None?
                                then UndeclaredNamespace(qName) else NullPointer
  {
    var q := ResolveName(ns, qName, false);
    if q.Failure? then Started(ns, scope, Failure(q.error))
    else
      var evs := Emit(h, events, StartElement(q.value, attrs));
      if evs.Failure? then Started(ns, scope, Failure(evs.error))
      else Started(ns, scope, Success((q.value, evs.value)))
  }

  /** Whether `processNames` returns for the declarations `ds`: there are none, or there
      is a content handler and none of them declares a reserved prefix. */
  predicate Declarable(h: Handlers, ds: seq<(JString, JString)>) {
    ds == [] || (h.content && AttributeLists.AllDeclarable(ds))
  }

  /** `processNames` in the terms above. */
  lemma ProcessNamesInScope(h: Handlers, ns: Support, l: AttributeLists.AttributeList)
    ensures var p := AttributeLists.ProcessNames(h, ns, l);
            var ds := AttributeLists.Declarations(l.entries);
            (p.error.None? <==> Declarable(h, ds)) &&
            (p.error.None? ==> p.ns == InScope(ns, ds) && p.pushed == (ds != []) &&
                               p.events == AttributeLists.MappingEvents(ds)) &&
            (p.error.Some? ==> |p.ns| == |ns| + 1 && p.ns[..|ns|] == ns)
  {
  }

  /** `startElement` with attributes: the namespace declarations among them are made first,
      in a context pushed for them, and `namespaceScope` records the push; then the
      attributes and the element name are resolved in that context. A declaration that
      throws leaves its context pushed without recording it. */
  function StartWithAttributes(d: ElementData, h: Handlers, ns: Support, events: seq<Event>)
    : (r: Started)
    requires HasAttributes(d)
    ensures var entries := d.attributes.value.entries;
            var ds := AttributeLists.Declarations(entries);
            r.result.Success? <==>
              Declarable(h, ds) && h.content &&
              ProcessName(InScope(ns, ds), d.qName, false).Some? &&
              AttributeLists.GetAttributes(InScope(ns, ds), entries).Success?
    ensures var ds := AttributeLists.Declarations(d.attributes.value.entries);
            Declarable(h, ds) ==> r.ns == InScope(ns, ds) && r.namespaceScope == (ds != [])
    ensures var ds := AttributeLists.Declarations(d.attributes.value.entries);
            !Declarable(h, ds) ==>
              |r.ns| == |ns| + 1 && r.ns[..|ns|] == ns && r.namespaceScope == d.namespaceScope
    ensures var entries := d.attributes.value.entries;
            var ds := AttributeLists.Declarations(entries);
            var ns' := InScope(ns, ds);
            r.result.Success? ==>
              r.result.value.0 == ProcessName(ns', d.qName, false).value &&
              r.result.value.1 ==
                events + AttributeLists.MappingEvents(ds) +
                [StartElement(r.result.value.0, AttributeLists.GetAttributes(ns', entries).value)]
  {
    var l := d.attributes.value;
    ProcessNamesInScope(h, ns, l);
    var p := AttributeLists.ProcessNames(h, ns, l);
    if p.error.Some? then Started(p.ns, d.namespaceScope, Failure(p.error.value))
    else Declared(d.qName, l.entries, h, p.ns, events + p.events, p.pushed)
  }

  /** The rest of `startElement` once the declarations are made: the attributes, then the
      element name, resolved in the context `ns` they left. */
  function Declared(qName: JString, entries: seq<(JString, JString)>, h: Handlers,
                    ns: Support, events: seq<Event>, scope: bool): (r: Started)
    ensures r.ns == ns && r.namespaceScope == scope
    ensures r.result.Success? <==>
              h.content && ProcessName(ns, qName, false).Some? &&
              AttributeLists.GetAttributes(ns, entries).Success?
    ensures r.result.Success? ==>
              r.result.value.0 == ProcessName(ns, qName, false).value &&
              r.result.value.1 ==
                events + [StartElement(r.result.value.0,
                                       AttributeLists.GetAttributes(ns, entries).value)]
  {
    var attrs := AttributeLists.GetAttributes(ns, entries);
    if attrs.Failure? then Started(ns, scope, Failure(attrs.error))
    else Announce(qName, h, ns, events, scope, attrs.value)
  }

  /** `startElement`. Without attributes the handler gets an empty list and the namespace
      stack is left alone. */
  function StartTag(d: ElementData, h: Handlers, ns: Support, events: seq<Event>)
    : (r: Started)
    ensures !HasAttributes(d) ==>
              r.ns == ns && r.namespaceScope == d.namespaceScope &&
              (r.result.Success? <==> h.content && ProcessName(ns, d.qName, false).Some?) &&
              (r.result.Success? ==>
                 r.result.value.0 == ProcessName(ns, d.qName, false).value &&
                 r.result.value.1 == events + [StartElement(r.result.value.0, [])])
    ensures HasAttributes(d) ==> r == StartWithAttributes(d, h, ns, events)
  {
    if !HasAttributes(d) then Announce(d.qName, h, ns, events, d.namespaceScope, [])
    else StartWithAttributes(d, h, ns, events)
  }

  /** The element as `startElement` leaves it when it returns. */
  function AfterStart(d: ElementData, st: Started): (r: ElementData)
    requires st.result.Success?
    ensures r == d.(namespaceScope := st.namespaceScope, parsedQName := st.result.value.0)
  {
    d.(namespaceScope := st.namespaceScope, parsedQName := st.result.value.0)
  }

  /** `cleanup`, run by `finish()`: the context `startElement` recorded is popped. */
  function Cleanup(d: ElementData, ns: Support): (r: Result<Support>)
    ensures d.namespaceScope ==> r == Pop(ns)
    ensures !d.namespaceScope ==> r == Success(ns)
  {
    if d.namespaceScope then Pop(ns) else Success(ns)
  }

  /** `validateQName`: the name read in the end tag, resolved, must be the element's own
      parsed name. */
  function ValidateQName(d: ElementData, ns: Support): (r: Result<QName>)
    ensures r.Success? <==> ProcessName(ns, d.text, false) == Some(d.parsedQName)
    ensures r.Failure? && ProcessName(ns, d.text, false).None? ==>
              r.error == UndeclaredNamespace(d.text)
    ensures r.Failure? && ProcessName(ns, d.text, false).Some? ==>
              r.error == SaxError(EndTagMismatch(d.parsedQName.qName,
                                                 ProcessName(ns, d.text, false).value.qName))
  {
    var qn :- ResolveName(ns, d.text, false);
    if qn != d.parsedQName then Failure(SaxError(EndTagMismatch(d.parsedQName.qName, qn.qName)))
    else Success(qn)
  }

  /** `endElement` and `finish()`: the handler gets the name parsed at the start tag. */
  function Ended(d: ElementData, h: Handlers, ns: Support, events: seq<Event>)
    : (r: Result<Outcome<ElementData>>)
    ensures r.Success? <==> h.content
    ensures r.Failure? ==> r.error == NullPointer
    ensures r.Success? ==>
              r.value == Outcome(d.(state := Completed), ns, events + [EndElement(d.parsedQName)],
                                 Finish)
  {
    var evs :- Emit(h, events, EndElement(d.parsedQName));
    Success(Outcome(d.(state := Completed), ns, evs, Finish))
  }

  /** The '>' that ends a start tag: `startElement`, and then the content. */
  function Opened(d: ElementData, h: Handlers, ns: Support, events: seq<Event>)
    : (r: Result<Outcome<ElementData>>)
    ensures var st := StartTag(d, h, ns, events);
            (r.Success? <==> st.result.Success?) &&
            (r.Failure? ==> r.error == st.result.error) &&
            (r.Success? ==>
               r.value == Keep(AfterStart(d, st).(state := State(Content)), st.ns,
                               st.result.value.1))
  {
    var st := StartTag(d, h, ns, events);
    if st.result.Failure? then Failure(st.result.error)
    else Success(Keep(AfterStart(d, st).(state := State(Content)), st.ns, st.result.value.1))
  }

  /** The first character of a name, in `StartState.NAME` and `CloseState.NAME`. */
  function NameStart(d: ElementData, ns: Support, events: seq<Event>, c: JChar,
                     next: ElementState): (r: Result<Outcome<ElementData>>)
    ensures r.Success? <==> IsNameStartChar(c)
    ensures r.Failure? ==> r.error == IllegalCharacter(c)
    ensures r.Success? ==>
              r.value == Keep(d.(state := State(next), text := d.text + [c]), ns, events)
  {
    if IsNameStartChar(c) then Success(Keep(d.(state := State(next), text := d.text + [c]), ns, events))
    else Failure(IllegalCharacter(c))
  }

  // The four enums.

  /** `StartState`: the element name, up to the white space, '/' or '>' after it, which
      stores it as `qName`. */
  function StartStep(d: ElementData, s: ElementState, h: Handlers, ns: Support,
                     events: seq<Event>, c: JChar): (r: Result<Outcome<ElementData>>)
    requires s == StartName || s == StartName1
    ensures s == StartName ==> r == NameStart(d, ns, events, c, StartName1)
    ensures s == StartName1 ==>
              (r.Failure? <==>
                 (!IsNameChar(c) && !IsWhitespace(c) && c != '/' as int && c != '>' as int) ||
                 (c == '>' as int && Opened(d.(qName := d.text, text := []), h, ns, events).Failure?))
    ensures s == StartName1 && IsNameChar(c) ==>
              r == Success(Keep(d.(state := State(StartName1), text := d.text + [c]), ns, events))
    ensures s == StartName1 && !IsNameChar(c) && (IsWhitespace(c) || c == '/' as int) ==>
              r == Success(Keep(d.(state := State(if IsWhitespace(c) then AttrWhitespace
                                                  else CloseEmpty),
                                   qName := d.text, text := []), ns, events))
    ensures s == StartName1 && c == '>' as int ==>
              r == Opened(d.(qName := d.text, text := []), h, ns, events)
    ensures r.Success? ==> r.value.effect.Stay? && r.value.frame.state.State?
    ensures r.Success? && r.value.ns != ns ==> s == StartName1 && c == '>' as int
    ensures r.Success? && (s == StartName || c != '>' as int) ==>
              r.value.ns == ns && r.value.frame.namespaceScope == d.namespaceScope
  {
    match s
    case StartName => NameStart(d, ns, events, c, StartName1)
    case StartName1 =>
      if IsNameChar(c) then
        Success(Keep(d.(state := State(StartName1), text := d.text + [c]), ns, events))
      else if IsWhitespace(c) then
        Success(Keep(d.(state := State(AttrWhitespace), qName := d.text, text := []), ns, events))
      else if c == '/' as int then
        Success(Keep(d.(state := State(CloseEmpty), qName := d.text, text := []), ns, events))
      else if c == '>' as int then Opened(d.(qName := d.text, text := []), h, ns, events)
      else Failure(IllegalCharacter(c))
  }

  /** The quote that ends the value read in the state. */
  function QuoteOf(s: ElementState): (r: JChar)
    requires s == QuotedValue || s == DoubleQuotedValue
    ensures r == '\'' as int || r == '"' as int
  {
    if s == QuotedValue then '\'' as int else '"' as int
  }

  /** `setAttrValue`: the value read is stored with the name cached at the '='; the list is
      made on the first attribute. */
  function StoreAttribute(d: ElementData): (r: ElementData)
    ensures r.attributes.Some? &&
            r.attributes.value.entries ==
              (if d.attributes.None? then [] else d.attributes.value.entries) +
              [(d.attrQName, d.text)]
    ensures r.text == [] && r.state == d.state && r.qName == d.qName
    ensures r.namespaceScope == d.namespaceScope && r.attrQName == d.attrQName
  {
    var l := if d.attributes.None? then AttributeLists.New() else d.attributes.value;
    d.(attributes := Some(AttributeLists.AddAttribute(l, d.attrQName, d.text)), text := [])
  }

  /** Storing an attribute does not depend on the state the element is in. */
  lemma StoreAttributeKeepsState(d: ElementData, e: Engine<ElementState>)
    ensures StoreAttribute(d.(state := e)) == StoreAttribute(d).(state := e)
  {
  }

  /** `AttributeState`: attributes as name, '=' and a quoted value, with no white space
      around the '=' and none needed between attributes. A '<' in a value is refused, and so
      is whatever follows a '&'. */
  function AttributeStep(d: ElementData, s: ElementState, h: Handlers, ns: Support,
                         events: seq<Event>, c: JChar): (r: Result<Outcome<ElementData>>)
    requires s.AttrWhitespace? || s.AttrName? || s.AttrEq? || s.QuotedValue? ||
             s.QuotedReference? || s.DoubleQuotedValue? || s.DoubleQuotedReference?
    ensures (s == QuotedReference || s == DoubleQuotedReference) ==>
              r == Failure(IllegalCharacter(c))
    ensures s == AttrWhitespace && c == '>' as int ==> r == Opened(d, h, ns, events)
    ensures s == AttrWhitespace && c != '>' as int ==>
              (r.Success? <==> IsWhitespace(c) || c == '/' as int || IsNameStartChar(c)) &&
              (r.Success? ==> r.value == Keep(
                 if IsWhitespace(c) then d.(state := State(AttrWhitespace))
                 else if c == '/' as int then d.(state := State(CloseEmpty))
                 else d.(state := State(AttrName), text := d.text + [c]), ns, events))
    ensures s == AttrName ==>
              (r.Success? <==> IsNameChar(c) || c == '=' as int) &&
              (r.Success? ==> r.value == Keep(
                 if IsNameChar(c) then d.(state := State(AttrName), text := d.text + [c])
                 else d.(state := State(AttrEq), attrQName := d.text, text := []), ns, events))
    ensures s == AttrEq ==>
              (r.Success? <==> c == '\'' as int || c == '"' as int) &&
              (r.Success? ==> r.value == Keep(
                 d.(state := State(if c == '\'' as int then QuotedValue else DoubleQuotedValue)),
                 ns, events))
    ensures (s == QuotedValue || s == DoubleQuotedValue) ==>
              (r.Success? <==> c != '<' as int || c == QuoteOf(s)) &&
              (r.Success? ==> r.value == Keep(
                 if c == QuoteOf(s) then StoreAttribute(d).(state := State(AttrWhitespace))
                 else if c == '&' as int then
                   d.(state := State(if s == QuotedValue then QuotedReference
                                     else DoubleQuotedReference))
                 else d.(state := State(s), text := d.text + [c]), ns, events))
    ensures r.Failure? && s != AttrWhitespace ==> r.error == IllegalCharacter(c)
    ensures r.Success? ==> r.value.effect.Stay? && r.value.frame.state.State?
    ensures r.Success? && r.value.ns != ns ==> s == AttrWhitespace && c == '>' as int
    ensures r.Success? && (s != AttrWhitespace || c != '>' as int) ==>
              r.value.ns == ns && r.value.frame.namespaceScope == d.namespaceScope
  {
    match s
    case AttrWhitespace =>
      if IsWhitespace(c) then Success(Keep(d.(state := State(AttrWhitespace)), ns, events))
      else if c == '/' as int then Success(Keep(d.(state := State(CloseEmpty)), ns, events))
      else if c == '>' as int then Opened(d, h, ns, events)
      else NameStart(d, ns, events, c, AttrName)
    case AttrName =>
      if IsNameChar(c) then
        Success(Keep(d.(state := State(AttrName), text := d.text + [c]), ns, events))
      else if c == '=' as int then
        Success(Keep(d.(state := State(AttrEq), attrQName := d.text, text := []), ns, events))
      else Failure(IllegalCharacter(c))
    case AttrEq =>
      if c == '\'' as int then Success(Keep(d.(state := State(QuotedValue)), ns, events))
      else if c == '"' as int then Success(Keep(d.(state := State(DoubleQuotedValue)), ns, events))
      else Failure(IllegalCharacter(c))
    case QuotedValue => ValueStep(d, s, ns, events, c)
    case DoubleQuotedValue => ValueStep(d, s, ns, events, c)
    case QuotedReference => Failure(IllegalCharacter(c))
    case DoubleQuotedReference => Failure(IllegalCharacter(c))
  }

  /** `QUOTED_VALUE` and `DOUBLE_QUOTED_VALUE`. */
  function ValueStep(d: ElementData, s: ElementState, ns: Support, events: seq<Event>,
                     c: JChar): (r: Result<Outcome<ElementData>>)
    requires s == QuotedValue || s == DoubleQuotedValue
    ensures r.Failure? <==> c == '<' as int && c != QuoteOf(s)
    ensures r.Failure? ==> r.error == IllegalCharacter(c)
    ensures r.Success? ==> r.value == Keep(
              if c == QuoteOf(s) then StoreAttribute(d).(state := State(AttrWhitespace))
              else if c == '&' as int then
                d.(state := State(if s == QuotedValue then QuotedReference
                                  else DoubleQuotedReference))
              else d.(state := State(s), text := d.text + [c]), ns, events)
  {
    if c == QuoteOf(s) then Success(Keep(StoreAttribute(d).(state := State(AttrWhitespace)), ns, events))
    else if c == '&' as int then
      Success(Keep(d.(state := State(if s == QuotedValue then QuotedReference
                                     else DoubleQuotedReference)), ns, events))
    else if c == '<' as int then Failure(IllegalCharacter(c))
    else Success(Keep(d.(state := State(s), text := d.text + [c]), ns, events))
  }

  /** What a reference read from '&' to ';' puts in the content: the one character of
      "&lt;", "&gt;", "&quot;", "&apos;" and "&amp;", and nothing for any other. */
  function Expand(ref: JString): (r: JString)
    ensures |r| <= 1
  {
    if ref == Lit("&lt;") then Lit("<")
    else if ref == Lit("&gt;") then Lit(">")
    else if ref == Lit("&quot;") then Lit("\"")
    else if ref == Lit("&apos;") then Lit("'")
    else if ref == Lit("&amp;") then Lit("&")
    else []
  }

  /** `ContentState.characters`: the text gathered so far goes to the handler, when there is
      any, and the accumulator is emptied. */
  function Flush(d: ElementData, h: Handlers, events: seq<Event>)
    : (r: Result<(ElementData, seq<Event>)>)
    ensures r.Failure? <==> d.text != [] && !h.content
    ensures r.Failure? ==> r.error == NullPointer
    ensures r.Success? ==>
              r.value.0 == d.(text := []) &&
              r.value.1 == events + (if d.text == [] then [] else [Characters(d.text)])
  {
    if d.text == [] then Success((d, events))
    else
      var evs :- Emit(h, events, Characters(d.text));
      Success((d.(text := []), evs))
  }

  /** The child a '<' in content hands its next character to: "</" is this element's end
      tag; "<!" and "<?" make a delegate for a comment or CDATA section and for a processing
      instruction; anything else makes a child element and hands it the character, which its
      `NAME` state takes as the first of its name or refuses. */
  function ChildFrame(c: JChar): (r: Result<Option<Frame>>)
    ensures c == '/' as int ==> r == Success(None)
    ensures c == '!' as int ==> r == Success(Some(MarkupFrame(NewMarkup())))
    ensures c == '?' as int ==> r == Success(Some(PIFrame(NewPI(Generic))))
    ensures c != '/' as int && c != '!' as int && c != '?' as int ==>
              (r.Success? <==> IsNameStartChar(c)) &&
              (r.Failure? ==> r.error == IllegalCharacter(c)) &&
              (r.Success? ==> r.value == Some(ElementFrame(
                 NewElement().(state := State(StartName1), text := [c]))))
  {
    if c == '/' as int then Success(None)
    else if c == '!' as int then Success(Some(MarkupFrame(NewMarkup())))
    else if c == '?' as int then Success(Some(PIFrame(NewPI(Generic))))
    else if IsNameStartChar(c) then
      Success(Some(ElementFrame(NewElement().(state := State(StartName1), text := [c]))))
    else Failure(IllegalCharacter(c))
  }

  /** `ContentState`: text, references, and the '<' of child markup, which first hands the
      text gathered to the handler. */
  function ContentStep(d: ElementData, s: ElementState, h: Handlers, ns: Support,
                       events: seq<Event>, c: JChar): (r: Result<Outcome<ElementData>>)
    requires s == Content || s == Reference || s == Child
    ensures s == Content && c == '<' as int ==>
              var fl := Flush(d, h, events);
              (r.Success? <==> fl.Success?) &&
              (r.Success? ==> r.value == Keep(fl.value.0.(state := State(Child)), ns, fl.value.1))
    ensures s == Content && c != '<' as int ==>
              r == Success(Keep(
                if c == '&' as int then d.(state := State(Reference), reference := ['&' as int])
                else d.(state := State(Content), text := d.text + [c]), ns, events))
    ensures s == Reference ==>
              r == Success(Keep(
                if c == ';' as int then
                  d.(state := State(Content), text := d.text + Expand(d.reference + [c]),
                     reference := [])
                else d.(state := State(Reference), reference := d.reference + [c]), ns, events))
    ensures s == Child ==>
              var cf := ChildFrame(c);
              (r.Success? <==> cf.Success?) &&
              (r.Failure? ==> r.error == cf.error) &&
              (r.Success? && cf.value.None? ==>
                 r.value == Keep(d.(state := State(CloseName)), ns, events)) &&
              (r.Success? && cf.value.Some? ==>
                 r.value == Outcome(d.(state := Delegated(Content)), ns, events,
                                    Push(cf.value.value)))
    ensures r.Success? ==> r.value.ns == ns
    ensures r.Success? ==> (r.value.effect.Stay? && r.value.frame.state.State?) ||
                           (r.value.effect.Push? && s == Child &&
                            r.value.frame == d.(state := Delegated(Content)) &&
                            r.value.events == events)
  {
    match s
    case Content =>
      if c == '<' as int then
        var fl :- Flush(d, h, events);
        Success(Keep(fl.0.(state := State(Child)), ns, fl.1))
      else if c == '&' as int then
        Success(Keep(d.(state := State(Reference), reference := ['&' as int]), ns, events))
      else Success(Keep(d.(state := State(Content), text := d.text + [c]), ns, events))
    case Reference =>
      var ref := d.reference + [c];
      if c == ';' as int then
        Success(Keep(d.(state := State(Content), text := d.text + Expand(ref), reference := []),
                     ns, events))
      else Success(Keep(d.(state := State(Reference), reference := ref), ns, events))
    case Child =>
      var child :- ChildFrame(c);
      if child.None? then Success(Keep(d.(state := State(CloseName)), ns, events))
      else Success(Outcome(d.(state := Delegated(Content)), ns, events, Push(child.value)))
  }

  /** `CloseState`: the end tag's name and the '>' after it, or the '>' of "/>". Only an end
      tag with white space before its '>' is compared with the start tag. */
  function CloseStep(d: ElementData, s: ElementState, h: Handlers, ns: Support,
                     events: seq<Event>, c: JChar): (r: Result<Outcome<ElementData>>)
    requires s == CloseName || s == CloseName1 || s == CloseWhitespace || s == CloseEmpty
    ensures s == CloseName ==> r == NameStart(d, ns, events, c, CloseName1)
    ensures s == CloseName1 && c == '>' as int ==> r == Ended(d, h, ns, events)
    ensures s == CloseName1 && c != '>' as int ==>
              (r.Success? <==> IsNameChar(c) || IsWhitespace(c)) &&
              (r.Success? ==> r.value == Keep(
                 if IsNameChar(c) then d.(state := State(CloseName1), text := d.text + [c])
                 else d.(state := State(CloseWhitespace)), ns, events))
    ensures s == CloseWhitespace && c == '>' as int ==>
              var v := ValidateQName(d, ns);
              (r.Success? <==> v.Success? && h.content) &&
              (r.Failure? && v.Failure? ==> r.error == v.error) &&
              (v.Success? ==> r == Ended(d.(text := []), h, ns, events))
    ensures s == CloseWhitespace && c != '>' as int ==>
              (r.Success? <==> IsWhitespace(c)) &&
              (r.Success? ==> r.value == Keep(d.(state := State(CloseWhitespace)), ns, events))
    ensures s == CloseEmpty && c == '>' as int ==>
              var st := StartTag(d, h, ns, events);
              (r.Success? <==> st.result.Success? && h.content) &&
              (st.result.Failure? ==> r == Failure(st.result.error)) &&
              (st.result.Success? ==> r == Ended(AfterStart(d, st), h, st.ns, st.result.value.1))
    ensures s == CloseEmpty && c != '>' as int ==> r == Failure(IllegalCharacter(c))
    ensures r.Failure? && c != '>' as int ==> r.error == IllegalCharacter(c)
    ensures r.Success? ==> (r.value.effect.Stay? && r.value.frame.state.State?) ||
                           (r.value.effect == Finish && r.value.frame.state == Completed)
    ensures r.Success? && r.value.ns != ns ==> s == CloseEmpty && c == '>' as int
  {
    match s
    case CloseName => NameStart(d, ns, events, c, CloseName1)
    case CloseName1 =>
      if IsNameChar(c) then
        Success(Keep(d.(state := State(CloseName1), text := d.text + [c]), ns, events))
      else if IsWhitespace(c) then Success(Keep(d.(state := State(CloseWhitespace)), ns, events))
      else if c == '>' as int then Ended(d, h, ns, events)
      else Failure(IllegalCharacter(c))
    case CloseWhitespace =>
      if IsWhitespace(c) then Success(Keep(d.(state := State(CloseWhitespace)), ns, events))
      else if c == '>' as int then
        var _ :- ValidateQName(d, ns);
        Ended(d.(text := []), h, ns, events)
      else Failure(IllegalCharacter(c))
    case CloseEmpty =>
      if c == '>' as int then
        var st := StartTag(d, h, ns, events);
        if st.result.Failure? then Failure(st.result.error)
        else Ended(AfterStart(d, st), h, st.ns, st.result.value.1)
      else Failure(IllegalCharacter(c))
  }

  predicate IsStartState(s: ElementState) {
    s == StartName || s == StartName1
  }

  predicate IsAttributeState(s: ElementState) {
    s.AttrWhitespace? || s.AttrName? || s.AttrEq? || s.QuotedValue? || s.QuotedReference? ||
    s.DoubleQuotedValue? || s.DoubleQuotedReference?
  }

  predicate IsContentState(s: ElementState) {
    s == Content || s == Reference || s == Child
  }

  /** `StateEngineDelegate.parse` on an element: the character goes to the state's enum; a
      completed element refuses it. Only the '>' of a start tag changes the namespace stack,
      only a child delegate leaves the element waiting in `DELEGATED`, and only an end tag
      finishes it. */
  function Step(d: ElementData, h: Handlers, ns: Support, events: seq<Event>, c: JChar)
    : (r: Result<Outcome<ElementData>>)
    ensures d.state.Completed? ==> r == Failure(UnsupportedOperation)
    ensures r.Success? ==> (r.value.effect.Stay? <==> ContinueLoop(r.value.frame.state))
    ensures r.Success? ==> r.value.effect.Stay? || r.value.effect.Finish? || r.value.effect.Push?
    ensures r.Success? && r.value.effect.Finish? ==> r.value.frame.state == Completed
    ensures r.Success? && r.value.effect.Push? ==>
              d.state.s == Child && r.value.frame == d.(state := Delegated(Content)) &&
              r.value.events == events && ChildFrame(c) == Success(Some(r.value.effect.child))
    ensures r.Success? && r.value.ns != ns ==>
              c == '>' as int && d.state.s in {StartName1, AttrWhitespace, CloseEmpty}
  {
    var s :- Unwrap(d.state);
    if IsStartState(s) then StartStep(d, s, h, ns, events, c)
    else if IsAttributeState(s) then AttributeStep(d, s, h, ns, events, c)
    else if IsContentState(s) then ContentStep(d, s, h, ns, events, c)
    else CloseStep(d, s, h, ns, events, c)
  }

  // Runs over whole strings.

  /** Whether the step in state `s` appends `c` to the accumulator and stays in `s`: a name
      character in a name, anything but '<' and '&' in content, and anything but the closing
      quote, '&' and '<' in an attribute value. */
  predicate Appends(s: ElementState, c: JChar) {
    match s
    case StartName1 => IsNameChar(c)
    case AttrName => IsNameChar(c)
    case CloseName1 => IsNameChar(c)
    case Content => c != '<' as int && c != '&' as int
    case QuotedValue => c != '\'' as int && c != '&' as int && c != '<' as int
    case DoubleQuotedValue => c != '"' as int && c != '&' as int && c != '<' as int
    case _ => false
  }

  predicate AllAppend(s: ElementState, t: JString) {
    forall i :: 0 <= i < |t| ==> Appends(s, t[i])
  }

  lemma AppendStep(g: ElementData, h: Handlers, ns: Support, events: seq<Event>, c: JChar)
    requires g.state.State? && Appends(g.state.s, c)
    ensures Step(g, h, ns, events, c) == Success(Keep(g.(text := g.text + [c]), ns, events))
  {
    assert g.(state := State(g.state.s), text := g.text + [c]) == g.(text := g.text + [c]);
  }

  /** Characters the state appends are all gathered in the accumulator, nothing is
      reported and the element stays where it is. */
  lemma TextRead(d: ElementData, h: Handlers, ns: Support, events: seq<Event>, t: JString)
    requires d.state.State? && AllAppend(d.state.s, t)
    ensures Run(Step, d, h, ns, events, t) == Success(Keep(d.(text := d.text + t), ns, events))
  {
    var ok := (g: ElementData, u: JString) => g == d.(text := g.text) && AllAppend(d.state.s, u);
    var seen := (g: ElementData) => g.text;
    forall g: ElementData, u: JString | u != [] && ok(g, u)
      ensures var r := Step(g, h, ns, events, u[0]);
              r.Success? && r.value.effect.Stay? && r.value.ns == ns &&
              r.value.events == events && seen(r.value.frame) == seen(g) + [u[0]] &&
              ok(r.value.frame, u[1..])
    {
      assert g.state == d.state && Appends(d.state.s, u[0]);
      AppendStep(g, h, ns, events, u[0]);
      assert AllAppend(d.state.s, u[1..]) by {
        forall i | 0 <= i < |u| - 1 ensures Appends(d.state.s, u[1..][i]) {
          assert u[1..][i] == u[i + 1];
        }
      }
      var f := g.(text := g.text + [u[0]]);
      assert f == d.(text := f.text);
    }
    RunReads(Step, ok, seen, d, h, ns, events, t);
  }

  /** Name characters are appended in a name state. */
  lemma NameAppends(s: ElementState, n: JString)
    requires s == StartName1 || s == AttrName || s == CloseName1
    requires AllNameChar(n)
    ensures AllAppend(s, n)
  {
    forall i | 0 <= i < |n| ensures Appends(s, n[i]) {
      assert IsNameChar(n[i]);
    }
  }

  /** A frame in one of `StartState`'s states steps by that enum. */
  lemma StepInStart(d: ElementData, h: Handlers, ns: Support, events: seq<Event>, c: JChar)
    requires d.state.State? && IsStartState(d.state.s)
    ensures Step(d, h, ns, events, c) == StartStep(d, d.state.s, h, ns, events, c)
  {
  }

  /** A frame in one of `CloseState`'s states steps by that enum. */
  lemma StepInClose(d: ElementData, h: Handlers, ns: Support, events: seq<Event>, c: JChar)
    requires d.state.State? && d.state.s in {CloseName, CloseName1, CloseWhitespace, CloseEmpty}
    ensures Step(d, h, ns, events, c) == CloseStep(d, d.state.s, h, ns, events, c)
  {
    assert !IsStartState(d.state.s) && !IsAttributeState(d.state.s) && !IsContentState(d.state.s);
  }

  /** The '>' right after the name of a start tag with no attributes. */
  lemma StartTagCloseStep(g: ElementData, h: Handlers, ns: Support, events: seq<Event>)
    requires g.state == State(StartName1) && g.attributes.None?
    ensures var r := Step(g, h, ns, events, '>' as int);
            (r.Success? <==> h.content && ProcessName(ns, g.text, false).Some?) &&
            (r.Success? ==>
               var q := ProcessName(ns, g.text, false).value;
               r.value.effect.Stay? && r.value.frame.state == State(Content) &&
               r.value.frame.text == [] && r.value.frame.parsedQName == q &&
               r.value.ns == ns && r.value.events == events + [StartElement(q, [])])
  {
    StepInStart(g, h, ns, events, '>' as int);
    DelimitersAreNotNameChars('>' as int);
    var st := StartTag(g.(qName := g.text, text := []), h, ns, events);
    assert !HasAttributes(g.(qName := g.text, text := []));
  }

  /** A start tag, "name>", with no attributes: the element reports its start, with an
      empty attribute list and the namespace stack left as it was, and goes on to read its
      content. */
  lemma StartTagRead(d: ElementData, h: Handlers, ns: Support, events: seq<Event>, n: JString)
    requires d.state == State(StartName1) && d.attributes.None? && AllNameChar(n)
    ensures var r := Run(Step, d, h, ns, events, n + ['>' as int]);
            (r.Success? <==> h.content && ProcessName(ns, d.text + n, false).Some?) &&
            (r.Success? ==>
               var q := ProcessName(ns, d.text + n, false).value;
               r.value.effect.Stay? && r.value.frame.state == State(Content) &&
               r.value.frame.text == [] && r.value.frame.parsedQName == q &&
               r.value.ns == ns && r.value.events == events + [StartElement(q, [])])
  {
    NameAppends(StartName1, n);
    TextRead(d, h, ns, events, n);
    var g := d.(text := d.text + n);
    RunThen(Step, d, h, ns, events, n, ['>' as int], g);
    StartTagCloseStep(g, h, ns, events);
    var o := Step(g, h, ns, events, '>' as int);
    RunCons(Step, g, h, ns, events, '>' as int, []);
    assert ['>' as int] + [] == ['>' as int];
    if o.Success? {
      assert Run(Step, o.value.frame, h, o.value.ns, o.value.events, []) ==
             Success(Keep(o.value.frame, o.value.ns, o.value.events));
    }
  }

  /** The '>' of "/>" after a start tag with no attributes: the start and the end are
      reported together and the element finishes. */
  lemma EmptyTagCloses(d: ElementData, h: Handlers, ns: Support, events: seq<Event>)
    requires d.state == State(CloseEmpty) && d.attributes.None?
    ensures var r := Step(d, h, ns, events, '>' as int);
            (r.Success? <==> h.content && ProcessName(ns, d.qName, false).Some?) &&
            (r.Success? ==>
               var q := ProcessName(ns, d.qName, false).value;
               r.value.effect == Finish && r.value.frame.state == Completed &&
               r.value.ns == ns && r.value.events == events + [StartElement(q, []), EndElement(q)])
  {
    StepInClose(d, h, ns, events, '>' as int);
  }

  /** "/>" right after an element name. */
  lemma EmptyTagAfterName(d: ElementData, h: Handlers, ns: Support, events: seq<Event>)
    requires d.state == State(StartName1) && d.attributes.None?
    ensures var r := Run(Step, d, h, ns, events, Lit("/>"));
            (r.Success? <==> h.content && ProcessName(ns, d.text, false).Some?) &&
            (r.Success? ==>
               var q := ProcessName(ns, d.text, false).value;
               r.value.effect == Finish && r.value.frame.state == Completed &&
               r.value.ns == ns && r.value.events == events + [StartElement(q, []), EndElement(q)])
  {
    var slash, gt := '/' as int, '>' as int;
    var d2 := d.(state := State(CloseEmpty), qName := d.text, text := []);
    StepInStart(d, h, ns, events, slash);
    assert Lit("/>") == [slash] + [gt];
    RunStay(Step, d, h, ns, events, slash, [gt], d2);
    EmptyTagCloses(d2, h, ns, events);
    RunCons(Step, d2, h, ns, events, gt, []);
  }

  /** An empty element, "name/>" with no attributes: the element reports its start, with
      an empty attribute list, and its end at once, and finishes with the namespace stack as
      it was. It fails exactly when the name has an undeclared prefix or there is no content
      handler. */
  lemma EmptyElementRead(d: ElementData, h: Handlers, ns: Support, events: seq<Event>,
                         n: JString)
    requires d.state == State(StartName1) && d.attributes.None? && AllNameChar(n)
    ensures var r := Run(Step, d, h, ns, events, n + Lit("/>"));
            (r.Success? <==> h.content && ProcessName(ns, d.text + n, false).Some?) &&
            (r.Success? ==>
               var q := ProcessName(ns, d.text + n, false).value;
               r.value.effect == Finish && r.value.frame.state == Completed &&
               r.value.ns == ns && r.value.events == events + [StartElement(q, []), EndElement(q)])
  {
    NameAppends(StartName1, n);
    TextRead(d, h, ns, events, n);
    var d1 := d.(text := d.text + n);
    RunThen(Step, d, h, ns, events, n, Lit("/>"), d1);
    EmptyTagAfterName(d1, h, ns, events);
  }

  /** A frame in one of `AttributeState`'s states steps by that enum. */
  lemma StepInAttribute(d: ElementData, h: Handlers, ns: Support, events: seq<Event>, c: JChar)
    requires d.state.State? && IsAttributeState(d.state.s)
    ensures Step(d, h, ns, events, c) == AttributeStep(d, d.state.s, h, ns, events, c)
  {
    assert !IsStartState(d.state.s);
  }

  /** The value state an opening quote leads to. */
  function ValueState(quote: JChar): (r: ElementState)
    requires quote == '\'' as int || quote == '"' as int
    ensures r == QuotedValue || r == DoubleQuotedValue
    ensures QuoteOf(r) == quote
  {
    if quote == '\'' as int then QuotedValue else DoubleQuotedValue
  }

  /** The first character of an attribute name. */
  lemma AttributeNameStarts(d: ElementData, h: Handlers, ns: Support, events: seq<Event>,
                            c: JChar)
    requires d.state == State(AttrWhitespace) && d.text == [] && IsNameStartChar(c)
    ensures Step(d, h, ns, events, c) ==
              Success(Keep(d.(state := State(AttrName), text := [c]), ns, events))
  {
    StepInAttribute(d, h, ns, events, c);
    NameStartIsNameChar(c);
    NameCharIsNoDelimiter(c);
    assert d.text + [c] == [c];
  }

  /** An attribute name after the white space of a start tag is gathered in the
      accumulator. */
  lemma AttributeNameChars(d: ElementData, h: Handlers, ns: Support, events: seq<Event>,
                           c: JChar, rest: JString)
    requires d.state == State(AttrWhitespace) && d.text == []
    requires IsNameStartChar(c) && AllNameChar(rest)
    ensures Run(Step, d, h, ns, events, [c] + rest) ==
              Success(Keep(d.(state := State(AttrName), text := [c] + rest), ns, events))
  {
    var g := d.(state := State(AttrName), text := [c]);
    AttributeNameStarts(d, h, ns, events, c);
    RunStay(Step, d, h, ns, events, c, rest, g);
    NameAppends(AttrName, rest);
    TextRead(g, h, ns, events, rest);
  }

  lemma AttributeNameRead(d: ElementData, h: Handlers, ns: Support, events: seq<Event>,
                          n: JString)
    requires d.state == State(AttrWhitespace) && d.text == [] && IsName(n)
    ensures Run(Step, d, h, ns, events, n) ==
              Success(Keep(d.(state := State(AttrName), text := n), ns, events))
  {
    NameTail(n);
    AttributeNameChars(d, h, ns, events, n[0], n[1..]);
    assert [n[0]] + n[1..] == n;
  }

  /** The steps between the name and the value of an attribute: the '=' caches the name,
      the opening quote picks the value state, and the closing quote stores the pair. */
  lemma EqualsStep(g: ElementData, h: Handlers, ns: Support, events: seq<Event>)
    requires g.state == State(AttrName)
    ensures Step(g, h, ns, events, '=' as int) ==
              Success(Keep(g.(state := State(AttrEq), attrQName := g.text, text := []), ns, events))
  {
    StepInAttribute(g, h, ns, events, '=' as int);
  }

  lemma OpenQuoteStep(g: ElementData, h: Handlers, ns: Support, events: seq<Event>,
                      quote: JChar)
    requires g.state == State(AttrEq) && (quote == '\'' as int || quote == '"' as int)
    ensures Step(g, h, ns, events, quote) ==
              Success(Keep(g.(state := State(ValueState(quote))), ns, events))
  {
    StepInAttribute(g, h, ns, events, quote);
  }

  lemma CloseQuoteStep(g: ElementData, h: Handlers, ns: Support, events: seq<Event>,
                       quote: JChar)
    requires (quote == '\'' as int || quote == '"' as int) && g.state == State(ValueState(quote))
    ensures Step(g, h, ns, events, quote) ==
              Success(Keep(StoreAttribute(g).(state := State(AttrWhitespace)), ns, events))
  {
    StepInAttribute(g, h, ns, events, quote);
  }

  /** The rest of a value and its closing quote. */
  lemma ValueCloses(g: ElementData, h: Handlers, ns: Support, events: seq<Event>,
                    quote: JChar, v: JString)
    requires (quote == '\'' as int || quote == '"' as int) && g.state == State(ValueState(quote))
    requires AllAppend(ValueState(quote), v)
    ensures Run(Step, g, h, ns, events, v + [quote]) ==
              Success(Keep(StoreAttribute(g.(text := g.text + v)).(state := State(AttrWhitespace)),
                           ns, events))
  {
    TextRead(g, h, ns, events, v);
    var g2 := g.(text := g.text + v);
    RunThen(Step, g, h, ns, events, v, [quote], g2);
    CloseQuoteStep(g2, h, ns, events, quote);
    RunStay(Step, g2, h, ns, events, quote, [],
            StoreAttribute(g2).(state := State(AttrWhitespace)));
    assert [quote] + [] == [quote];
  }

  /** A quoted value after the '=': the characters between the quotes are gathered and, at
      the closing quote, stored with the name read before the '='. */
  lemma AttributeValueRead(d: ElementData, h: Handlers, ns: Support, events: seq<Event>,
                           quote: JChar, v: JString)
    requires d.state == State(AttrEq) && d.text == []
    requires (quote == '\'' as int || quote == '"' as int) && AllAppend(ValueState(quote), v)
    ensures Run(Step, d, h, ns, events, [quote] + v + [quote]) ==
              Success(Keep(StoreAttribute(d.(text := v)).(state := State(AttrWhitespace)), ns,
                           events))
  {
    var g := d.(state := State(ValueState(quote)));
    OpenQuoteStep(d, h, ns, events, quote);
    RunStay(Step, d, h, ns, events, quote, v + [quote], g);
    assert [quote] + v + [quote] == [quote] + (v + [quote]);
    ValueCloses(g, h, ns, events, quote, v);
    assert g.(text := g.text + v) == d.(text := v).(state := State(ValueState(quote)));
    StoreAttributeKeepsState(d.(text := v), State(ValueState(quote)));
  }

  /** An attribute, `name='value'` or `name="value"`, read after the white space of a start
      tag: the pair is added at the end of the element's attributes, nothing is reported, and
      the element waits for another attribute or the end of the tag. */
  lemma AttributeRead(d: ElementData, h: Handlers, ns: Support, events: seq<Event>, n: JString,
                      quote: JChar, v: JString)
    requires d.state == State(AttrWhitespace) && d.text == [] && IsName(n)
    requires (quote == '\'' as int || quote == '"' as int) && AllAppend(ValueState(quote), v)
    ensures Run(Step, d, h, ns, events, n + ['=' as int, quote] + v + [quote]) ==
              Success(Keep(StoreAttribute(d.(attrQName := n, text := v)), ns, events))
  {
    AttributeNameRead(d, h, ns, events, n);
    var g := d.(state := State(AttrName), text := n);
    var value := [quote] + v + [quote];
    var eq: JChar := '=' as int;
    assert n + [eq, quote] + v + [quote] == n + ([eq] + value);
    RunThen(Step, d, h, ns, events, n, [eq] + value, g);
    var g2 := g.(state := State(AttrEq), attrQName := n, text := []);
    EqualsStep(g, h, ns, events);
    RunStay(Step, g, h, ns, events, eq, value, g2);
    AttributeValueRead(g2, h, ns, events, quote, v);
    assert StoreAttribute(g2.(text := v)).(state := State(AttrWhitespace)) ==
           StoreAttribute(d.(attrQName := n, text := v));
  }

  /** White space between an attribute name and its '=' is refused. */
  lemma SpaceBeforeEqualsRefused(d: ElementData, h: Handlers, ns: Support, events: seq<Event>,
                                 n: JString, w: JChar)
    requires d.state == State(AttrWhitespace) && d.text == [] && IsName(n) && IsWhitespace(w)
    ensures Run(Step, d, h, ns, events, n + [w]) == Failure(IllegalCharacter(w))
  {
    AttributeNameRead(d, h, ns, events, n);
    var g := d.(state := State(AttrName), text := n);
    RunThen(Step, d, h, ns, events, n, [w], g);
    assert Step(g, h, ns, events, w) == Failure(IllegalCharacter(w)) by {
      StepInAttribute(g, h, ns, events, w);
      DelimitersAreNotNameChars(w);
    }
    RunCons(Step, g, h, ns, events, w, []);
    assert [w] + [] == [w];
  }

  /** After the '=' only a quote may follow: white space, or a value without quotes, is
      refused. */
  lemma UnquotedValueRefused(d: ElementData, h: Handlers, ns: Support, events: seq<Event>,
                             n: JString, c: JChar)
    requires d.state == State(AttrWhitespace) && d.text == [] && IsName(n)
    requires c != '\'' as int && c != '"' as int
    ensures Run(Step, d, h, ns, events, n + ['=' as int, c]) == Failure(IllegalCharacter(c))
  {
    AttributeNameRead(d, h, ns, events, n);
    var g := d.(state := State(AttrName), text := n);
    var eq: JChar := '=' as int;
    assert n + [eq, c] == n + ([eq] + [c]);
    RunThen(Step, d, h, ns, events, n, [eq] + [c], g);
    var g2 := g.(state := State(AttrEq), attrQName := n, text := []);
    EqualsStep(g, h, ns, events);
    RunStay(Step, g, h, ns, events, eq, [c], g2);
    StepInAttribute(g2, h, ns, events, c);
    RunCons(Step, g2, h, ns, events, c, []);
    assert [c] + [] == [c];
  }

  /** A '<' in an attribute value is refused. */
  lemma LessThanInValueRefused(g: ElementData, h: Handlers, ns: Support, events: seq<Event>,
                               quote: JChar, v: JString)
    requires (quote == '\'' as int || quote == '"' as int) && g.state == State(ValueState(quote))
    requires AllAppend(ValueState(quote), v)
    ensures Run(Step, g, h, ns, events, v + ['<' as int]) == Failure(IllegalCharacter('<' as int))
  {
    TextRead(g, h, ns, events, v);
    var g2 := g.(text := g.text + v);
    RunThen(Step, g, h, ns, events, v, ['<' as int], g2);
    StepInAttribute(g2, h, ns, events, '<' as int);
    RunCons(Step, g2, h, ns, events, '<' as int, []);
    assert ['<' as int] + [] == ['<' as int];
  }

  /** A reference in an attribute value is not read: whatever follows the '&' is refused. */
  lemma ReferenceInValueRefused(g: ElementData, h: Handlers, ns: Support, events: seq<Event>,
                                quote: JChar, v: JString, c: JChar)
    requires (quote == '\'' as int || quote == '"' as int) && g.state == State(ValueState(quote))
    requires AllAppend(ValueState(quote), v)
    ensures Run(Step, g, h, ns, events, v + ['&' as int, c]) == Failure(IllegalCharacter(c))
  {
    TextRead(g, h, ns, events, v);
    var g2 := g.(text := g.text + v);
    var amp: JChar := '&' as int;
    RunThen(Step, g, h, ns, events, v, [amp, c], g2);
    var g3 := g2.(state := State(if quote == '\'' as int then QuotedReference
                                 else DoubleQuotedReference));
    StepInAttribute(g2, h, ns, events, amp);
    assert [amp, c] == [amp] + [c];
    RunStay(Step, g2, h, ns, events, amp, [c], g3);
    StepInAttribute(g3, h, ns, events, c);
    RunCons(Step, g3, h, ns, events, c, []);
    assert [c] + [] == [c];
  }

  /** A frame in one of `ContentState`'s states steps by that enum. */
  lemma StepInContent(d: ElementData, h: Handlers, ns: Support, events: seq<Event>, c: JChar)
    requires d.state.State? && IsContentState(d.state.s)
    ensures Step(d, h, ns, events, c) == ContentStep(d, d.state.s, h, ns, events, c)
  {
    assert !IsStartState(d.state.s) && !IsAttributeState(d.state.s);
  }

  /** The '<' of markup in content hands the text gathered to the handler, if there is any. */
  lemma MarkupStep(g: ElementData, h: Handlers, ns: Support, events: seq<Event>)
    requires g.state == State(Content)
    ensures var r := Step(g, h, ns, events, '<' as int);
            (r.Success? <==> g.text == [] || h.content) &&
            (r.Success? ==>
               r.value == Keep(g.(state := State(Child), text := []), ns,
                               events + if g.text == [] then [] else [Characters(g.text)]))
  {
    StepInContent(g, h, ns, events, '<' as int);
  }

  /** Content text up to the '<' of markup: nothing is reported while it is read, and then
      all of it, with what was gathered before, goes to the handler in one `characters`
      call, or none when there is no text. */
  lemma TextThenMarkup(d: ElementData, h: Handlers, ns: Support, events: seq<Event>, t: JString)
    requires d.state == State(Content) && AllAppend(Content, t)
    ensures var r := Run(Step, d, h, ns, events, t + ['<' as int]);
            var text := d.text + t;
            (r.Success? <==> text == [] || h.content) &&
            (r.Success? ==>
               r.value == Keep(d.(state := State(Child), text := []), ns,
                               events + if text == [] then [] else [Characters(text)]))
  {
    TextRead(d, h, ns, events, t);
    var g := d.(text := d.text + t);
    RunThen(Step, d, h, ns, events, t, ['<' as int], g);
    MarkupStep(g, h, ns, events);
    RunCons(Step, g, h, ns, events, '<' as int, []);
    assert ['<' as int] + [] == ['<' as int];
  }

  /** The '&' that starts a reference in content. */
  lemma AmpersandStep(d: ElementData, h: Handlers, ns: Support, events: seq<Event>)
    requires d.state == State(Content)
    ensures Step(d, h, ns, events, '&' as int) ==
              Success(Keep(d.(state := State(Reference), reference := ['&' as int]), ns, events))
  {
    StepInContent(d, h, ns, events, '&' as int);
  }

  /** A character of a reference other than ';' is gathered. */
  lemma ReferenceStep(g: ElementData, h: Handlers, ns: Support, events: seq<Event>, c: JChar)
    requires g.state == State(Reference) && c != ';' as int
    ensures Step(g, h, ns, events, c) ==
              Success(Keep(g.(reference := g.reference + [c]), ns, events))
  {
    StepInContent(g, h, ns, events, c);
  }

  /** The ';' that ends a reference: its expansion joins the text. */
  lemma SemicolonStep(g: ElementData, h: Handlers, ns: Support, events: seq<Event>)
    requires g.state == State(Reference)
    ensures Step(g, h, ns, events, ';' as int) ==
              Success(Keep(g.(state := State(Content),
                              text := g.text + Expand(g.reference + [';' as int]),
                              reference := []), ns, events))
  {
    StepInContent(g, h, ns, events, ';' as int);
  }

  /** The characters of a reference after its '&', up to the ';', are gathered. */
  lemma ReferenceNameRead(g: ElementData, h: Handlers, ns: Support, events: seq<Event>,
                          name: JString)
    requires g.state == State(Reference) && ';' as int !in name
    ensures Run(Step, g, h, ns, events, name) ==
              Success(Keep(g.(reference := g.reference + name), ns, events))
  {
    var ok := (f: ElementData, u: JString) => f == g.(reference := f.reference) && ';' as int !in u;
    var seen := (f: ElementData) => f.reference;
    forall f: ElementData, u: JString | u != [] && ok(f, u)
      ensures var r := Step(f, h, ns, events, u[0]);
              r.Success? && r.value.effect.Stay? && r.value.ns == ns &&
              r.value.events == events && seen(r.value.frame) == seen(f) + [u[0]] &&
              ok(r.value.frame, u[1..])
    {
      assert u[0] in u;
      ReferenceStep(f, h, ns, events, u[0]);
      assert forall x :: x in u[1..] ==> x in u;
    }
    RunReads(Step, ok, seen, g, h, ns, events, name);
  }

  /** A reference in content, from '&' to ';', adds its expansion to the text and reports
      nothing. */
  lemma ReferenceRead(d: ElementData, h: Handlers, ns: Support, events: seq<Event>,
                      name: JString)
    requires d.state == State(Content) && ';' as int !in name
    ensures var ref := Lit("&") + name + Lit(";");
            Run(Step, d, h, ns, events, ref) ==
              Success(Keep(d.(text := d.text + Expand(ref), reference := []), ns, events))
  {
    var amp, semi: JChar := '&' as int, ';' as int;
    assert Lit("&") == [amp] && Lit(";") == [semi];
    var g := d.(state := State(Reference), reference := [amp]);
    AmpersandStep(d, h, ns, events);
    RunStay(Step, d, h, ns, events, amp, name + [semi], g);
    assert [amp] + name + [semi] == [amp] + (name + [semi]);
    ReferenceNameRead(g, h, ns, events, name);
    var g2 := g.(reference := [amp] + name);
    RunThen(Step, g, h, ns, events, name, [semi], g2);
    SemicolonStep(g2, h, ns, events);
    RunStay(Step, g2, h, ns, events, semi, [],
            d.(text := d.text + Expand([amp] + name + [semi]), reference := []));
    assert [semi] + [] == [semi];
  }

  /** The five entities XML predefines, by name, with the character each stands for
      (section 4.6 of the XML 1.0 Recommendation). */
  const PREDEFINED: map<JString, JChar> :=
    map[Lit("lt") := '<' as int, Lit("gt") := '>' as int, Lit("amp") := '&' as int,
        Lit("apos") := '\'' as int, Lit("quot") := '"' as int]

  /** A reference of the form "&name;" tells its name. */
  lemma ReferenceNames(a: JString, b: JString)
    ensures Lit("&") + a + Lit(";") == Lit("&") + b + Lit(";") <==> a == b
  {
    var x, y := Lit("&") + a + Lit(";"), Lit("&") + b + Lit(";");
    if x == y {
      assert a == x[1..|x| - 1] && b == y[1..|y| - 1];
    }
  }

  /** A reference expands to the character of the predefined entity it names, and to
      nothing at all when it names any other entity. */
  lemma ExpandIsPredefined(name: JString)
    ensures Expand(Lit("&") + name + Lit(";")) ==
              if name in PREDEFINED then [PREDEFINED[name]] else []
  {
    assert Lit("&lt;") == Lit("&") + Lit("lt") + Lit(";");
    assert Lit("&gt;") == Lit("&") + Lit("gt") + Lit(";");
    assert Lit("&amp;") == Lit("&") + Lit("amp") + Lit(";");
    assert Lit("&apos;") == Lit("&") + Lit("apos") + Lit(";");
    assert Lit("&quot;") == Lit("&") + Lit("quot") + Lit(";");
    ReferenceNames(name, Lit("lt"));
    ReferenceNames(name, Lit("gt"));
    ReferenceNames(name, Lit("amp"));
    ReferenceNames(name, Lit("apos"));
    ReferenceNames(name, Lit("quot"));
    assert Lit("lt")[0] != Lit("gt")[0] && Lit("apos")[0] != Lit("quot")[0];
    assert |Lit("lt")| == 2 && |Lit("amp")| == 3 && |Lit("quot")| == 4;
    assert name in PREDEFINED <==>
             name == Lit("lt") || name == Lit("gt") || name == Lit("amp") ||
             name == Lit("apos") || name == Lit("quot");
  }

  /** Character references, "&#60;" or "&#x3C;", are not expanded: they add nothing to the
      text. */
  lemma CharacterReferenceDropped(name: JString)
    requires name != [] && name[0] == '#' as int
    ensures Expand(Lit("&") + name + Lit(";")) == []
  {
    ExpandIsPredefined(name);
    assert Lit("lt")[0] != '#' as int && Lit("gt")[0] != '#' as int;
    assert Lit("amp")[0] != '#' as int && Lit("apos")[0] != '#' as int;
    assert Lit("quot")[0] != '#' as int;
  }

  /** After "<" in content, a name-start character makes a child element, which has read
      that character as the first of its name; the parent waits in `DELEGATED` and has
      reported nothing. */
  lemma ChildElementStarts(d: ElementData, h: Handlers, ns: Support, events: seq<Event>,
                           c: JChar)
    requires d.state == State(Child) && IsNameStartChar(c)
    ensures Step(d, h, ns, events, c) ==
              Success(Outcome(d.(state := Delegated(Content)), ns, events,
                              Push(ElementFrame(NewElement().(state := State(StartName1),
                                                              text := [c])))))
  {
    StepInContent(d, h, ns, events, c);
    assert c != '/' as int && c != '!' as int && c != '?' as int;
  }

  /** A waiting element takes the next character back as content, as if it had never
      delegated. */
  lemma DelegatedResumesContent(d: ElementData, h: Handlers, ns: Support, events: seq<Event>,
                                c: JChar)
    requires d.state == Delegated(Content)
    ensures Step(d, h, ns, events, c) == Step(d.(state := State(Content)), h, ns, events, c)
  {
    var e := d.(state := State(Content));
    StepInContent(e, h, ns, events, c);
    assert Step(d, h, ns, events, c) == ContentStep(d, Content, h, ns, events, c) by {
      assert !IsStartState(Content) && !IsAttributeState(Content) && IsContentState(Content);
    }
    if c == '<' as int {
      var fd, fe := Flush(d, h, events), Flush(e, h, events);
      assert fd.Success? <==> fe.Success?;
      assert fd.Success? ==> fd.value.0.(state := State(Child)) == fe.value.0.(state := State(Child)) &&
                             fd.value.1 == fe.value.1;
    }
  }

  /** The first character of an end tag's name. */
  lemma CloseNameStep(d: ElementData, h: Handlers, ns: Support, events: seq<Event>, c: JChar)
    requires d.state == State(CloseName) && IsNameStartChar(c)
    ensures Step(d, h, ns, events, c) ==
              Success(Keep(d.(state := State(CloseName1), text := d.text + [c]), ns, events))
  {
    StepInClose(d, h, ns, events, c);
  }

  lemma EndTagNameChars(d: ElementData, h: Handlers, ns: Support, events: seq<Event>,
                        c: JChar, rest: JString)
    requires d.state == State(CloseName) && IsNameStartChar(c) && AllNameChar(rest)
    ensures Run(Step, d, h, ns, events, [c] + rest) ==
              Success(Keep(d.(state := State(CloseName1), text := d.text + [c] + rest), ns,
                           events))
  {
    var g := d.(state := State(CloseName1), text := d.text + [c]);
    CloseNameStep(d, h, ns, events, c);
    RunStay(Step, d, h, ns, events, c, rest, g);
    NameAppends(CloseName1, rest);
    TextRead(g, h, ns, events, rest);
  }

  /** The name of an end tag is gathered in the accumulator. */
  lemma EndTagNameRead(d: ElementData, h: Handlers, ns: Support, events: seq<Event>,
                       n: JString)
    requires d.state == State(CloseName) && IsName(n)
    ensures Run(Step, d, h, ns, events, n) ==
              Success(Keep(d.(state := State(CloseName1), text := d.text + n), ns, events))
  {
    NameTail(n);
    EndTagNameChars(d, h, ns, events, n[0], n[1..]);
    assert [n[0]] + n[1..] == n;
    assert d.text + [n[0]] + n[1..] == d.text + n;
  }

  /** The '>' right after an end tag's name. */
  lemma EndTagCloseStep(g: ElementData, h: Handlers, ns: Support, events: seq<Event>)
    requires g.state == State(CloseName1)
    ensures var r := Step(g, h, ns, events, '>' as int);
            (r.Success? <==> h.content) &&
            (r.Success? ==>
               r.value == Outcome(g.(state := Completed), ns,
                                  events + [EndElement(g.parsedQName)], Finish))
  {
    StepInClose(g, h, ns, events, '>' as int);
    DelimitersAreNotNameChars('>' as int);
  }

  /** "</name>" with nothing between the name and the '>': the element reports its end with
      the name its start tag resolved and finishes. The name in the end tag is not compared
      with it: "<a></b>" is accepted and reports the end of `a`. */
  lemma EndTagNotCompared(d: ElementData, h: Handlers, ns: Support, events: seq<Event>,
                          n: JString)
    requires d.state == State(CloseName) && IsName(n)
    ensures var r := Run(Step, d, h, ns, events, n + ['>' as int]);
            (r.Success? <==> h.content) &&
            (r.Success? ==>
               r.value == Outcome(d.(state := Completed, text := d.text + n), ns,
                                  events + [EndElement(d.parsedQName)], Finish))
  {
    EndTagNameRead(d, h, ns, events, n);
    var g := d.(state := State(CloseName1), text := d.text + n);
    RunThen(Step, d, h, ns, events, n, ['>' as int], g);
    EndTagCloseStep(g, h, ns, events);
    RunCons(Step, g, h, ns, events, '>' as int, []);
    assert ['>' as int] + [] == ['>' as int];
  }

  /** White space after an end tag's name. */
  lemma EndTagSpaceStep(g: ElementData, h: Handlers, ns: Support, events: seq<Event>, w: JChar)
    requires (g.state == State(CloseName1) || g.state == State(CloseWhitespace)) && IsWhitespace(w)
    ensures Step(g, h, ns, events, w) == Success(Keep(g.(state := State(CloseWhitespace)), ns, events))
  {
    StepInClose(g, h, ns, events, w);
    DelimitersAreNotNameChars(w);
  }

  /** White space after an end tag's name is skipped. */
  lemma EndTagSpaceRead(g: ElementData, h: Handlers, ns: Support, events: seq<Event>, w: JString)
    requires g.state == State(CloseName1) && w != [] && AllWhitespace(w)
    ensures Run(Step, g, h, ns, events, w) ==
              Success(Keep(g.(state := State(CloseWhitespace)), ns, events))
  {
    var g2 := g.(state := State(CloseWhitespace));
    EndTagSpaceStep(g, h, ns, events, w[0]);
    RunStay(Step, g, h, ns, events, w[0], w[1..], g2);
    assert [w[0]] + w[1..] == w;
    var ok := (f: ElementData, u: JString) => f == g2 && AllWhitespace(u);
    forall f: ElementData, u: JString | u != [] && ok(f, u)
      ensures Step(f, h, ns, events, u[0]) == Success(Keep(f, ns, events)) && ok(f, u[1..])
    {
      EndTagSpaceStep(f, h, ns, events, u[0]);
      assert AllWhitespace(u[1..]) by {
        forall i | 0 <= i < |u| - 1 ensures IsWhitespace(u[1..][i]) {
          assert u[1..][i] == u[i + 1];
        }
      }
    }
    assert AllWhitespace(w[1..]) by {
      forall i | 0 <= i < |w| - 1 ensures IsWhitespace(w[1..][i]) {
        assert w[1..][i] == w[i + 1];
      }
    }
    RunIdle(Step, ok, g2, h, ns, events, w[1..]);
  }

  /** The '>' after white space in an end tag: the name is checked against the start tag. */
  lemma EndTagValidatedStep(g: ElementData, h: Handlers, ns: Support, events: seq<Event>)
    requires g.state == State(CloseWhitespace)
    ensures var r := Step(g, h, ns, events, '>' as int);
            (r.Success? <==> ProcessName(ns, g.text, false) == Some(g.parsedQName) && h.content) &&
            (r.Success? ==>
               r.value == Outcome(g.(state := Completed, text := []), ns,
                                  events + [EndElement(g.parsedQName)], Finish))
  {
    StepInClose(g, h, ns, events, '>' as int);
  }

  /** "</name >", with white space before the '>': here the name is resolved and must be
      the one the start tag resolved; the end is reported only then. */
  lemma EndTagCompared(d: ElementData, h: Handlers, ns: Support, events: seq<Event>,
                       n: JString, w: JString)
    requires d.state == State(CloseName) && d.text == [] && IsName(n)
    requires w != [] && AllWhitespace(w)
    ensures var r := Run(Step, d, h, ns, events, n + w + ['>' as int]);
            (r.Success? <==> ProcessName(ns, n, false) == Some(d.parsedQName) && h.content) &&
            (r.Success? ==>
               r.value == Outcome(d.(state := Completed), ns,
                                  events + [EndElement(d.parsedQName)], Finish))
  {
    EndTagNameRead(d, h, ns, events, n);
    var g := d.(state := State(CloseName1), text := n);
    assert d.text + n == n;
    assert n + w + ['>' as int] == n + (w + ['>' as int]);
    RunThen(Step, d, h, ns, events, n, w + ['>' as int], g);
    EndTagSpaceRead(g, h, ns, events, w);
    var g2 := g.(state := State(CloseWhitespace));
    RunThen(Step, g, h, ns, events, w, ['>' as int], g2);
    EndTagValidatedStep(g2, h, ns, events);
    RunCons(Step, g2, h, ns, events, '>' as int, []);
    assert ['>' as int] + [] == ['>' as int];
  }

  // The namespace context of an element.

  /** `cleanup` after a start tag that returned pops exactly the context `startElement`
      pushed, so the namespace stack is back to what it was before the element. */
  lemma StartThenCleanup(d: ElementData, h: Handlers, ns: Support, events: seq<Event>)
    requires !d.namespaceScope
    ensures var st := StartTag(d, h, ns, events);
            st.result.Success? ==> Cleanup(AfterStart(d, st), st.ns) == Success(ns)
  {
    var st := StartTag(d, h, ns, events);
    if st.result.Success? && HasAttributes(d) {
      var ds := AttributeLists.Declarations(d.attributes.value.entries);
      if ds != [] {
        assert st.ns == InScope(ns, ds) && st.namespaceScope;
        assert st.ns[..|st.ns| - 1] == ns;
      }
    }
  }

  /** A declaration among the attributes that throws leaves the context pushed for the
      declarations on the stack without recording it in `namespaceScope`, so `cleanup`
      would not pop it. */
  lemma FailedDeclarationLeaks(d: ElementData, h: Handlers, ns: Support, events: seq<Event>)
    requires !d.namespaceScope && HasAttributes(d)
    requires !Declarable(h, AttributeLists.Declarations(d.attributes.value.entries))
    ensures var st := StartTag(d, h, ns, events);
            st.result.Failure? && |st.ns| == |ns| + 1 && st.ns[..|ns|] == ns &&
            Cleanup(d.(namespaceScope := st.namespaceScope), st.ns) == Success(st.ns)
  {
  }

  /** Whether the element has still to reach the '>' of its start tag: `startElement` has
      not run, so the element owns no namespace context yet. */
  predicate Unopened(d: ElementData) {
    !d.state.Completed? &&
    (IsStartState(d.state.s) || IsAttributeState(d.state.s) || d.state.s == CloseEmpty)
  }

  /** The namespace contexts the element owns: the one its start tag pushed, if any. */
  function Owned(d: ElementData): nat {
    if d.namespaceScope then 1 else 0
  }

  /** A start tag that returns leaves one context more on the stack exactly when it records
      one in `namespaceScope`. */
  lemma StartTagOwns(d: ElementData, h: Handlers, ns: Support, events: seq<Event>)
    requires !d.namespaceScope
    ensures var st := StartTag(d, h, ns, events);
            st.result.Success? ==>
              |st.ns| == |ns| + (if st.namespaceScope then 1 else 0) && st.ns[..|ns|] == ns
  {
    StartThenCleanup(d, h, ns, events);
  }

  /** The '>' that opens an element leaves one context more on the stack exactly when the
      element comes to own one. */
  lemma OpenedOwns(d: ElementData, h: Handlers, ns: Support, events: seq<Event>)
    requires !d.namespaceScope
    ensures var r := Opened(d, h, ns, events);
            r.Success? ==> !Unopened(r.value.frame) && |r.value.ns| == |ns| + Owned(r.value.frame)
  {
    StartTagOwns(d, h, ns, events);
  }

  /** The start tag's states: only its '>' can take a context. */
  lemma StartStepOwns(d: ElementData, s: ElementState, h: Handlers, ns: Support,
                      events: seq<Event>, c: JChar)
    requires IsStartState(s) && !d.namespaceScope
    ensures var r := StartStep(d, s, h, ns, events, c);
            r.Success? ==> (Unopened(r.value.frame) ==> !r.value.frame.namespaceScope) &&
                           |r.value.ns| == |ns| + Owned(r.value.frame)
  {
    if s == StartName1 && c == '>' as int {
      OpenedOwns(d.(qName := d.text, text := []), h, ns, events);
    }
  }

  /** The attributes' states: only the '>' after them can take a context. */
  lemma AttributeStepOwns(d: ElementData, s: ElementState, h: Handlers, ns: Support,
                          events: seq<Event>, c: JChar)
    requires IsAttributeState(s) && !d.namespaceScope
    ensures var r := AttributeStep(d, s, h, ns, events, c);
            r.Success? ==> (Unopened(r.value.frame) ==> !r.value.frame.namespaceScope) &&
                           |r.value.ns| == |ns| + Owned(r.value.frame)
  {
    if s == AttrWhitespace && c == '>' as int {
      OpenedOwns(d, h, ns, events);
    }
  }

  /** The content's states leave the namespace stack and the element's context alone. */
  lemma ContentStepOwns(d: ElementData, s: ElementState, h: Handlers, ns: Support,
                        events: seq<Event>, c: JChar)
    requires IsContentState(s)
    ensures var r := ContentStep(d, s, h, ns, events, c);
            r.Success? ==> !Unopened(r.value.frame) && r.value.ns == ns &&
                           r.value.frame.namespaceScope == d.namespaceScope
  {
  }

  /** The end tag's states leave the count alone; the '>' of "/>" runs the start tag, and
      the element it completes owns what that start tag took. */
  lemma CloseStepOwns(d: ElementData, s: ElementState, h: Handlers, ns: Support,
                      events: seq<Event>, c: JChar)
    requires s == CloseName || s == CloseName1 || s == CloseWhitespace || s == CloseEmpty
    requires s == CloseEmpty ==> !d.namespaceScope
    ensures var r := CloseStep(d, s, h, ns, events, c);
            r.Success? ==> !Unopened(r.value.frame) &&
                           |r.value.ns| + Owned(d) == |ns| + Owned(r.value.frame)
  {
    if s == CloseEmpty && c == '>' as int {
      StartTagOwns(d, h, ns, events);
    }
  }

  /** Every step keeps the element's count of contexts honest: the namespace stack grows by
      exactly the context the element comes to own, and an element that has not yet opened
      owns none. */
  lemma StepOwns(d: ElementData, h: Handlers, ns: Support, events: seq<Event>, c: JChar)
    ensures var r := Step(d, h, ns, events, c);
            r.Success? && (Unopened(d) ==> !d.namespaceScope) ==>
              (Unopened(r.value.frame) ==> !r.value.frame.namespaceScope) &&
              |r.value.ns| + Owned(d) == |ns| + Owned(r.value.frame)
  {
    if !d.state.Completed? && (Unopened(d) ==> !d.namespaceScope) {
      var s := d.state.s;
      if IsStartState(s) {
        StartStepOwns(d, s, h, ns, events, c);
      } else if IsAttributeState(s) {
        AttributeStepOwns(d, s, h, ns, events, c);
      } else if IsContentState(s) {
        ContentStepOwns(d, s, h, ns, events, c);
      } else {
        CloseStepOwns(d, s, h, ns, events, c);
      }
    }
  }
}

=== FILE: frames.dfy ===
/** The delegates the parser stacks up while it reads a document, and what one character can
    do to them. Each delegate of uk.org.retep.niosax.internal.core.delegate and
    uk.org.retep.niosax.internal.core.engine is a frame here: its `StateEngine`, its
    accumulator and its own fields. A step on a frame gives the frame as it is afterwards,
    the namespace stack, the callbacks made so far, and what it asks of the parser: a new
    delegate to construct (which makes it current) or a `finish()` (which cleans it up and
    makes its parent current). */
module Frames {
  import opened JavaLang
  import opened Appendables
  import opened Sax
  import opened Namespaces
  import AttributeLists
  import Codecs

  /** A delegate's accumulator, a `CharAppendable` of its own, as the characters it holds:
      the delegates only append to it, read it and reset it, and `Appendables` shows that
      those calls act on the contents alone (`Append`, `ToCharArray`, `Reset`). */
  type Text = JString

  /** `getAppendableString` on an accumulator: what it holds, and the accumulator emptied,
      as the calls on a `CharAppendable` give them. */
  lemma TakeIsContents(a: CharAppendable)
    requires Appendables.Valid(a)
    ensures ToCharArray(a) == Contents(a) && Contents(Appendables.Reset(a)) == []
    ensures forall c: JChar :: Contents(Append(a, c)) == Contents(a) + [c]
  {
  }

  /** The `StateEngine` a delegate is in: one of the states of its own enum, whose
      `continueLoop` is true; the wrapper `createDelegatedState` puts round such a state,
      which parses as the state does but whose `continueLoop` is false; or the singleton
      `stateCompleted()`. */
  datatype Engine<S> = State(s: S) | Delegated(s: S) | Completed

  /** The state the next character is handed to. `stateCompleted()` refuses every character
      with `UnsupportedOperationException`. */
  function Unwrap<S>(e: Engine<S>): (r: Result<S>)
    ensures r.Failure? <==> e.Completed?
    ensures r.Failure? ==> r.error == UnsupportedOperation
    ensures r.Success? ==> (e == State(r.value) || e == Delegated(r.value))
  {
    match e
    case State(s) => Success(s)
    case Delegated(s) => Success(s)
    case Completed => Failure(UnsupportedOperation)
  }

  /** `continueLoop`: whether the delegate's parse loop reads on after this state. Every enum
      state of the modelled delegates answers true; the delegated wrapper and the completed
      state answer false. */
  function ContinueLoop<S>(e: Engine<S>): (r: bool)
    ensures r <==> !e.Delegated? && !e.Completed?
  {
    e.State?
  }

  /** Which of the two `ProcessingInstruction.delegate` factories made a delegate: the one
      for the prolog, which lets `<?xml` start an XML declaration, or the one used inside
      elements, which refuses it. */
  datatype PIVariant = InProlog | Generic

  /** The states of `DefaultProlog.State`: outside any markup, and just after a '<'. */
  datatype PrologState = PrologText | PrologOpen

  /** The states of `Element`'s four enums `StartState`, `AttributeState`, `ContentState`
      and `CloseState`, in that order. */
  datatype ElementState =
    | StartName | StartName1
    | AttrWhitespace | AttrName | AttrEq | QuotedValue | QuotedReference
    | DoubleQuotedValue | DoubleQuotedReference
    | Content | Reference | Child
    | CloseName | CloseName1 | CloseWhitespace | CloseEmpty

  /** An `Element` delegate. The string fields are `null` in Java until first set; every
      path sets them before reading them, so the model starts them empty. */
  datatype ElementData = ElementData(
    state: Engine<ElementState>,
    text: Text,
    /** Whether `startElement` pushed a namespace context that cleanup has to pop. */
    namespaceScope: bool,
    qName: JString,
    parsedQName: QName,
    /** `null` until the first attribute value is complete. */
    attributes: Option<AttributeLists.ValidList>,
    attrQName: JString,
    /** The entity or character reference being read, from its '&'. */
    reference: JString)

  /** The index into "CDATA[" of the character a `CDATAn` state expects: CDATA1 expects
      index 0. */
  type CDataIndex = i: nat | i < 6

  /** `CommentCDataStateEngine`: after "<!", then after "<!-", then inside "<![CDATA[". */
  datatype OpeningState = OpenStart | ExpectDash | ExpectCData(index: CDataIndex)

  /** `CommentStateEngine`. */
  datatype CommentState = CommentNormal | CommentEnd1 | CommentEnd2

  /** `CDataStateEngine`. */
  datatype CDataState = CDataStart | CDataNormal | CDataEnd1 | CDataEnd2

  /** The three enums one `<!` delegate moves through: it starts in the discriminator and
      switches, in the same delegate, to the comment or the CDATA body. */
  datatype MarkupState = Opening(o: OpeningState) | InComment(m: CommentState)
                       | InCData(d: CDataState)

  /** The delegate `CommentCDataStateEngine.delegate` makes. */
  datatype MarkupData = MarkupData(state: Engine<MarkupState>, text: Text)

  /** `ProcessingInstruction.PIState`. */
  datatype PIState = PiTarget | PiTarget2 | PiTargetQuery | PiWhitespace | PiData | PiDataQuery

  /** A `ProcessingInstruction` delegate; the target is `null` in Java until it is read. */
  datatype PIData = PIData(variant: PIVariant, state: Engine<PIState>, text: Text,
                           target: JString)

  /** `XMLDeclaration.XMLState`. */
  datatype DeclState = DeclStart | DeclQuery | DeclName | DeclEquals | DeclQuote
                     | DeclDoubleQuote

  /** An `XMLDeclaration` delegate: the three pseudo-attributes as read so far, and the name
      of the one being read (`null` in Java until the first '='). */
  datatype DeclData = DeclData(state: Engine<DeclState>, text: Text,
                               version: Option<JString>, encoding: Option<JString>,
                               standalone: bool, name: JString)

  /** One delegate on the parser's stack. */
  datatype Frame =
    | PrologFrame(prolog: PrologState)
    | ElementFrame(element: ElementData)
    | MarkupFrame(markup: MarkupData)
    | PIFrame(pi: PIData)
    | DeclFrame(decl: DeclData)

  /** What a step asks of the parser once the frame is updated: nothing; nothing, but the
      delegate's loop stops with the delegate still current (its new state does not
      continue the loop); construct a delegate (which becomes current); `finish()`;
      `finish()` and then construct a delegate on the same parent; or replace the source's
      charset and then `finish()`. */
  datatype Effect =
    | Stay
    | Halt
    | Push(child: Frame)
    | Finish
    | FinishThenPush(next: Frame)
    | SetCharsetThenFinish(charset: Codecs.Codec)

  /** The result of one step on a frame of type `F`. */
  datatype Outcome<F> = Outcome(frame: F, ns: Support, events: seq<Event>, effect: Effect)

  /** A step's outcome with the frame and nothing else changed. */
  function Keep<F>(f: F, ns: Support, events: seq<Event>): (r: Outcome<F>)
    ensures r.frame == f && r.ns == ns && r.events == events && r.effect == Stay
  {
    Outcome(f, ns, events, Stay)
  }

  /** The new delegates, as their constructors leave them. */
  function NewElement(): (r: ElementData)
    ensures r.state == State(StartName) && r.text == [] && !r.namespaceScope
    ensures r.attributes.None?
  {
    ElementData(State(StartName), [], false, [], QName([], [], []), None, [], [])
  }

  function NewMarkup(): (r: MarkupData)
    ensures r.state == State(Opening(OpenStart)) && r.text == []
  {
    MarkupData(State(Opening(OpenStart)), [])
  }

  function NewPI(variant: PIVariant): (r: PIData)
    ensures r.variant == variant && r.state == State(PiTarget) && r.text == []
  {
    PIData(variant, State(PiTarget), [], [])
  }

  /** `XMLDeclaration`'s constructor: no version, no encoding, not standalone. */
  function NewDecl(): (r: DeclData)
    ensures r.state == State(DeclStart) && r.text == []
    ensures r.version.None? && r.encoding.None? && !r.standalone
  {
    DeclData(State(DeclStart), [], None, None, false, [])
  }

  /** The signature every delegate's step has. */
  type Stepper<!F> = (F, Handlers, Support, seq<Event>, JChar) -> Result<Outcome<F>>

  /** A delegate's parse loop run over a string of characters, as long as its steps leave it
      where it is: the first step that asks something of the parser ends the run, and the
      characters after it are not read. */
  function Run<F>(step: Stepper<F>, f: F, h: Handlers, ns: Support, events: seq<Event>,
                  s: JString): (r: Result<Outcome<F>>)
    decreases |s|
  {
    if s == [] then Success(Keep(f, ns, events))
    else
      var o :- step(f, h, ns, events, s[0]);
      if o.effect.Stay? then Run(step, o.frame, h, o.ns, o.events, s[1..]) else Success(o)
  }

  /** Running over one character and then more: the first step, and the rest only if it
      left the frame where it was. */
  lemma RunCons<F>(step: Stepper<F>, f: F, h: Handlers, ns: Support, events: seq<Event>,
                   c: JChar, s: JString)
    ensures var o := step(f, h, ns, events, c);
            Run(step, f, h, ns, events, [c] + s) ==
              if o.Failure? then Failure(o.error)
              else if o.value.effect.Stay? then Run(step, o.value.frame, h, o.value.ns, o.value.events, s)
              else o
  {
    assert ([c] + s)[0] == c && ([c] + s)[1..] == s;
  }

  /** A first step that keeps the frame where it is, as `g`, leaves the rest to `g`. */
  lemma RunStay<F>(step: Stepper<F>, f: F, h: Handlers, ns: Support, events: seq<Event>,
                   c: JChar, s: JString, g: F)
    requires step(f, h, ns, events, c) == Success(Keep(g, ns, events))
    ensures Run(step, f, h, ns, events, [c] + s) == Run(step, g, h, ns, events, s)
  {
    RunCons(step, f, h, ns, events, c, s);
  }

  /** Running over `a + b` is running over `a` and then, if the frame is still where it was,
      over `b`. */
  lemma {:induction false} RunAppend<F>(step: Stepper<F>, f: F, h: Handlers, ns: Support,
                                        events: seq<Event>, a: JString, b: JString)
    ensures var ra := Run(step, f, h, ns, events, a);
            Run(step, f, h, ns, events, a + b) ==
              if ra.Failure? || !ra.value.effect.Stay? then ra
              else Run(step, ra.value.frame, h, ra.value.ns, ra.value.events, b)
    decreases |a|
  {
    if a != [] {
      assert (a + b)[0] == a[0] && (a + b)[1..] == a[1..] + b;
      var o := step(f, h, ns, events, a[0]);
      if o.Success? && o.value.effect.Stay? {
        RunAppend(step, o.value.frame, h, o.value.ns, o.value.events, a[1..], b);
      }
    } else {
      assert a + b == b;
    }
  }

  /** A run over `a` that leaves frame `g` where it stays, with nothing reported, continues
      over `b` from `g`. */
  lemma RunThen<F>(step: Stepper<F>, f: F, h: Handlers, ns: Support, events: seq<Event>,
                   a: JString, b: JString, g: F)
    requires Run(step, f, h, ns, events, a) == Success(Keep(g, ns, events))
    ensures Run(step, f, h, ns, events, a + b) == Run(step, g, h, ns, events, b)
  {
    RunAppend(step, f, h, ns, events, a, b);
  }

  /** A run over input every character of which the frame ignores: if `ok` holds of a frame
      and a nonempty input exactly when the first character leaves the frame, the namespace
      stack and the callbacks as they were, with `ok` holding of the rest, the whole input
      is ignored. */
  lemma {:induction false} RunIdle<F>(step: Stepper<F>, ok: (F, JString) -> bool, f: F,
                                      h: Handlers, ns: Support, events: seq<Event>, s: JString)
    requires ok(f, s)
    requires forall g: F, t: JString :: t != [] && ok(g, t) ==>
               step(g, h, ns, events, t[0]) == Success(Keep(g, ns, events)) && ok(g, t[1..])
    ensures Run(step, f, h, ns, events, s) == Success(Keep(f, ns, events))
    decreases |s|
  {
    if s != [] {
      RunIdle(step, ok, f, h, ns, events, s[1..]);
    }
  }

  /** A run over text every step of which stays: if `ok` holds of a frame and a nonempty
      input exactly when the first character is read with the frame staying, nothing
      reported, `seen` growing by that character and `ok` holding of the next frame and the
      rest, then the whole input is read that way. */
  lemma {:induction false} RunReads<F>(step: Stepper<F>, ok: (F, JString) -> bool,
                                       seen: F -> JString, f: F, h: Handlers, ns: Support,
                                       events: seq<Event>, s: JString)
    requires ok(f, s)
    requires forall g: F, t: JString :: t != [] && ok(g, t) ==>
               var r := step(g, h, ns, events, t[0]);
               r.Success? && r.value.effect.Stay? && r.value.ns == ns &&
               r.value.events == events && seen(r.value.frame) == seen(g) + [t[0]] &&
               ok(r.value.frame, t[1..])
    ensures var r := Run(step, f, h, ns, events, s);
            r.Success? && r.value.effect.Stay? && r.value.ns == ns && r.value.events == events &&
            seen(r.value.frame) == seen(f) + s && ok(r.value.frame, [])
    decreases |s|
  {
    if s != [] {
      var g := step(f, h, ns, events, s[0]).value.frame;
      RunReads(step, ok, seen, g, h, ns, events, s[1..]);
      assert seen(f) + s == (seen(f) + [s[0]]) + s[1..];
    }
  }

  /** A run that keeps what it reads: if every step from a frame satisfying `inv` that
      stays reports nothing, keeps `inv` and grows `seen` by the character, then a run
      that stays has grown `seen` by the whole input. */
  lemma {:induction false} RunKeeps<F>(step: Stepper<F>, inv: F -> bool, seen: F -> JString,
                                       f: F, h: Handlers, ns: Support, events: seq<Event>,
                                       s: JString)
    requires inv(f)
    requires forall g: F, c: JChar :: inv(g) ==>
               var r := step(g, h, ns, events, c);
               r.Success? && r.value.effect.Stay? ==>
                 r.value.ns == ns && r.value.events == events && inv(r.value.frame) &&
                 seen(r.value.frame) == seen(g) + [c]
    ensures var r := Run(step, f, h, ns, events, s);
            r.Success? && r.value.effect.Stay? ==>
              r.value.ns == ns && r.value.events == events && inv(r.value.frame) &&
              seen(r.value.frame) == seen(f) + s
    decreases |s|
  {
    if s != [] {
      var o := step(f, h, ns, events, s[0]);
      if o.Success? && o.value.effect.Stay? {
        RunKeeps(step, inv, seen, o.value.frame, h, ns, events, s[1..]);
        assert seen(f) + s == (seen(f) + [s[0]]) + s[1..];
      }
    }
  }
}

=== FILE: java_lang.dfy ===
/** Java's primitive `char` and `byte`, its `String`, `null` and its exceptions, as the rest
    of the model sees them.

    A Java `char` is an unsigned 16-bit code unit, so it is modelled as an integer below
    0x10000 rather than as a Dafny `char` (which cannot hold a lone surrogate). A byte held in
    a buffer is modelled by its unsigned value; Java reads it back as a signed value, and the
    places where that sign matters say so explicitly. Exceptions become a `Failure` carrying
    the kind of exception that the Java code would throw. */
module JavaLang {

  /** A Java `char`. */
  type JChar = c: int | 0 <= c < 0x1_0000

  /** A Java `String` or `char[]` content: a sequence of UTF-16 code units. */
  type JString = seq<JChar>

  /** One byte of a buffer, as its unsigned value. */
  type Byte = b: int | 0 <= b < 0x100

  /** The value Java's `buffer.get()` yields for a stored byte: a signed 8-bit integer. */
  function Signed(b: Byte): (r: int)
    ensures -0x80 <= r < 0x80
    ensures r % 0x100 == b
  {
    if b < 0x80 then b else b - 0x100
  }

  /** Java's narrowing cast `(char) x` of an `int`: keeps the low sixteen bits. Dafny's `%` is
      Euclidean, so a negative `x` lands where Java's two's complement puts it. */
  function ToChar(x: int): (r: JChar)
    ensures (r - x) % 0x1_0000 == 0
  {
    x % 0x1_0000
  }

  /** Java's narrowing cast `(byte) x`, stored: keeps the low eight bits. */
  function ToByte(x: int): (r: Byte)
    ensures (r - x) % 0x100 == 0
  {
    x % 0x100
  }

  /** The code unit Java gives a Dafny character literal; characters outside the Basic
      Multilingual Plane never occur in the literals of this model and map to U+FFFD. */
  function CharOf(ch: char): (r: JChar)
    ensures ch as int < 0x1_0000 ==> r == ch as int
  {
    if ch as int < 0x1_0000 then ch as int else 0xFFFD
  }

  /** A Java string literal. */
  function Lit(s: string): (r: JString)
    ensures |r| == |s|
    ensures forall i :: 0 <= i < |s| ==> r[i] == CharOf(s[i])
  {
    seq(|s|, i requires 0 <= i < |s| => CharOf(s[i]))
  }

  /** Java's `String.indexOf(char)`: the first index holding `c`, or -1. */
  function IndexOf(s: JString, c: JChar): (r: int)
    ensures -1 <= r < |s|
    ensures r == -1 <==> c !in s
    ensures 0 <= r ==> s[r] == c && c !in s[..r]
  {
    if s == [] then -1
    else if s[0] == c then 0
    else
      var k := IndexOf(s[1..], c);
      assert s[1..][..if k < 0 then 0 else k] == s[1..1 + if k < 0 then 0 else k];
      if k < 0 then -1 else k + 1
  }

  /** Java's `String.startsWith`. */
  predicate StartsWith(s: JString, prefix: JString) {
    |prefix| <= |s| && s[..|prefix|] == prefix
  }

  /** The kinds of exception the modelled code can raise. */
  datatype Error =
    /** niosax's `IllegalCharacterException`: a character not allowed where it was found. */
    | IllegalCharacter(c: JChar)
    /** The same exception raised without saying which character. */
    | IllegalCharacterUnnamed
    /** niosax's `UndeclaredNamespaceException` for a qualified name. */
    | UndeclaredNamespace(qName: JString)
    /** A `SAXException` raised by the parser itself, with what it complains about. */
    | SaxError(reason: SaxReason)
    /** `UnsupportedOperationException`. */
    | UnsupportedOperation
    /** `IllegalStateException`. */
    | IllegalState
    /** `IllegalArgumentException`. */
    | IllegalArgument
    /** `IndexOutOfBoundsException` or `ArrayIndexOutOfBoundsException`. */
    | IndexOutOfBounds
    /** `NullPointerException`. */
    | NullPointer
    /** `EmptyStackException`. */
    | EmptyStack
    /** An exception thrown by the application's content handler. */
    | HandlerFailure

  /** The reasons the parser gives for its own `SAXException`s. */
  datatype SaxReason =
    | DocumentAlreadyStarted
    | IllegalNamespaceDeclaration(prefix: JString, uri: JString)
    | EndTagMismatch(expected: JString, found: JString)
    | IllegalAttribute(name: JString)
    | InvalidStandalone(value: JString)
    | UnsupportedEncoding(name: JString)
    | IllegalXmlDeclaration
    | IllegalDoctypeDeclaration

  /** Java's `null`-or-reference, and the `:-` friendly Option of the model. */
  datatype Option<+T> = None | Some(value: T) {
    predicate IsFailure() { None? }
    function PropagateFailure<U>(): Option<U>
      requires None?
    {
      None
    }
    function Extract(): T
      requires Some?
    {
      value
    }
  }

  /** The outcome of a Java call: the value it returns, or the exception it throws. */
  datatype Result<+T> = Success(value: T) | Failure(error: Error) {
    predicate IsFailure() { Failure? }
    function PropagateFailure<U>(): Result<U>
      requires Failure?
    {
      Failure(error)
    }
    function Extract(): T
      requires Success?
    {
      value
    }
  }
}

=== FILE: namespaces.dfy ===
/** A stand-in for SAX's `org.xml.sax.helpers.NamespaceSupport`, which the parser uses to keep
    the prefix bindings in scope, and the two calls of
    uk.org.retep.niosax.internal.core.AbstractNioSaxParser that wrap it (`declarePrefix` and
    `processName`).

    The stand-in follows the documented behaviour of the library class as the parser
    configures it (`reset` and then `setNamespaceDeclUris(true)`): a stack of contexts, each
    holding every binding in scope; `xml` and `xmlns` are bound from the start and cannot be
    redeclared; an unprefixed element name takes the default namespace, an unprefixed
    attribute name none. */
module Namespaces {
  import opened JavaLang
  import opened Sax

  /** `NamespaceSupport.XMLNS`, the namespace of the `xml` prefix. */
  function XmlUri(): JString {
    Lit("http://www.w3.org/XML/1998/namespace")
  }

  /** `NamespaceSupport.NSDECL`, the namespace of `xmlns` attributes. */
  function NsDeclUri(): JString {
    Lit("http://www.w3.org/2000/xmlns/")
  }

  /** One context: the prefixes bound in it and the default namespace, if any. */
  datatype Context = Context(prefixes: map<JString, JString>, default: Option<JString>)

  /** The stack of contexts; the last is the current one. There is always one. */
  type Support = s: seq<Context> | |s| >= 1 witness [Context(map[], None)]

  function Current(ns: Support): Context {
    ns[|ns| - 1]
  }

  /** `reset` followed by `setNamespaceDeclUris(true)`: a single context binding `xml` and
      `xmlns`. */
  function Reset(): (r: Support)
    ensures |r| == 1 && Current(r).default.None?
    ensures Lookup(Current(r), Lit("xml")) == Some(XmlUri())
    ensures Lookup(Current(r), Lit("xmlns")) == Some(NsDeclUri())
    ensures forall p :: p in Current(r).prefixes ==> Reserved(p)
  {
    var xml := Lit("xml");
    var xmlns := Lit("xmlns");
    [Context(map[xml := XmlUri(), xmlns := NsDeclUri()], None)]
  }

  /** `pushContext`: a new context inheriting every binding of the current one. */
  function Push(ns: Support): (r: Support)
    ensures |r| == |ns| + 1 && r[..|ns|] == ns && Current(r) == Current(ns)
  {
    ns + [Current(ns)]
  }

  /** `popContext`: the bindings of the current context are dropped; popping the last context
      throws `EmptyStackException`. */
  function Pop(ns: Support): (r: Result<Support>)
    ensures r.Failure? <==> |ns| == 1
    ensures r.Failure? ==> r.error == EmptyStack
    ensures r.Success? ==> |r.value| == |ns| - 1 && r.value == ns[..|ns| - 1]
  {
    if |ns| == 1 then Failure(EmptyStack) else Success(ns[..|ns| - 1])
  }

  /** A binding added to one context. The empty prefix names the default namespace, which an
      empty URI removes. */
  function Bind(ctx: Context, prefix: JString, uri: JString): (r: Context)
    ensures prefix == [] ==>
              r.prefixes == ctx.prefixes && r.default == (if uri == [] then None else Some(uri))
    ensures prefix != [] ==> r.default == ctx.default && r.prefixes == ctx.prefixes[prefix := uri]
  {
    if prefix == [] then ctx.(default := if uri == [] then None else Some(uri))
    else ctx.(prefixes := ctx.prefixes[prefix := uri])
  }

  /** The two prefixes that can never be declared. */
  predicate Reserved(prefix: JString) {
    prefix == Lit("xml") || prefix == Lit("xmlns")
  }

  /** `declarePrefix`: refused for `xml` and `xmlns`, otherwise a binding in the current
      context. */
  function Declare(ns: Support, prefix: JString, uri: JString): (r: (bool, Support))
    ensures r.0 <==> !Reserved(prefix)
    ensures !r.0 ==> r.1 == ns
    ensures r.0 ==> |r.1| == |ns| && r.1[..|ns| - 1] == ns[..|ns| - 1] &&
                    Current(r.1) == Bind(Current(ns), prefix, uri)
  {
    if Reserved(prefix) then (false, ns)
    else (true, ns[..|ns| - 1] + [Bind(Current(ns), prefix, uri)])
  }

  /** The namespace URI a prefix stands for in a context, if it is bound. */
  function Lookup(ctx: Context, prefix: JString): (r: Option<JString>)
    ensures prefix == [] ==> r == ctx.default
    ensures prefix != [] ==> (r.Some? <==> prefix in ctx.prefixes)
    ensures prefix != [] && r.Some? ==> r.value == ctx.prefixes[prefix]
  {
    if prefix == [] then ctx.default
    else if prefix in ctx.prefixes then Some(ctx.prefixes[prefix])
    else None
  }

  /** `processName`: splits a qualified name at its first ':' and resolves the prefix in the
      current context. A name without a prefix resolves always; a prefixed one fails when its
      prefix is unbound, and an element name also fails when its prefix is `xmlns`. */
  function ProcessName(ns: Support, qName: JString, isAttribute: bool): (r: Option<QName>)
    ensures r.Some? ==> r.value.qName == qName
    ensures ':' as int !in qName ==> r.Some? && r.value.local == qName
    ensures ':' as int !in qName && isAttribute ==>
              r.value.uri == (if qName == Lit("xmlns") then NsDeclUri() else [])
    ensures ':' as int !in qName && !isAttribute ==>
              r.value.uri == (if Current(ns).default.Some? then Current(ns).default.value else [])
    ensures ':' as int in qName ==>
              var i := IndexOf(qName, ':' as int);
              var uri := Lookup(Current(ns), qName[..i]);
              (r.Some? <==> uri.Some? && (isAttribute || qName[..i] != Lit("xmlns"))) &&
              (r.Some? ==> r.value.uri == uri.value && r.value.local == qName[i + 1..])
  {
    var i := IndexOf(qName, ':' as int);
    if i == -1 then
      var uri := if isAttribute then (if qName == Lit("xmlns") then NsDeclUri() else [])
                 else if Current(ns).default.Some? then Current(ns).default.value else [];
      Some(QName(uri, qName, qName))
    else
      var prefix := qName[..i];
      var uri := Lookup(Current(ns), prefix);
      if uri.None? || (!isAttribute && prefix == Lit("xmlns")) then None
      else Some(QName(uri.value, qName[i + 1..], qName))
  }

  /** A prefix declared in a pushed context is in force for names processed there, and gone
      once the context is popped. */
  lemma DeclaredPrefixInScope(ns: Support, prefix: JString, uri: JString, local: JString,
                              isAttribute: bool)
    requires prefix != [] && !Reserved(prefix) && ':' as int !in prefix
    ensures var inner := Declare(Push(ns), prefix, uri).1;
            ProcessName(inner, prefix + [':' as int] + local, isAttribute) ==
              Some(QName(uri, local, prefix + [':' as int] + local)) &&
            Pop(inner) == Success(ns)
  {
    var q := prefix + [':' as int] + local;
    assert q[..|prefix|] == prefix && q[|prefix|] == ':' as int;
    assert IndexOf(q, ':' as int) == |prefix| by {
      assert q[..|prefix| + 1] == prefix + [':' as int];
      IndexOfAfterPrefix(prefix, local);
    }
    assert q[|prefix| + 1..] == local;
    var inner := Declare(Push(ns), prefix, uri).1;
    assert inner[..|ns|] == ns;
  }

  /** The first ':' of `prefix + ":" + local`, when the prefix has none, ends the prefix. */
  lemma IndexOfAfterPrefix(prefix: JString, local: JString)
    requires ':' as int !in prefix
    ensures IndexOf(prefix + [':' as int] + local, ':' as int) == |prefix|
  {
    var q := prefix + [':' as int] + local;
    assert q[|prefix|] == ':' as int;
    assert q[..|prefix|] == prefix;
  }

  /** The default namespace applies to unprefixed element names and never to unprefixed
      attribute names. */
  lemma DefaultNamespaceSkipsAttributes(ns: Support, uri: JString, name: JString)
    requires uri != [] && ':' as int !in name && name != Lit("xmlns")
    ensures var inner := Declare(ns, [], uri).1;
            ProcessName(inner, name, false).value.uri == uri &&
            ProcessName(inner, name, true).value.uri == []
  {
  }

  /** `AbstractNioSaxParser.declarePrefix`: `startPrefixMapping`, the declaration, and at once
      `endPrefixMapping`; a refused declaration throws after the first callback. */
  function DeclarePrefix(h: Handlers, ns: Support, events: seq<Event>, prefix: JString,
                         uri: JString): (r: Result<(Support, seq<Event>)>)
    ensures r.Failure? <==> !h.content || Reserved(prefix)
    ensures r.Failure? && h.content ==>
              r.error == SaxError(IllegalNamespaceDeclaration(prefix, uri))
    ensures r.Success? ==> r.value.0 == Declare(ns, prefix, uri).1 &&
                           r.value.1 == events + [StartPrefixMapping(prefix, uri),
                                                  EndPrefixMapping(prefix)]
  {
    var evs :- Emit(h, events, StartPrefixMapping(prefix, uri));
    var (ok, ns') := Declare(ns, prefix, uri);
    if !ok then Failure(SaxError(IllegalNamespaceDeclaration(prefix, uri)))
    else
      var evs' :- Emit(h, evs, EndPrefixMapping(prefix));
      Success((ns', evs'))
  }

  /** `AbstractNioSaxParser.processName`: the split name, or `UndeclaredNamespaceException`. */
  function ResolveName(ns: Support, name: JString, isAttribute: bool): (r: Result<QName>)
    ensures r.Success? <==> ProcessName(ns, name, isAttribute).Some?
    ensures r.Success? ==> r.value == ProcessName(ns, name, isAttribute).value
    ensures r.Failure? ==> r.error == UndeclaredNamespace(name)
  {
    var q := ProcessName(ns, name, isAttribute);
    if q.None? then Failure(UndeclaredNamespace(name)) else Success(q.value)
  }
}

=== FILE: parser.dfy ===
/** uk.org.retep.niosax.internal.core.AbstractNioSaxParser and the plumbing every delegate
    shares (ParserDelegate, AbstractParserDelegate, StateEngineDelegate). The parser holds
    the current delegate, each delegate holds its parent, and only the prolog has none, so
    the delegates form a stack: constructing a delegate pushes it and `finish()` pops it. */
module Parsers {
  import opened JavaLang
  import opened Sax
  import opened Namespaces
  import opened Frames
  import NioSaxSource
  import Prolog
  import Elements
  import Markup
  import ProcessingInstructions
  import XmlDeclarations

  /** The parser's fields: the delegates from the prolog (first) to the current one (last),
      the namespace support, the three handler slots, and the callbacks made so far. */
  datatype Parser = Parser(frames: seq<Frame>, ns: Support, handlers: Handlers,
                           events: seq<Event>)

  /** How a call on the parser ends: the parser as it is afterwards, and the exception it
      throws, if any. */
  datatype Completion = Completion(parser: Parser, error: Option<Error>)

  /** The constructor: no delegate, no handler, a fresh namespace support. */
  function New(): (r: Parser)
    ensures r.frames == [] && r.handlers == NO_HANDLERS && r.events == []
  {
    Parser([], Reset(), NO_HANDLERS, [])
  }

  /** `getParserState`: the current delegate. */
  function Top(fs: seq<Frame>): Frame
    requires fs != []
  {
    fs[|fs| - 1]
  }

  /** The namespace contexts a delegate owns: an element owns the one its start tag pushed;
      no other delegate pushes any. */
  function Own(f: Frame): nat {
    if f.ElementFrame? then Elements.Owned(f.element) else 0
  }

  /** The contexts the delegates on the stack own between them. */
  function Scopes(fs: seq<Frame>): nat
    decreases |fs|
  {
    if fs == [] then 0 else Scopes(fs[..|fs| - 1]) + Own(fs[|fs| - 1])
  }

  /** An element that has not reached the '>' of its start tag owns no context. */
  predicate FrameOk(f: Frame) {
    f.ElementFrame? && Elements.Unopened(f.element) ==> !f.element.namespaceScope
  }

  /** Whether a delegate can be below the current one: the prolog, and an element left
      waiting in `DELEGATED` by the child it made. No other delegate makes children. */
  predicate Waiting(f: Frame) {
    f.PrologFrame? || (f.ElementFrame? && f.element.state == Delegated(Content))
  }

  /** The effects that run `finish()`. */
  predicate Finishes(e: Effect) {
    e.Finish? || e.FinishThenPush? || e.SetCharsetThenFinish?
  }

  /** What a step of delegate `f` can do, over all the delegates: it keeps the delegate's
      kind; it pushes only from a waiting delegate, never a prolog, and never an element
      that owns a context; the prolog never finishes; only a processing instruction of the
      prolog finishes and pushes, and what it pushes is a new XML declaration; and the
      namespace stack changes by exactly the contexts the delegate comes to own. */
  predicate Fits(f: Frame, ns: Support, o: Outcome<Frame>) {
    (o.frame.PrologFrame? <==> f.PrologFrame?) &&
    (o.effect.Push? ==> Waiting(o.frame) && !o.effect.child.PrologFrame? &&
                        FrameOk(o.effect.child) && Own(o.effect.child) == 0) &&
    (Finishes(o.effect) ==> !f.PrologFrame?) &&
    (o.effect.FinishThenPush? ==> o.effect.next == DeclFrame(NewDecl())) &&
    (FrameOk(f) ==> FrameOk(o.frame) && |o.ns| + Own(f) == |ns| + Own(o.frame))
  }

  /** The frame's own step: `State.parse` on the prolog, `StateEngineDelegate.parse` on
      every other delegate. */
  function StepFrame(f: Frame, h: Handlers, ns: Support, events: seq<Event>, c: JChar)
    : (r: Result<Outcome<Frame>>)
    ensures r.Success? ==> Fits(f, ns, r.value)
    ensures r.Success? && !f.ElementFrame? ==> r.value.ns == ns
  {
    match f
    case PrologFrame(p) => StepProlog(p, h, ns, events, c)
    case ElementFrame(d) => StepElement(d, h, ns, events, c)
    case MarkupFrame(m) => StepMarkup(m, h, ns, events, c)
    case PIFrame(pi) => StepPI(pi, h, ns, events, c)
    case DeclFrame(x) => StepDecl(x, h, ns, events, c)
  }

  function StepProlog(p: PrologState, h: Handlers, ns: Support, events: seq<Event>, c: JChar)
    : (r: Result<Outcome<Frame>>)
    ensures r.Success? ==> Fits(PrologFrame(p), ns, r.value) && r.value.ns == ns
  {
    Prolog.StepOnlyPushes(p, h, ns, events, c);
    var o :- Prolog.Step(p, h, ns, events, c);
    Success(Outcome(PrologFrame(o.frame), o.ns, o.events, o.effect))
  }

  function StepElement(d: ElementData, h: Handlers, ns: Support, events: seq<Event>, c: JChar)
    : (r: Result<Outcome<Frame>>)
    ensures r.Success? ==> Fits(ElementFrame(d), ns, r.value)
  {
    Elements.StepOwns(d, h, ns, events, c);
    var o :- Elements.Step(d, h, ns, events, c);
    Success(Outcome(ElementFrame(o.frame), o.ns, o.events, o.effect))
  }

  function StepMarkup(m: MarkupData, h: Handlers, ns: Support, events: seq<Event>, c: JChar)
    : (r: Result<Outcome<Frame>>)
    ensures r.Success? ==> Fits(MarkupFrame(m), ns, r.value) && r.value.ns == ns
  {
    var o :- Markup.Step(m, h, ns, events, c);
    Success(Outcome(MarkupFrame(o.frame), o.ns, o.events, o.effect))
  }

  function StepPI(pi: PIData, h: Handlers, ns: Support, events: seq<Event>, c: JChar)
    : (r: Result<Outcome<Frame>>)
    ensures r.Success? ==> Fits(PIFrame(pi), ns, r.value) && r.value.ns == ns
  {
    var o :- ProcessingInstructions.Step(pi, h, ns, events, c);
    Success(Outcome(PIFrame(o.frame), o.ns, o.events, o.effect))
  }

  function StepDecl(x: DeclData, h: Handlers, ns: Support, events: seq<Event>, c: JChar)
    : (r: Result<Outcome<Frame>>)
    ensures r.Success? ==> Fits(DeclFrame(x), ns, r.value) && r.value.ns == ns
  {
    var o :- XmlDeclarations.Step(x, h, ns, events, c);
    Success(Outcome(DeclFrame(o.frame), o.ns, o.events, o.effect))
  }

  /** `cleanup`: an element pops the context it owns; every other delegate does nothing. */
  function Cleanup(f: Frame, ns: Support): (r: Result<Support>)
    ensures r.Failure? <==> Own(f) == 1 && |ns| == 1
    ensures r.Success? ==> |r.value| == |ns| - Own(f) && r.value == ns[..|r.value|]
  {
    if f.ElementFrame? then Elements.Cleanup(f.element, ns) else Success(ns)
  }

  /** `finish()` on the parser: the current delegate cleans up and its parent becomes
      current. With no current delegate it throws `NullPointerException`. */
  function Finish(p: Parser): (r: Result<Parser>)
    ensures p.frames == [] ==> r == Failure(NullPointer)
    ensures p.frames != [] ==> (r.Failure? <==> Own(Top(p.frames)) == 1 && |p.ns| == 1)
    ensures r.Failure? && p.frames != [] ==> r.error == EmptyStack
    ensures r.Success? ==>
              r.value.frames == p.frames[..|p.frames| - 1] &&
              |r.value.ns| == |p.ns| - Own(Top(p.frames)) && r.value.ns == p.ns[..|r.value.ns|] &&
              r.value.handlers == p.handlers && r.value.events == p.events
  {
    if p.frames == [] then Failure(NullPointer)
    else
      var ns :- Cleanup(Top(p.frames), p.ns);
      Success(p.(frames := p.frames[..|p.frames| - 1], ns := ns))
  }

  /** What the parser does once the current delegate has stepped to `o`: the delegate is
      updated, and then its request is carried out. A new delegate becomes current; a
      `finish()` pops it; an XML declaration replaces the source's charset before it
      finishes. */
  function Settle(p: Parser, o: Outcome<Frame>, src: NioSaxSource.Source)
    : (r: Result<(Parser, NioSaxSource.Source)>)
    requires p.frames != []
    ensures !Finishes(o.effect) ==> r.Success? && r.value.1 == src
    ensures r.Success? ==> r.value.0.handlers == p.handlers && r.value.0.events == o.events
    ensures r.Success? && o.effect.SetCharsetThenFinish? ==>
              r.value.1 == NioSaxSource.SetCharset(src, Some(o.effect.charset))
    ensures r.Success? && !o.effect.SetCharsetThenFinish? ==> r.value.1 == src
  {
    var q := p.(frames := p.frames[..|p.frames| - 1] + [o.frame], ns := o.ns, events := o.events);
    match o.effect
    case Stay => Success((q, src))
    case Halt => Success((q, src))
    case Push(child) => Success((q.(frames := q.frames + [child]), src))
    case Finish =>
      var f :- Finish(q);
      Success((f, src))
    case FinishThenPush(next) =>
      var f :- Finish(q);
      Success((f.(frames := f.frames + [next]), src))
    case SetCharsetThenFinish(cs) =>
      var f :- Finish(q);
      Success((f, NioSaxSource.SetCharset(src, Some(cs))))
  }

  /** `parse(source, c)` on the current delegate: its step, what the parser then does, and
      whether the delegate's loop reads on. It reads on exactly when the delegate asked
      nothing of the parser. */
  function Feed(p: Parser, src: NioSaxSource.Source, c: JChar)
    : (r: Result<(Parser, NioSaxSource.Source, bool)>)
    requires p.frames != []
    ensures var s := StepFrame(Top(p.frames), p.handlers, p.ns, p.events, c);
            s.Failure? ==> r == Failure(s.error)
    ensures r.Success? ==> r.value.0.handlers == p.handlers
    ensures r.Success? && r.value.2 ==>
              r.value.1 == src && |r.value.0.frames| == |p.frames| &&
              r.value.0.frames[..|p.frames| - 1] == p.frames[..|p.frames| - 1]
  {
    var o :- StepFrame(Top(p.frames), p.handlers, p.ns, p.events, c);
    var qs :- Settle(p, o, src);
    Success((qs.0, qs.1, o.effect.Stay?))
  }

  // The stack while a document is open.

  /** The parser while a document is open: the prolog at the bottom and nowhere else, every
      delegate below the current one waiting for its child, every element's record of its
      context right, and on the namespace stack the context `startDocument` pushed over the
      base one, and one more for each element that owns one. */
  predicate Open(p: Parser) {
    p.frames != [] && p.frames[0].PrologFrame? &&
    (forall i :: 0 < i < |p.frames| ==> !p.frames[i].PrologFrame?) &&
    (forall i :: 0 <= i < |p.frames| - 1 ==> Waiting(p.frames[i])) &&
    (forall i :: 0 <= i < |p.frames| ==> FrameOk(p.frames[i])) &&
    |p.ns| == 2 + Scopes(p.frames)
  }

  /** Counting the contexts of a stack with one more delegate on top. */
  lemma ScopesPush(fs: seq<Frame>, f: Frame)
    ensures Scopes(fs + [f]) == Scopes(fs) + Own(f)
  {
    assert (fs + [f])[..|fs|] == fs;
  }

  /** The delegate on top replaced by its stepped self, before the parser acts on the
      request. */
  lemma ReplacedTopOpen(p: Parser, o: Outcome<Frame>)
    requires Open(p) && Fits(Top(p.frames), p.ns, o)
    ensures var q := p.(frames := p.frames[..|p.frames| - 1] + [o.frame], ns := o.ns,
                        events := o.events);
            Open(q) && Top(q.frames) == o.frame && |q.frames| == |p.frames|
  {
    var n := |p.frames|;
    var a := p.frames[..n - 1];
    var fs := a + [o.frame];
    assert p.frames == a + [Top(p.frames)];
    ScopesPush(a, Top(p.frames));
    ScopesPush(a, o.frame);
    assert FrameOk(p.frames[n - 1]);
    forall i | 0 < i < n
      ensures !fs[i].PrologFrame?
    {
      if i < n - 1 { assert fs[i] == p.frames[i]; }
    }
    forall i | 0 <= i < n
      ensures FrameOk(fs[i])
    {
      if i < n - 1 { assert fs[i] == p.frames[i]; }
    }
    forall i | 0 <= i < n - 1
      ensures Waiting(fs[i])
    {
      assert fs[i] == p.frames[i];
    }
    if n > 1 {
      assert fs[0] == p.frames[0];
    }
  }

  /** A new delegate on top of an open stack, over a waiting parent. */
  lemma PushedOpen(q: Parser, child: Frame)
    requires Open(q) && Waiting(Top(q.frames))
    requires !child.PrologFrame? && FrameOk(child) && Own(child) == 0
    ensures Open(q.(frames := q.frames + [child]))
  {
    var fs := q.frames + [child];
    ScopesPush(q.frames, child);
    forall i | 0 < i < |fs|
      ensures !fs[i].PrologFrame?
    {
      if i < |q.frames| { assert fs[i] == q.frames[i]; }
    }
    forall i | 0 <= i < |fs|
      ensures FrameOk(fs[i])
    {
      if i < |q.frames| { assert fs[i] == q.frames[i]; }
    }
    forall i | 0 <= i < |fs| - 1
      ensures Waiting(fs[i])
    {
      assert fs[i] == q.frames[i];
    }
    assert fs[0] == q.frames[0];
  }

  /** `finish()` on an open stack whose current delegate is not the prolog: it cannot throw,
      and the stack stays open. */
  lemma FinishOpen(q: Parser)
    requires Open(q) && !Top(q.frames).PrologFrame?
    ensures Finish(q).Success? && Open(Finish(q).value)
  {
    var n := |q.frames|;
    assert n > 1;
    var a := q.frames[..n - 1];
    assert q.frames == a + [Top(q.frames)];
    ScopesPush(a, Top(q.frames));
    var f := Finish(q).value;
    assert f.frames == a;
    forall i | 0 < i < |a|
      ensures !a[i].PrologFrame?
    {
      assert a[i] == q.frames[i];
    }
    forall i | 0 <= i < |a|
      ensures FrameOk(a[i]) && (i < |a| - 1 ==> Waiting(a[i]))
    {
      assert a[i] == q.frames[i];
    }
  }

  /** While a document is open, whatever a delegate asks of the parser can be done: the
      parser's own part of a step never throws, and the stack stays open. In particular
      `finish()` never pops a context its delegate did not push, and never the prolog. */
  lemma SettleOpen(p: Parser, o: Outcome<Frame>, src: NioSaxSource.Source)
    requires Open(p) && Fits(Top(p.frames), p.ns, o)
    ensures Settle(p, o, src).Success? && Open(Settle(p, o, src).value.0)
  {
    var q := p.(frames := p.frames[..|p.frames| - 1] + [o.frame], ns := o.ns, events := o.events);
    ReplacedTopOpen(p, o);
    match o.effect
    case Stay =>
    case Halt =>
    case Push(child) =>
      PushedOpen(q, child);
    case Finish =>
      FinishOpen(q);
    case FinishThenPush(next) =>
      FinishOpen(q);
      var f := Finish(q).value;
      assert Waiting(Top(f.frames)) by {
        assert Top(f.frames) == p.frames[|p.frames| - 2];
      }
      PushedOpen(f, next);
    case SetCharsetThenFinish(cs) =>
      FinishOpen(q);
  }

  /** A character fed to the current delegate of an open document leaves the document open,
      and it is refused only when the delegate's own step refuses it. */
  lemma FeedOpen(p: Parser, src: NioSaxSource.Source, c: JChar)
    requires Open(p)
    ensures var s := StepFrame(Top(p.frames), p.handlers, p.ns, p.events, c);
            var r := Feed(p, src, c);
            (r.Success? <==> s.Success?) && (r.Success? ==> Open(r.value.0))
  {
    var s := StepFrame(Top(p.frames), p.handlers, p.ns, p.events, c);
    if s.Success? {
      SettleOpen(p, s.value, src);
    }
  }

  // startDocument and endDocument.

  /** `startDocument`. A delegate still current means a document is under way, which is
      refused. Otherwise the namespace support is reset, a context is pushed for the
      document, the prolog becomes current, and the handler gets `startDocument`. If the
      handler throws a `SAXException` (`refuses`), the prolog is finished again before the
      exception goes on; if there is no handler at all, the `NullPointerException` is not
      caught, and the prolog stays current. */
  function DocumentStart(p: Parser, refuses: bool): (r: Completion)
    ensures p.frames != [] ==> r == Completion(p, Some(SaxError(DocumentAlreadyStarted)))
    ensures p.frames == [] ==>
              r.parser.handlers == p.handlers && |r.parser.ns| == 2 &&
              r.parser.ns[..1] == Reset() &&
              (r.error.None? <==> p.handlers.content && !refuses) &&
              (!p.handlers.content ==>
                 r.error == Some(NullPointer) && r.parser.frames == [PrologFrame(PrologText)] &&
                 r.parser.events == p.events) &&
              (p.handlers.content ==> r.parser.events == p.events + [StartDocument]) &&
              (p.handlers.content && refuses ==>
                 r.error == Some(HandlerFailure) && r.parser.frames == []) &&
              (p.handlers.content && !refuses ==> r.parser.frames == [PrologFrame(PrologText)])
  {
    if p.frames != [] then Completion(p, Some(SaxError(DocumentAlreadyStarted)))
    else
      var q := p.(ns := Namespaces.Push(Reset()), frames := [PrologFrame(PrologText)]);
      var called := Emit(q.handlers, q.events, StartDocument);
      if called.Failure? then Completion(q, Some(called.error))
      else if refuses then
        var f := Finish(q.(events := called.value));
        Completion(f.value, Some(HandlerFailure))
      else Completion(q.(events := called.value), None)
  }

  /** A document that starts opens the stack: the prolog alone is current, over the
      document's context. */
  lemma DocumentStartOpens(p: Parser)
    requires p.frames == [] && p.handlers.content
    ensures var r := DocumentStart(p, false);
            r.error.None? && Open(r.parser) && r.parser.frames == [PrologFrame(PrologText)]
  {
    var r := DocumentStart(p, false);
    assert Scopes(r.parser.frames) == 0 by {
      assert r.parser.frames[..0] == [];
    }
  }

  /** A second `startDocument` after one that threw for want of a handler is refused: the
      prolog it made is still current. After one the handler refused it succeeds again. */
  lemma RetryAfterFailedStart(p: Parser, h: Handlers)
    requires p.frames == [] && h.content
    ensures var failed := DocumentStart(p, false).parser.(handlers := h);
            !p.handlers.content ==>
              DocumentStart(failed, false).error == Some(SaxError(DocumentAlreadyStarted))
    ensures var refused := DocumentStart(p.(handlers := h), true).parser;
            DocumentStart(refused, false).error.None?
  {
  }

  /** `finish()` until no delegate is current, as the `finally` of `endDocument` does. A
      cleanup that throws stops the loop with its delegate still current. */
  function Unwind(p: Parser): (r: Completion)
    ensures r.parser.handlers == p.handlers && r.parser.events == p.events
    ensures r.error.None? ==> r.parser.frames == []
    ensures r.error.Some? ==> r.error.value == EmptyStack && r.parser.frames != []
    decreases |p.frames|
  {
    if p.frames == [] then Completion(p, None)
    else
      var f := Finish(p);
      if f.Failure? then Completion(p, Some(f.error))
      else Unwind(f.value)
  }

  /** When the namespace stack holds the two contexts of the document and one for each
      element context owned, unwinding cannot throw: it pops every delegate and every
      context owned, down to the document's own. */
  lemma {:induction false} UnwindBalanced(p: Parser)
    requires |p.ns| == 2 + Scopes(p.frames)
    ensures Unwind(p) == Completion(p.(frames := [], ns := p.ns[..2]), None)
    decreases |p.frames|
  {
    if p.frames == [] {
      assert p.ns[..2] == p.ns;
    } else {
      var n := |p.frames|;
      var a := p.frames[..n - 1];
      assert p.frames == a + [Top(p.frames)];
      ScopesPush(a, Top(p.frames));
      var f := Finish(p).value;
      UnwindBalanced(f);
      assert f.ns[..2] == p.ns[..2];
    }
  }

  /** `endDocument`: the handler gets `endDocument`, and then, whether that returned or
      threw, every delegate is finished. An exception from a cleanup replaces the
      handler's. */
  function DocumentEnd(p: Parser, refuses: bool): (r: Completion)
    ensures r.parser.handlers == p.handlers
    ensures r.parser.events == if p.handlers.content then p.events + [EndDocument] else p.events
    ensures var u := Unwind(p.(events := r.parser.events));
            u.error.None? ==>
              r.error == if !p.handlers.content then Some(NullPointer)
                         else if refuses then Some(HandlerFailure) else None
    ensures Unwind(p.(events := r.parser.events)).error.Some? ==> r.error == Some(EmptyStack)
    ensures r.error.None? || r.error.value != EmptyStack ==> r.parser.frames == []
  {
    var called := Emit(p.handlers, p.events, EndDocument);
    var u := Unwind(if called.Success? then p.(events := called.value) else p);
    var thrown := if called.Failure? then Some(called.error)
                  else if refuses then Some(HandlerFailure) else None;
    Completion(u.parser, if u.error.Some? then u.error else thrown)
  }

  /** At the end of an open document nothing is left current, whatever the handler does,
      and the namespace stack is back to the document's context: every element's context
      has been popped. */
  lemma DocumentEndUnwinds(p: Parser, refuses: bool)
    requires Open(p)
    ensures var r := DocumentEnd(p, refuses);
            r.parser.frames == [] && r.parser.ns == p.ns[..2] &&
            r.error != Some(EmptyStack)
  {
    UnwindBalanced(p.(events := DocumentEnd(p, refuses).parser.events));
  }
}

=== FILE: processing_instruction.dfy ===
/** uk.org.retep.niosax.internal.core.delegate.ProcessingInstruction: the delegate made after
    "<?", which reads a target name and the data up to "?>". A target of "xml" or "XML" is an
    XML declaration and one of "DOCTYPE" a document type declaration; what happens to those
    depends on which of the two factories made the delegate. */
module ProcessingInstructions {
  import opened JavaLang
  import opened Sax
  import opened Namespaces
  import opened Frames
  import opened XmlSpec

  /** The targets `parsingDelegated` hands on: "xml" and "XML" (no other case mix). */
  predicate IsXmlTarget(t: JString) {
    t == Lit("xml") || t == Lit("XML")
  }

  predicate IsDoctypeTarget(t: JString) {
    t == Lit("DOCTYPE")
  }

  /** `parsingDelegated` once the target is read: nothing for an ordinary target; for an XML
      declaration the prolog's delegate finishes itself and puts an `XMLDeclaration` on the
      prolog in its place, and the other delegate refuses it; a DOCTYPE is refused by both,
      though not with the same exception. */
  function Delegation(v: PIVariant, target: JString): (r: Result<Option<Effect>>)
    ensures r.Success? && r.value.None? <==> !IsXmlTarget(target) && !IsDoctypeTarget(target)
    ensures r.Success? && r.value.Some? <==> IsXmlTarget(target) && v == InProlog
    ensures r.Success? && r.value.Some? ==> r.value.value == FinishThenPush(DeclFrame(NewDecl()))
    ensures r.Failure? && IsXmlTarget(target) ==> r.error == SaxError(IllegalXmlDeclaration)
    ensures r.Failure? && IsDoctypeTarget(target) ==>
              r.error == if v == InProlog then UnsupportedOperation
                         else SaxError(IllegalDoctypeDeclaration)
  {
    if IsXmlTarget(target) then
      if v == InProlog then Success(Some(FinishThenPush(DeclFrame(NewDecl()))))
      else Failure(SaxError(IllegalXmlDeclaration))
    else if IsDoctypeTarget(target) then
      if v == InProlog then Failure(UnsupportedOperation)
      else Failure(SaxError(IllegalDoctypeDeclaration))
    else Success(None)
  }

  /** The target is complete (`setTarget`, which empties the accumulator): a delegated
      target completes the delegate with the delegation's effect; otherwise the delegate
      goes on in `next`. */
  function EndTarget(d: PIData, ns: Support, events: seq<Event>, next: PIState)
    : (r: Result<Outcome<PIData>>)
    ensures r.Success? <==> Delegation(d.variant, d.text).Success?
    ensures r.Success? ==> r.value.ns == ns && r.value.events == events &&
                           r.value.frame.target == d.text && r.value.frame.text == [] &&
                           r.value.frame.variant == d.variant
    ensures r.Success? && Delegation(d.variant, d.text).value.None? ==>
              r.value.frame.state == State(next) && r.value.effect == Stay
    ensures r.Success? && Delegation(d.variant, d.text).value.Some? ==>
              r.value.frame.state == Completed &&
              r.value.effect == Delegation(d.variant, d.text).value.value
    ensures r.Failure? ==> r.error == Delegation(d.variant, d.text).error
  {
    var e :- Delegation(d.variant, d.text);
    var d' := d.(text := [], target := d.text);
    if e.Some? then Success(Outcome(d'.(state := Completed), ns, events, e.value))
    else Success(Keep(d'.(state := State(next)), ns, events))
  }

  /** The instruction is complete: `processingInstruction(target, data)` to the content
      handler (which fails without one), and the completed delegate stays current: it does
      not `finish()`. */
  function Report(d: PIData, h: Handlers, ns: Support, events: seq<Event>, data: JString)
    : (r: Result<Outcome<PIData>>)
    ensures r.Failure? <==> !h.content
    ensures r.Failure? ==> r.error == NullPointer
    ensures r.Success? ==>
              r.value == Outcome(d.(state := Completed, text := []), ns,
                                 events + [ProcessingInstruction(d.target, data)], Halt)
  {
    var evs :- Emit(h, events, ProcessingInstruction(d.target, data));
    Success(Outcome(d.(state := Completed, text := []), ns, evs, Halt))
  }

  /** One character of a processing instruction. */
  function Step(d: PIData, h: Handlers, ns: Support, events: seq<Event>, c: JChar)
    : (r: Result<Outcome<PIData>>)
    ensures d.state.Completed? ==> r == Failure(UnsupportedOperation)
    ensures r.Success? ==> r.value.ns == ns && r.value.frame.variant == d.variant
    ensures r.Success? ==> (r.value.effect.Stay? <==> ContinueLoop(r.value.frame.state))
    ensures r.Success? ==> r.value.effect.Stay? || r.value.effect.Halt? ||
                           r.value.effect == FinishThenPush(DeclFrame(NewDecl()))
    ensures r.Success? && r.value.effect.FinishThenPush? ==>
              d.variant == InProlog && IsXmlTarget(r.value.frame.target)
    ensures r.Success? && r.value.events != events ==>
              r.value.effect == Halt && r.value.frame.state == Completed &&
              exists data :: r.value.events == events + [ProcessingInstruction(d.target, data)]
    ensures d.state == State(PiTarget) ==>
              (r.Failure? <==> !IsNameStartChar(c)) &&
              (r.Success? ==> r.value == Keep(d.(state := State(PiTarget2), text := d.text + [c]),
                                              ns, events))
    ensures d.state == State(PiTarget2) && !IsWhitespace(c) && c != '?' as int ==>
              (r.Failure? <==> !IsNameStartChar(c))
    ensures d.state == State(PiWhitespace) || d.state == State(PiData) ==>
              r.Success? && r.value.events == events && r.value.effect == Stay
    ensures d.state == State(PiDataQuery) ==>
              (r.Failure? <==> c == '>' as int && !h.content) &&
              (r.Success? && c == '>' as int ==>
                 r.value.events == events + [ProcessingInstruction(d.target, d.text)])
  {
    var s :- Unwrap(d.state);
    match s
    case PiTarget =>
      if IsNameStartChar(c) then Success(Keep(d.(state := State(PiTarget2), text := d.text + [c]), ns, events))
      else Failure(IllegalCharacterUnnamed)
    case PiTarget2 =>
      if IsWhitespace(c) then EndTarget(d, ns, events, PiWhitespace)
      else if c == '?' as int then
        Success(Keep(d.(state := State(PiTargetQuery), text := [], target := d.text), ns, events))
      else if IsNameStartChar(c) then
        Success(Keep(d.(state := State(PiTarget2), text := d.text + [c]), ns, events))
      else Failure(IllegalCharacterUnnamed)
    case PiTargetQuery =>
      if c == '>' as int then
        var e :- Delegation(d.variant, d.target);
        if e.Some? then Success(Outcome(d.(state := Completed), ns, events, e.value))
        else Report(d, h, ns, events, [])
      else Failure(IllegalCharacterUnnamed)
    case PiWhitespace =>
      if IsWhitespace(c) then Success(Keep(d.(state := State(PiWhitespace)), ns, events))
      else if c == '?' as int then Success(Keep(d.(state := State(PiDataQuery)), ns, events))
      else Success(Keep(d.(state := State(PiData), text := d.text + [c]), ns, events))
    case PiData =>
      if c == '?' as int then Success(Keep(d.(state := State(PiDataQuery)), ns, events))
      else Success(Keep(d.(state := State(PiData), text := d.text + [c]), ns, events))
    case PiDataQuery =>
      if c == '>' as int then Report(d, h, ns, events, d.text)
      else Success(Keep(d.(state := State(PiData), text := d.text + ['?' as int, c]), ns, events))
  }

  /** The accumulator of a delegate. */
  function Text(d: PIData): (r: JString)
    ensures r == d.text
  {
    d.text
  }

  /** Only name-start characters (what every target character is tested against). */
  predicate AllNameStart(s: JString) {
    forall i :: 0 <= i < |s| ==> IsNameStartChar(s[i])
  }

  predicate NoQuery(s: JString) {
    forall i :: 0 <= i < |s| ==> s[i] != '?' as int
  }

  /** A delegate of variant `v` reading its target, before `s`, which is target text. */
  predicate TargetOk(v: PIVariant, d: PIData, s: JString) {
    d.variant == v && d.target == [] && AllNameStart(s) &&
    (d.state == State(PiTarget2) || (d.state == State(PiTarget) && s != []))
  }

  lemma TargetStep(v: PIVariant, g: PIData, h: Handlers, ns: Support, events: seq<Event>,
                   t: JString)
    requires t != [] && TargetOk(v, g, t)
    ensures var r := Step(g, h, ns, events, t[0]);
            r.Success? && r.value.effect.Stay? && r.value.ns == ns &&
            r.value.events == events && Text(r.value.frame) == Text(g) + [t[0]] &&
            TargetOk(v, r.value.frame, t[1..])
  {
    assert IsNameStartChar(t[0]) && !IsWhitespace(t[0]) && t[0] != '?' as int;
  }

  /** A target of name-start characters is read into the accumulator, and the delegate
      waits for more of it. */
  lemma TargetRead(v: PIVariant, h: Handlers, ns: Support, events: seq<Event>, t: JString)
    requires t != [] && AllNameStart(t)
    ensures Run(Step, NewPI(v), h, ns, events, t) ==
              Success(Keep(PIData(v, State(PiTarget2), t, []), ns, events))
  {
    var ok := (g: PIData, s: JString) => TargetOk(v, g, s);
    forall g: PIData, s: JString | s != [] && ok(g, s)
      ensures var r := Step(g, h, ns, events, s[0]);
              r.Success? && r.value.effect.Stay? && r.value.ns == ns &&
              r.value.events == events && Text(r.value.frame) == Text(g) + [s[0]] &&
              ok(r.value.frame, s[1..])
    {
      TargetStep(v, g, h, ns, events, s);
    }
    RunReads(Step, ok, Text, NewPI(v), h, ns, events, t);
    var f := Run(Step, NewPI(v), h, ns, events, t).value.frame;
    assert TargetOk(v, f, []) && f.text == [] + t;
    assert f == PIData(v, State(PiTarget2), t, []);
  }

  /** A character allowed later in a name but not at its start, such as a digit, '-' or
      '.', is refused in a target: "xml-stylesheet" is not a target this delegate reads. */
  lemma TargetRefusesNameChars(v: PIVariant, h: Handlers, ns: Support, events: seq<Event>,
                               t: JString, c: JChar)
    requires t != [] && AllNameStart(t)
    requires IsNameChar(c) && !IsNameStartChar(c)
    ensures Run(Step, NewPI(v), h, ns, events, t + [c]) == Failure(IllegalCharacterUnnamed)
  {
    TargetRead(v, h, ns, events, t);
    RunAppend(Step, NewPI(v), h, ns, events, t, [c]);
    RunCons(Step, PIData(v, State(PiTarget2), t, []), h, ns, events, c, []);
    assert [c] + [] == [c];
  }

  /** Whitespace after an ordinary target ends it: the target is kept, the accumulator is
      emptied, and the delegate skips whitespace. */
  lemma TargetEnds(v: PIVariant, h: Handlers, ns: Support, events: seq<Event>, t: JString,
                   w: JChar)
    requires !IsXmlTarget(t) && !IsDoctypeTarget(t) && IsWhitespace(w)
    ensures Run(Step, PIData(v, State(PiTarget2), t, []), h, ns, events, [w]) ==
              Success(Keep(PIData(v, State(PiWhitespace), [], t), ns, events))
  {
    RunCons(Step, PIData(v, State(PiTarget2), t, []), h, ns, events, w, []);
    assert [w] + [] == [w];
  }

  /** Whitespace between the target and the data is skipped. */
  lemma WhitespaceSkipped(d: PIData, h: Handlers, ns: Support, events: seq<Event>, w: JString)
    requires d.state == State(PiWhitespace) && AllWhitespace(w)
    ensures Run(Step, d, h, ns, events, w) == Success(Keep(d, ns, events))
  {
    var ok := (g: PIData, s: JString) => g.state == State(PiWhitespace) && AllWhitespace(s);
    forall g: PIData, s: JString | s != [] && ok(g, s)
      ensures Step(g, h, ns, events, s[0]) == Success(Keep(g, ns, events)) && ok(g, s[1..])
    {
      assert IsWhitespace(s[0]);
    }
    RunIdle(Step, ok, d, h, ns, events, w);
  }

  /** A delegate reading data, before `s`, which has no '?', with the variant and target
      `d` has. */
  predicate DataOk(d: PIData, g: PIData, s: JString) {
    g.state == State(PiData) && g.variant == d.variant && g.target == d.target && NoQuery(s)
  }

  /** In the data, characters other than '?' are read into the accumulator. */
  lemma DataReadOn(f: PIData, h: Handlers, ns: Support, events: seq<Event>, rest: JString)
    requires f.state == State(PiData) && NoQuery(rest)
    ensures Run(Step, f, h, ns, events, rest) ==
              Success(Keep(f.(text := f.text + rest), ns, events))
  {
    var ok := (g: PIData, s: JString) => DataOk(f, g, s);
    forall g: PIData, s: JString | s != [] && ok(g, s)
      ensures var r := Step(g, h, ns, events, s[0]);
              r.Success? && r.value.effect.Stay? && r.value.ns == ns &&
              r.value.events == events && Text(r.value.frame) == Text(g) + [s[0]] &&
              ok(r.value.frame, s[1..])
    {
      assert s[0] != '?' as int;
    }
    RunReads(Step, ok, Text, f, h, ns, events, rest);
    var g := Run(Step, f, h, ns, events, rest).value.frame;
    assert DataOk(f, g, []) && g.text == f.text + rest;
  }

  /** Data with no '?' whose first character is not whitespace is read into the accumulator
      as it stands. */
  lemma DataRead(d: PIData, h: Handlers, ns: Support, events: seq<Event>, data: JString)
    requires d.state == State(PiWhitespace)
    requires data != [] && !IsWhitespace(data[0]) && NoQuery(data)
    ensures Run(Step, d, h, ns, events, data) ==
              Success(Keep(d.(state := State(PiData), text := d.text + data), ns, events))
  {
    var c, rest := data[0], data[1..];
    assert data == [c] + rest;
    var f := d.(state := State(PiData), text := d.text + [c]);
    RunCons(Step, d, h, ns, events, c, rest);
    DataReadOn(f, h, ns, events, rest);
    assert d.text + data == f.text + rest;
  }

  /** "?>" after data completes the instruction: its target and data go to the content
      handler, and the delegate stays current in its completed state. */
  lemma DataCloses(d: PIData, h: Handlers, ns: Support, events: seq<Event>)
    requires d.state == State(PiData) && h.content
    ensures Run(Step, d, h, ns, events, Lit("?>")) ==
              Success(Outcome(d.(state := Completed, text := []), ns,
                              events + [ProcessingInstruction(d.target, d.text)], Halt))
  {
    var q, gt := '?' as int, '>' as int;
    RunCons(Step, d, h, ns, events, q, [gt]);
    RunCons(Step, d.(state := State(PiDataQuery)), h, ns, events, gt, []);
    assert Lit("?>") == [q] + [gt] && [gt] == [gt] + [];
  }

  /** An ordinary target and whitespace: the delegate waits for the data with the target
      read and nothing accumulated. */
  lemma TargetThenWhitespace(v: PIVariant, h: Handlers, ns: Support, events: seq<Event>,
                             t: JString, w: JString, rest: JString)
    requires t != [] && AllNameStart(t) && !IsXmlTarget(t) && !IsDoctypeTarget(t)
    requires w != [] && AllWhitespace(w)
    ensures Run(Step, NewPI(v), h, ns, events, t + w + rest) ==
              Run(Step, PIData(v, State(PiWhitespace), [], t), h, ns, events, rest)
  {
    var d1 := PIData(v, State(PiTarget2), t, []);
    var d2 := PIData(v, State(PiWhitespace), [], t);
    TargetRead(v, h, ns, events, t);
    assert t + w + rest == t + (w + rest);
    RunThen(Step, NewPI(v), h, ns, events, t, w + rest, d1);
    TargetEnds(v, h, ns, events, t, w[0]);
    assert w + rest == [w[0]] + (w[1..] + rest);
    RunThen(Step, d1, h, ns, events, [w[0]], w[1..] + rest, d2);
    WhitespaceSkipped(d2, h, ns, events, w[1..]);
    RunThen(Step, d2, h, ns, events, w[1..], rest, d2);
  }

  /** `<?target data?>`: an ordinary target, whitespace, and data with no '?' that does not
      start with whitespace give one `processingInstruction(target, data)`, whichever
      factory made the delegate. */
  lemma InstructionReported(v: PIVariant, h: Handlers, ns: Support, events: seq<Event>,
                            t: JString, w: JString, data: JString)
    requires h.content
    requires t != [] && AllNameStart(t) && !IsXmlTarget(t) && !IsDoctypeTarget(t)
    requires w != [] && AllWhitespace(w)
    requires data != [] && !IsWhitespace(data[0]) && NoQuery(data)
    ensures Run(Step, NewPI(v), h, ns, events, t + w + data + Lit("?>")) ==
              Success(Outcome(PIData(v, Completed, [], t), ns,
                              events + [ProcessingInstruction(t, data)], Halt))
  {
    var d2 := PIData(v, State(PiWhitespace), [], t);
    var d3 := PIData(v, State(PiData), data, t);
    assert t + w + data + Lit("?>") == t + w + (data + Lit("?>"));
    TargetThenWhitespace(v, h, ns, events, t, w, data + Lit("?>"));
    DataRead(d2, h, ns, events, data);
    assert d2.(state := State(PiData), text := d2.text + data) == d3;
    RunThen(Step, d2, h, ns, events, data, Lit("?>"), d3);
    DataCloses(d3, h, ns, events);
  }

  /** `<?target?>`: an ordinary target straight followed by "?>" gives
      `processingInstruction(target, "")`. */
  lemma EmptyInstructionReported(v: PIVariant, h: Handlers, ns: Support, events: seq<Event>,
                                 t: JString)
    requires h.content
    requires t != [] && AllNameStart(t) && !IsXmlTarget(t) && !IsDoctypeTarget(t)
    ensures Run(Step, NewPI(v), h, ns, events, t + Lit("?>")) ==
              Success(Outcome(PIData(v, Completed, [], t), ns,
                              events + [ProcessingInstruction(t, [])], Halt))
  {
    var q, gt := '?' as int, '>' as int;
    var d1 := PIData(v, State(PiTarget2), t, []);
    var d2 := PIData(v, State(PiTargetQuery), [], t);
    TargetRead(v, h, ns, events, t);
    RunThen(Step, NewPI(v), h, ns, events, t, Lit("?>"), d1);
    RunCons(Step, d1, h, ns, events, q, [gt]);
    RunCons(Step, d2, h, ns, events, gt, []);
    assert Lit("?>") == [q] + [gt] && [gt] == [gt] + [];
  }

  /** A target "xml" or "XML" ended by whitespace: the prolog's delegate completes and asks
      for an `XMLDeclaration` in its place; the other refuses it. A "DOCTYPE" target is
      refused by both. */
  lemma SpecialTargets(v: PIVariant, h: Handlers, ns: Support, events: seq<Event>,
                       t: JString, w: JChar)
    requires IsWhitespace(w)
    ensures var r := Run(Step, PIData(v, State(PiTarget2), t, []), h, ns, events, [w]);
            (IsXmlTarget(t) && v == InProlog ==>
               r == Success(Outcome(PIData(v, Completed, [], t), ns, events,
                                    FinishThenPush(DeclFrame(NewDecl()))))) &&
            (IsXmlTarget(t) && v == Generic ==> r == Failure(SaxError(IllegalXmlDeclaration))) &&
            (IsDoctypeTarget(t) && v == InProlog ==> r == Failure(UnsupportedOperation)) &&
            (IsDoctypeTarget(t) && v == Generic ==>
               r == Failure(SaxError(IllegalDoctypeDeclaration)))
  {
    RunCons(Step, PIData(v, State(PiTarget2), t, []), h, ns, events, w, []);
    assert [w] + [] == [w];
  }

  /** Only the exact spellings are special: "Xml" is an ordinary target. */
  lemma MixedCaseXmlIsOrdinary()
    ensures !IsXmlTarget(Lit("Xml")) && !IsDoctypeTarget(Lit("Xml"))
    ensures IsXmlTarget(Lit("xml")) && IsXmlTarget(Lit("XML"))
  {
    assert Lit("Xml")[0] != Lit("xml")[0];
    assert Lit("Xml")[1] != Lit("XML")[1];
    assert |Lit("Xml")| != |Lit("DOCTYPE")|;
  }

  /** A '?' in the data not followed by '>' is kept together with the character after it,
      even when that is a second '?': "??>" does not end the instruction, and all three
      characters are data. */
  lemma DoubleQueryDoesNotClose(d: PIData, h: Handlers, ns: Support, events: seq<Event>)
    requires d.state == State(PiData)
    ensures Run(Step, d, h, ns, events, Lit("??>")) ==
              Success(Keep(d.(text := d.text + Lit("??>")), ns, events))
  {
    var q, gt := '?' as int, '>' as int;
    var d1 := d.(state := State(PiDataQuery));
    var d2 := d.(text := d.text + [q, q]);
    RunCons(Step, d, h, ns, events, q, [q, gt]);
    RunCons(Step, d1, h, ns, events, q, [gt]);
    RunCons(Step, d2, h, ns, events, gt, []);
    assert Lit("??>") == [q] + [q, gt] && [q, gt] == [q] + [gt] && [gt] == [gt] + [];
    assert d.text + Lit("??>") == d2.text + [gt];
  }
}

=== FILE: prolog.dfy ===
/** uk.org.retep.niosax.internal.core.delegate.DefaultProlog: the delegate at the bottom of
    the stack, which reads what lies outside every piece of markup. It knows only whether
    the last character was a '<'; it keeps no record of the elements it has started. */
module Prolog {
  import opened JavaLang
  import opened Sax
  import opened Namespaces
  import opened Frames
  import opened XmlSpec
  import Elements

  /** One character, through `State.parse`. Outside markup only white space is allowed and
      a '<' opens markup. After the '<', "!" and "?" make a delegate for a comment or CDATA
      section and for a processing instruction of the prolog; anything else makes an
      element and hands it the character as the first of its name. Whatever the '<' opened,
      the prolog is back outside markup. */
  function Step(p: PrologState, h: Handlers, ns: Support, events: seq<Event>, c: JChar)
    : (r: Result<Outcome<PrologState>>)
    ensures p == PrologText ==> (r.Success? <==> c == '<' as int || IsWhitespace(c))
    ensures p == PrologText && r.Failure? ==> r.error == IllegalCharacterUnnamed
    ensures p == PrologText && r.Success? ==>
              r.value == Keep(if c == '<' as int then PrologOpen else PrologText, ns, events)
    ensures p == PrologOpen && c == '!' as int ==>
              r == Success(Outcome(PrologText, ns, events, Push(MarkupFrame(NewMarkup()))))
    ensures p == PrologOpen && c == '?' as int ==>
              r == Success(Outcome(PrologText, ns, events, Push(PIFrame(NewPI(InProlog)))))
    ensures p == PrologOpen && c != '!' as int && c != '?' as int ==>
              (r.Success? <==> IsNameStartChar(c)) &&
              (r.Failure? ==> r.error == IllegalCharacter(c)) &&
              (r.Success? ==> r.value == Outcome(PrologText, ns, events, Push(ElementFrame(
                 NewElement().(state := State(StartName1), text := [c])))))
  {
    match p
    case PrologText =>
      if c == '<' as int then Success(Keep(PrologOpen, ns, events))
      else if IsWhitespace(c) then Success(Keep(PrologText, ns, events))
      else Failure(IllegalCharacterUnnamed)
    case PrologOpen =>
      if c == '!' as int then Success(Outcome(PrologText, ns, events, Push(MarkupFrame(NewMarkup()))))
      else if c == '?' as int then
        Success(Outcome(PrologText, ns, events, Push(PIFrame(NewPI(InProlog)))))
      else
        Elements.StepInStart(NewElement(), h, ns, events, c);
        assert NewElement().text + [c] == [c];
        var o :- Elements.Step(NewElement(), h, ns, events, c);
        Success(Outcome(PrologText, o.ns, o.events, Push(ElementFrame(o.frame))))
  }

  /** The prolog never finishes itself and reports nothing: a step keeps it current, or
      makes a child delegate, with the namespace stack and the callbacks untouched. */
  lemma StepOnlyPushes(p: PrologState, h: Handlers, ns: Support, events: seq<Event>, c: JChar)
    ensures var r := Step(p, h, ns, events, c);
            r.Success? ==> r.value.ns == ns && r.value.events == events &&
                           (r.value.effect.Stay? || r.value.effect.Push?) &&
                           (r.value.effect.Push? ==> r.value.frame == PrologText &&
                                                     !r.value.effect.child.PrologFrame?)
  {
  }

  /** A '<' followed by a name-start character opens an element the same way in the prolog
      as in an element's content: the prolog's child is the child an element would make. */
  lemma SameChildAsContent(h: Handlers, ns: Support, events: seq<Event>, c: JChar)
    requires c != '/' as int && c != '?' as int
    ensures var r := Step(PrologOpen, h, ns, events, c);
            var k := Elements.ChildFrame(c);
            (r.Success? <==> k.Success?) &&
            (r.Success? ==> k.value.Some? && r.value.effect == Push(k.value.value))
  {
  }

  /** White space between pieces of markup is read and dropped, however much of it there
      is. */
  lemma {:induction false} WhitespaceIgnored(h: Handlers, ns: Support, events: seq<Event>,
                                             w: JString)
    requires AllWhitespace(w)
    ensures Run(Step, PrologText, h, ns, events, w) == Success(Keep(PrologText, ns, events))
  {
    var ok := (g: PrologState, t: JString) => g == PrologText && AllWhitespace(t);
    forall g: PrologState, t: JString | t != [] && ok(g, t)
      ensures Step(g, h, ns, events, t[0]) == Success(Keep(g, ns, events)) && ok(g, t[1..])
    {
      assert AllWhitespace(t);
      assert IsWhitespace(t[0]);
      assert t[0] != '<' as int;
      assert AllWhitespace(t[1..]);
    }
    RunIdle(Step, ok, PrologText, h, ns, events, w);
  }

  /** Anything but white space or a '<' outside markup is refused, text included. */
  lemma TextRefused(h: Handlers, ns: Support, events: seq<Event>, w: JString, c: JChar,
                    rest: JString)
    requires AllWhitespace(w) && c != '<' as int && !IsWhitespace(c)
    ensures Run(Step, PrologText, h, ns, events, w + [c] + rest) == Failure(IllegalCharacterUnnamed)
  {
    WhitespaceIgnored(h, ns, events, w);
    RunThen(Step, PrologText, h, ns, events, w, [c] + rest, PrologText);
    assert w + [c] + rest == w + ([c] + rest);
    RunCons(Step, PrologText, h, ns, events, c, rest);
  }

  /** "<" and a name-start character start an element. */
  lemma OpenThenNameStart(h: Handlers, ns: Support, events: seq<Event>, c: JChar, rest: JString)
    requires IsNameStartChar(c)
    ensures Run(Step, PrologText, h, ns, events, ['<' as int, c] + rest) ==
              Success(Outcome(PrologText, ns, events, Push(ElementFrame(
                NewElement().(state := State(StartName1), text := [c])))))
  {
    assert ['<' as int, c] + rest == ['<' as int] + ([c] + rest);
    RunStay(Step, PrologText, h, ns, events, '<' as int, [c] + rest, PrologOpen);
    NameStartIsNameChar(c);
    NameCharIsNoDelimiter(c);
    RunCons(Step, PrologOpen, h, ns, events, c, rest);
  }

  /** After any white space, "<" and a name-start character start an element, and the
      prolog is back where it began: nothing stops a second element at the top level. */
  lemma ElementOpens(h: Handlers, ns: Support, events: seq<Event>, w: JString, c: JChar,
                     rest: JString)
    requires AllWhitespace(w) && IsNameStartChar(c)
    ensures Run(Step, PrologText, h, ns, events, w + ['<' as int, c] + rest) ==
              Success(Outcome(PrologText, ns, events, Push(ElementFrame(
                NewElement().(state := State(StartName1), text := [c])))))
  {
    WhitespaceIgnored(h, ns, events, w);
    RunThen(Step, PrologText, h, ns, events, w, ['<' as int, c] + rest, PrologText);
    assert w + ['<' as int, c] + rest == w + (['<' as int, c] + rest);
    OpenThenNameStart(h, ns, events, c, rest);
  }
}

=== FILE: sax.dfy ===
/** The application side of the parser: the SAX callbacks it makes, recorded as events, and
    the three handler slots of uk.org.retep.niosax.internal.core.AbstractNioSaxParser (the
    content handler, the lexical handler and the niosax handler). */
module Sax {
  import opened JavaLang

  /** A name as `NamespaceSupport.processName` splits it: namespace URI, local name and the
      qualified name as written. */
  datatype QName = QName(uri: JString, local: JString, qName: JString)

  /** One entry of the `Attributes` passed with a start tag. */
  datatype Attribute = Attribute(name: QName, attrType: JString, value: JString)

  datatype Event =
    // ContentHandler
    | StartDocument
    | EndDocument
    | StartPrefixMapping(prefix: JString, uri: JString)
    | EndPrefixMapping(prefix: JString)
    | StartElement(name: QName, attributes: seq<Attribute>)
    | EndElement(name: QName)
    | Characters(text: JString)
    | ProcessingInstruction(target: JString, data: JString)
    // LexicalHandler
    | Comment(text: JString)
    | StartCData
    | EndCData
    // NioSaxParserHandler
    | XmlDeclaration(version: Option<JString>, encoding: Option<JString>, standalone: bool)

  predicate IsLexical(e: Event) {
    e.Comment? || e.StartCData? || e.EndCData?
  }

  predicate IsNioSax(e: Event) {
    e.XmlDeclaration?
  }

  /** Which handler slots are filled. */
  datatype Handlers = Handlers(content: bool, lexical: bool, nioSax: bool)

  /** No handler at all: the state of a new parser. */
  const NO_HANDLERS := Handlers(false, false, false)

  /** What kind of object is passed to `setHandler`: every handler is a content handler, and
      may also be a lexical or a niosax handler. */
  datatype HandlerObject = HandlerObject(isLexical: bool, isNioSax: bool)

  /** `setHandler`: `null` is refused; a handler fills the content slot, and also each other
      slot whose interface it implements. A slot whose interface it does not implement keeps
      its old handler. */
  function SetHandler(h: Handlers, handler: Option<HandlerObject>): (r: Result<Handlers>)
    ensures r.Failure? <==> handler.None?
    ensures r.Failure? ==> r.error == NullPointer
    ensures r.Success? ==> r.value.content &&
                           (r.value.lexical <==> h.lexical || handler.value.isLexical) &&
                           (r.value.nioSax <==> h.nioSax || handler.value.isNioSax)
  {
    if handler.None? then Failure(NullPointer)
    else
      Success(Handlers(true, h.lexical || handler.value.isLexical,
                       h.nioSax || handler.value.isNioSax))
  }

  /** One callback. A content callback on a missing content handler throws
      `NullPointerException`; the lexical and niosax callbacks are only made when their
      handler is there. */
  function Emit(h: Handlers, events: seq<Event>, e: Event): (r: Result<seq<Event>>)
    ensures r.Failure? <==> !IsLexical(e) && !IsNioSax(e) && !h.content
    ensures r.Failure? ==> r.error == NullPointer
    ensures r.Success? ==> r.value == events + [e] ||
                           (r.value == events && ((IsLexical(e) && !h.lexical) ||
                                                   (IsNioSax(e) && !h.nioSax)))
    ensures r.Success? && (IsLexical(e) ==> h.lexical) && (IsNioSax(e) ==> h.nioSax) ==>
              r.value == events + [e]
  {
    if IsLexical(e) then Success(if h.lexical then events + [e] else events)
    else if IsNioSax(e) then Success(if h.nioSax then events + [e] else events)
    else if h.content then Success(events + [e])
    else Failure(NullPointer)
  }
}

=== FILE: single_byte.dfy ===
/** The two one-byte codecs, US-ASCII (uk.org.retep.niosax.charset.US_ASCII) and ISO-8859-1
    (uk.org.retep.niosax.charset.ISO_8859_1).

    Both decode a byte with Java's `buffer.get()`, which yields a signed value, and return it
    as a `char`. A byte from 0x80 up therefore arrives sign-extended, as U+FF80..U+FFFF rather
    than U+0080..U+00FF: the byte 0xFE becomes `INVALID_CHAR` and 0xFF becomes
    `NOT_ENOUGH_DATA`, although both are consumed. */
module SingleByte {
  import opened JavaLang
  import opened Buffers
  import opened Charset

  const ASCII_ALIASES: seq<string> :=
    ["US-ASCII", "US_ASCII", "iso-ir-6", "ANSI_X3.4-1986", "ISO_646.irv:1991", "ASCII",
     "ISO646-US", "us", "IBM367", "cp367", "csASCII", "default", "646", "iso_646.irv:1983",
     "ANSI_X3.4-1968", "ascii7"]

  const LATIN1_ALIASES: seq<string> :=
    ["ISO-8859-1", "iso-ir-100", "ISO_8859-1", "latin1", "l1", "IBM819", "cp819",
     "csISOLatin1", "819", "IBM-819", "ISO8859_1", "ISO_8859-1:1987", "ISO_8859_1", "8859_1",
     "ISO8859-1"]

  /** `(char) buffer.get()`: the signed byte, widened and cut to sixteen bits. */
  function WidenSigned(b: Byte): (r: JChar)
    ensures b < 0x80 ==> r == b
    ensures b >= 0x80 ==> r == 0xFF00 + b
  {
    ToChar(Signed(b))
  }

  /** US-ASCII `decode`. Its test `b < 0x80` is made on the signed byte and so always holds:
      its `INVALID_CHAR` branch is never taken and every byte decodes through `WidenSigned`. */
  function AsciiDecode(b: Buffer): (r: (JChar, Buffer))
    ensures Decoded(b, r.0, r.1)
    ensures Remaining(b) > 0 ==>
              r == (WidenSigned(b.data[b.position]), b.(position := b.position + 1))
  {
    if Remaining(b) > 0 then
      var s := Signed(b.data[b.position]);
      var after: Buffer := b.(position := b.position + 1);
      if s < 0x80 then (ToChar(s), after) else (INVALID_CHAR, after)
    else
      (NOT_ENOUGH_DATA, b)
  }

  /** ISO-8859-1 `decode`. */
  function Latin1Decode(b: Buffer): (r: (JChar, Buffer))
    ensures Decoded(b, r.0, r.1)
    ensures Remaining(b) > 0 ==> r.1.position == b.position + 1
  {
    if Remaining(b) > 0 then
      (WidenSigned(b.data[b.position]), b.(position := b.position + 1))
    else
      (NOT_ENOUGH_DATA, b)
  }

  /** US-ASCII `encode`: one byte when there is room, a space for anything outside ASCII. */
  function AsciiEncode(b: Buffer, c: JChar): (r: (bool, Buffer))
    ensures Encoded(b, r.1)
    ensures r.0 <==> Remaining(b) > 0
    ensures r.0 ==> r.1 == Put(b, if c < 0x80 then c else ' ' as int)
    ensures !r.0 ==> r.1 == b
  {
    if Remaining(b) > 0 then (true, Put(b, if c < 0x80 then c else 0x20)) else (false, b)
  }

  /** ISO-8859-1 `encode`: one byte when there is room; a space for U+00FF and above, since the
      test is `c < 0xff`. */
  function Latin1Encode(b: Buffer, c: JChar): (r: (bool, Buffer))
    ensures Encoded(b, r.1)
    ensures r.0 <==> Remaining(b) > 0
    ensures r.0 ==> r.1 == Put(b, if c < 0xFF then c else ' ' as int)
    ensures !r.0 ==> r.1 == b
  {
    if Remaining(b) > 0 then (true, Put(b, if c < 0xFF then c else 0x20)) else (false, b)
  }

  /** US-ASCII and ISO-8859-1 decode every byte alike. */
  lemma SameDecoding(b: Buffer)
    ensures AsciiDecode(b) == Latin1Decode(b)
  {
  }

  /** Seven-bit characters survive an encode and decode in either codec; US-ASCII turns every
      other character into a space. */
  lemma AsciiRoundTrip(b: Buffer, c: JChar)
    requires Remaining(b) > 0
    ensures var w := AsciiEncode(b, c).1;
            AsciiDecode(w.(position := b.position)).0 == if c < 0x80 then c else ' ' as int
  {
  }

  /** ISO-8859-1 writes U+0080..U+00FE as their own byte but reads that byte back
      sign-extended, so none of those characters survives the round trip. */
  lemma Latin1HighRoundTripFails(b: Buffer, c: JChar)
    requires Remaining(b) > 0 && 0x80 <= c < 0xFF
    ensures var w := Latin1Encode(b, c).1;
            Latin1Decode(w.(position := b.position)).0 == 0xFF00 + c
  {
  }

  /** The bytes 0xFE and 0xFF are consumed yet read as the two sentinels. */
  lemma HighBytesReadAsSentinels(b: Buffer)
    requires Remaining(b) > 0 && b.data[b.position] >= 0xFE
    ensures Latin1Decode(b).1.position == b.position + 1
    ensures !IsValid(Latin1Decode(b).0)
    ensures Latin1Decode(b).0 == if b.data[b.position] == 0xFF then NOT_ENOUGH_DATA else INVALID_CHAR
  {
  }

  /** One-byte decoding is the same through any limit that covers the byte. */
  lemma DecodePrefixConsistent(b: Buffer, k: nat)
    requires b.position <= k <= b.limit
    ensures PrefixConsistent(Latin1Decode(WithLimit(b, k)), Latin1Decode(b), WithLimit(b, k))
    ensures PrefixConsistent(AsciiDecode(WithLimit(b, k)), AsciiDecode(b), WithLimit(b, k))
  {
  }
}

=== FILE: source.dfy ===
/** uk.org.retep.niosax.NioSaxSource: the pair of a charset and a byte buffer that the parser
    reads characters from. Either half may be `null`; every call that needs the missing half
    fails with a `NullPointerException`. */
module NioSaxSource {
  import opened JavaLang
  import opened Buffers
  import opened Charset
  import opened Codecs
  import AbstractCharset
  import CharsetFactory

  datatype Source = Source(charset: Option<Codec>, buffer: Option<Buffer>)

  /** The constructors: a missing charset is replaced by the one registered as "UTF-8"; a
      missing buffer stays missing. */
  function New(charset: Option<Codec>, buffer: Option<Buffer>): (r: Source)
    ensures charset.Some? ==> r.charset == charset
    ensures charset.None? ==> r.charset == CharsetFactory.GetCharset(Lit("UTF-8"))
    ensures r.charset == Some(if charset.Some? then charset.value else Utf8)
    ensures r.buffer == buffer
  {
    CharsetFactory.Utf8Name();
    Source(if charset.Some? then charset else CharsetFactory.GetCharset(Lit("UTF-8")), buffer)
  }

  /** `setCharset`: only the charset changes. */
  function SetCharset(src: Source, charset: Option<Codec>): (r: Source)
    ensures r.charset == charset && r.buffer == src.buffer
  {
    src.(charset := charset)
  }

  /** `setByteBuffer`: only the buffer changes; bytes of a partial character left in the old
      buffer are not carried over. */
  function SetByteBuffer(src: Source, buffer: Option<Buffer>): (r: Source)
    ensures r.buffer == buffer && r.charset == src.charset
  {
    src.(buffer := buffer)
  }

  /** `compact`, on the buffer. */
  function CompactSource(src: Source): (r: Result<Source>)
    ensures r.Failure? <==> src.buffer.None?
    ensures r.Failure? ==> r.error == NullPointer
    ensures r.Success? ==> r.value.charset == src.charset &&
                           r.value.buffer == Some(Compact(src.buffer.value))
  {
    if src.buffer.None? then Failure(NullPointer)
    else Success(src.(buffer := Some(Compact(src.buffer.value))))
  }

  /** `isValid`: asks the charset, which must be present. */
  function IsValidChar(src: Source, c: JChar): (r: Result<bool>)
    ensures r.Failure? <==> src.charset.None?
    ensures r.Failure? ==> r.error == NullPointer
    ensures r.Success? ==> (r.value <==> c != NOT_ENOUGH_DATA && c != INVALID_CHAR)
  {
    if src.charset.None? then Failure(NullPointer) else Success(IsValid(c))
  }

  /** `hasCharacter`: whether the next decode would give a real character; the source is not
      changed. */
  function HasCharacter(src: Source): (r: Result<bool>)
    ensures r.Failure? <==> src.charset.None? || src.buffer.None?
    ensures r.Failure? ==> r.error == NullPointer
    ensures r.Success? ==>
              (r.value <==> IsValid(Codecs.Decode(src.charset.value, src.buffer.value).0))
  {
    if src.charset.None? || src.buffer.None? then Failure(NullPointer)
    else Success(AbstractCharset.HasCharacter(AbstractCharset.DecoderOf(src.charset.value), src.buffer.value))
  }

  /** `decode`: the next character of the buffer in the current charset; the source keeps its
      charset and its buffer moves on. */
  function Decode(src: Source): (r: Result<(JChar, Source)>)
    ensures r.Failure? <==> src.charset.None? || src.buffer.None?
    ensures r.Failure? ==> r.error == NullPointer
    ensures r.Success? ==> r.value.1.charset == src.charset && r.value.1.buffer.Some? &&
                           Decoded(src.buffer.value, r.value.0, r.value.1.buffer.value)
  {
    if src.charset.None? || src.buffer.None? then Failure(NullPointer)
    else
      var (c, b) := Codecs.Decode(src.charset.value, src.buffer.value);
      Success((c, src.(buffer := Some(b))))
  }

  /** `hasCharacter` answers what a `decode` would: it is true exactly when the decode gives a
      real character, and it never moves the buffer. */
  lemma HasCharacterForetellsDecode(src: Source)
    requires src.charset.Some? && src.buffer.Some?
    ensures HasCharacter(src).Success? && Decode(src).Success?
    ensures HasCharacter(src).value <==> IsValid(Decode(src).value.0)
    ensures HasCharacter(src).value ==>
              Decode(src).value.1.buffer.value.position > src.buffer.value.position
  {
  }

  /** A charset switched in the middle of the stream reads on from where the old one stopped:
      no byte the old charset consumed is read again. */
  lemma SwitchReadsOnFromPosition(src: Source, cs: Codec)
    requires src.charset.Some? && src.buffer.Some?
    ensures var s1 := Decode(src).value.1;
            var s2 := Decode(SetCharset(s1, Some(cs)));
            s2.Success? &&
            s2.value.0 == Codecs.Decode(cs, s1.buffer.value).0 &&
            s2.value.1.buffer.value.position >= s1.buffer.value.position >=
              src.buffer.value.position
  {
  }

  /** Compacting the buffer, then flipping it, leaves the next character as it was. */
  lemma CompactKeepsNextCharacter(src: Source)
    requires src.charset.Some? && src.buffer.Some?
    ensures var b := Flip(CompactSource(src).value.buffer.value);
            Codecs.Decode(src.charset.value, b).0 ==
              Codecs.Decode(src.charset.value, src.buffer.value).0
  {
    var b0 := src.buffer.value;
    var b := Flip(Compact(b0));
    CompactKeepsUnread(b0);
    Codecs.DecodeReadsWindow(src.charset.value, b0, b);
  }
}

=== FILE: utf_16.dfy ===
/** niosax's UTF-16 codec (uk.org.retep.niosax.charset.UTF_16 with the helpers of
    AbstractUTF_16). Each instance carries an endianness that starts undecided and is fixed
    by the first `encode`; `decode` reads big-endian only once that has happened and
    little-endian otherwise. */
module Utf16 {
  import opened JavaLang
  import opened Buffers
  import opened Charset

  const ALIASES: seq<string> := ["UTF-16", "UTF_16", "utf16", "unicode", "UnicodeBig"]

  /** `BYTE_ORDER_MARK`, U+FEFF. */
  const BYTE_ORDER_MARK: JChar := 0xFEFF

  /** `REVERSED_MARK`, U+FFFE. */
  const REVERSED_MARK: JChar := 0xFFFE

  datatype Endian = NONE | BIG | LITTLE

  /** The mutable part of a `UTF_16` instance. */
  datatype State = State(endian: Endian, requiresBOM: bool)

  /** `getInstance` and the constructor: a new instance, endianness undecided, no mark
      required. */
  const Fresh: State := State(NONE, false)

  /** `(char) ((hi << 8) | lo)` for two bytes as `buffer.get()` returns them, i.e. sign-extended
      to `int`. A low byte from 0x80 up is negative, its sign bits cover every bit the high
      byte contributes, and the result is 0xFF00 plus the low byte. */
  function Combine(hi: Byte, lo: Byte): (r: JChar)
    ensures lo < 0x80 ==> r == hi * 0x100 + lo
    ensures lo >= 0x80 ==> r == 0xFF00 + lo
  {
    if lo < 0x80 then ToChar(Signed(hi) * 0x100 + lo) else ToChar(lo - 0x100)
  }

  /** `setRequiresBOM`: allowed only while the endianness is undecided. */
  function SetRequiresBOM(st: State, requiresBOM: bool): (r: Result<State>)
    ensures r.Success? <==> st.endian == NONE
    ensures r.Success? ==> r.value == st.(requiresBOM := requiresBOM)
    ensures r.Failure? ==> r.error == IllegalState
  {
    if st.endian == NONE then Success(st.(requiresBOM := requiresBOM)) else Failure(IllegalState)
  }

  /** `decode`: two bytes, big-endian once the instance is `BIG`, little-endian otherwise. */
  function Decode(st: State, b: Buffer): (r: (JChar, Buffer))
    ensures Decoded(b, r.0, r.1)
    ensures Remaining(b) >= 2 <==> r.1.position == b.position + 2
    ensures Remaining(b) < 2 ==> r == (NOT_ENOUGH_DATA, b)
    ensures Remaining(b) >= 2 && st.endian == BIG ==>
              r.0 == Combine(b.data[b.position], b.data[b.position + 1])
    ensures Remaining(b) >= 2 && st.endian != BIG ==>
              r.0 == Combine(b.data[b.position + 1], b.data[b.position])
  {
    if Remaining(b) < 2 then (NOT_ENOUGH_DATA, b)
    else
      var b1 := b.data[b.position];
      var b2 := b.data[b.position + 1];
      var after := b.(position := b.position + 2);
      if st.endian == BIG then (Combine(b1, b2), after) else (Combine(b2, b1), after)
  }

  /** `encodeBig`: the high byte, then the low one, when two bytes fit. */
  function EncodeBig(b: Buffer, c: JChar): (r: (bool, Buffer))
    ensures Encoded(b, r.1)
    ensures r.0 <==> Remaining(b) >= 2
    ensures r.0 ==> r.1.position == b.position + 2 &&
                    r.1.data[b.position] == c / 0x100 && r.1.data[b.position + 1] == c % 0x100
    ensures !r.0 ==> r.1 == b
  {
    if Remaining(b) < 2 then (false, b) else (true, Put(Put(b, c / 0x100), c % 0x100))
  }

  /** `encodeLittle`: the low byte, then the high one, when two bytes fit. */
  function EncodeLittle(b: Buffer, c: JChar): (r: (bool, Buffer))
    ensures Encoded(b, r.1)
    ensures r.0 <==> Remaining(b) >= 2
    ensures r.0 ==> r.1.position == b.position + 2 &&
                    r.1.data[b.position] == c % 0x100 && r.1.data[b.position + 1] == c / 0x100
    ensures !r.0 ==> r.1 == b
  {
    if Remaining(b) < 2 then (false, b) else (true, Put(Put(b, c % 0x100), c / 0x100))
  }

  /** `encode`. An instance whose endianness is undecided settles on big-endian, whatever the
      character: the branch that notes `LITTLE` for a reversed mark is overwritten straight
      after. When a mark is required it is written first, big-endian; if it does not fit,
      nothing changes and the answer is `false`. */
  function Encode(st: State, b: Buffer, c: JChar): (r: (bool, Buffer, State))
    ensures Encoded(b, r.1)
    ensures st.endian != NONE ==> r.2 == st
    ensures st.endian == NONE ==> r.2 == st.(endian := BIG) || (r == (false, b, st))
  {
    match st.endian
    case BIG =>
      var (ok, w) := EncodeBig(b, c); (ok, w, st)
    case LITTLE =>
      var (ok, w) := EncodeLittle(b, c); (ok, w, st)
    case NONE =>
      var marked: Option<(Buffer, State)> :=
        if c == REVERSED_MARK then Some((b, st.(endian := LITTLE)))
        else if c == BYTE_ORDER_MARK then Some((b, st.(endian := BIG)))
        else if st.requiresBOM then
          (var (ok, w) := EncodeBig(b, BYTE_ORDER_MARK); if ok then Some((w, st)) else None)
        else Some((b, st));
      if marked.None? then (false, b, st)
      else
        var (w, st1) := marked.value;
        var (ok, w2) := EncodeBig(w, c);
        (ok, w2, st1.(endian := BIG))
  }

  /** `size`: always two bytes. */
  function Size(c: JChar): (r: nat)
    ensures r == 2
  {
    2
  }

  /** Every encode from an undecided instance that gets past the mark leaves it big-endian:
      encoding U+FFFE does not select little-endian, contrary to the comment beside it. */
  lemma EncodeSettlesBigEndian(st: State, b: Buffer, c: JChar)
    requires st.endian == NONE
    requires !st.requiresBOM || c == REVERSED_MARK || c == BYTE_ORDER_MARK || Remaining(b) >= 2
    ensures Encode(st, b, c).2.endian == BIG
  {
  }

  /** Big-endian bytes read back big-endian give the character only when its low byte is
      below 0x80; otherwise the sign of the low byte turns the result into 0xFF00 plus that
      byte. Little-endian bytes read little-endian behave the same. */
  lemma RoundTrip(b: Buffer, c: JChar)
    requires Remaining(b) >= 2
    ensures var w := EncodeBig(b, c).1.(position := b.position);
            Decode(State(BIG, false), w).0 == if c % 0x100 < 0x80 then c else 0xFF00 + c % 0x100
    ensures var w := EncodeLittle(b, c).1.(position := b.position);
            Decode(State(LITTLE, false), w).0 == if c % 0x100 < 0x80 then c else 0xFF00 + c % 0x100
  {
  }

  /** The decoder of an instance that has not encoded anything reads little-endian, while the
      encoder of that instance writes big-endian: the byte order mark it writes is read back
      as `INVALID_CHAR`. */
  lemma MarkReadBackAsInvalid(b: Buffer)
    requires Remaining(b) >= 2
    ensures var w := EncodeBig(b, BYTE_ORDER_MARK).1.(position := b.position);
            Decode(Fresh, w).0 == INVALID_CHAR
  {
  }

  /** An instance whose endianness is undecided, which is every instance that has never
      encoded and so the one a parser reads with, decodes exactly as a little-endian one. */
  lemma UndecidedReadsLittleEndian(st: State, little: State, b: Buffer)
    requires st.endian == NONE && little.endian == LITTLE
    ensures Decode(st, b) == Decode(little, b)
  {
  }

  /** Two-byte decoding is the same through any limit that covers both bytes. */
  lemma DecodePrefixConsistent(st: State, b: Buffer, k: nat)
    requires b.position <= k <= b.limit
    ensures PrefixConsistent(Decode(st, WithLimit(b, k)), Decode(st, b), WithLimit(b, k))
  {
  }
}

=== FILE: utf_8.dfy ===
/** niosax's UTF-8 codec (uk.org.retep.niosax.charset.UTF_8). It handles the one-, two- and
    three-byte forms of UTF-8, which cover every Java `char`; four-byte sequences are
    rejected. */
module Utf8 {
  import opened JavaLang
  import opened Buffers
  import opened Charset

  /** The names the codec is registered under. */
  const ALIASES: seq<string> := ["UTF-8", "UTF_8", "UTF8", "unicode-1-1-utf-8"]

  /** `isContinuation`: the byte has the form `10xxxxxx`. */
  predicate IsContinuation(b: Byte) {
    b / 0x40 == 2
  }

  /** The byte at `i` places past the position; the caller has checked it is there. */
  function Ahead(b: Buffer, i: nat): Byte
    requires b.position + i < b.limit
  {
    b.data[b.position + i]
  }

  /** `decode`. The high nibble of the first byte selects the form. A two-byte form whose
      second byte is missing or is not a continuation byte, and a three-byte form with fewer
      than three bytes after its lead byte or a bad continuation byte, both roll the buffer
      back and report `NOT_ENOUGH_DATA`. A stray continuation byte or a four-byte lead is
      consumed and reported as `INVALID_CHAR`. */
  function Decode(b: Buffer): (r: (JChar, Buffer))
    ensures Decoded(b, r.0, r.1)
    ensures r.1.position <= b.position + 3
    ensures Remaining(b) == 0 ==> r == (NOT_ENOUGH_DATA, b)
    ensures Remaining(b) > 0 && b.data[b.position] < 0x80 ==>
              r == (b.data[b.position], b.(position := b.position + 1))
    ensures Remaining(b) > 0 &&
            (0x80 <= b.data[b.position] < 0xC0 || 0xF0 <= b.data[b.position]) ==>
              r == (INVALID_CHAR, b.(position := b.position + 1))
    ensures Remaining(b) > 0 && 0xC0 <= b.data[b.position] < 0xE0 ==>
              if Remaining(b) >= 2 && 0x80 <= b.data[b.position + 1] < 0xC0 then
                r == ((b.data[b.position] as int - 0xC0) * 0x40 +
                      (b.data[b.position + 1] as int - 0x80),
                      b.(position := b.position + 2))
              else r == (NOT_ENOUGH_DATA, b)
    ensures Remaining(b) > 0 && 0xE0 <= b.data[b.position] < 0xF0 ==>
              if Remaining(b) >= 4 && 0x80 <= b.data[b.position + 1] < 0xC0 &&
                 0x80 <= b.data[b.position + 2] < 0xC0 then
                r == ((b.data[b.position] as int - 0xE0) * 0x1000 +
                      (b.data[b.position + 1] as int - 0x80) * 0x40 +
                      (b.data[b.position + 2] as int - 0x80),
                      b.(position := b.position + 3))
              else r == (NOT_ENOUGH_DATA, b)
  {
    if Remaining(b) == 0 then (NOT_ENOUGH_DATA, b)
    else
      var b1 := Ahead(b, 0);
      var nibble := b1 / 0x10;
      if nibble < 8 then
        (b1 % 0x80, b.(position := b.position + 1))
      else if nibble == 12 || nibble == 13 then
        if Remaining(b) > 1 && IsContinuation(Ahead(b, 1)) then
          ((b1 % 0x20) * 0x40 + Ahead(b, 1) % 0x40, b.(position := b.position + 2))
        else
          (NOT_ENOUGH_DATA, b)
      else if nibble == 14 then
        // the check is `remaining() > 2` after the lead byte has been read
        if Remaining(b) - 1 > 2 && IsContinuation(Ahead(b, 1)) && IsContinuation(Ahead(b, 2)) then
          ((b1 % 0x10) * 0x1000 + (Ahead(b, 1) % 0x40) * 0x40 + Ahead(b, 2) % 0x40,
           b.(position := b.position + 3))
        else
          (NOT_ENOUGH_DATA, b)
      else
        (INVALID_CHAR, b.(position := b.position + 1))
  }

  /** `encode`. One byte below 0x80 and two below 0x800, each only when the buffer has room.
      Every other character needs three bytes: they are written when there is room, but the
      result is `false` whether or not they were. */
  function Encode(b: Buffer, c: JChar): (r: (bool, Buffer))
    ensures Encoded(b, r.1)
    ensures r.0 ==> r.1.position == b.position + Size(c)
    ensures !r.0 && c < 0x800 ==> r.1 == b
    ensures c < 0x800 ==> (r.0 <==> Remaining(b) >= Size(c))
    ensures c >= 0x800 ==> !r.0 && (Remaining(b) < 3 ==> r.1 == b)
  {
    if c < 0x80 then
      if Remaining(b) > 0 then (true, Put(b, c)) else (false, b)
    else if c < 0x800 then
      if Remaining(b) > 1 then (true, Put(Put(b, 0xC0 + c / 0x40), 0x80 + c % 0x40))
      else (false, b)
    else if Remaining(b) > 2 then
      (false, Put(Put(Put(b, 0xE0 + c / 0x1000), 0x80 + (c / 0x40) % 0x40), 0x80 + c % 0x40))
    else
      (false, b)
  }

  /** `size`: the number of bytes `encode` uses for the character. */
  function Size(c: JChar): (r: nat)
    ensures 1 <= r <= 3
    ensures r == 1 <==> c < 0x80
    ensures r == 3 <==> c >= 0x800
  {
    if c < 0x80 then 1 else if c < 0x800 then 2 else 3
  }

  /** Decoding reads back what a successful encode wrote. */
  lemma EncodeDecode(b: Buffer, c: JChar)
    requires Encode(b, c).0
    ensures var w := Encode(b, c).1;
            Decode(w.(position := b.position)) == (c, w)
  {
    var w := Encode(b, c).1;
    if c >= 0x80 {
      assert w.data[b.position] == 0xC0 + c / 0x40;
      assert w.data[b.position + 1] == 0x80 + c % 0x40;
    }
  }

  /** As written, `encode` answers `false` for every character from U+0800 up even when it
      has just written all three of its bytes: a caller that trusts the answer writes the
      character a second time. */
  lemma ThreeByteEncodeReportsFailure(b: Buffer, c: JChar)
    requires c >= 0x800 && Remaining(b) >= 3
    ensures !Encode(b, c).0
    ensures Encode(b, c).1.position == b.position + 3
    ensures var w := Encode(b, c).1;
            w.data[b.position] == 0xE0 + c / 0x1000 &&
            w.data[b.position + 1] == 0x80 + (c / 0x40) % 0x40 &&
            w.data[b.position + 2] == 0x80 + c % 0x40
  {
  }

  /** A complete three-byte character is decoded only once at least one more byte follows it;
      at the end of the data it is reported as `NOT_ENOUGH_DATA` and left in the buffer. */
  lemma ThreeByteNeedsOneMoreByte(b: Buffer, c: JChar)
    requires c >= 0x800 && Remaining(b) >= 3
    ensures var w := Encode(b, c).1.(position := b.position);
            (Remaining(w) == 3 ==> Decode(w) == (NOT_ENOUGH_DATA, w)) &&
            (Remaining(w) > 3 ==> Decode(w) == (c, w.(position := b.position + 3)))
  {
    var w := Encode(b, c).1;
    var p := b.position;
    assert w.data[p] == 0xE0 + c / 0x1000;
    assert w.data[p + 1] == 0x80 + (c / 0x40) % 0x40;
    assert w.data[p + 2] == 0x80 + c % 0x40;
    ThreeByteDigits(c);
  }

  /** A character from U+0800 up is its three UTF-8 payloads put back together. */
  lemma ThreeByteDigits(c: JChar)
    ensures (c / 0x1000) * 0x1000 + ((c / 0x40) % 0x40) * 0x40 + c % 0x40 == c
  {
  }

  /** A two-byte lead followed by anything but a continuation byte is reported as
      `NOT_ENOUGH_DATA` without moving: no amount of further data gets a decoder past it. */
  lemma MalformedTwoByteNeverAdvances(b: Buffer)
    requires Remaining(b) >= 2
    requires 0xC0 <= b.data[b.position] < 0xE0
    requires !IsContinuation(b.data[b.position + 1])
    ensures forall limit :: b.position + 2 <= limit <= |b.data| ==>
              Decode(WithLimit(b, limit)) == (NOT_ENOUGH_DATA, WithLimit(b, limit))
  {
  }

  /** Decoding through a shorter limit rolls back or agrees with decoding through the longer
      one. */
  lemma DecodePrefixConsistent(b: Buffer, k: nat)
    requires b.position <= k <= b.limit
    ensures PrefixConsistent(Decode(WithLimit(b, k)), Decode(b), WithLimit(b, k))
  {
  }
}

=== FILE: xml_declaration.dfy ===
/** uk.org.retep.niosax.internal.core.delegate.XMLDeclaration: the delegate that takes over
    from the prolog's processing instruction delegate once its target is "xml" or "XML", and
    reads the pseudo-attributes `version`, `encoding` and `standalone` up to "?>". */
module XmlDeclarations {
  import opened JavaLang
  import opened Sax
  import opened Namespaces
  import opened Frames
  import opened XmlSpec
  import Codecs
  import CharsetFactory

  /** `parseStandalone`: exactly "yes" or "no"; anything else, the empty value included, is
      refused. */
  function ParseStandalone(s: JString): (r: Result<bool>)
    ensures r.Success? <==> s == Lit("yes") || s == Lit("no")
    ensures r.Success? ==> (r.value <==> s == Lit("yes"))
    ensures r.Failure? ==> r.error == SaxError(InvalidStandalone(s))
  {
    if s == [] then Failure(SaxError(InvalidStandalone(s)))
    else if s == Lit("yes") then Success(true)
    else if s == Lit("no") then Success(false)
    else Failure(SaxError(InvalidStandalone(s)))
  }

  /** `setAttribute`: the value read (taken from the accumulator, which is emptied) goes to
      the field the last name read selects; any other name is refused. A name read again
      replaces the earlier value. */
  function SetAttribute(d: DeclData): (r: Result<DeclData>)
    ensures r.Failure? <==>
              (d.name != Lit("version") && d.name != Lit("encoding") &&
               d.name != Lit("standalone")) ||
              (d.name == Lit("standalone") && ParseStandalone(d.text).Failure?)
    ensures r.Failure? && d.name == Lit("standalone") ==> r.error == SaxError(InvalidStandalone(d.text))
    ensures r.Failure? && d.name != Lit("standalone") ==> r.error == SaxError(IllegalAttribute(d.name))
    ensures r.Success? ==> r.value.text == [] && r.value.state == d.state && r.value.name == d.name
    ensures r.Success? ==>
              r.value.version == (if d.name == Lit("version") then Some(d.text) else d.version)
    ensures r.Success? ==>
              r.value.encoding == (if d.name == Lit("encoding") then Some(d.text) else d.encoding)
    ensures r.Success? ==>
              r.value.standalone == (if d.name == Lit("standalone") then d.text == Lit("yes")
                                     else d.standalone)
  {
    var value := d.text;
    var d' := d.(text := []);
    if d.name == Lit("version") then Success(d'.(version := Some(value)))
    else if d.name == Lit("encoding") then Success(d'.(encoding := Some(value)))
    else if d.name == Lit("standalone") then
      var b := ParseStandalone(value);
      if b.Failure? then Failure(b.error) else Success(d'.(standalone := b.value))
    else Failure(SaxError(IllegalAttribute(d.name)))
  }

  /** The first half of `invoke`: a non-empty encoding must name a registered charset,
      which then replaces the source's before the delegate finishes. */
  function Finishing(encoding: Option<JString>): (r: Result<Effect>)
    ensures r.Failure? <==>
              encoding.Some? && encoding.value != [] && CharsetFactory.GetCharset(encoding.value).None?
    ensures r.Failure? ==> r.error == SaxError(UnsupportedEncoding(encoding.value))
    ensures r.Success? && encoding.Some? && encoding.value != [] ==>
              r.value == SetCharsetThenFinish(CharsetFactory.GetCharset(encoding.value).value)
    ensures r.Success? && (encoding.None? || encoding.value == []) ==> r.value == Finish
  {
    if encoding.None? || encoding.value == [] then Success(Finish)
    else
      var cs := CharsetFactory.GetCharset(encoding.value);
      if cs.None? then Failure(SaxError(UnsupportedEncoding(encoding.value)))
      else Success(SetCharsetThenFinish(cs.value))
  }

  /** `invoke` at "?>": the charset check, then the declaration to the niosax handler, if
      there is one, and the delegate finishes. */
  function Invoke(d: DeclData, h: Handlers, ns: Support, events: seq<Event>)
    : (r: Result<Outcome<DeclData>>)
    ensures r.Failure? <==> Finishing(d.encoding).Failure?
    ensures r.Failure? ==> r.error == Finishing(d.encoding).error
    ensures r.Success? ==>
              r.value.frame == d.(state := Completed) && r.value.ns == ns &&
              r.value.effect == Finishing(d.encoding).value &&
              r.value.events ==
                if h.nioSax then events + [XmlDeclaration(d.version, d.encoding, d.standalone)]
                else events
  {
    var effect := Finishing(d.encoding);
    if effect.Failure? then Failure(effect.error)
    else
      var e := XmlDeclaration(d.version, d.encoding, d.standalone);
      var evs := if h.nioSax then events + [e] else events;
      Success(Outcome(d.(state := Completed), ns, evs, effect.value))
  }

  /** The closing quote of a value: `setAttribute`, and back to `START`. */
  function ValueClosed(d: DeclData, ns: Support, events: seq<Event>)
    : (r: Result<Outcome<DeclData>>)
    ensures r.Failure? <==> SetAttribute(d).Failure?
    ensures r.Failure? ==> r.error == SetAttribute(d).error
    ensures r.Success? ==>
              r == Success(Keep(SetAttribute(d).value.(state := State(DeclStart)), ns, events))
  {
    var a := SetAttribute(d);
    if a.Failure? then Failure(a.error)
    else Success(Keep(a.value.(state := State(DeclStart)), ns, events))
  }

  /** One character of an XML declaration. */
  function Step(d: DeclData, h: Handlers, ns: Support, events: seq<Event>, c: JChar)
    : (r: Result<Outcome<DeclData>>)
    ensures d.state.Completed? ==> r == Failure(UnsupportedOperation)
    ensures r.Success? ==> r.value.ns == ns
    ensures r.Success? ==> (r.value.effect.Stay? <==> ContinueLoop(r.value.frame.state))
    ensures r.Success? ==>
              r.value.effect.Stay? || r.value.effect.Finish? || r.value.effect.SetCharsetThenFinish?
    ensures r.Success? && !r.value.effect.Stay? ==>
              Unwrap(d.state) == Success(DeclQuery) && c == '>' as int &&
              r.value.events ==
                if h.nioSax then events + [XmlDeclaration(d.version, d.encoding, d.standalone)]
                else events
    ensures r.Success? && r.value.effect.Stay? ==> r.value.events == events
    ensures (d.state == State(DeclQuote) && c != '\'' as int) ||
            (d.state == State(DeclDoubleQuote) && c != '"' as int) ==>
              r == Success(Keep(d.(text := d.text + [c]), ns, events))
    ensures d.state == State(DeclName) || d.state == State(DeclEquals) ==>
              (IsWhitespace(c) ==> r == Failure(IllegalCharacterUnnamed))
  {
    var s :- Unwrap(d.state);
    match s
    case DeclStart =>
      if IsWhitespace(c) then Success(Keep(d.(state := State(DeclStart)), ns, events))
      else if c == '?' as int then Success(Keep(d.(state := State(DeclQuery)), ns, events))
      else if IsNameStartChar(c) then
        Success(Keep(d.(state := State(DeclName), text := d.text + [c]), ns, events))
      else Failure(IllegalCharacterUnnamed)
    case DeclQuery =>
      if c == '>' as int then Invoke(d, h, ns, events)
      else Failure(IllegalCharacterUnnamed)
    case DeclName =>
      if c == '=' as int then
        Success(Keep(d.(state := State(DeclEquals), name := d.text, text := []), ns, events))
      else if IsNameChar(c) then
        Success(Keep(d.(state := State(DeclName), text := d.text + [c]), ns, events))
      else Failure(IllegalCharacterUnnamed)
    case DeclEquals =>
      if c == '\'' as int then Success(Keep(d.(state := State(DeclQuote)), ns, events))
      else if c == '"' as int then Success(Keep(d.(state := State(DeclDoubleQuote)), ns, events))
      else Failure(IllegalCharacterUnnamed)
    case DeclQuote =>
      if c == '\'' as int then
        ValueClosed(d, ns, events)
      else Success(Keep(d.(state := State(DeclQuote), text := d.text + [c]), ns, events))
    case DeclDoubleQuote =>
      if c == '"' as int then
        ValueClosed(d, ns, events)
      else Success(Keep(d.(state := State(DeclDoubleQuote), text := d.text + [c]), ns, events))
  }

  // Reading a declaration, piece by piece.

  predicate IsQuote(q: JChar) {
    q == '\'' as int || q == '"' as int
  }

  predicate NoQuote(q: JChar, s: JString) {
    forall i :: 0 <= i < |s| ==> s[i] != q
  }

  /** The state that reads a value between quotes `q`. */
  function Quoted(q: JChar): DeclState {
    if q == '\'' as int then DeclQuote else DeclDoubleQuote
  }

  /** One pseudo-attribute as written: leading white space (none is needed), a name, '='
      with no white space around it, and a value between quotes. */
  datatype Pseudo = Pseudo(space: JString, name: JString, quote: JChar, value: JString)

  predicate WellFormed(p: Pseudo) {
    AllWhitespace(p.space) && IsName(p.name) && IsQuote(p.quote) && NoQuote(p.quote, p.value)
  }

  function Render(p: Pseudo): JString {
    p.space + p.name + ['=' as int] + [p.quote] + p.value + [p.quote]
  }

  function Renders(ps: seq<Pseudo>): JString {
    if ps == [] then [] else Render(ps[0]) + Renders(ps[1..])
  }

  /** The pseudo-attributes `setAttribute` accepts. */
  predicate Accepted(p: Pseudo) {
    p.name == Lit("version") || p.name == Lit("encoding") ||
    (p.name == Lit("standalone") && (p.value == Lit("yes") || p.value == Lit("no")))
  }

  /** The value of the last pseudo-attribute with the name, if there is one. */
  function LastValue(ps: seq<Pseudo>, name: JString): (r: Option<JString>)
    ensures r.Some? <==> exists i :: 0 <= i < |ps| && ps[i].name == name
    ensures r.Some? ==> exists i :: 0 <= i < |ps| && ps[i].name == name && ps[i].value == r.value &&
                                    forall j :: i < j < |ps| ==> ps[j].name != name
  {
    if ps == [] then None
    else
      var rest := LastValue(ps[1..], name);
      if rest.Some? then
        var i :| 0 <= i < |ps[1..]| && ps[1..][i].name == name && ps[1..][i].value == rest.value &&
                 forall j :: i < j < |ps[1..]| ==> ps[1..][j].name != name;
        assert ps[i + 1] == ps[1..][i];
        assert forall j :: i + 1 < j < |ps| ==> ps[j] == ps[1..][j - 1];
        rest
      else if ps[0].name == name then
        assert forall j :: 0 < j < |ps| ==> ps[j] == ps[1..][j - 1];
        Some(ps[0].value)
      else
        assert forall j :: 0 < j < |ps| ==> ps[j] == ps[1..][j - 1];
        None
  }

  /** The pseudo-attributes handed to `setAttribute` in turn. */
  function Apply(d: DeclData, ps: seq<Pseudo>): (r: Result<DeclData>)
    ensures r.Success? ==> r.value.state == d.state
    ensures r.Success? ==> r.value.text == if ps == [] then d.text else []
    decreases |ps|
  {
    if ps == [] then Success(d)
    else
      var d' :- SetAttribute(d.(name := ps[0].name, text := ps[0].value));
      Apply(d', ps[1..])
  }

  /** Pseudo-attributes may come in any order and more than once: the declaration is
      refused as soon as one of them is not accepted, and otherwise each field holds the
      value of the last pseudo-attribute naming it. */
  lemma {:induction false} LastValueWins(d: DeclData, ps: seq<Pseudo>)
    ensures Apply(d, ps).Success? <==> forall i :: 0 <= i < |ps| ==> Accepted(ps[i])
    ensures Apply(d, ps).Success? ==>
              var v := LastValue(ps, Lit("version"));
              Apply(d, ps).value.version == if v.Some? then v else d.version
    ensures Apply(d, ps).Success? ==>
              var e := LastValue(ps, Lit("encoding"));
              Apply(d, ps).value.encoding == if e.Some? then e else d.encoding
    ensures Apply(d, ps).Success? ==>
              var s := LastValue(ps, Lit("standalone"));
              Apply(d, ps).value.standalone == if s.Some? then s.value == Lit("yes") else d.standalone
    decreases |ps|
  {
    if ps != [] {
      var a := SetAttribute(d.(name := ps[0].name, text := ps[0].value));
      assert a.Success? <==> Accepted(ps[0]);
      assert forall i :: 0 < i < |ps| ==> ps[i] == ps[1..][i - 1];
      if a.Success? {
        LastValueWins(a.value, ps[1..]);
        assert (forall i :: 0 <= i < |ps| ==> Accepted(ps[i])) <==>
               Accepted(ps[0]) && forall i :: 0 <= i < |ps[1..]| ==> Accepted(ps[1..][i]);
      }
    }
  }

  lemma SpaceStep(d: DeclData, h: Handlers, ns: Support, events: seq<Event>, c: JChar)
    requires d.state == State(DeclStart) && IsWhitespace(c)
    ensures Step(d, h, ns, events, c) == Success(Keep(d, ns, events))
  {
  }

  predicate SpaceOk(g: DeclData, s: JString) {
    g.state == State(DeclStart) && AllWhitespace(s)
  }

  lemma SpaceSteps(h: Handlers, ns: Support, events: seq<Event>)
    ensures forall g: DeclData, t: JString :: t != [] && SpaceOk(g, t) ==>
              Step(g, h, ns, events, t[0]) == Success(Keep(g, ns, events)) && SpaceOk(g, t[1..])
  {
    forall g: DeclData, t: JString | t != [] && SpaceOk(g, t)
      ensures Step(g, h, ns, events, t[0]) == Success(Keep(g, ns, events)) && SpaceOk(g, t[1..])
    {
      SpaceStep(g, h, ns, events, t[0]);
    }
  }

  /** White space before a pseudo-attribute, or before "?>", is skipped. */
  lemma SpaceSkipped(d: DeclData, h: Handlers, ns: Support, events: seq<Event>, w: JString)
    requires d.state == State(DeclStart) && AllWhitespace(w)
    ensures Run(Step, d, h, ns, events, w) == Success(Keep(d, ns, events))
  {
    SpaceSteps(h, ns, events);
    RunIdle(Step, SpaceOk, d, h, ns, events, w);
  }

  predicate NameOk(d: DeclData, g: DeclData, s: JString) {
    AllNameChar(s) &&
    (g == d.(state := State(DeclName), text := g.text) ||
     (g == d && s != [] && IsNameStartChar(s[0])))
  }

  lemma NameStep(d: DeclData, g: DeclData, h: Handlers, ns: Support, events: seq<Event>,
                 t: JString)
    requires d.state == State(DeclStart) && d.text == []
    requires t != [] && NameOk(d, g, t)
    ensures var r := Step(g, h, ns, events, t[0]);
            r.Success? && r.value.effect.Stay? && r.value.ns == ns && r.value.events == events &&
            r.value.frame.text == g.text + [t[0]] && NameOk(d, r.value.frame, t[1..])
  {
    assert IsNameChar(t[0]) && t[0] != '=' as int;
    if g == d {
      assert !IsWhitespace(t[0]) && t[0] != '?' as int;
    }
  }

  /** A name is read into the accumulator. */
  lemma NameRead(d: DeclData, h: Handlers, ns: Support, events: seq<Event>, n: JString)
    requires d.state == State(DeclStart) && d.text == [] && IsName(n)
    ensures Run(Step, d, h, ns, events, n) ==
              Success(Keep(d.(state := State(DeclName), text := n), ns, events))
  {
    var ok := (g: DeclData, s: JString) => NameOk(d, g, s);
    forall g: DeclData, t: JString | t != [] && ok(g, t)
      ensures var r := Step(g, h, ns, events, t[0]);
              r.Success? && r.value.effect.Stay? && r.value.ns == ns &&
              r.value.events == events && r.value.frame.text == g.text + [t[0]] &&
              ok(r.value.frame, t[1..])
    {
      NameStep(d, g, h, ns, events, t);
    }
    RunReads(Step, ok, (g: DeclData) => g.text, d, h, ns, events, n);
    var f := Run(Step, d, h, ns, events, n).value.frame;
    assert NameOk(d, f, []) && f.text == [] + n;
    assert f == d.(state := State(DeclName), text := n);
  }

  /** The '=' after a name keeps the name and opens the value. */
  lemma NameClosed(d: DeclData, h: Handlers, ns: Support, events: seq<Event>, n: JString)
    requires d.state == State(DeclStart) && d.text == [] && IsName(n)
    ensures Run(Step, d, h, ns, events, n + ['=' as int]) ==
              Success(Keep(d.(state := State(DeclEquals), name := n), ns, events))
  {
    NameRead(d, h, ns, events, n);
    var g := d.(state := State(DeclName), text := n);
    RunThen(Step, d, h, ns, events, n, ['=' as int], g);
    RunCons(Step, g, h, ns, events, '=' as int, []);
    assert ['=' as int] == ['=' as int] + [];
  }

  predicate ValueOk(e: DeclData, q: JChar, g: DeclData, s: JString) {
    g == e.(text := g.text) && NoQuote(q, s)
  }

  /** A value up to its closing quote is read into the accumulator. */
  lemma ValueRead(e: DeclData, q: JChar, h: Handlers, ns: Support, events: seq<Event>,
                  v: JString)
    requires IsQuote(q) && e.state == State(Quoted(q)) && NoQuote(q, v)
    ensures Run(Step, e, h, ns, events, v) ==
              Success(Keep(e.(text := e.text + v), ns, events))
  {
    var ok := (g: DeclData, s: JString) => ValueOk(e, q, g, s);
    forall g: DeclData, t: JString | t != [] && ok(g, t)
      ensures var r := Step(g, h, ns, events, t[0]);
              r.Success? && r.value.effect.Stay? && r.value.ns == ns &&
              r.value.events == events && r.value.frame.text == g.text + [t[0]] &&
              ok(r.value.frame, t[1..])
    {
      assert t[0] != q;
    }
    RunReads(Step, ok, (g: DeclData) => g.text, e, h, ns, events, v);
    var f := Run(Step, e, h, ns, events, v).value.frame;
    assert ValueOk(e, q, f, []) && f.text == e.text + v;
  }

  /** The opening quote and the value after it. */
  lemma QuotedValueRead(e: DeclData, q: JChar, h: Handlers, ns: Support, events: seq<Event>,
                        v: JString)
    requires e.state == State(DeclEquals) && e.text == [] && IsQuote(q) && NoQuote(q, v)
    ensures Run(Step, e, h, ns, events, [q] + v) ==
              Success(Keep(e.(state := State(Quoted(q)), text := v), ns, events))
  {
    var g := e.(state := State(Quoted(q)));
    RunCons(Step, e, h, ns, events, q, v);
    ValueRead(g, q, h, ns, events, v);
    assert g.(text := g.text + v) == e.(state := State(Quoted(q)), text := v);
  }

  /** The closing quote hands the value to `setAttribute`. */
  lemma QuoteCloses(g: DeclData, q: JChar, h: Handlers, ns: Support, events: seq<Event>)
    requires IsQuote(q) && g.state == State(Quoted(q))
    ensures var a := SetAttribute(g.(state := State(DeclStart)));
            Run(Step, g, h, ns, events, [q]) ==
              if a.Success? then Success(Keep(a.value, ns, events)) else Failure(a.error)
  {
    RunCons(Step, g, h, ns, events, q, []);
    assert [q] == [q] + [];
  }

  /** One well-formed pseudo-attribute, from the `START` state, amounts to one
      `setAttribute` with its name and value. */
  lemma AttributeRead(d: DeclData, h: Handlers, ns: Support, events: seq<Event>, p: Pseudo)
    requires d.state == State(DeclStart) && d.text == [] && WellFormed(p)
    ensures var a := SetAttribute(d.(name := p.name, text := p.value));
            Run(Step, d, h, ns, events, Render(p)) ==
              if a.Success? then Success(Keep(a.value, ns, events)) else Failure(a.error)
  {
    var q := p.quote;
    var a, b, c := p.space, p.name + ['=' as int], [q] + p.value;
    assert Render(p) == a + b + c + [q];
    SpaceSkipped(d, h, ns, events, a);
    RunThen(Step, d, h, ns, events, a, b, d);
    var e := d.(state := State(DeclEquals), name := p.name);
    NameClosed(d, h, ns, events, p.name);
    RunThen(Step, d, h, ns, events, a + b, c, e);
    var g := e.(state := State(Quoted(q)), text := p.value);
    QuotedValueRead(e, q, h, ns, events, p.value);
    RunThen(Step, d, h, ns, events, a + b + c, [q], g);
    QuoteCloses(g, q, h, ns, events);
    assert g.(state := State(DeclStart)) == d.(name := p.name, text := p.value);
  }

  /** Pseudo-attributes one after the other amount to `setAttribute` on each in turn. */
  lemma {:induction false} AttributesRead(d: DeclData, h: Handlers, ns: Support,
                                          events: seq<Event>, ps: seq<Pseudo>)
    requires d.state == State(DeclStart) && d.text == []
    requires forall i :: 0 <= i < |ps| ==> WellFormed(ps[i])
    ensures var a := Apply(d, ps);
            Run(Step, d, h, ns, events, Renders(ps)) ==
              if a.Success? then Success(Keep(a.value, ns, events)) else Failure(a.error)
    decreases |ps|
  {
    if ps != [] {
      assert WellFormed(ps[0]);
      AttributeRead(d, h, ns, events, ps[0]);
      RunAppend(Step, d, h, ns, events, Render(ps[0]), Renders(ps[1..]));
      var a := SetAttribute(d.(name := ps[0].name, text := ps[0].value));
      if a.Success? {
        assert forall i :: 0 <= i < |ps[1..]| ==> ps[1..][i] == ps[i + 1];
        AttributesRead(a.value, h, ns, events, ps[1..]);
      }
    }
  }

  /** White space and "?>" after the pseudo-attributes end the declaration: `invoke` runs
      on the fields the pseudo-attributes set. */
  lemma DeclarationCloses(d: DeclData, h: Handlers, ns: Support, events: seq<Event>,
                          w: JString)
    requires d.state == State(DeclStart) && AllWhitespace(w)
    ensures Run(Step, d, h, ns, events, w + Lit("?>")) == Invoke(d, h, ns, events)
  {
    var q, gt := '?' as int, '>' as int;
    SpaceSkipped(d, h, ns, events, w);
    RunThen(Step, d, h, ns, events, w, Lit("?>"), d);
    RunCons(Step, d, h, ns, events, q, [gt]);
    var g := d.(state := State(DeclQuery));
    RunCons(Step, g, h, ns, events, gt, []);
    assert Lit("?>") == [q] + [gt] && [gt] == [gt] + [];
    assert g.(state := Completed) == d.(state := Completed);
  }

  /** A whole declaration after "<?xml" and the white space that ended the target:
      the pseudo-attributes are set in turn, and then `invoke` runs. */
  lemma DeclarationRead(h: Handlers, ns: Support, events: seq<Event>, ps: seq<Pseudo>,
                        w: JString)
    requires forall i :: 0 <= i < |ps| ==> WellFormed(ps[i])
    requires AllWhitespace(w)
    ensures var a := Apply(NewDecl(), ps);
            Run(Step, NewDecl(), h, ns, events, Renders(ps) + (w + Lit("?>"))) ==
              if a.Success? then Invoke(a.value, h, ns, events) else Failure(a.error)
  {
    var a := Apply(NewDecl(), ps);
    AttributesRead(NewDecl(), h, ns, events, ps);
    RunAppend(Step, NewDecl(), h, ns, events, Renders(ps), w + Lit("?>"));
    if a.Success? {
      DeclarationCloses(a.value, h, ns, events, w);
    }
  }

  /** The declaration reported: the version, the encoding and the standalone flag are
      those of the last pseudo-attribute naming each, and a non-empty encoding becomes the
      source's charset. */
  lemma DeclarationReported(h: Handlers, ns: Support, events: seq<Event>, ps: seq<Pseudo>,
                            w: JString)
    requires forall i :: 0 <= i < |ps| ==> WellFormed(ps[i]) && Accepted(ps[i])
    requires AllWhitespace(w)
    requires var e := LastValue(ps, Lit("encoding"));
             e.None? || e.value == [] || CharsetFactory.GetCharset(e.value).Some?
    ensures var r := Run(Step, NewDecl(), h, ns, events, Renders(ps) + (w + Lit("?>")));
            var v, e, s := LastValue(ps, Lit("version")), LastValue(ps, Lit("encoding")),
                           LastValue(ps, Lit("standalone"));
            r.Success? && r.value.frame.state == Completed && r.value.ns == ns &&
            r.value.events ==
              (if h.nioSax then events + [XmlDeclaration(v, e, s == Some(Lit("yes")))] else events) &&
            r.value.effect ==
              if e.Some? && e.value != [] then
                SetCharsetThenFinish(CharsetFactory.GetCharset(e.value).value)
              else Finish
  {
    DeclarationRead(h, ns, events, ps, w);
    LastValueWins(NewDecl(), ps);
  }

  /** An encoding no charset is registered under refuses the declaration. */
  lemma UnknownEncodingRefused(h: Handlers, ns: Support, events: seq<Event>, ps: seq<Pseudo>,
                               w: JString)
    requires forall i :: 0 <= i < |ps| ==> WellFormed(ps[i]) && Accepted(ps[i])
    requires AllWhitespace(w)
    requires var e := LastValue(ps, Lit("encoding"));
             e.Some? && e.value != [] && CharsetFactory.GetCharset(e.value).None?
    ensures Run(Step, NewDecl(), h, ns, events, Renders(ps) + (w + Lit("?>"))) ==
              Failure(SaxError(UnsupportedEncoding(LastValue(ps, Lit("encoding")).value)))
  {
    DeclarationRead(h, ns, events, ps, w);
    LastValueWins(NewDecl(), ps);
  }

  /** Unlike the Eq production of XML 1.0, no white space is allowed on either side of the
      '=' of a pseudo-attribute. */
  lemma SpaceAroundEqualsRefused(d: DeclData, h: Handlers, ns: Support, events: seq<Event>,
                                 n: JString, c: JChar)
    requires d.state == State(DeclStart) && d.text == [] && IsName(n) && IsWhitespace(c)
    ensures Run(Step, d, h, ns, events, n + [c]) == Failure(IllegalCharacterUnnamed)
    ensures Run(Step, d, h, ns, events, n + ['=' as int] + [c]) == Failure(IllegalCharacterUnnamed)
  {
    NameRead(d, h, ns, events, n);
    RunThen(Step, d, h, ns, events, n, [c], d.(state := State(DeclName), text := n));
    RunCons(Step, d.(state := State(DeclName), text := n), h, ns, events, c, []);
    NameClosed(d, h, ns, events, n);
    var e := d.(state := State(DeclEquals), name := n);
    RunThen(Step, d, h, ns, events, n + ['=' as int], [c], e);
    RunCons(Step, e, h, ns, events, c, []);
    assert [c] == [c] + [];
  }
}

=== FILE: xml_spec.dfy ===
/** The character classes of uk.org.retep.niosax.internal.helper.XmlSpec, each beside the
    production of the XML 1.1 Recommendation it is written after (section 2.2 for Char and
    RestrictedChar, section 2.3 for S, NameStartChar and NameChar). The productions are given
    independently, as tables of ranges, so that each class can be compared with its
    production. A Java `char` cannot hold the supplementary ranges, which the classes leave
    out. */
module XmlSpec {
  import opened JavaLang

  /** `isCharBetween`. */
  predicate Between(c: int, s: int, e: int) {
    s <= c <= e
  }

  /** `isChar`, written as a conjunction of two disjoint ranges. */
  predicate IsChar(c: JChar) {
    Between(c, 0x1, 0xD7FF) && Between(c, 0xE000, 0xFFFD)
  }

  /** `isRestrictedChar`, also a conjunction of disjoint ranges. */
  predicate IsRestrictedChar(c: JChar) {
    Between(c, 0x1, 0x8) && Between(c, 0xB, 0xC) && Between(c, 0xE, 0x1F) &&
    Between(c, 0x7F, 0x84) && Between(c, 0x86, 0x9F)
  }

  /** `isWhitespace`. */
  predicate IsWhitespace(c: JChar) {
    c == ' ' as int || c == 9 || c == 10 || c == 13
  }

  /** `isLetter`: ASCII letters only. */
  predicate IsLetter(c: JChar) {
    Between(c, 'a' as int, 'z' as int) || Between(c, 'A' as int, 'Z' as int)
  }

  /** `isDigit`: ASCII digits only. */
  predicate IsDigit(c: JChar) {
    Between(c, '0' as int, '9' as int)
  }

  /** `isNameStartChar`. */
  predicate IsNameStartChar(c: JChar) {
    c == ':' as int || IsLetter(c) || c == '_' as int ||
    Between(c, 0xC0, 0xD6) || Between(c, 0xD8, 0xF6) || Between(c, 0xF8, 0x2FF) ||
    Between(c, 0x370, 0x37D) || Between(c, 0x37F, 0x1FFF) ||
    c == 0x200C || c == 0x200D ||
    Between(c, 0x2070, 0x218F) || Between(c, 0x2C00, 0x2FEF) || Between(c, 0x3001, 0xD7FF) ||
    Between(c, 0xF900, 0xFDCF) || Between(c, 0xFDF0, 0xFFFD)
  }

  /** `isNameChar`. */
  predicate IsNameChar(c: JChar) {
    IsNameStartChar(c) || c == '-' as int || c == '.' as int || IsDigit(c) || c == 0xB7 ||
    Between(c, 0x300, 0x36F) || Between(c, 0x203F, 0x2040)
  }

  /** `isNCNameStartChar`: only ASCII letters and '_'. */
  predicate IsNCNameStartChar(c: JChar) {
    IsLetter(c) || c == '_' as int
  }

  /** `isNCNameChar`. */
  predicate IsNCNameChar(c: JChar) {
    c != ':' as int && IsNameChar(c)
  }

  // Strings of one class, as the delegates read them.

  predicate AllWhitespace(s: JString) {
    forall i :: 0 <= i < |s| ==> IsWhitespace(s[i])
  }

  predicate AllNameChar(s: JString) {
    forall i :: 0 <= i < |s| ==> IsNameChar(s[i])
  }

  /** A name as the delegates read one: a name-start character, then name characters. */
  predicate IsName(n: JString) {
    n != [] && IsNameStartChar(n[0]) && AllNameChar(n)
  }

  /** What follows the first character of a name is name characters. */
  lemma NameTail(n: JString)
    requires IsName(n)
    ensures AllNameChar(n[1..])
  {
    forall i | 0 <= i < |n| - 1 ensures IsNameChar(n[1..][i]) {
      assert n[1..][i] == n[i + 1];
    }
  }

  // The productions of the XML 1.1 Recommendation, over Unicode code points.

  /** A production given as a list of inclusive code point ranges. */
  predicate InRanges(rs: seq<(int, int)>, c: int) {
    exists i :: 0 <= i < |rs| && rs[i].0 <= c <= rs[i].1
  }

  /** Char, section 2.2. */
  const CHAR: seq<(int, int)> := [(0x1, 0xD7FF), (0xE000, 0xFFFD), (0x10000, 0x10FFFF)]

  /** RestrictedChar, section 2.2. */
  const RESTRICTED_CHAR: seq<(int, int)> :=
    [(0x1, 0x8), (0xB, 0xC), (0xE, 0x1F), (0x7F, 0x84), (0x86, 0x9F)]

  /** The characters S is made of, section 2.3. */
  const S: seq<int> := [0x20, 0x9, 0xD, 0xA]

  /** NameStartChar, section 2.3. */
  const NAME_START_CHAR: seq<(int, int)> :=
    [(0x3A, 0x3A), (0x41, 0x5A), (0x5F, 0x5F), (0x61, 0x7A), (0xC0, 0xD6), (0xD8, 0xF6),
     (0xF8, 0x2FF), (0x370, 0x37D), (0x37F, 0x1FFF), (0x200C, 0x200D), (0x2070, 0x218F),
     (0x2C00, 0x2FEF), (0x3001, 0xD7FF), (0xF900, 0xFDCF), (0xFDF0, 0xFFFD),
     (0x10000, 0xEFFFF)]

  /** What NameChar adds to NameStartChar, section 2.3. */
  const NAME_CHAR_EXTRA: seq<(int, int)> :=
    [(0x2D, 0x2D), (0x2E, 0x2E), (0x30, 0x39), (0xB7, 0xB7), (0x300, 0x36F), (0x203F, 0x2040)]

  /** Membership in a range table is membership in one of its ranges, named. */
  lemma InRangesAt(rs: seq<(int, int)>, i: nat, c: int)
    requires i < |rs| && rs[i].0 <= c <= rs[i].1
    ensures InRanges(rs, c)
  {
  }

  /** `isWhitespace` is exactly S. */
  lemma WhitespaceIsS(c: JChar)
    ensures IsWhitespace(c) <==> c in S
  {
  }

  lemma NameStartCharInRanges(c: JChar)
    requires IsNameStartChar(c)
    ensures InRanges(NAME_START_CHAR, c)
  {
    var r := NAME_START_CHAR;
    if c == 0x3A { InRangesAt(r, 0, c); }
    else if Between(c, 0x41, 0x5A) { InRangesAt(r, 1, c); }
    else if c == 0x5F { InRangesAt(r, 2, c); }
    else if Between(c, 0x61, 0x7A) { InRangesAt(r, 3, c); }
    else if Between(c, 0xC0, 0xD6) { InRangesAt(r, 4, c); }
    else if Between(c, 0xD8, 0xF6) { InRangesAt(r, 5, c); }
    else if Between(c, 0xF8, 0x2FF) { InRangesAt(r, 6, c); }
    else if Between(c, 0x370, 0x37D) { InRangesAt(r, 7, c); }
    else if Between(c, 0x37F, 0x1FFF) { InRangesAt(r, 8, c); }
    else if Between(c, 0x200C, 0x200D) { InRangesAt(r, 9, c); }
    else if Between(c, 0x2070, 0x218F) { InRangesAt(r, 10, c); }
    else if Between(c, 0x2C00, 0x2FEF) { InRangesAt(r, 11, c); }
    else if Between(c, 0x3001, 0xD7FF) { InRangesAt(r, 12, c); }
    else if Between(c, 0xF900, 0xFDCF) { InRangesAt(r, 13, c); }
    else { InRangesAt(r, 14, c); }
  }

  lemma RangesAreNameStartChars(c: JChar)
    requires InRanges(NAME_START_CHAR, c)
    ensures IsNameStartChar(c)
  {
    var r := NAME_START_CHAR;
    var i :| 0 <= i < |r| && r[i].0 <= c <= r[i].1;
    assert i < 15;
  }

  /** `isNameStartChar` is NameStartChar on every `char`. */
  lemma NameStartCharIsProduction(c: JChar)
    ensures IsNameStartChar(c) <==> InRanges(NAME_START_CHAR, c)
  {
    if IsNameStartChar(c) { NameStartCharInRanges(c); }
    if InRanges(NAME_START_CHAR, c) { RangesAreNameStartChars(c); }
  }

  /** `isNameChar` is NameChar on every `char`. */
  lemma NameCharIsProduction(c: JChar)
    ensures IsNameChar(c) <==> InRanges(NAME_START_CHAR, c) || InRanges(NAME_CHAR_EXTRA, c)
  {
    NameStartCharIsProduction(c);
    var r := NAME_CHAR_EXTRA;
    if IsNameChar(c) && !IsNameStartChar(c) {
      if c == 0x2D { InRangesAt(r, 0, c); }
      else if c == 0x2E { InRangesAt(r, 1, c); }
      else if IsDigit(c) { InRangesAt(r, 2, c); }
      else if c == 0xB7 { InRangesAt(r, 3, c); }
      else if Between(c, 0x300, 0x36F) { InRangesAt(r, 4, c); }
      else { InRangesAt(r, 5, c); }
    }
  }

  /** White space and the delimiters of markup are not name characters. */
  lemma DelimitersAreNotNameChars(c: JChar)
    requires IsWhitespace(c) || c == '=' as int || c == '/' as int || c == '>' as int ||
             c == '<' as int || c == '&' as int || c == ';' as int || c == '\'' as int ||
             c == '"' as int || c == '!' as int || c == '?' as int
    ensures !IsNameChar(c) && !IsNameStartChar(c)
  {
  }

  lemma NameCharIsNoDelimiter(c: JChar)
    requires IsNameChar(c)
    ensures !IsWhitespace(c) && c != '=' as int && c != '/' as int && c != '>' as int &&
            c != '<' as int && c != '&' as int && c != ';' as int && c != '\'' as int &&
            c != '"' as int && c != '!' as int && c != '?' as int
  {
    if IsWhitespace(c) || c == '=' as int || c == '/' as int || c == '>' as int ||
       c == '<' as int || c == '&' as int || c == ';' as int || c == '\'' as int ||
       c == '"' as int || c == '!' as int || c == '?' as int {
      DelimitersAreNotNameChars(c);
    }
  }

  /** Every name-start character is a name character; digits, '-', '.' and U+00B7 are name
      characters that cannot start a name. */
  lemma NameStartIsNameChar(c: JChar)
    ensures IsNameStartChar(c) ==> IsNameChar(c)
    ensures IsNameChar(c) && !IsNameStartChar(c) <==>
              IsDigit(c) || c == '-' as int || c == '.' as int || c == 0xB7 ||
              Between(c, 0x300, 0x36F) || Between(c, 0x203F, 0x2040)
  {
  }

  /** A character of a name without a colon is a name character other than ':'; a
      colon-free name can only start with an ASCII letter or '_', which is narrower than
      NameStartChar without ':'. */
  lemma NCNameClasses(c: JChar)
    ensures IsNCNameChar(c) <==> IsNameChar(c) && c != ':' as int
    ensures IsNCNameStartChar(c) ==> IsNameStartChar(c) && c != ':' as int
    ensures IsNCNameStartChar(c) <==> IsLetter(c) || c == '_' as int
  {
  }

  /** U+00C0 starts a name but not a name without colons. */
  lemma NCNameStartNarrowerThanProduction()
    ensures IsNameStartChar(0xC0) && 0xC0 != ':' as int && !IsNCNameStartChar(0xC0)
  {
  }

  /** `isChar` holds for no `char` at all, although Char holds for every `char` other than
      U+0000, a surrogate, U+FFFE and U+FFFF. */
  lemma IsCharNeverHolds(c: JChar)
    ensures !IsChar(c)
    ensures InRanges(CHAR, c) <==> c != 0 && !(0xD800 <= c < 0xE000) && c < 0xFFFE
  {
    if c != 0 && !(0xD800 <= c < 0xE000) && c < 0xFFFE {
      if c < 0xD800 { InRangesAt(CHAR, 0, c); } else { InRangesAt(CHAR, 1, c); }
    }
  }

  /** `isRestrictedChar` holds for no `char` either, although RestrictedChar holds for U+0001
      and for the other control characters it lists. */
  lemma IsRestrictedCharNeverHolds(c: JChar)
    ensures !IsRestrictedChar(c)
    ensures InRanges(RESTRICTED_CHAR, c) <==>
              (0x1 <= c <= 0x8 || 0xB <= c <= 0xC || 0xE <= c <= 0x1F ||
               0x7F <= c <= 0x84 || 0x86 <= c <= 0x9F)
  {
    var r := RESTRICTED_CHAR;
    if 0x1 <= c <= 0x8 { InRangesAt(r, 0, c); }
    else if 0xB <= c <= 0xC { InRangesAt(r, 1, c); }
    else if 0xE <= c <= 0x1F { InRangesAt(r, 2, c); }
    else if 0x7F <= c <= 0x84 { InRangesAt(r, 3, c); }
    else if 0x86 <= c <= 0x9F { InRangesAt(r, 4, c); }
  }
}
